=== FILE: README.md ===
# twenny — a verified model of the ticket-sales core

twenny is a Next.js storefront and admin console that sells event tickets. Each ticket type
owns a fixed stock of *inventory slots* (`ticket_inventory` rows). A sold ticket claims one
slot, and the unique index on `tickets.inventory_slot_id` guarantees that no slot is sold
twice. This project models the core of that system in Dafny and proves what it promises.

- **Store and schema** (`schema.dfy`, `store.dfy`). The tables are a class `Db`: sequences of
  tickets, orders, order items and customers, plus maps of ticket types, events and slots.
  Its insert methods enforce the unique indexes on ticket code, order number and slot, and the
  foreign key from a ticket to its slot. `Valid()` is the schema's set of constraints.
- **Placing an order** (`orders.dfy`, `order_properties.dfy`, `customers.dfy`). `createOrder`
  validates every selection, discovers unclaimed slots and prices the order in integer cents.
  It then inserts the order, the items and one ticket per slot inside a transaction.
  Any failure rolls the order, its items and its tickets back. The customer find-or-create
  writes outside that transaction, so it survives an aborted order.
- **Keyset pagination** (`cursor.dfy`, `ticket_listing.dfy`, `cursor_navigation.dfy`,
  `admin_pagination.dfy`). This covers:
  - the cursor codec and its strict (createdAt, id) filter;
  - the admin ticket listing, with its cursor path, its offset jump and the five-minute
    cached row-count estimate;
  - the URLs of the two cursor widgets and of the offset widget;
  - what a sequence of Next/Previous clicks shows.
- **Storefront** (`event_listing.dfy`, `events_pagination.dfy`, `ticket_availability.dfy`,
  `ticket_selector.dfy`, `customer_form.dfy`, `server_actions.dfy`). This covers:
  - the published-event listing and its page window;
  - the ticket types on sale now;
  - the bounded quantity picker;
  - the checkout form's validation;
  - the server actions' input schemas and their result mapping.
- **Admin** (`admin_guard.dfy`, `admin_updates.dfy`, `order_items_listing.dfy`). This covers:
  - the admin guard, including its bypass switch;
  - the order-status and check-in updates;
  - the page-one cache-aside listing of order items.
- **Lesson switcher** (`lessons.dfy`). The file mappings, the per-mapping copy/remove plan, and
  an executor over a workspace of files with failing writes. Index creation or removal is
  sequenced before the swap.
- **Helpers** (`wrappers.dfy`, `text.dfy`, `urls.dfy`, `records.dfy`, `sorting.dfy`). These
  are Option/Result, JavaScript's `String(n)`, `parseInt` and `trim`, query strings,
  JavaScript objects as ordered key lists, and sorting by a key.

The clock, the database's row estimate, random identifiers and the use cases called by the
server actions enter the model as parameters. So do the order in which a query returns rows
that tie on its ORDER BY key, and the row that an unordered `LIMIT 1` returns.

## Model

| member | source | states |
|---|---|---|
| AdminGuard.RequireAdmin | server/services/admin-guard.ts:5-44 | passes only a user with role "admin"; passes the mock admin, with a session expiring a week from now, exactly when BYPASS_AUTH is "true" and the header equals BYPASS_AUTH_SECRET or NODE_ENV is "development"; otherwise a missing session redirects to /sign-in?callbackURL=/admin, a non-admin to /, and an admin passes with their own user and session |
| AdminGuard.IsAdmin | server/services/admin-guard.ts:46-56 | true exactly when there is a session and its user's role is "admin" |
| AdminGuard.CurrentUser | server/services/admin-guard.ts:58-64 | the session's user when there is a session, null otherwise |
| AdminGuard.DevelopmentBypassesAll | server/services/admin-guard.ts:7-26 | with the bypass on in development every request passes, whatever the header and session |
| AdminGuard.GuardAgreesWithIsAdmin | server/services/admin-guard.ts:5-56 | with the bypass off, requireAdmin passes exactly the requests isAdmin approves |
| AdminGuard.IsAdminIgnoresBypass | server/services/admin-guard.ts:46-56 | a bypassed request with no session passes requireAdmin while isAdmin says false |
| AdminGuard.UnsetSecretNeverMatches | server/services/admin-guard.ts:11 | with the secret unset outside development, a request without the header does not match it: the guard passes only what isAdmin approves |
| AdminUpdates.FirstWithId | server/use-cases/admin/orders/update-order-status.ts:24-30 | the destructured first returned row: present exactly when some row has the id, and then a row with that id |
| AdminUpdates.StatusPatch | server/use-cases/admin/orders/update-order-status.ts:11-22 | the SET list writes the given status and payment status and updatedAt now; it stamps completedAt exactly when the status is completed and cancelledAt exactly when it is cancelled, both with now |
| AdminUpdates.StatusUpdateEffect | server/use-cases/admin/orders/update-order-status.ts:5-22 | any transition is applied; completing or cancelling stamps now even when already stamped; other statuses keep both stamps; no other column changes |
| AdminUpdates.UpdateOrderStatus | server/use-cases/admin/orders/update-order-status.ts:10-31 | every order with the id gets the patch and all others stay; the result is the first updated row, present exactly when such an order existed; store invariants hold |
| AdminUpdates.ReturnedOrderIsUpdated | server/use-cases/admin/orders/update-order-status.ts:24-30 | the returned order has the id, updatedAt now, the new status, and completedAt now when completed |
| AdminUpdates.CheckInTicket | server/use-cases/admin/tickets/check-in-ticket.ts:5-18 | every ticket with the id is checked in and all others stay; the result is the first updated ticket, present exactly when such a ticket existed; store invariants hold |
| AdminUpdates.CheckInFromAnyState | server/use-cases/admin/tickets/check-in-ticket.ts:8-14 | any ticket becomes used; a second check-in equals a single one with the later name and time |
| AdminUpdates.CheckInIsLocal | server/use-cases/admin/tickets/check-in-ticket.ts:15 | a ticket with another id is unchanged |
| Schema.ApplyPatch | server/use-cases/admin/orders/update-order-status.ts:11-26 | an order UPDATE sets the given status and payment status, the payment intent id when one is given, completedAt and cancelledAt as the patch says, and updatedAt; putting those six columns back gives the old row, so no other column changes |
| Schema.PatchWhere | server/use-cases/admin/orders/update-order-status.ts:24-28 | `UPDATE … WHERE id = ?` patches exactly the rows with that id, keeps row order, and leaves the order numbers as they were |
| Schema.CheckedIn | server/use-cases/admin/tickets/check-in-ticket.ts:8-14 | a check-in sets isCheckedIn 1, status used, checkedInBy, and checkedInAt and updatedAt now; no other column changes |
| Schema.CheckInWhere | server/use-cases/admin/tickets/check-in-ticket.ts:6-15 | exactly the tickets with the id are checked in, row order is kept, and slot ids and ticket codes are unchanged |
| Schema.TicketInsertConforms | server/schema.ts:326-359 | an INSERT the unique indexes on inventory_slot_id and ticket_code and the slot foreign key accept keeps the tickets table within those constraints |
| Schema.OrderInsertConforms | server/schema.ts:238 | an accepted order INSERT keeps order numbers unique |
| Schema.NoOversell | server/schema.ts:355-359 | while no two tickets share a slot, the tickets claiming slots of a type never outnumber that type's inventory slots |
| Schema.SlotTypeUnique | server/schema.ts:184-187 | with distinct inventory ids, a slot belongs to one ticket type only |
| Schema.TicketsOfTypeIsClaims | server/schema.ts:319-328 | when every ticket records its slot's type, counting tickets by recorded type equals counting their claimed slots of that type |
| Schema.NoOversellByType | server/schema.ts:180-196 | per ticket type, tickets recorded with that type never exceed its slots |
| Store.Db.constructor | server/schema.ts:180-196 | a seeded catalog with empty sales tables satisfies the store invariants |
| Store.Db.Rollback | server/use-cases/orders/create-order.ts:52 | an aborted transaction restores orders, order items and tickets as they stood at its start; customers are not restored |
| Store.Db.InsertOrder | server/schema.ts:265 | an INSERT into orders is rejected with the unique-index violation when the order number is taken, and otherwise appends the row; invariants hold |
| Store.Db.InsertItem | server/use-cases/orders/create-order.ts:179-189 | an INSERT into order_items appends the row |
| Store.Db.InsertTicket | server/schema.ts:354-359 | an INSERT into tickets is rejected when the slot is claimed, the code is taken or the slot does not exist, and otherwise appends the row; invariants hold |
| Store.Db.UpdateOrder | server/use-cases/orders/create-order.ts:228-237 | the orders table becomes the patched table and invariants hold |
| Store.Db.CheckInTickets | server/use-cases/admin/tickets/check-in-ticket.ts:6-15 | the tickets table becomes the checked-in table and invariants hold |
| Store.Db.InsertCustomer | server/use-cases/customers/find-or-create-customer.ts:95-110 | an INSERT into customers appends the row |
| Store.Db.UpdateCustomer | server/use-cases/customers/find-or-create-customer.ts:73-89 | an UPDATE of a found customer replaces that row only |
| Orders.Available | server/use-cases/orders/create-order.ts:82-95 | the slots discovery may return are slots of the requested type that no ticket in the snapshot references |
| Orders.DiscoveryExists | server/use-cases/orders/create-order.ts:86-95 | the limited, unordered slot query always has some answer |
| Orders.Discover | server/use-cases/orders/create-order.ts:80-95 | returns min(quantity, available) distinct unclaimed slots of the type, which ones not determined; fewer than requested exactly when fewer are available |
| Orders.Precheck | server/use-cases/orders/create-order.ts:56-102 | reports no error exactly when every selection names a known type, respects a set non-zero maximum, and has enough unclaimed slots |
| Orders.DiscoverAll | server/use-cases/orders/create-order.ts:55-110 | fails exactly when validation does, with the first failing selection's error; otherwise returns per selection its stored type, its quantity and that many distinct unclaimed slots of that type |
| Orders.RoundCents | server/use-cases/orders/create-order.ts:151-154 | rounds an exact amount to the nearest cent, within half a cent, never negative for a non-negative amount |
| Orders.Tax | server/use-cases/orders/create-order.ts:135 | within half a cent of 8% of the subtotal |
| Orders.Fees | server/use-cases/orders/create-order.ts:136 | within half a cent of 5% of the subtotal |
| Orders.Total | server/use-cases/orders/create-order.ts:137 | within half a cent of 113% of the subtotal, summed before rounding |
| Orders.Items | server/use-cases/orders/create-order.ts:174-189 | one order item per selection |
| Orders.LineTickets | server/use-cases/orders/create-order.ts:196-215 | one ticket per discovered slot of the line |
| Orders.ClaimCheckAppend | server/use-cases/orders/create-order.ts:196-215 | inserting two batches one after the other fails at the first batch's violation, or else at the second's, checked on top of the first |
| Orders.SumSubtotal | server/use-cases/orders/create-order.ts:130-133 | the loop computes the sum of price times quantity over the lines |
| Orders.ClaimLine | server/use-cases/orders/create-order.ts:196-224 | the inner loop reports exactly the first violation of the line's tickets and, without one, appends all of them; store invariants hold |
| Orders.ClaimFailsEarly | server/use-cases/orders/create-order.ts:174-225 | a violation among the tickets of an early line is the violation of the whole placement |
| Orders.ClaimNext | server/use-cases/orders/create-order.ts:174-225 | one pass of the outer loop inserts the line's item and tickets, extending the clean prefix, or reports the placement's first violation |
| Orders.ClaimAll | server/use-cases/orders/create-order.ts:166-225 | the outer loop reports exactly the first violation of all tickets and, without one, appends every item and ticket in order and returns their summaries |
| Orders.Transact | server/use-cases/orders/create-order.ts:142-245 | the transaction leaves result and tables exactly as the placement function says: rolled back on any violation, otherwise order completed, items and tickets appended |
| Orders.PlaceDiscovered | server/use-cases/orders/create-order.ts:112-127 | no selection or a missing event of the first type fails before any write; otherwise the customer is found or created and the transaction runs |
| Orders.CreateOrder | server/use-cases/orders/create-order.ts:49-247 | follows the placement function on the tables before the call, given the lines discovery returned; the catalog is unchanged and store invariants hold |
| OrderProperties.AllTicketsFromLines | server/use-cases/orders/create-order.ts:174-215 | every ticket of a placement is ticket j of some line k |
| OrderProperties.LineTicketInAll | server/use-cases/orders/create-order.ts:196-215 | every unit of every line gets its ticket in the placement |
| OrderProperties.AllTicketsCount | server/use-cases/orders/create-order.ts:196 | a placement creates exactly the sum of the requested quantities in tickets |
| OrderProperties.TicketsOfPlacement | server/use-cases/orders/create-order.ts:200-214 | each ticket is valid, not checked in, belongs to the new order and customer, carries the first type's event id and title, and claims a slot of its own type that the snapshot showed unclaimed |
| OrderProperties.ClaimCheckConforms | server/schema.ts:354-359 | a batch of ticket INSERTs accepted without violation keeps the tickets table within its constraints |
| OrderProperties.ClaimCheckCatchesTaken | server/schema.ts:355-359 | a batch in which some ticket claims an already claimed slot is rejected |
| OrderProperties.ClaimCheckAccepts | server/schema.ts:354-359 | a batch of existing, pairwise distinct, unclaimed slots with new, pairwise distinct codes is accepted |
| OrderProperties.ClaimCheckOnlySlotClash | server/schema.ts:354-359 | a batch of existing slots in which every code clash comes with a slot clash is either accepted or rejected by the slot index, never by the code index or the foreign key |
| OrderProperties.AllOrNothing | server/use-cases/orders/create-order.ts:52 | a failed placement leaves orders, items and tickets exactly as they were; a successful one appends one order, one item per selection and one ticket per unit, keeping the old rows |
| OrderProperties.SuccessAppends | server/use-cases/orders/create-order.ts:142-225 | a successful placement appends one order, one item per selection and one ticket per unit, keeping the old rows |
| OrderProperties.CustomerWriteSurvivesAbort | server/use-cases/customers/find-or-create-customer.ts:49 | once validation and the event lookup pass, the customer write stays whatever the transaction does |
| OrderProperties.AbortedGuestLeavesCustomer | server/use-cases/customers/find-or-create-customer.ts:95-110 | a guest with a new email whose order fails still leaves one new customer row, and no order or ticket |
| OrderProperties.RaceAborts | server/use-cases/orders/create-order.ts:193-215 | if a slot discovery returned was claimed by a ticket stored since the snapshot, the placement fails, and once its event is found the failure is a unique violation |
| OrderProperties.RaceIsSlotClash | server/use-cases/orders/create-order.ts:38-47 | with a fresh order number and fresh, pairwise distinct ticket codes, a raced placement fails with exactly the violation of the unique index on `inventory_slot_id`, never a shortage |
| OrderProperties.SlotExists | server/use-cases/orders/create-order.ts:86-95 | every slot discovery returns is a row of the inventory |
| OrderProperties.SlotsOfEarlierLines | server/use-cases/orders/create-order.ts:82-95 | tickets of lines for different types claim different slots |
| OrderProperties.DistinctSlotsAcrossLines | server/use-cases/orders/create-order.ts:174-225 | with one selection per type, no two tickets of a placement claim the same slot |
| OrderProperties.CodesDistinct | server/use-cases/orders/create-order.ts:198 | with pairwise distinct random suffixes, a placement's ticket codes are pairwise distinct |
| OrderProperties.SlotsStillFree | server/use-cases/orders/create-order.ts:82-95 | with no claim since the snapshot, every ticket of a placement claims an existing, still unclaimed slot |
| OrderProperties.NoRaceSucceeds | server/use-cases/orders/create-order.ts:49-247 | without a concurrent claim, with one selection per type and with fresh order number and codes, a placement that passes validation and finds its event succeeds |
| OrderProperties.CodeInjective | server/use-cases/orders/create-order.ts:198 | ticket codes with different suffixes differ |
| OrderProperties.PlacementKeepsStock | server/schema.ts:355-359 | a placement keeps the tickets table within its constraints and every ticket recorded with its slot's type, so no type is ever sold beyond its slots |
| OrderProperties.PlacedTickets | server/use-cases/orders/create-order.ts:196-215 | a successful placement appends a batch accepted without violation, each ticket recorded with the type of its slot |
| OrderProperties.AppendMatchesSlots | server/use-cases/orders/create-order.ts:206-208 | appending tickets recorded with their slots' types keeps the whole table so |
| OrderProperties.TotalWithinOneCent | server/use-cases/orders/create-order.ts:135-137 | the stored total is within one cent of subtotal plus stored tax plus stored fees |
| OrderProperties.TotalMayExceedParts | server/use-cases/orders/create-order.ts:151-154 | a $1.04 subtotal stores tax $0.08, fees $0.05 and total $1.18, one cent more than the sum of the parts |
| OrderProperties.SubtotalIsSumOfItems | server/use-cases/orders/create-order.ts:175-186 | the order's subtotal is the sum of its items' subtotals |
| OrderProperties.CompletedOrder | server/use-cases/orders/create-order.ts:227-245 | on success the new order is the one returned, ends completed and paid at now, holds the subtotal, 8% tax, 5% fees and total, and earlier orders are unchanged |
| OrderProperties.MinimumNeverChecked | server/use-cases/orders/create-order.ts:70-78 | changing a type's minimum per order changes no validation outcome |
| OrderProperties.MaximumEnforced | server/use-cases/orders/create-order.ts:71-78 | a quantity above a set, non-zero maximum fails the placement with no table changed |
| OrderProperties.UnknownTypeAborts | server/use-cases/orders/create-order.ts:58-66 | a selection naming an unknown type fails the placement with no table changed |
| OrderProperties.InsufficientAborts | server/use-cases/orders/create-order.ts:98-102 | fewer unclaimed slots than requested fails the placement with no table changed |
| Customers.PickWhere | server/use-cases/customers/find-or-create-customer.ts:49-53 | `WHERE … LIMIT 1` without ORDER BY: a matching row, the one the query's scan reaches first among all matching rows; none exactly when no row matches |
| Customers.AnyMatchCanBePicked | server/use-cases/customers/find-or-create-customer.ts:49-53 | every matching row is the one some scan reaches first, so any duplicate may be the row found |
| Customers.Lookup | server/use-cases/customers/find-or-create-customer.ts:48-70 | a user-id match only for a given user id and a row with it; an email match only for a row with that exact email; which matching row is found is the query's scan order |
| Customers.FindOrCreate | server/use-cases/customers/find-or-create-customer.ts:44-113 | the returned customer is a row of the table afterwards |
| Customers.FindOrCreateCustomer | server/use-cases/customers/find-or-create-customer.ts:44-113 | the statements leave the table and the returned customer as the decision function says; store invariants hold |
| Customers.KnownUserWritesNothing | server/use-cases/customers/find-or-create-customer.ts:48-57 | a given user id with a stored customer returns that customer and writes nothing |
| Customers.UnknownUserInserts | server/use-cases/customers/find-or-create-customer.ts:61-70 | a given user id matching no row inserts a new customer with that user id, since the email lookup then also requires it |
| Customers.GuestEmailMatchUpdates | server/use-cases/customers/find-or-create-customer.ts:72-91 | a guest matching a stored email, case-sensitively, refreshes the matching row the lookup reaches first: names, phone and billing overwritten (absent ones null) and updatedAt now; id, email, user id and createdAt stay; no other row changes |
| Customers.GuestWithoutMatchInserts | server/use-cases/customers/find-or-create-customer.ts:95-112 | a guest matching no email appends a new customer with a null user id |
| Customers.WritesAtMostOneRow | server/use-cases/customers/find-or-create-customer.ts:73-110 | a call leaves the table unchanged, changes one existing row, or appends one row |
| Customers.RepeatAddsNoRow | server/use-cases/customers/find-or-create-customer.ts:44-113 | repeating a call with the same input finds a row again, whichever rows the two calls' lookups reach first, so no further row is added |
| Cursor.LessIsStrictTotalOrder | server/lib/cursor-helpers.ts:24-27 | the (createdAt, id) comparison is irreflexive, asymmetric, transitive and total |
| Cursor.Encode | server/lib/cursor-helpers.ts:3-10 | the token carries only the creation time, to the token's precision, and the id, and is non-empty |
| Cursor.EncodeUnreserved | server/lib/cursor-helpers.ts:3-10 | a token uses only URL-safe characters |
| Cursor.Truncate | server/lib/cursor-helpers.ts:6 | a token keeps the id and the creation time rounded down to the millisecond, less than 1000 microseconds off, and keeps the position whole exactly when its time is a whole millisecond; the corrected token keeps it whole |
| Cursor.ParseIntRoundTrip | server/lib/cursor-helpers.ts:6 | the printed creation time reads back as the same integer |
| Cursor.DecodeEncode | server/lib/cursor-helpers.ts:3-14 | decoding a token gives back the id and the creation time to the millisecond (what toISOString keeps); the corrected token gives back the whole position |
| Cursor.EncodeInjective | server/lib/cursor-helpers.ts:3-10 | two rows get the same token exactly when they agree on the kept part of their position; with the corrected token, exactly when they are the same row |
| Cursor.CursorWhere | server/lib/cursor-helpers.ts:16-28 | an absent or empty cursor gives no filter; otherwise the filter is the decoded key, and a token that does not decode is an error the function does not catch |
| Cursor.FilterOfRow | server/lib/cursor-helpers.ts:22-27 | a row's own cursor never lets the row through and lets through only rows after it; when the row's time is kept whole, exactly those; as written, a row created off a whole millisecond blocks every later row created at that same time |
| Cursor.MalformedTokenFails | server/lib/cursor-helpers.ts:13 | a token such as "abc" that does not decode is an error |
| TicketListing.InsertDescSorts | templates/lesson-1/optimized/server/use-cases/admin/tickets/list-tickets-admin.ts:137 | inserting a key adds exactly that key and keeps a descending sequence without it descending |
| TicketListing.AboveHead | templates/lesson-1/optimized/server/use-cases/admin/tickets/list-tickets-admin.ts:137 | a key above the head of a descending sequence goes first, keeping it descending |
| TicketListing.BelowHead | templates/lesson-1/optimized/server/use-cases/admin/tickets/list-tickets-admin.ts:137 | inserting below the head keeps the head first and the sequence descending |
| TicketListing.OrderedDescSorts | templates/lesson-1/optimized/server/use-cases/admin/tickets/list-tickets-admin.ts:73 | ORDER BY createdAt DESC, id DESC yields a permutation of the table in strictly descending key order |
| TicketListing.InsertHead | templates/lesson-1/optimized/server/use-cases/admin/tickets/list-tickets-admin.ts:137 | inserting the head of a repetition-free table into its ordered tail orders the whole table |
| TicketListing.Where | templates/lesson-1/optimized/server/use-cases/admin/tickets/list-tickets-admin.ts:115-136 | the cursor WHERE keeps exactly the rows that pass the filter, in order |
| TicketListing.WhereKeepsAll | templates/lesson-1/optimized/server/use-cases/admin/tickets/list-tickets-admin.ts:115-136 | a filter every row passes keeps the whole sequence |
| TicketListing.WhereAfter | templates/lesson-1/optimized/server/use-cases/admin/tickets/list-tickets-admin.ts:136-137 | in listing order, the cursor made from row i keeps exactly the rows from some later position on; the rows it skips share row i's millisecond, and when row i's time is kept whole (always with the corrected cursor) it skips none |
| TicketListing.SameKeptInstant | server/lib/cursor-helpers.ts:24-27 | a row below another but not below its cursor's kept position was created within the same millisecond |
| TicketListing.CurrentPage | templates/lesson-1/optimized/server/use-cases/admin/tickets/list-tickets-admin.ts:43 | the given page, or 1 when it is absent or 0 |
| TicketListing.OffsetRows | templates/lesson-1/optimized/server/use-cases/admin/tickets/list-tickets-admin.ts:73-75 | at most 20 rows, those at positions offset to offset+19 of the listing order |
| TicketListing.JumpListing | templates/lesson-1/optimized/server/use-cases/admin/tickets/list-tickets-admin.ts:51-111 | fails for a page below 1; otherwise rows from offset (p-1)·20, hasMore exactly when the page is below ceil(total/20), no prev or current cursor, a next cursor exactly when hasMore and the page is non-empty |
| TicketListing.CursorListing | templates/lesson-1/optimized/server/use-cases/admin/tickets/list-tickets-admin.ts:114-175 | at most 20 rows: the first 20 passing the filter; hasMore exactly when more than 20 pass; a next cursor exactly when hasMore, encoding the last row returned; prev and current cursors passed through or null |
| TicketListing.ListTickets | templates/lesson-1/optimized/server/use-cases/admin/tickets/list-tickets-admin.ts:37-176 | a jump with a non-zero page takes the OFFSET path; otherwise the cursor path, failing exactly when the cursor does not decode |
| TicketListing.CursorAtDecodes | templates/lesson-1/optimized/server/use-cases/admin/tickets/list-tickets-admin.ts:115 | the cursor leading to a position decodes to its filter, which keeps exactly the rows from where that cursor resumes |
| TicketListing.ResumeAtExact | templates/lesson-1/optimized/server/use-cases/admin/tickets/list-tickets-admin.ts:115-137 | when every creation time is kept whole, the cursor leading to a position resumes at that very position |
| TicketListing.CursorListingAt | templates/lesson-1/optimized/server/use-cases/admin/tickets/list-tickets-admin.ts:136-167 | the cursor page at a position holds the 20 rows from where its filter resumes; it has more exactly when rows remain after them, and then its next cursor is made from its last row |
| TicketListing.CursorPageAt | templates/lesson-1/optimized/server/use-cases/admin/tickets/list-tickets-admin.ts:114-175 | a request with the cursor for a position succeeds with the 20 rows from where that cursor resumes, more exactly when rows remain, and the next cursor made from its last row |
| TicketListing.FlattenWithin | templates/lesson-1/optimized/server/use-cases/admin/tickets/list-tickets-admin.ts:161-167 | whatever the cursors skip, the pages from a position list rows from that position on, in descending order, none twice |
| TicketListing.FlattenPagesFrom | templates/lesson-1/optimized/server/use-cases/admin/tickets/list-tickets-admin.ts:161-167 | when the cursors keep every creation time whole, the pages from a position hold every remaining row exactly once, in order |
| TicketListing.PagesFromAt | templates/lesson-1/optimized/server/use-cases/admin/tickets/list-tickets-admin.ts:161-167 | with creation times kept whole, page m of the walk is the window at start + 20·m |
| TicketListing.CrawlFrom | templates/lesson-1/optimized/server/use-cases/admin/tickets/list-tickets-admin.ts:114-175 | following next cursors from a position yields exactly the pages from where its cursor resumes, whatever the token keeps |
| TicketListing.CrawlStep | templates/lesson-1/optimized/server/use-cases/admin/tickets/list-tickets-admin.ts:114-175 | one request of the walk gives the 20 rows where its cursor resumes, then the walk from its next cursor when rows remain |
| TicketListing.TraversalInOrder | templates/lesson-1/optimized/server/use-cases/admin/tickets/list-tickets-admin.ts:114-175 | starting with no cursor and following nextCursor lists rows of the table in descending (createdAt, id) order, none twice, whatever the token keeps |
| TicketListing.OrderedExact | templates/lesson-1/optimized/server/use-cases/admin/tickets/list-tickets-admin.ts:73 | the corrected cursor keeps every creation time whole, and whole times stay whole in listing order |
| TicketListing.TraversalVisitsEveryRowOnce | templates/lesson-1/optimized/server/use-cases/admin/tickets/list-tickets-admin.ts:114-175 | with the corrected full-precision cursor, or when every creation time is a whole millisecond, the walk visits every row exactly once, in descending (createdAt, id) order |
| TicketListing.PagesSkipSharedInstant | server/lib/cursor-helpers.ts:3-27 | when the last row of the first page has a time off a whole millisecond and the next row shares it, that next row is on no page |
| TicketListing.TraversalSkipsSharedInstant | server/lib/cursor-helpers.ts:3-27 | as written, when the last row of the first page has a time off a whole millisecond and the next row shares it (tickets of one order), the walk never lists that row |
| TicketListing.OneOrderAcrossPages | server/use-cases/orders/create-order.ts:201-214 | 21 tickets of one order created together at 1.5 ms: as written the walk never lists the one with id 1; with the corrected cursor it lists all 21 in order |
| TicketListing.CrawlEnough | templates/lesson-1/optimized/server/use-cases/admin/tickets/list-tickets-admin.ts:114-175 | from the first page, as many requests as there are rows reach the end of the walk |
| TicketListing.TraversalEnds | templates/lesson-1/optimized/server/use-cases/admin/tickets/list-tickets-admin.ts:161-167 | the walk ends on a page whose response has no next cursor |
| TicketListing.JumpMatchesCursorPage | templates/lesson-1/optimized/server/use-cases/admin/tickets/list-tickets-admin.ts:51-75 | a jump to page p succeeds with the rows at positions 20·(p−1) to 20·p−1; when the cursors keep creation times whole, these are the p-th page of the cursor walk |
| TicketListing.OffsetIsPage | templates/lesson-1/optimized/server/use-cases/admin/tickets/list-tickets-admin.ts:73-75 | with creation times kept whole, the OFFSET rows of page p are page p of the walk |
| TicketListing.CountLookup | templates/lesson-1/optimized/server/use-cases/admin/tickets/list-tickets-admin.ts:13-35 | a cached count younger than 5 minutes is returned unchanged; otherwise the estimate (0 when absent) is returned and stored with the call's time |
| TicketListing.StoredCountServedUntilTtl | templates/lesson-1/optimized/server/use-cases/admin/tickets/list-tickets-admin.ts:16-18 | once stored at t, the count is returned by every call before t + 5 minutes, whatever the estimate |
| TicketListing.StaleCountRefreshed | templates/lesson-1/optimized/server/use-cases/admin/tickets/list-tickets-admin.ts:21-32 | from 5 minutes on, the estimate is read again and stored with now |
| TicketListing.TicketCountCache.constructor | templates/lesson-1/optimized/server/use-cases/admin/tickets/list-tickets-admin.ts:10 | the module starts with no cached count |
| TicketListing.TicketCountCache.GetTicketCount | templates/lesson-1/optimized/server/use-cases/admin/tickets/list-tickets-admin.ts:13-35 | returns the count and leaves the cache as the lookup function says |
| TicketListing.ListTicketsAdmin | templates/lesson-1/optimized/server/use-cases/admin/tickets/list-tickets-admin.ts:37-176 | reads the total through the cache, then answers the request as the listing function says with that total |
| CursorNavigation.VisitBase | templates/lesson-1/optimized/app/admin/tickets/page.tsx:11-21 | the bare listing path shows the first 20 rows in key order, page 1, no previous or current cursor, and a next cursor exactly when more rows exist |
| CursorNavigation.VisitCursorRequest | templates/lesson-1/optimized/app/admin/tickets/page.tsx:12-21 | a cursor link asks the listing for its cursor, its parsed page number and (up to empty-string) its way-back cursor, not as a jump |
| CursorNavigation.VisitCursorUrl | templates/lesson-1/optimized/app/admin/tickets/page.tsx:11-21 | a cursor link made from the row before position s shows the 20 rows from where that cursor resumes (s itself with the corrected cursor), labelled with the link's own page number and carrying its cursors back |
| CursorNavigation.FollowCursorUrl | components/admin/cursor-pagination.tsx:38-46 | a click on a cursor link follows the widget of the page that link shows |
| CursorNavigation.VisitJumpUrl | templates/lesson-1/optimized/app/admin/tickets/page.tsx:13-21 | a jump link asks the listing for an offset jump to the page it names |
| CursorNavigation.NextFromFirst | components/admin/cursor-pagination.tsx:44-46 | Next on the first page leads to the cursor of row 20, labelled page 2, with no way-back cursor |
| CursorNavigation.ClickFromCursorUrl | components/admin/cursor-pagination.tsx:38-46 | from a cursor page, Next leads to the cursor of the last row 20 rows after where the page resumes, labelled one higher, and Previous to the recorded way-back cursor labelled one lower, each recording the current cursor as the way back |
| CursorNavigation.NextFromCursorUrl | components/admin/cursor-pagination.tsx:44-46 | Next as written on a cursor link with rows beyond its page leads to the cursor of that page's last row, one page higher, with the current cursor as the way back |
| CursorNavigation.NextFromCursorPage | components/admin/cursor-pagination.tsx:44-46 | the same from any link that shows a cursor page |
| CursorNavigation.PreviousFromCursorUrl | components/admin/cursor-pagination.tsx:39-41 | Previous as written on a cursor link above page 1 leads to its way-back cursor, one page lower, recording the current cursor as the way back |
| CursorNavigation.CursorPageClicksAsWritten | components/admin/cursor-pagination.tsx:38-46 | the widget as written on a cursor page offers exactly those two links |
| CursorNavigation.NextClicked | components/admin/cursor-pagination.tsx:44-46 | Next on a page with more rows follows its next cursor, one page higher, recording the current cursor as the way back |
| CursorNavigation.PreviousClicked | components/admin/cursor-pagination.tsx:39-41 | Previous as written follows the recorded way-back cursor, one page lower, recording the current cursor as the way back |
| CursorNavigation.WalkOfFour | components/admin/cursor-pagination.tsx:66-122 | four single clicks compose into the four-click walk |
| CursorNavigation.SecondStepAsWritten | components/admin/cursor-pagination.tsx:44-46 | in that walk, Next from page 2 leads to page 3, recording page 2's cursor |
| CursorNavigation.ThirdStepAsWritten | components/admin/cursor-pagination.tsx:39-41 | Previous from page 3 goes to page 2's cursor, recording page 3's cursor as the way back |
| CursorNavigation.FourthStepAsWritten | components/admin/cursor-pagination.tsx:39-41 | Previous again follows page 3's cursor, labelled page 1 |
| CursorNavigation.BackTwiceLink | components/admin/cursor-pagination.tsx:39-41 | Next, Next, Previous, Previous from the first page ends on the link with the cursor of page 2's last row, labelled page 1 |
| CursorNavigation.BackTwiceShowsWrongPage | components/admin/cursor-pagination.tsx:39-41 | that link is labelled page 1 and shows the third page of the walk, which is not the first |
| CursorNavigation.ThirdPageIsNotFirst | components/admin/cursor-pagination.tsx:39-41 | the third page of the walk as written is the window where page 3's cursor resumes, and differs from the first page |
| CursorNavigation.CorrectedPrevLink | components/admin/cursor-pagination.tsx:38-41 | corrected Previous: enabled exactly from page 2, and it jumps to the page below |
| CursorNavigation.MovedReached | components/admin/cursor-pagination.tsx:38-57 | one click with the corrected widget keeps the link reachable |
| CursorNavigation.MovedPage | components/admin/cursor-pagination.tsx:38-57 | one corrected click moves one page: Previous lowers the page number by one down to 1, and Next raises it exactly when rows lie beyond the current page (the movement under an exact count) |
| CursorNavigation.MovedBy | components/admin/cursor-pagination.tsx:38-46 | a click under a given count moves as with an exact count, except Next on a jump page: it resumes after the page's last row while the count says more pages follow, and stays otherwise |
| CursorNavigation.MovedByExact | components/admin/cursor-pagination.tsx:38-46 | with the count equal to the number of rows, the movement is exactly the exact-count one, and every reachable link can be walked from |
| CursorNavigation.MovedByWalkable | components/admin/cursor-pagination.tsx:38-57 | under any count, a corrected click from a walkable link (one whose Next, if offered, leads to a reachable link) leads to a walkable link, and the first page is walkable |
| CursorNavigation.PagesCover | templates/lesson-1/optimized/server/use-cases/admin/tickets/list-tickets-admin.ts:136-138 | with the corrected cursor, page m of the walk exists as long as its first row does |
| CursorNavigation.WindowIsPage | templates/lesson-1/optimized/server/use-cases/admin/tickets/list-tickets-admin.ts:73-75 | with the corrected cursor, the offset window of page p is page p of the walk |
| CursorNavigation.JumpPage | templates/lesson-1/optimized/server/use-cases/admin/tickets/list-tickets-admin.ts:51-111 | a jump to an existing page holds that page's window and no current cursor; whatever the count, it has a next cursor exactly when the count says more pages follow, and that cursor is made from the page's last row |
| CursorNavigation.JumpNextCursor | templates/lesson-1/optimized/server/use-cases/admin/tickets/list-tickets-admin.ts:98-107 | the next cursor of a jump page, when the count gives one, is made from its last row: the row before the next page's first, or the last row of the listing |
| CursorNavigation.VisitJumpPage | templates/lesson-1/optimized/app/admin/tickets/page.tsx:11-21 | a jump link to an existing page shows that page, with the same cursors as the jump, for any count |
| CursorNavigation.FollowOf | components/admin/cursor-pagination.tsx:66-122 | a click follows the link the response's widget offers, or stays where it is |
| CursorNavigation.ShowsItsPage | templates/lesson-1/optimized/app/admin/tickets/page.tsx:11-21 | with Previous and the cursor token corrected, every reachable link shows exactly the window of the page number it carries |
| CursorNavigation.ShowsFirstPlace | templates/lesson-1/optimized/app/admin/tickets/page.tsx:11-21 | the bare path shows the first window, page 1 |
| CursorNavigation.ShowsCursorPlace | templates/lesson-1/optimized/app/admin/tickets/page.tsx:11-21 | with the corrected cursor, a reachable cursor link shows the window of its page number |
| CursorNavigation.ShowsCursorLink | templates/lesson-1/optimized/app/admin/tickets/page.tsx:11-21 | with the corrected cursor, a reachable cursor link shows the window its cursor names, labelled with its page |
| CursorNavigation.ResumesAtRow | templates/lesson-1/optimized/server/use-cases/admin/tickets/list-tickets-admin.ts:115-137 | with the corrected cursor, the cursor made from the row before position s lets through exactly the rows from s on |
| CursorNavigation.ShowsJumpPlace | templates/lesson-1/optimized/app/admin/tickets/page.tsx:11-21 | a reachable jump link shows the window of its page number |
| CursorNavigation.StepFromFirst | components/admin/cursor-pagination.tsx:38-46 | from the first page, whatever count the listing was given, a corrected click leads to the link of the place one click moves to |
| CursorNavigation.FirstPageClicks | components/admin/cursor-pagination.tsx:38-46 | on the first page, corrected Next leads to the second page's cursor link when there is one, and Previous stays |
| CursorNavigation.CursorPageClicks | components/admin/cursor-pagination.tsx:38-46 | on a cursor page, the corrected widget's buttons lead to the links of the places one click moves to |
| CursorNavigation.CursorPageNext | components/admin/cursor-pagination.tsx:44-46 | there, Next leads to the following cursor page when rows remain, and stays otherwise |
| CursorNavigation.CursorUrlOfNext | components/admin/cursor-pagination.tsx:44-46 | that following link carries the cursor of the page's last row, the next page number and the current cursor as the way back |
| CursorNavigation.CursorPagePrevious | components/admin/cursor-pagination.tsx:38-41 | there, corrected Previous leads to the jump to the page below, or to page 1 |
| CursorNavigation.StepFromCursor | components/admin/cursor-pagination.tsx:38-46 | from a reachable cursor link, whatever count the listing was given, a corrected click leads to the link of the place one click moves to |
| CursorNavigation.JumpPageClicks | components/admin/cursor-pagination.tsx:38-46 | on a jump page, with the hasMore and next cursor that the count gives, the corrected widget's buttons lead to the links of the places MovedBy names |
| CursorNavigation.JumpPageNext | components/admin/cursor-pagination.tsx:44-46 | there, Next leads to the cursor page after the jump page's last row when the count says more pages follow, and stays otherwise |
| CursorNavigation.JumpUrlOfNext | components/admin/cursor-pagination.tsx:44-46 | that link carries the cursor of the jump page's last row, the next page number and no way-back cursor |
| CursorNavigation.JumpPagePrevious | components/admin/cursor-pagination.tsx:38-41 | there, corrected Previous leads to the jump to the page below, or stays on page 1 |
| CursorNavigation.StepFromJump | components/admin/cursor-pagination.tsx:38-46 | from a jump link to an existing page, a corrected click leads to the link of the place MovedBy names for the count the listing was given |
| CursorNavigation.LowCountKeepsJumpPage | components/admin/cursor-pagination.tsx:44-46 | a count that says a jump page is the last (the cached estimate, or 0 without one) hides Next there: the click stays, even when rows follow |
| CursorNavigation.StepCorrected | components/admin/cursor-pagination.tsx:38-46 | from any reachable link and for any count, one corrected click leads to the link of the place MovedBy names |
| CursorNavigation.WalkPlace | components/admin/cursor-pagination.tsx:38-46 | under any count, a sequence of corrected clicks from a walkable link keeps the link walkable |
| CursorNavigation.WalkCorrected | components/admin/cursor-pagination.tsx:38-46 | under any count, a sequence of corrected clicks from a walkable link leads to the link of the place that WalkPlace names |
| CursorNavigation.CorrectedWalkShowsTruePage | components/admin/cursor-pagination.tsx:38-57 | with Previous and the cursor token corrected, and whatever count the listing was given (the cached estimate or 0), any sequence of clicks from the first page ends on a link that shows exactly the page of the walk its number names |
| CursorNavigation.PlaceIsPage | components/admin/cursor-pagination.tsx:38-57 | with the corrected cursor, the window of a reachable place is the page of the walk its number names |
| AdminPagination.TokenPlain | server/lib/cursor-helpers.ts:3-10 | a cursor token needs no escaping in a query string |
| AdminPagination.CursorUrlIsQuery | components/admin/cursor-pagination.tsx:39-46 | the cursor link is the base path followed by the query string of cursor, page and, when set, prevCursor |
| AdminPagination.QueryOfThree | components/admin/cursor-pagination.tsx:40 | the three-parameter link text is the query string of those three parameters |
| AdminPagination.QueryOfTwoParams | components/admin/cursor-pagination.tsx:40 | two parameters join with a single ampersand |
| AdminPagination.QueryOfTwo | components/admin/cursor-pagination.tsx:40 | the two-parameter link text is the query string of cursor and page |
| AdminPagination.CursorParamsGet | components/admin/cursor-pagination.tsx:39-46 | a cursor link's parameters give back its cursor, its page text and its way-back cursor, and no jump flag |
| AdminPagination.CursorUrlReadsBack | components/admin/cursor-pagination.tsx:39-46 | the page parsing a cursor link reads back the cursor, the page number, the way-back cursor, and no jump flag |
| AdminPagination.PrevUrlReadsBack | components/admin/cursor-pagination.tsx:39-41 | the Previous link reads back as the previous cursor, page − 1 and the current cursor as the way back, or as no parameter at all when there is no previous cursor |
| AdminPagination.NextUrlReadsBack | components/admin/cursor-pagination.tsx:44-46 | the Next link reads back as the next cursor, page + 1 and the current cursor as the way back, and no jump flag |
| AdminPagination.PrevLink | components/admin/cursor-pagination.tsx:38-41 | Previous is a link exactly from page 2 on, to the Previous URL |
| AdminPagination.NextLink | components/admin/cursor-pagination.tsx:105-122 | Next is a link exactly when there is more and a non-empty next cursor, and the link is never empty |
| AdminPagination.JumpUrlReadsBack | components/admin/cursor-pagination.tsx:55 | the jump link reads back as exactly the page number and jumpTo=true, with no cursor |
| AdminPagination.PageJump | components/admin/cursor-pagination.tsx:48-57 | the typed jump navigates exactly when parseInt of the input gives a page between 1 and the page count, to that page's jump link |
| AdminPagination.PageJumpInRange | components/admin/cursor-pagination.tsx:48-57 | a typed jump that navigates asks the listing for a page within range, as a jump |
| AdminPagination.QuickJumps | templates/lesson-1/optimized/components/admin/cursor-pagination.tsx:41-47 | one button per quick-jump target, in order, each enabled exactly when nothing is pending and the target is within the page count, each linking the target's jump |
| AdminPagination.EnabledQuickJumpInRange | templates/lesson-1/optimized/components/admin/cursor-pagination.tsx:99-105 | an enabled quick jump asks the listing for a page that exists, as a jump |
| AdminPagination.PageUrlReadsBack | components/admin/pagination.tsx:25-26 | the offset link reads back as exactly one parameter, the page number |
| AdminPagination.OffsetPrevLink | components/admin/pagination.tsx:35-52 | Previous is a link exactly when the listing reports a previous page, to page − 1 |
| AdminPagination.OffsetNextLink | components/admin/pagination.tsx:53-70 | Next is a link exactly when the listing reports a next page, to page + 1 |
| AdminPagination.OffsetQuickLinks | components/admin/pagination.tsx:76-92 | one entry per quick-jump target, in order, a plain page link exactly when the target is within the page count |
| AdminPagination.OffsetLinksStayInRange | components/admin/pagination.tsx:25-70 | over a listing's own pagination, Next is offered exactly when rows lie beyond the page, and both links read back as pages that exist |
| CustomerForm.MatchesEmailIff | components/customer-form.tsx:53 | the first-'@' scan accepts exactly the strings of the e-mail pattern: three non-empty runs without '@' or white space, joined by '@' and '.' |
| CustomerForm.MatchIsShape | components/customer-form.tsx:53 | a string the scan accepts has the e-mail shape |
| CustomerForm.ShapeMatches | components/customer-form.tsx:53 | a string of the e-mail shape passes the scan |
| CustomerForm.PlainSlice | components/customer-form.tsx:53 | a slice of a run without '@' or white space is such a run too |
| CustomerForm.BlankIsTrimEmpty | components/customer-form.tsx:45-51 | a value is blank (all white space) exactly when its trim is empty |
| CustomerForm.Messages | components/customer-form.tsx:43-55 | only the two names and the e-mail ever get a message; a name's message is present exactly when it is blank; the e-mail's is present when it is blank or malformed, and reads "Email is required" for blank and "Invalid email format" otherwise |
| CustomerForm.InitialPasses | components/customer-form.tsx:27-38 | the prefilled form has every field and raises no message |
| CustomerForm.InitialNotBlank | components/customer-form.tsx:28-30 | the prefilled names and e-mail are not blank |
| CustomerForm.NoErrors | components/customer-form.tsx:42-59 | non-blank names and a well-formed e-mail raise no message |
| CustomerForm.InitialComplete | components/customer-form.tsx:27-38 | the prefilled form holds a value for each of the ten fields |
| CustomerForm.InitialEmailMatches | components/customer-form.tsx:30 | the prefilled e-mail matches the pattern |
| CustomerForm.Form.constructor | components/customer-form.tsx:27-40 | the form starts prefilled, with no messages |
| CustomerForm.Form.Validate | components/customer-form.tsx:42-59 | the shown messages become exactly those of the current values, the values stay, and the result is true exactly when no message was recorded |
| CustomerForm.Form.HandleSubmit | components/customer-form.tsx:61-66 | the form data is handed on, unchanged, exactly when validation recorded no message; the messages shown are the validation's |
| CustomerForm.Form.HandleChange | components/customer-form.tsx:68-76 | the field takes the typed value, and a non-empty message for that field is cleared; nothing else changes |
| CustomerForm.ChangeIsLocal | components/customer-form.tsx:68-76 | typing leaves every other field's value and message as they were, and leaves no message on the typed field |
| CustomerForm.SubmittedIsValid | components/customer-form.tsx:61-66 | a submitted form has non-blank first and last names and an e-mail of the pattern's shape |
| EventListing.BuildConditions | server/use-cases/events/list-events.ts:56-80 | the WHERE clause has the two published conditions plus one per given filter, and a row satisfies it exactly when the listing admits the row: published, containing a non-empty search text in the title or description, in a non-empty category, within the given dates |
| EventListing.Filter | server/use-cases/events/list-events.ts:114 | the filtered rows are exactly the table's rows the listing admits |
| EventListing.NewestFirst | server/use-cases/events/list-events.ts:115 | one arrangement ORDER BY startDate DESC may return: all the rows, latest start first |
| EventListing.OneOrderWhenStartsApart | server/use-cases/events/list-events.ts:115 | when no two events start at the same instant, every query lists the matching events in that one order |
| EventListing.MinPrice | server/use-cases/events/list-events.ts:134-146 | no price exactly when the event has no active ticket type; otherwise the price of one of its active types, and no active type of it is cheaper |
| EventListing.Summary | server/use-cases/events/list-events.ts:148-160 | a summary keeps the event's id, title, slug and start date; a missing venue reads as "Unknown Venue" with no city; the minimum price is that of the event's active types |
| EventListing.Summaries | server/use-cases/events/list-events.ts:122-162 | one summary per listed event, in order |
| EventListing.Slice | server/use-cases/events/list-events.ts:116-117 | LIMIT and OFFSET keep at most limit rows, starting at the offset, and none past the end |
| EventListing.ListEvents | server/use-cases/events/list-events.ts:43-182 | page and limit default to 1 and 12 only when absent; a negative limit or offset fails; otherwise the result lists the summaries of that page of the admitted events in the newest-first order the query returned, the count of all admitted events and ⌈count / limit⌉ pages (none for a limit of 0) |
| EventListing.FilterByIsFilter | server/use-cases/events/list-events.ts:114 | filtering by the built WHERE clause gives the admitted rows |
| EventListing.ListedEventsAdmitted | server/use-cases/events/list-events.ts:113-117 | whatever order the query returned, every listed event comes from the table and is admitted; a page holds at most limit events, newest first |
| EventListing.SliceOfSorted | server/use-cases/events/list-events.ts:115-117 | a page of a newest-first sequence is drawn from it and is newest-first too |
| EventsPagination.PageWindow | components/events-pagination.tsx:63-73 | min(5, totalPages) buttons, consecutive, each a page that exists, and the current page among them when it is in range |
| EventsPagination.Defined | components/events-pagination.tsx:26-29 | only the defined entries of the search parameters go into the link |
| EventsPagination.DefinedGet | components/events-pagination.tsx:25-31 | a link's parameters give back, for each key, the value the search parameters define for it |
| EventsPagination.LinkParamsPlain | components/events-pagination.tsx:25-31 | a link's parameters need no escaping and are never empty |
| EventsPagination.BuildUrlReadsBack | components/events-pagination.tsx:23-35 | a built link reads back the requested page and, for every other key, exactly the value the visitor had given |
| EventsPagination.Buttons | components/events-pagination.tsx:63-85 | one button per window page, linking to it, highlighted exactly when it is the current page |
| EventsPagination.Render | components/events-pagination.tsx:49-93 | nothing for at most one page; otherwise Previous exactly from page 2, Next exactly before the last page, min(5, totalPages) numbered buttons, and the current page highlighted when in range |
| EventsPagination.OneCurrent | components/events-pagination.tsx:78 | exactly one button is highlighted when the current page is in range |
| EventsPagination.OnlyOnce | components/events-pagination.tsx:63-73 | a run of consecutive numbers holds each value once |
| EventsPagination.StepsFrom | components/events-pagination.tsx:63-73 | in a consecutive run, the i-th value is the first plus i |
| EventsPagination.RenderedLinkPage | components/events-pagination.tsx:56-92 | every rendered link is the built link of a page between 1 and totalPages |
| EventsPagination.ButtonPage | components/events-pagination.tsx:76 | every numbered button links to a page that exists |
| EventsPagination.RenderedLinksStayInRange | components/events-pagination.tsx:56-92 | when the current page is in range, every rendered link reads back as a page in range and keeps the other search parameters |
| EventsPagination.HandleJump | components/events-pagination.tsx:37-47 | the router navigates exactly when parseInt of the input is a page between 1 and totalPages, and the box is then cleared; otherwise it keeps its text |
| EventsPagination.JumpLandsOnTypedPage | components/events-pagination.tsx:37-47 | a jump reads back as the typed page, within range, with the other search parameters kept |
| Lessons.RegistryLayout | scripts/config/file-mappings.ts:9-47 | lesson 1 maps six files, each to the path it has under the templates; only the offset pagination is unoptimized-only, only the cursor pagination and its helpers are optimized-only; the registry holds lesson 1 and not lesson 2 |
| Lessons.StepFor | scripts/lib/swap-templates.ts:13-78 | each mapping's step targets the mapped path; it is a removal exactly for an optimized-only file going back or an unoptimized-only file going forward, and otherwise a copy from the template of the target state |
| Lessons.BothFlagsMeansOptimizedOnly | scripts/lib/swap-templates.ts:17-40 | a mapping flagged both ways is handled as optimized-only |
| Lessons.Steps | scripts/lib/swap-templates.ts:13 | one step per mapping, in order |
| Lessons.Lesson1Steps | scripts/lib/swap-templates.ts:13-78 | for lesson 1, going optimized removes only the offset pagination, going back removes only the cursor pagination and its helpers, and every other file is copied |
| Lessons.PerformFrame | scripts/lib/swap-templates.ts:13-79 | a path no step writes or deletes keeps its contents, or stays absent |
| Lessons.CopyLands | scripts/lib/swap-templates.ts:69-78 | in a run that completes, a copy whose target no later step touches leaves the template's contents at the target |
| Lessons.RemoveClears | scripts/lib/swap-templates.ts:56-64 | in a run that completes, a removed path that no later step writes is absent at the end |
| Lessons.FailureStops | scripts/lib/swap-templates.ts:75-78 | a failed copy ends the run in the state just before it, reporting that copy's template, and no later step is performed |
| Lessons.JoinInjective | scripts/lib/swap-templates.ts:14 | joining the same directory to different paths gives different paths |
| Lessons.SwapPlacesEveryMapping | scripts/lib/swap-templates.ts:5-82 | a completed swap over distinct targets leaves every copied target holding its template for the chosen state, and every removed target absent |
| Lessons.Lesson1TargetsAreClean | scripts/config/file-mappings.ts:9-42 | lesson 1's targets are distinct and none of them is a template file |
| Lessons.Workspace.constructor | scripts/lib/apply-lesson.ts:10 | the workspace starts with the given directory, registry, files and index state |
| Lessons.Workspace.CopyFile | scripts/lib/swap-templates.ts:69-78 | the copy succeeds exactly when the template exists, and then the target holds its contents; otherwise no file changes |
| Lessons.Workspace.Unlink | scripts/lib/swap-templates.ts:32-37 | the path is gone afterwards, and a missing file is not an error |
| Lessons.Workspace.SwapFiles | scripts/lib/swap-templates.ts:5-82 | the files after the loop are those of performing the mapping steps in order, and the failure reported is the template of the first copy that failed |
| Lessons.Workspace.ApplyLesson | scripts/lib/apply-lesson.ts:10-21 | an unknown lesson fails with "Unknown lesson: <id>" and changes nothing; lesson 1 sets the ticket indexes to the target state; lesson 2 leaves them; either then swaps its registered files, or fails untouched when it has no registry entry |
| Lessons.Workspace.ApplyLesson1 | scripts/lib/apply-lesson.ts:23-37 | the ticket indexes follow the target state, then the lesson-1 files are swapped in the same direction |
| Lessons.Workspace.ApplyLesson2 | scripts/lib/apply-lesson.ts:39-44 | only the lesson-2 files are swapped, and no entry means failure before any file is touched |
| Lessons.Workspace.SwapRegistered | scripts/lib/apply-lesson.ts:24-43 | the swap runs over the registry entry of the lesson, and a missing entry fails without touching a file |
| Lessons.Workspace.Lesson2NeverApplies | scripts/config/file-mappings.ts:45-47 | with the shipped registry, which has no lesson-2 entry, applying lesson 2 in either direction fails as not iterable and leaves the files and the ticket indexes as they were |
| OrderItemsListing.Join | templates/lesson-2/optimized/server/use-cases/admin/order-items/list-order-items.ts:48-51 | a listed item keeps its id, order and creation time; its order number is present exactly when its order exists, and its event title exactly when its ticket type and that type's event exist |
| OrderItemsListing.NewestFirst | templates/lesson-2/optimized/server/use-cases/admin/order-items/list-order-items.ts:52 | one arrangement ORDER BY created_at DESC may return: all the items, newest first |
| OrderItemsListing.OneOrderWhenCreatedApart | templates/lesson-2/optimized/server/use-cases/admin/order-items/list-order-items.ts:52 | when no two items share a creation time, every query returns the items in that one order |
| OrderItemsListing.TiedItemsCanRepeat | templates/lesson-2/optimized/server/use-cases/admin/order-items/list-order-items.ts:52-54 | as written, with 21 items whose last two share a creation time (one order's items share its transaction's timestamp, server/schema.ts:293), page 1 and page 2 can both list item 19 while item 20 is on neither |
| OrderItemsListing.Paginate | templates/lesson-2/optimized/server/use-cases/admin/order-items/list-order-items.ts:58-70 | the pagination keeps page, page size 20 and total; the page count is the least that holds every row; hasNext exactly below the last page, hasPrev exactly above page 1 |
| OrderItemsListing.PageRows | templates/lesson-2/optimized/server/use-cases/admin/order-items/list-order-items.ts:52-54 | min(20, rows left) rows from the offset, each the joined item at that place in the order, and none past the end |
| OrderItemsListing.FetchOrderItems | templates/lesson-2/optimized/server/use-cases/admin/order-items/list-order-items.ts:31-72 | a page below 1 fails (negative OFFSET); otherwise the joined rows of that page of the newest-first order this query returned, and the pagination of the item count |
| OrderItemsListing.HasNextIffMoreRows | templates/lesson-2/optimized/server/use-cases/admin/order-items/list-order-items.ts:68 | there is a next page exactly when rows lie beyond this one |
| OrderItemsListing.EveryItemOnItsPage | templates/lesson-2/optimized/server/use-cases/admin/order-items/list-order-items.ts:31-72 | when no two items share a creation time, the item at place i of the newest-first order is listed at place i mod 20 of page ⌊i / 20⌋ + 1, whatever order the query returned, and that page exists |
| OrderItemsListing.ItemOnItsPage | templates/lesson-2/optimized/server/use-cases/admin/order-items/list-order-items.ts:31-72 | place i of the order a query returned is listed at place i mod 20 of page ⌊i / 20⌋ + 1, and that page exists |
| OrderItemsListing.PageKey | server/cache.ts:9-20 | every key the listing uses carries the cache prefix |
| OrderItemsListing.Lookup | server/cache.ts:19-45 | a value comes back exactly when the key is stored and not yet expired, and it is the stored value |
| OrderItemsListing.ListStep | templates/lesson-2/optimized/server/use-cases/admin/order-items/list-order-items.ts:74-93 | a live cached page is returned and nothing is written; otherwise the page is fetched, and only a successful page 1 is stored, for ten minutes |
| OrderItemsListing.Cache.constructor | server/cache.ts:5-7 | the cache starts empty |
| OrderItemsListing.Cache.Get | server/cache.ts:19-45 | the live value under the key, or nothing |
| OrderItemsListing.Cache.Set | server/cache.ts:50-73 | the key now holds the value, expiring ttl seconds later, and no other key changes |
| OrderItemsListing.ListOrderItems | templates/lesson-2/optimized/server/use-cases/admin/order-items/list-order-items.ts:74-93 | the result and the new cache contents are those of one ListStep from the old contents, with page 1 when none is given |
| OrderItemsListing.FirstPageServedForTtl | templates/lesson-2/optimized/server/use-cases/admin/order-items/list-order-items.ts:86-90 | after a miss on page 1, every request for page 1 in the next ten minutes returns that same result, whatever the tables then hold, and writes nothing |
| OrderItemsListing.OtherPagesAlwaysFetched | templates/lesson-2/optimized/server/use-cases/admin/order-items/list-order-items.ts:75-89 | from any cache holding no page but the first, a request for another page is answered by the query on the tables and leaves the cache unchanged |
| OrderItemsListing.PageKeyInjective | templates/lesson-2/optimized/server/use-cases/admin/order-items/list-order-items.ts:75 | different pages have different cache keys |
| OrderItemsListing.OnlyFirstPageKept | templates/lesson-2/optimized/server/use-cases/admin/order-items/list-order-items.ts:86-90 | a request of any page keeps the cache free of entries for pages other than the first |
| Records.GetSome | components/ticket-selector.tsx:22-42 | reading a key gives a value exactly when some entry has that key |
| Records.Put | components/ticket-selector.tsx:22-42 | after the spread update the key holds the new value, every other key reads as before, a key already present keeps its place and a new one is appended, and keys stay unique |
| Records.PutAtHead | components/ticket-selector.tsx:22-42 | overwriting the first entry is such an update |
| Records.PutBehindHead | components/ticket-selector.tsx:22-42 | updating the tail behind a different first key is such an update |
| Records.Positive | components/ticket-selector.tsx:44-48 | the filtered object keeps exactly the entries with a positive count, each unchanged |
| ServerActions.StringOrNone | server/actions.ts:15-18 | an optional string field gives its string exactly when one was sent |
| ServerActions.Caught | server/actions.ts:74-87 | a thrown Error reports its own message, anything else the action's fallback text, never with data or issues |
| ServerActions.Outcome | server/actions.ts:68-87 | a use case that returns is answered with success and its data unchanged; one that throws with what the catch block makes of it |
| ServerActions.ParseSearch | server/actions.ts:14-21 | the search schema accepts only optional strings for the filters, a positive integer page and a positive integer limit up to 100, and passes each field through unchanged |
| ServerActions.SearchRejects | server/actions.ts:14-21 | a page or limit out of range, or a filter that is not a string, is rejected |
| ServerActions.ToDate | server/actions.ts:62-63 | a date is made exactly for a non-empty date string |
| ServerActions.SearchEventsAction | server/actions.ts:55-88 | invalid input is answered "Invalid input parameters" with the issues and never reaches the listing; valid input is the listing's result or its error |
| ServerActions.SearchReachesUseCaseWithBounds | server/actions.ts:55-68 | the listing only ever sees a page of at least 1 and a limit from 1 to 100, so its offset and limit are never negative, and dates only for non-empty strings |
| ServerActions.GetEventDetailsAction | server/actions.ts:93-121 | an empty or non-string slug gets "Invalid event slug", a missing event "Event not found"; success exactly when an event was found, returned unchanged |
| ServerActions.GetAvailableTicketTypesAction | server/actions.ts:126-147 | an empty or non-string id gets "Invalid event ID"; otherwise the use case's result or error |
| ServerActions.GetOrderDetailsAction | server/actions.ts:199-227 | an empty or non-string id gets "Invalid order ID", a missing order "Order not found"; success exactly when an order was found, returned unchanged |
| ServerActions.ParseOrder | server/actions.ts:23-46 | the order schema accepts exactly a valid customer, at least one ticket, each with a uuid and a positive integer quantity, and an optional payment method, and copies each field across unchanged |
| ServerActions.CreateOrderAction | server/actions.ts:152-194 | invalid input gets "Invalid order data" with the issues and creates nothing; valid input is the use case's result or error |
| ServerActions.BadTicketsNeverReachCreateOrder | server/actions.ts:37-46 | an order with no tickets, or with a ticket whose id is not a uuid or whose quantity is not a positive integer, gets the validation error |
| TicketSelector.MaxQty | components/ticket-selector.tsx:68-71 | the bound never exceeds the tickets left, nor a non-zero per-order maximum; an unset or zero per-order maximum leaves only the tickets left |
| TicketSelector.Increment | components/ticket-selector.tsx:24-32 | plus raises the tier's count by one exactly while it is below the bound, and no other tier changes |
| TicketSelector.Decrement | components/ticket-selector.tsx:34-42 | minus lowers the tier's count by one exactly while it is positive, and no other tier changes |
| TicketSelector.BoundedByGet | components/ticket-selector.tsx:24-42 | every stored count lies in [0, max] exactly when every count read by key does |
| TicketSelector.GetAt | components/ticket-selector.tsx:26 | with unique keys, an entry is what reading its key gives |
| TicketSelector.ApplyBounded | components/ticket-selector.tsx:24-42 | each click keeps keys unique and every count within [0, max] |
| TicketSelector.ReplayBounded | components/ticket-selector.tsx:22-42 | from the empty selection, whatever is clicked, every count stays within [0, max] |
| TicketSelector.SumValuesPut | components/ticket-selector.tsx:44 | replacing one count moves the total quantity by the difference |
| TicketSelector.SubtotalChange | components/ticket-selector.tsx:45-48 | changing one tier's count moves the subtotal by its price times the difference |
| TicketSelector.SubtotalSame | components/ticket-selector.tsx:45-48 | the subtotal over tiers whose count did not change is unchanged |
| TicketSelector.IncrementTotals | components/ticket-selector.tsx:24-48 | an enabled plus adds one ticket to the total and the tier's price to the subtotal; a click at the bound changes neither |
| TicketSelector.DecrementTotals | components/ticket-selector.tsx:34-48 | an enabled minus removes one ticket and the tier's price; a click at zero changes neither |
| TicketSelector.HandleContinue | components/ticket-selector.tsx:50-61 | nothing is handed on exactly when no count is positive; otherwise exactly the positive counts are |
| TicketSelector.PositiveKeeps | components/ticket-selector.tsx:51-53 | a positive count is never filtered away |
| TicketSelector.ContinueCarriesChosenCounts | components/ticket-selector.tsx:50-61 | after any clicks, the hand-off carries exactly the tiers with a positive count, each with its count, within its bound |
| TicketSelector.Picker.constructor | components/ticket-selector.tsx:22 | the picker starts with no counts |
| TicketSelector.Picker.HandleIncrement | components/ticket-selector.tsx:24-32 | the counts become those of the plus reducer |
| TicketSelector.Picker.HandleDecrement | components/ticket-selector.tsx:34-42 | the counts become those of the minus reducer |
| TicketAvailability.OnSaleWindow | server/use-cases/events/get-available-ticket-types.ts:45-58 | a tier is on sale exactly when its sale has started or has no start, has not ended or has no end, and tickets are left |
| TicketAvailability.OfEvent | server/use-cases/events/get-available-ticket-types.ts:32-40 | the query keeps exactly the event's active tiers |
| TicketAvailability.KeepOnSale | server/use-cases/events/get-available-ticket-types.ts:44-58 | the filter keeps exactly the tiers on sale, and keeps display order |
| TicketAvailability.Fetched | server/use-cases/events/get-available-ticket-types.ts:32-41 | the fetched tiers are exactly the event's active ones, in display order |
| TicketAvailability.CopyAll | server/use-cases/events/get-available-ticket-types.ts:59-72 | one copy per kept tier, in order |
| TicketAvailability.AvailableTicketTypes | server/use-cases/events/get-available-ticket-types.ts:27-75 | exactly the event's active tiers on sale, each copied with its tickets left (at least one), in display order |
| TicketAvailability.CopyKept | server/use-cases/events/get-available-ticket-types.ts:59-72 | copying the kept tiers gives exactly the offered tiers, in display order, each with tickets left |
| Text.DigitChar | components/admin/cursor-pagination.tsx:40 | each digit prints as the character that reads back as that digit |
| Text.NatToStringDigits | components/admin/cursor-pagination.tsx:40 | a printed number is a non-empty run of digits, starting with '0' only for 0 |
| Text.IntToStringDigits | server/lib/cursor-helpers.ts:6 | a printed integer is non-empty and made of digits and at most a leading '-' |
| Text.DigitsValueOfNatToString | components/admin/cursor-pagination.tsx:40-50 | the digits printed for n read back as n |
| Text.NatToStringRoundTrip | components/admin/cursor-pagination.tsx:40-50 | reading back a printed number gives that number |
| Text.NatToStringInjective | components/admin/cursor-pagination.tsx:40 | different numbers print differently |
| Text.TrimStart | components/customer-form.tsx:45 | the result is a suffix, every dropped character is white space, and the result does not start with white space |
| Text.TrimEnd | components/customer-form.tsx:45 | the result is a prefix, every dropped character is white space, and the result does not end with white space |
| Text.TrimEmptyIff | components/customer-form.tsx:45-51 | trim gives the empty string exactly when every character is white space |
| Text.LeadingDigits | components/admin/cursor-pagination.tsx:50 | the longest prefix of digits: all digits, and followed by a non-digit if anything |
| Text.LeadingDigitsOfDigits | components/admin/cursor-pagination.tsx:50 | the leading digits of a string of digits are the whole string |
| Text.ParseIntOfNatToString | components/admin/cursor-pagination.tsx:50 | parseInt reads back what a non-negative number printed |
| Text.ParseIntOfIntToString | templates/lesson-1/optimized/app/admin/tickets/page.tsx:13 | parseInt reads back any printed integer, negative ones included |
| Text.ParseNegative | templates/lesson-1/optimized/app/admin/tickets/page.tsx:13 | parseInt reads a minus sign followed by digits as the negated digits |
| Text.IndexOf | server/lib/cursor-helpers.ts:12-14 | the first position of the character, or none when it does not occur |
| Text.IndexOfFirst | server/lib/cursor-helpers.ts:12-14 | the character does not occur before the position found, and does not occur at all when none is found |
| Text.IndexOfAt | server/lib/cursor-helpers.ts:12-14 | a position holding the character with no earlier occurrence is the one found |
| Urls.IntToStringPlain | components/admin/cursor-pagination.tsx:40 | a printed number is non-empty and needs no escaping in a query string |
| Urls.GetFirst | templates/lesson-1/optimized/app/admin/tickets/page.tsx:8-14 | a parameter's value is present exactly when some pair has the name, and it is the value of the first such pair |
| Urls.IndexOfAfter | components/admin/cursor-pagination.tsx:40 | a separator not in the text before it is found at its first occurrence |
| Urls.ParsePairOf | components/admin/cursor-pagination.tsx:40 | a name=value segment reads back as its name and value |
| Urls.NoAmpersand | components/admin/cursor-pagination.tsx:40 | a segment of plain text has no separator in it |
| Urls.ParseQueryString | components/admin/cursor-pagination.tsx:40 | a query string of plain parameters reads back as exactly those parameters, in order |
| Urls.ReadBack | components/admin/cursor-pagination.tsx:39-46 | a link built from a path without '?' or '#' reads back exactly the parameters it was built with |
| Wrappers.CeilDiv | server/use-cases/events/list-events.ts:173 | the page count is the least number of pages of the given size that holds every row |
| Wrappers.OrNull | components/admin/cursor-pagination.tsx:40 | the value is kept exactly when it is a non-empty string, and is null otherwise |
| Sorting.InsertBy | server/use-cases/events/get-available-ticket-types.ts:41 | inserting into a sorted sequence keeps it sorted and adds exactly that element |
| Sorting.SortBy | server/use-cases/events/get-available-ticket-types.ts:41 | ORDER BY yields a sorted permutation of the rows |
| Sorting.SortedUnique | server/use-cases/events/get-available-ticket-types.ts:41 | two sorted arrangements of the same rows are equal when no two rows share a key: ties are the only freedom ORDER BY has |

## Left out

- Money is modelled as integer cents. The source computes in floating point (`parseFloat`,
  `toFixed`, and `parseFloat` of the price in the ticket selector), and IEEE rounding is not
  modelled. Tax, fees and total are rounded half-up to cents.
- The `Promise.all` over selections runs one selection at a time. Concurrent orders are
  modelled as discovery against an earlier snapshot of claimed slots and claims against the
  current tables.
- Slot discovery has no ORDER BY, so which unclaimed slots it returns is a nondeterministic
  choice (`Orders.Discover`).
- The cursor token is not base64url-encoded JSON. It is URL-safe decimal text
  ("milliseconds.id", with ids modelled as numbers). Decoding a token that is not JSON throws
  in the source; the model returns a failure. Creation times are integers of microseconds,
  as a PostgreSQL `timestamp` keeps them; the token keeps milliseconds, as `toISOString` does
  (`Cursor.Truncate`), and the corrected token keeps microseconds.
- Drizzle query building, SQL text, Sentry spans, Redis, BullMQ, better-auth and the
  database connection are not part of this model. Tables are sequences and maps, and the
  Redis cache is a map with expiry times.
- A cached order-items page round-trips through JSON, so its dates come back as strings.
  The model returns the stored value unchanged.
- `LIKE '%…%'` is modelled as a case-sensitive substring test. Wildcards inside the search
  text and URL percent-encoding are not modelled.
- zod's email check is the predicate parameter `isEmail`. A UUID is checked by its shape
  (8-4-4-4-12 hexadecimal digits), and `new Date(s)` is the parameter `parseDate`.
- In the event listing, `dateFrom`/`dateTo` are Date objects and so always truthy; they are
  modelled as present exactly when given. A `minPrice` is a decimal string, so "0.00" is a
  price. A limit of 0 gives NaN or Infinity pages in the source; the model gives none.
- `server/schema.ts` declares no `quantitySold` column on ticket types, yet the use cases read
  one. The model follows the use cases and gives the row that field.
- In the lesson switcher, paths are the working directory joined with the relative path,
  and `path.join`'s `.`/`..` normalisation is not modelled. A copy fails only when its
  template file is missing; directory-creation and write failures are not modelled. A remove
  of a missing file does nothing, as the source swallows that error. Console output and the
  interactive CLI are left out. The index migrations are a flag on the workspace.
- Rendering, layout and every component's markup are left out. Only the URLs, flags and
  state updates they compute are modelled.
- Random order numbers and ticket codes are inputs; their uniqueness is the schema's index.
- NewestFirst (`OrderItemsListing.NewestFirst`, `EventListing.NewestFirst`), `Sorting.SortBy`
  and `Customers.PickWhere` fix nothing about ties. SQL leaves the order of equal keys, and
  the row a `LIMIT 1` without ORDER BY returns, to the database. So each query takes its
  arrangement (`sorted`) or its scan order (`scan`) as an input, constrained only by what SQL
  promises, and the NewestFirst functions are one admissible arrangement, ties in table
  order. `TicketAvailability.AvailableTicketTypes` states only membership and display order,
  which hold for any order of tied `sortOrder` values.
- AdminUpdates.StatusPatch and Schema.CheckedIn take one clock reading, `now`, for every
  stamp a call writes. The source calls `new Date()` once per stamp
  (server/use-cases/admin/orders/update-order-status.ts lines 13, 17 and 21;
  server/use-cases/admin/tickets/check-in-ticket.ts lines 10 and 13), so `updatedAt` may
  differ from `completedAt`, `cancelledAt` or `checkedInAt` by a clock tick. The equalities
  between those stamps in `AdminUpdates.ReturnedOrderIsUpdated` and
  `AdminUpdates.CheckInFromAnyState` hold for the single reading only.
- Store.Db.Valid does not require order ids, ticket ids or customer ids to be unique, as
  primary keys would. Those ids are inputs (the database's `defaultRandom()` uuids). The
  order and ticket updates by id patch every row carrying the id, as `UPDATE … WHERE id = …`
  does, so no property of orders or tickets depends on the ids being distinct. The guest
  refresh of a customer (`Customers.FindOrCreate`, `Store.Db.UpdateCustomer`) rewrites only
  the matched row, where the source's `WHERE id = existing.id` rewrites every row with that
  id; the two agree only while customer ids are distinct, and `Customers.WritesAtMostOneRow`
  states the one-row write of the model.
- The thin admin CRUD use cases, event-by-slug, order details and dashboard stats add nothing
  beyond the table writes and are not part of this model.

## Findings

| source | as written | input that shows it | evidently intended | confidence | as-written member | corrected member |
|---|---|---|---|---|---|---|
| components/admin/cursor-pagination.tsx:39-41 | The Previous link goes to `prevCursor` with page − 1 and records the *current* cursor as the new `prevCursor`. | A listing with a third page: Next, Next, Previous, Previous. The last link is labelled page 1 and shows the third page of the walk. | Previous shows the page below the current one. | not executed | CursorNavigation.BackTwiceShowsWrongPage | CursorNavigation.CorrectedWalkShowsTruePage |
| server/lib/cursor-helpers.ts:3-27 | `encodeCursor` keeps the creation time to the millisecond (`toISOString`) while `created_at` holds microseconds (server/schema.ts:350), and `buildCursorWhere` compares the full column with the rounded instant, so a row listed after a page's last row whose `created_at` lies in that row's millisecond, at or before its instant but off the whole millisecond, passes neither branch and is never listed. | 21 tickets of one order, created in one transaction at 1.5 ms: the walk of cursor pages never lists the 21st. | Following the next cursors lists every row exactly once. | not executed | TicketListing.OneOrderAcrossPages | TicketListing.TraversalVisitsEveryRowOnce |

=== FILE: admin_guard.dfy ===
/** The gate in front of every admin page and action. With the test bypass switched on and
    either the shared secret presented or a development build, a fixed mock admin passes;
    otherwise the signed-in user must have the role "admin". Redirects end the request. */
module AdminGuard {
  import opened Wrappers

  /** The environment variables the guard reads; `None` is an unset variable. */
  datatype Env = Env(bypassAuth: Option<string>, bypassAuthSecret: Option<string>, nodeEnv: Option<string>)

  /** A signed-in user; `role` is `None` when the user record has none. */
  datatype User = User(id: string, email: string, name: string, role: Option<string>)

  datatype Session = Session(id: string, userId: string, expiresAt: int)

  /** What `getSession` returns: `None` is `null`. */
  datatype SignedIn = SignedIn(user: User, session: Session)

  datatype Guard =
    | Pass(user: User, session: Session)
    | Redirect(location: string)

  const SignInRedirect: string := "/sign-in?callbackURL=/admin"
  const HomeRedirect: string := "/"
  const WeekMillis: int := 1000 * 60 * 60 * 24 * 7

  const MockAdmin: User := User("test-admin-id", "test@admin.com", "Test Admin", Some("admin"))

  function MockSession(nowMillis: int): Session
  {
    Session("test-session-id", "test-admin-id", nowMillis + WeekMillis)
  }

  /** `===` between the request header (`null` when absent) and the secret (`undefined` when
      unset): `null === undefined` is false, so a missing header never equals a missing
      secret. */
  predicate SameValue(header: Option<string>, secret: Option<string>)
  {
    header.Some? && secret.Some? && header.value == secret.value
  }

  /** The bypass condition. */
  predicate Bypassed(env: Env, bypassHeader: Option<string>)
  {
    env.bypassAuth == Some("true") &&
    (SameValue(bypassHeader, env.bypassAuthSecret) || env.nodeEnv == Some("development"))
  }

  predicate HasAdminRole(u: User)
  {
    u.role == Some("admin")
  }

  /** `requireAdmin()`: the request's `x-bypass-auth` header and session and the clock are
      parameters. It passes only with an admin, and it passes with the mock admin exactly when
      the bypass applies; otherwise no session goes to sign-in and a non-admin goes home. */
  function RequireAdmin(env: Env, bypassHeader: Option<string>, signedIn: Option<SignedIn>, nowMillis: int): (g: Guard)
    ensures g.Pass? ==> HasAdminRole(g.user)
    ensures Bypassed(env, bypassHeader) ==> g == Pass(MockAdmin, MockSession(nowMillis))
    ensures !Bypassed(env, bypassHeader) ==>
      && (signedIn.None? <==> g == Redirect(SignInRedirect))
      && (signedIn.Some? && !HasAdminRole(signedIn.value.user) <==> g == Redirect(HomeRedirect))
      && (g.Pass? <==> signedIn.Some? && HasAdminRole(signedIn.value.user))
      && (g.Pass? ==> signedIn.Some? && g == Pass(signedIn.value.user, signedIn.value.session))
  {
    if env.bypassAuth == Some("true") && (SameValue(bypassHeader, env.bypassAuthSecret) || env.nodeEnv == Some("development")) then
      Pass(MockAdmin, MockSession(nowMillis))
    else if signedIn.None? then
      Redirect(SignInRedirect)
    else if signedIn.value.user.role != Some("admin") then
      Redirect(HomeRedirect)
    else
      Pass(signedIn.value.user, signedIn.value.session)
  }

  /** `isAdmin()`: false without a session, otherwise the role test. */
  function IsAdmin(signedIn: Option<SignedIn>): (b: bool)
    ensures b <==> signedIn.Some? && HasAdminRole(signedIn.value.user)
  {
    if signedIn.None? then false else signedIn.value.user.role == Some("admin")
  }

  /** `getCurrentUser()`: `session?.user || null`; a user object is always truthy. */
  function CurrentUser(signedIn: Option<SignedIn>): (u: Option<User>)
    ensures u.Some? <==> signedIn.Some?
    ensures u.Some? ==> u.value == signedIn.value.user
  {
    match signedIn
    case None => None
    case Some(s) => Some(s.user)
  }

  /** A development build with the bypass on lets every request through, header or not. */
  lemma DevelopmentBypassesAll(env: Env, bypassHeader: Option<string>, signedIn: Option<SignedIn>, nowMillis: int)
    requires env.bypassAuth == Some("true") && env.nodeEnv == Some("development")
    ensures RequireAdmin(env, bypassHeader, signedIn, nowMillis).Pass?
  {
  }

  /** Without the bypass switched on, neither the header nor the build matters: the guard
      passes exactly the requests `isAdmin` approves. */
  lemma GuardAgreesWithIsAdmin(env: Env, bypassHeader: Option<string>, signedIn: Option<SignedIn>, nowMillis: int)
    requires env.bypassAuth != Some("true")
    ensures RequireAdmin(env, bypassHeader, signedIn, nowMillis).Pass? <==> IsAdmin(signedIn)
  {
  }

  /** `isAdmin` ignores the bypass: the mock admin's requests are not admin requests to it. */
  lemma IsAdminIgnoresBypass(env: Env, bypassHeader: Option<string>, nowMillis: int)
    requires Bypassed(env, bypassHeader)
    ensures RequireAdmin(env, bypassHeader, None, nowMillis).Pass? && !IsAdmin(None)
  {
  }

  /** An unset secret is never matched, not even by a request without the header. */
  lemma UnsetSecretNeverMatches(env: Env, bypassHeader: Option<string>, signedIn: Option<SignedIn>, nowMillis: int)
    requires env.bypassAuthSecret.None? && env.nodeEnv != Some("development")
    ensures RequireAdmin(env, bypassHeader, signedIn, nowMillis).Pass? <==> IsAdmin(signedIn)
  {
  }
}

=== FILE: admin_pagination.dfy ===
/** The admin pagination widgets: the cursor widget (Previous/Next links carrying cursors,
    a typed page jump, and in the optimized template a row of quick jumps) and the offset
    widget (`?page=n` links). Each link is a query string the listing page reads back. */
module AdminPagination {
  import opened Wrappers
  import opened Text
  import opened Urls
  import Cursor
  import TicketListing
  import OrderItemsListing

  type Pagination = TicketListing.Pagination
  type PaginationData = OrderItemsListing.PaginationData

  /** The quick-jump targets, in the order the buttons appear. */
  const QuickJumpPages: seq<int> := [5, 5000, 50000, 100000]

  /** Cursor tokens need no escaping, so they read back as written. */
  lemma TokenPlain(k: Cursor.Key, p: Cursor.Precision)
    ensures PlainValue(Cursor.Encode(k, p))
  {
    Cursor.EncodeUnreserved(k, p);
  }

  // ---- The cursor widget -------------------------------------------------------------------

  /** Previous is enabled from page 2 on. */
  predicate HasPrevious(pg: Pagination)
  {
    pg.currentPage > 1
  }

  /** The parameters of a cursor link: the cursor, the page it is labelled with and, when
      there is one, the cursor to record as the way back. */
  function CursorParams(cursor: string, page: int, prev: Option<string>): seq<Param>
  {
    [("cursor", cursor), ("page", IntToString(page))] + (if Truthy(prev) then [("prevCursor", prev.value)] else [])
  }

  /** `${basePath}?cursor=…&page=…` followed by `&prevCursor=…` when `prev` is set. */
  function CursorUrl(base: string, cursor: string, page: int, prev: Option<string>): string
  {
    base + "?cursor=" + cursor + "&page=" + IntToString(page)
    + (if Truthy(prev) then "&prevCursor=" + prev.value else "")
  }

  lemma CursorUrlIsQuery(base: string, cursor: string, page: int, prev: Option<string>)
    ensures CursorUrl(base, cursor, page, prev) == WithQuery(base, CursorParams(cursor, page, prev))
  {
    if Truthy(prev) {
      var u := base + "?cursor=" + cursor + "&page=" + IntToString(page);
      assert CursorParams(cursor, page, prev) ==
        [("cursor", cursor), ("page", IntToString(page)), ("prevCursor", prev.value)];
      assert CursorUrl(base, cursor, page, prev) == u + ("&prevCursor=" + prev.value) == u + "&prevCursor=" + prev.value;
      QueryOfThree(base, cursor, IntToString(page), prev.value);
    } else {
      var u := base + "?cursor=" + cursor + "&page=" + IntToString(page);
      assert CursorParams(cursor, page, prev) == [("cursor", cursor), ("page", IntToString(page))];
      assert CursorUrl(base, cursor, page, prev) == u + "" == u;
      QueryOfTwo(base, cursor, IntToString(page));
    }
  }

  lemma QueryOfThree(base: string, cursor: string, pageText: string, prev: string)
    ensures base + "?cursor=" + cursor + "&page=" + pageText + "&prevCursor=" + prev
      == WithQuery(base, [("cursor", cursor), ("page", pageText), ("prevCursor", prev)])
  {
    var ps := [("cursor", cursor), ("page", pageText), ("prevCursor", prev)];
    var tail := "page=" + pageText + "&prevCursor=" + prev;
    assert QueryString(ps[1..]) == tail by {
      assert ps[1..] == [("page", pageText), ("prevCursor", prev)];
      QueryOfTwoParams("page", pageText, "prevCursor", prev);
    }
    assert QueryString(ps) == "cursor=" + cursor + "&" + tail;
  }

  lemma QueryOfTwoParams(k1: string, v1: string, k2: string, v2: string)
    ensures QueryString([(k1, v1), (k2, v2)]) == k1 + "=" + v1 + "&" + k2 + "=" + v2
  {
    assert [(k1, v1), (k2, v2)][1..] == [(k2, v2)];
  }

  lemma QueryOfTwo(base: string, cursor: string, pageText: string)
    ensures base + "?cursor=" + cursor + "&page=" + pageText
      == WithQuery(base, [("cursor", cursor), ("page", pageText)])
  {
    var ps := [("cursor", cursor), ("page", pageText)];
    assert ps[1..] == [("page", pageText)];
    assert QueryString(ps[1..]) == "page" + "=" + pageText;
    assert QueryString(ps) == "cursor" + "=" + cursor + "&" + ("page" + "=" + pageText);
  }

  /** A cursor link reads back as its cursor, its page number and its way back. */
  lemma CursorParamsGet(cursor: string, page: int, prev: Option<string>)
    ensures var ps := CursorParams(cursor, page, prev);
      && Get(ps, "cursor") == Some(cursor)
      && Get(ps, "page") == Some(IntToString(page))
      && OrNull(Get(ps, "prevCursor")) == OrNull(prev)
      && Get(ps, "jumpTo") == None
  {
    var ps := CursorParams(cursor, page, prev);
    if Truthy(prev) {
      assert ps == [("cursor", cursor), ("page", IntToString(page)), ("prevCursor", prev.value)];
      assert ps[1..][1..] == [("prevCursor", prev.value)];
      assert Get(ps[1..][1..], "prevCursor") == prev;
    } else {
      assert ps == [("cursor", cursor), ("page", IntToString(page))];
      GetFirst(ps, "prevCursor");
    }
    GetFirst(ps, "jumpTo");
  }

  lemma CursorUrlReadsBack(base: string, cursor: string, page: int, prev: Option<string>)
    requires '?' !in base && '#' !in base
    requires PlainValue(cursor) && (Truthy(prev) ==> PlainValue(prev.value))
    ensures var ps := ParseQuery(CursorUrl(base, cursor, page, prev));
      && Get(ps, "cursor") == Some(cursor)
      && Get(ps, "page") == Some(IntToString(page))
      && ParseIntPrefix(Get(ps, "page").value) == Some(page)
      && OrNull(Get(ps, "prevCursor")) == OrNull(prev)
      && Get(ps, "jumpTo") == None
  {
    CursorUrlIsQuery(base, cursor, page, prev);
    IntToStringPlain(page);
    ReadBack(base, CursorParams(cursor, page, prev));
    CursorParamsGet(cursor, page, prev);
    ParseIntOfIntToString(page);
  }

  /** The Previous link's target: back along `prevCursor`, labelled one page lower, or the
      first page when there is no previous cursor. */
  function PrevUrl(base: string, pg: Pagination): string
  {
    if Truthy(pg.prevCursor) then CursorUrl(base, pg.prevCursor.value, pg.currentPage - 1, pg.currentCursor)
    else base
  }

  /** The Next link's target: on along `nextCursor`, labelled one page higher, recording the
      current cursor as the way back; empty without a next cursor. */
  function NextUrl(base: string, pg: Pagination): string
  {
    if Truthy(pg.nextCursor) then CursorUrl(base, pg.nextCursor.value, pg.currentPage + 1, pg.currentCursor)
    else ""
  }

  /** What the listing page reads from the Previous link: the previous cursor, the page
      below and the current cursor as the way back; or no parameter at all. */
  lemma PrevUrlReadsBack(base: string, pg: Pagination)
    requires '?' !in base && '#' !in base
    requires Truthy(pg.prevCursor) ==> PlainValue(pg.prevCursor.value)
    requires Truthy(pg.currentCursor) ==> PlainValue(pg.currentCursor.value)
    ensures var ps := ParseQuery(PrevUrl(base, pg));
      && (!Truthy(pg.prevCursor) ==> ps == [])
      && (Truthy(pg.prevCursor) ==>
            && Get(ps, "cursor") == pg.prevCursor
            && Get(ps, "page").Some?
            && ParseIntPrefix(Get(ps, "page").value) == Some(pg.currentPage - 1)
            && OrNull(Get(ps, "prevCursor")) == OrNull(pg.currentCursor))
  {
    if Truthy(pg.prevCursor) {
      CursorUrlReadsBack(base, pg.prevCursor.value, pg.currentPage - 1, pg.currentCursor);
    } else {
      ReadBack(base, []);
    }
  }

  /** What the listing page reads from the Next link: the next cursor, the page above and the
      current cursor as the way back. */
  lemma NextUrlReadsBack(base: string, pg: Pagination)
    requires '?' !in base && '#' !in base
    requires Truthy(pg.nextCursor) && PlainValue(pg.nextCursor.value)
    requires Truthy(pg.currentCursor) ==> PlainValue(pg.currentCursor.value)
    ensures var ps := ParseQuery(NextUrl(base, pg));
      && Get(ps, "cursor") == pg.nextCursor
      && Get(ps, "page").Some?
      && ParseIntPrefix(Get(ps, "page").value) == Some(pg.currentPage + 1)
      && OrNull(Get(ps, "prevCursor")) == OrNull(pg.currentCursor)
      && Get(ps, "jumpTo") == None
  {
    CursorUrlReadsBack(base, pg.nextCursor.value, pg.currentPage + 1, pg.currentCursor);
  }

  /** The Previous button: a link exactly when it is enabled. */
  function PrevLink(base: string, pg: Pagination): (link: Option<string>)
    ensures link.Some? <==> pg.currentPage > 1
    ensures link.Some? ==> link.value == PrevUrl(base, pg)
  {
    if HasPrevious(pg) then Some(PrevUrl(base, pg)) else None
  }

  /** The Next button: a link only when there is more and a next cursor to follow. */
  function NextLink(base: string, pg: Pagination): (link: Option<string>)
    ensures link.Some? <==> pg.hasMore && pg.nextCursor.Some? && pg.nextCursor.value != ""
    ensures link.Some? ==> link.value == NextUrl(base, pg) && link.value != ""
  {
    if pg.hasMore && Truthy(pg.nextCursor) then Some(NextUrl(base, pg)) else None
  }

  /** `${basePath}?page=${n}&jumpTo=true`: an offset jump. */
  function JumpUrl(base: string, n: int): string
  {
    base + "?page=" + IntToString(n) + "&jumpTo=true"
  }

  /** A jump link reads back as the page number and the jump flag, and nothing else. */
  lemma JumpUrlReadsBack(base: string, n: int)
    requires '?' !in base && '#' !in base
    ensures var ps := ParseQuery(JumpUrl(base, n));
      && ps == [("page", IntToString(n)), ("jumpTo", "true")]
      && ParseIntPrefix(Get(ps, "page").value) == Some(n)
      && Get(ps, "cursor") == None && Get(ps, "prevCursor") == None
      && Get(ps, "jumpTo") == Some("true")
  {
    var text := IntToString(n);
    var ps := [("page", text), ("jumpTo", "true")];
    assert ps[1..] == [("jumpTo", "true")];
    assert QueryString(ps[1..]) == "jumpTo" + "=" + "true";
    assert QueryString(ps) == "page" + "=" + text + "&" + ("jumpTo" + "=" + "true");
    assert JumpUrl(base, n) == WithQuery(base, ps);
    IntToStringPlain(n);
    ReadBack(base, ps);
    assert Get(ps, "page") == Some(text);
    assert Get(ps, "jumpTo") == Some("true");
    GetFirst(ps, "cursor");
    GetFirst(ps, "prevCursor");
    ParseIntOfIntToString(n);
  }

  /** The typed jump: `parseInt` of the input, then a navigation only for a page between 1
      and the page count. */
  function PageJump(base: string, input: string, totalPages: int): (target: Option<string>)
    ensures target.Some? <==>
      ParseIntPrefix(input).Some? && 1 <= ParseIntPrefix(input).value <= totalPages
    ensures target.Some? ==> target.value == JumpUrl(base, ParseIntPrefix(input).value)
  {
    match ParseIntPrefix(input)
    case None => None
    case Some(n) => if 1 <= n <= totalPages then Some(JumpUrl(base, n)) else None
  }

  /** A typed jump that navigates asks the listing for a page in range, as a jump. */
  lemma PageJumpInRange(base: string, input: string, totalPages: int)
    requires '?' !in base && '#' !in base
    requires PageJump(base, input, totalPages).Some?
    ensures var ps := ParseQuery(PageJump(base, input, totalPages).value);
      Get(ps, "page").Some? &&
      var n := ParseIntPrefix(Get(ps, "page").value);
      n.Some? && 1 <= n.value <= totalPages && Get(ps, "jumpTo") == Some("true")
  {
    JumpUrlReadsBack(base, ParseIntPrefix(input).value);
  }

  /** One quick-jump button of the optimized cursor widget. */
  datatype QuickJump = QuickJump(target: int, enabled: bool, url: string)

  /** The quick-jump row: every target, disabled while a navigation is pending or when it is
      past the last page. */
  function QuickJumps(base: string, totalPages: int, pending: bool): (js: seq<QuickJump>)
    ensures |js| == |QuickJumpPages|
    ensures forall i | 0 <= i < |js| ::
      && js[i].target == QuickJumpPages[i]
      && (js[i].enabled <==> !pending && QuickJumpPages[i] <= totalPages)
      && js[i].url == JumpUrl(base, QuickJumpPages[i])
  {
    seq(|QuickJumpPages|, i requires 0 <= i < |QuickJumpPages| =>
      QuickJump(QuickJumpPages[i], !(pending || QuickJumpPages[i] > totalPages), JumpUrl(base, QuickJumpPages[i])))
  }

  /** An enabled quick jump asks for a page that exists. */
  lemma EnabledQuickJumpInRange(base: string, totalPages: int, pending: bool, i: nat)
    requires '?' !in base && '#' !in base
    requires i < |QuickJumpPages| && QuickJumps(base, totalPages, pending)[i].enabled
    ensures var ps := ParseQuery(QuickJumps(base, totalPages, pending)[i].url);
      Get(ps, "page").Some? &&
      var n := ParseIntPrefix(Get(ps, "page").value);
      n.Some? && 1 <= n.value <= totalPages && Get(ps, "jumpTo") == Some("true")
  {
    var n := QuickJumpPages[i];
    assert QuickJumps(base, totalPages, pending)[i].url == JumpUrl(base, n);
    assert 1 <= n <= totalPages;
    JumpUrlReadsBack(base, n);
  }

  // ---- The offset widget -------------------------------------------------------------------

  /** `${basePath}?page=${n}` */
  function PageUrl(base: string, n: int): string
  {
    base + "?page=" + IntToString(n)
  }

  lemma PageUrlReadsBack(base: string, n: int)
    requires '?' !in base && '#' !in base
    ensures var ps := ParseQuery(PageUrl(base, n));
      ps == [("page", IntToString(n))] && ParseIntPrefix(Get(ps, "page").value) == Some(n)
  {
    var text := IntToString(n);
    var ps := [("page", text)];
    assert QueryString(ps) == "page" + "=" + text;
    assert PageUrl(base, n) == WithQuery(base, ps);
    IntToStringPlain(n);
    ReadBack(base, ps);
    assert Get(ps, "page") == Some(text);
    ParseIntOfIntToString(n);
  }

  /** Previous: a link to the page below exactly when the listing says there is one. */
  function OffsetPrevLink(base: string, pd: PaginationData): (link: Option<string>)
    ensures link.Some? <==> pd.hasPrev
    ensures link.Some? ==> link.value == PageUrl(base, pd.page - 1)
  {
    if pd.hasPrev then Some(PageUrl(base, pd.page - 1)) else None
  }

  /** Next: a link to the page above exactly when the listing says there is one. */
  function OffsetNextLink(base: string, pd: PaginationData): (link: Option<string>)
    ensures link.Some? <==> pd.hasNext
    ensures link.Some? ==> link.value == PageUrl(base, pd.page + 1)
  {
    if pd.hasNext then Some(PageUrl(base, pd.page + 1)) else None
  }

  /** The quick-jump row of the offset widget: a plain page link (no jump flag) for each
      target up to the page count, and a disabled button for the others. */
  function OffsetQuickLinks(base: string, totalPages: int): (links: seq<(int, Option<string>)>)
    ensures |links| == |QuickJumpPages|
    ensures forall i | 0 <= i < |links| ::
      && links[i].0 == QuickJumpPages[i]
      && (links[i].1.Some? <==> QuickJumpPages[i] <= totalPages)
      && (links[i].1.Some? ==> links[i].1.value == PageUrl(base, QuickJumpPages[i]))
  {
    seq(|QuickJumpPages|, i requires 0 <= i < |QuickJumpPages| =>
      (QuickJumpPages[i], if QuickJumpPages[i] <= totalPages then Some(PageUrl(base, QuickJumpPages[i])) else None))
  }

  /** Over a listing's own pagination, the offset widget's links never leave the pages that
      exist: Previous reads back as page − 1 ≥ 1, Next as page + 1 ≤ totalPages, and Next is
      offered exactly when rows lie beyond this page. */
  lemma OffsetLinksStayInRange(base: string, page: int, total: nat)
    requires '?' !in base && '#' !in base
    requires page >= 1
    ensures var pd := OrderItemsListing.Paginate(page, total);
      && (OffsetNextLink(base, pd).Some? <==> page * OrderItemsListing.PageSize < total)
      && (OffsetNextLink(base, pd).Some? ==>
            var ps := ParseQuery(OffsetNextLink(base, pd).value);
            Get(ps, "page").Some? && ParseIntPrefix(Get(ps, "page").value) == Some(page + 1) && page + 1 <= pd.totalPages)
      && (OffsetPrevLink(base, pd).Some? ==>
            var ps := ParseQuery(OffsetPrevLink(base, pd).value);
            Get(ps, "page").Some? && ParseIntPrefix(Get(ps, "page").value) == Some(page - 1) && page - 1 >= 1)
  {
    OrderItemsListing.HasNextIffMoreRows(page, total);
    PageUrlReadsBack(base, page + 1);
    PageUrlReadsBack(base, page - 1);
  }
}

=== FILE: admin_updates.dfy ===
/** The two single-row updates of the back office: changing an order's status (with the
    timestamps that go with it) and checking a ticket in at the door. Neither looks at the
    row's current values; both update every row with the given id and return the first. */
module AdminUpdates {
  import opened Wrappers
  import opened Schema
  import opened Store

  /** The first row with the given id, which `const [row] = … .returning()` picks. */
  function FirstWithId<T>(rows: seq<T>, idOf: T -> Id, id: Id): (r: Option<T>)
    ensures r.Some? <==> exists i | 0 <= i < |rows| :: idOf(rows[i]) == id
    ensures r.Some? ==> r.value in rows && idOf(r.value) == id
  {
    if rows == [] then None
    else if idOf(rows[0]) == id then Some(rows[0])
    else
      var r := FirstWithId(rows[1..], idOf, id);
      assert forall i | 0 < i < |rows| :: rows[i] == rows[1..][i - 1];
      r
  }

  function OrderId(o: Order): Id { o.id }
  function TicketId(t: Ticket): Id { t.id }

  // ---- updateOrderStatus ------------------------------------------------------------------

  /** The input; `None` is a field the caller left out. */
  datatype StatusInput = StatusInput(status: Option<OrderStatus>, paymentStatus: Option<PaymentStatus>)

  /** The SET list `updateOrderStatus` builds: the given statuses, `updatedAt` now, and
      `completedAt` or `cancelledAt` now when the new status is completed or cancelled. The
      input can never carry a timestamp of its own, so the `!updateData.completedAt` guard
      always lets the stamp through. */
  function StatusPatch(input: StatusInput, now: int): (p: OrderPatch)
    ensures p.status == input.status && p.paymentStatus == input.paymentStatus
    ensures p.paymentIntentId.None? && p.updatedAt == now
    ensures p.completedAt.Some? <==> input.status == Some(OrderCompleted)
    ensures p.cancelledAt.Some? <==> input.status == Some(OrderCancelled)
    ensures p.completedAt.Some? ==> p.completedAt.value == now
    ensures p.cancelledAt.Some? ==> p.cancelledAt.value == now
  {
    OrderPatch(input.status, input.paymentStatus, None,
      if input.status == Some(OrderCompleted) then Some(now) else None,
      if input.status == Some(OrderCancelled) then Some(now) else None,
      now)
  }

  /** What the update does to one order: any transition is accepted; completing or
      cancelling stamps the time (again, when the order was already in that state); any
      other status keeps both stamps; nothing outside the status columns and stamps moves. */
  lemma StatusUpdateEffect(o: Order, input: StatusInput, now: int)
    ensures var o' := ApplyPatch(o, StatusPatch(input, now));
      && o'.status == (if input.status.Some? then input.status.value else o.status)
      && o'.paymentStatus == (if input.paymentStatus.Some? then input.paymentStatus.value else o.paymentStatus)
      && o'.completedAt == (if input.status == Some(OrderCompleted) then Some(now) else o.completedAt)
      && o'.cancelledAt == (if input.status == Some(OrderCancelled) then Some(now) else o.cancelledAt)
      && o'.updatedAt == now
      && o'.(status := o.status, paymentStatus := o.paymentStatus, completedAt := o.completedAt,
             cancelledAt := o.cancelledAt, updatedAt := o.updatedAt) == o
  {
  }

  /** `updateOrderStatus(id, input)` at time `now`: builds the SET list step by step, updates
      the matching rows and returns the first of them (none when no order has that id). */
  method UpdateOrderStatus(db: Db, id: Id, input: StatusInput, now: int) returns (order: Option<Order>)
    requires db.Valid()
    modifies db`orders
    ensures db.Valid()
    ensures db.orders == PatchWhere(old(db.orders), id, StatusPatch(input, now))
    ensures order == FirstWithId(db.orders, OrderId, id)
    ensures order.Some? <==> exists i | 0 <= i < |old(db.orders)| :: old(db.orders)[i].id == id
  {
    var updateData := OrderPatch(input.status, input.paymentStatus, None, None, None, now);
    if input.status == Some(OrderCompleted) && updateData.completedAt.None? {
      updateData := updateData.(completedAt := Some(now));
    }
    if input.status == Some(OrderCancelled) && updateData.cancelledAt.None? {
      updateData := updateData.(cancelledAt := Some(now));
    }
    db.UpdateOrder(id, updateData);
    order := FirstWithId(db.orders, OrderId, id);
    assert forall i | 0 <= i < |db.orders| :: db.orders[i].id == old(db.orders)[i].id;
  }

  /** The returned order carries the new status and time. */
  lemma ReturnedOrderIsUpdated(os: seq<Order>, id: Id, input: StatusInput, now: int)
    requires FirstWithId(PatchWhere(os, id, StatusPatch(input, now)), OrderId, id).Some?
    ensures var o := FirstWithId(PatchWhere(os, id, StatusPatch(input, now)), OrderId, id).value;
      && o.id == id && o.updatedAt == now
      && (input.status.Some? ==> o.status == input.status.value)
      && (input.status == Some(OrderCompleted) ==> o.completedAt == Some(now))
  {
    var os' := PatchWhere(os, id, StatusPatch(input, now));
    var o := FirstWithId(os', OrderId, id).value;
    var i :| 0 <= i < |os'| && os'[i] == o;
    assert os'[i] == ApplyPatch(os[i], StatusPatch(input, now));
  }

  // ---- checkInTicket ----------------------------------------------------------------------

  /** `checkInTicket(id, checkedInBy)` at time `now`: updates the matching rows and returns
      the first of them. */
  method CheckInTicket(db: Db, id: Id, checkedInBy: string, now: int) returns (ticket: Option<Ticket>)
    requires db.Valid()
    modifies db`tickets
    ensures db.Valid()
    ensures db.tickets == CheckInWhere(old(db.tickets), id, checkedInBy, now)
    ensures ticket == FirstWithId(db.tickets, TicketId, id)
    ensures ticket.Some? <==> exists i | 0 <= i < |old(db.tickets)| :: old(db.tickets)[i].id == id
  {
    db.CheckInTickets(id, checkedInBy, now);
    ticket := FirstWithId(db.tickets, TicketId, id);
    assert forall i | 0 <= i < |db.tickets| :: db.tickets[i].id == old(db.tickets)[i].id;
  }

  /** Check-in has no precondition on the ticket: a cancelled or refunded ticket becomes used
      too, and a second check-in keeps it used and overwrites who and when. */
  lemma CheckInFromAnyState(t: Ticket, by1: string, at1: int, by2: string, at2: int)
    ensures CheckedIn(t, by1, at1).status == TicketUsed
    ensures CheckedIn(CheckedIn(t, by1, at1), by2, at2) == CheckedIn(t, by2, at2)
  {
  }

  /** Rows with another id are exactly as they were. */
  lemma CheckInIsLocal(ts: seq<Ticket>, id: Id, checkedInBy: string, now: int, i: nat)
    requires i < |ts| && ts[i].id != id
    ensures CheckInWhere(ts, id, checkedInBy, now)[i] == ts[i]
  {
  }
}

=== FILE: cursor.dfy ===
/** The cursor of the keyset listings: a token naming a row's position in the
    (createdAt, id) order, and the strict "comes after" filter built from it. */
module Cursor {
  import opened Wrappers
  import opened Text

  /** The position of a row: its creation time in microseconds (the precision of a
      PostgreSQL `timestamp`) and its uuid, read as the 128-bit number PostgreSQL compares
      uuids by. */
  datatype Key = Key(createdAt: int, id: nat)

  const MicrosPerMilli: nat := 1000

  /** Strict lexicographic order on (createdAt, id). */
  predicate Less(a: Key, b: Key)
  {
    a.createdAt < b.createdAt || (a.createdAt == b.createdAt && a.id < b.id)
  }

  lemma LessIsStrictTotalOrder(a: Key, b: Key, c: Key)
    ensures !Less(a, a)
    ensures Less(a, b) ==> !Less(b, a)
    ensures Less(a, b) && Less(b, c) ==> Less(a, c)
    ensures a != b ==> Less(a, b) || Less(b, a)
  {
  }

  /** The unreserved characters of section 2.3 of RFC 3986: they need no escaping in a URL. */
  predicate Unreserved(c: char)
  {
    IsDigit(c) || ('a' <= c <= 'z') || ('A' <= c <= 'Z') || c == '-' || c == '.' || c == '_' || c == '~'
  }

  /** How much of the creation time a token keeps. `toISOString` keeps whole
      milliseconds, as the source does; a token that keeps the column's microseconds is
      the corrected cursor. */
  datatype Precision = Milliseconds | Microseconds

  /** The position a token keeps of a row: its creation time rounded down to the token's
      precision (a JavaScript `Date` drops the microseconds), and its id. */
  function Truncate(k: Key, p: Precision): (t: Key)
    ensures t.id == k.id && t.createdAt <= k.createdAt
    ensures p == Milliseconds ==> k.createdAt < t.createdAt + MicrosPerMilli
    ensures t == k <==> Exact(k, p)
  {
    if p == Microseconds then k else Key(k.createdAt / MicrosPerMilli * MicrosPerMilli, k.id)
  }

  /** A creation time the token keeps whole: any time for the corrected cursor, a whole
      millisecond for the source's. */
  predicate Exact(k: Key, p: Precision)
  {
    p == Microseconds || k.createdAt % MicrosPerMilli == 0
  }

  /** The creation time a token carries, in its own unit. */
  function TokenTime(k: Key, p: Precision): int
  {
    if p == Microseconds then k.createdAt else k.createdAt / MicrosPerMilli
  }

  /** `encodeCursor`: the row's creation time, to the token's precision, and its id, and
      nothing else. */
  function Encode(k: Key, p: Precision): (token: string)
    ensures token != []
  {
    IntToString(TokenTime(k, p)) + "." + NatToString(k.id)
  }

  /** A token is made of URL-safe characters only. */
  lemma EncodeUnreserved(k: Key, p: Precision)
    ensures var token := Encode(k, p); forall i | 0 <= i < |token| :: Unreserved(token[i])
  {
    IntToStringDigits(TokenTime(k, p));
    NatToStringDigits(k.id);
  }

  /** A decimal integer with an optional leading '-', and nothing else. */
  function ParseInt(s: string): Option<int>
  {
    if |s| > 0 && s[0] == '-' then
      match ParseNat(s[1..])
      case Some(n) => Some(-(n as int))
      case None => None
    else
      match ParseNat(s)
      case Some(n) => Some(n)
      case None => None
  }

  lemma ParseIntRoundTrip(i: int)
    ensures ParseInt(IntToString(i)) == Some(i)
  {
    if i < 0 {
      NatToStringRoundTrip(-i);
      assert IntToString(i)[1..] == NatToString(-i);
    } else {
      NatToStringRoundTrip(i);
    }
  }

  datatype CursorError = MalformedCursor

  /** `decodeCursor`: a token that does not decode is an error (the source's `JSON.parse`
      throws). */
  function Decode(token: string, p: Precision): Result<Key, CursorError>
  {
    match IndexOf(token, '.')
    case None => Failure(MalformedCursor)
    case Some(i) =>
      match (ParseInt(token[..i]), ParseNat(token[i + 1..]))
      case (Some(t), Some(n)) => Success(Key(if p == Microseconds then t else t * MicrosPerMilli, n))
      case _ => Failure(MalformedCursor)
  }

  /** Decoding gives back the creation time to the token's precision (the `toISOString`
      text of the source) and the id exactly; the corrected cursor gives back the row's
      whole position. */
  lemma DecodeEncode(k: Key, p: Precision)
    ensures Decode(Encode(k, p), p) == Success(Truncate(k, p))
    ensures p == Microseconds ==> Decode(Encode(k, p), p) == Success(k)
  {
    var a := IntToString(TokenTime(k, p));
    var token := Encode(k, p);
    IntToStringDigits(TokenTime(k, p));
    assert '.' !in a by {
      assert forall i | 0 <= i < |a| :: a[i] == '-' || IsDigit(a[i]);
    }
    assert token[|a|] == '.' && token[..|a|] == a;
    IndexOfAt(token, '.', |a|);
    assert token[|a| + 1..] == NatToString(k.id);
    ParseIntRoundTrip(TokenTime(k, p));
    NatToStringRoundTrip(k.id);
  }

  /** Two rows get the same token exactly when they agree on the kept part of their
      position; the corrected cursor tells every two rows apart. */
  lemma EncodeInjective(k1: Key, k2: Key, p: Precision)
    ensures Encode(k1, p) == Encode(k2, p) <==> Truncate(k1, p) == Truncate(k2, p)
    ensures p == Microseconds ==> (Encode(k1, p) == Encode(k2, p) <==> k1 == k2)
  {
    DecodeEncode(k1, p);
    DecodeEncode(k2, p);
    if Truncate(k1, p) == Truncate(k2, p) {
      assert TokenTime(k1, p) == TokenTime(k2, p);
    }
  }

  /** `buildCursorWhere`: an absent or empty cursor filters nothing (the first page); a
      token that does not decode is an error that nothing catches. */
  function CursorWhere(cursor: Option<string>, p: Precision): (r: Result<Option<Key>, CursorError>)
    ensures (cursor.None? || cursor == Some("")) ==> r == Success(None)
    ensures cursor.Some? && cursor.value != "" ==>
      (r.Failure? <==> Decode(cursor.value, p).Failure?)
      && (r.Success? ==> r.value == Some(Decode(cursor.value, p).value))
  {
    if cursor.None? || cursor.value == "" then Success(None)
    else
      match Decode(cursor.value, p)
      case Success(k) => Success(Some(k))
      case Failure(e) => Failure(e)
  }

  /** The filter a row must pass: created strictly earlier, or at the same time with a
      smaller id. */
  predicate Passes(row: Key, where: Option<Key>)
  {
    where.None? || Less(row, where.value)
  }

  /** The cursor made from a row lets through only rows after it in descending order, and
      never the row itself. When the row's creation time is kept whole, it lets through
      exactly the rows after it. As written, a row created at a time that is not a whole
      millisecond gives a cursor that also stops every later row created at that same time:
      the filter compares the full column with the truncated instant. */
  lemma FilterOfRow(k: Key, row: Key, p: Precision)
    ensures CursorWhere(Some(Encode(k, p)), p) == Success(Some(Truncate(k, p)))
    ensures !Passes(k, Some(Truncate(k, p)))
    ensures Passes(row, Some(Truncate(k, p))) ==> Less(row, k)
    ensures Exact(k, p) ==> (Passes(row, Some(Truncate(k, p))) <==> row != k && !Less(k, row))
    ensures !Exact(k, p) && row.createdAt == k.createdAt ==> !Passes(row, Some(Truncate(k, p)))
  {
    DecodeEncode(k, p);
  }

  /** A token that is not an encoded cursor, such as "abc", is an error. */
  lemma MalformedTokenFails(p: Precision)
    ensures CursorWhere(Some("abc"), p).Failure?
  {
    assert IndexOf("abc", '.') == None;
  }
}

=== FILE: cursor_navigation.dfy ===
/** Clicking through the admin tickets listing: the page reads the link's query parameters
    and asks the listing for them, and the cursor widget turns the response into the next
    links. Following Next and Previous from the first page shows where each click lands. */
module CursorNavigation {
  import opened Wrappers
  import opened Text
  import opened Urls
  import opened Cursor
  import opened Schema
  import opened TicketListing
  import opened AdminPagination

  /** The tickets page: `page` is `parseInt` of the parameter when it is non-empty and 1
      otherwise, `jumpTo` must be exactly "true", and cursor and prevCursor are passed on.
      `prec` is what the listing's cursor tokens keep of a creation time. */
  function Visit(table: seq<Key>, url: string, total: int, prec: Precision): Result<Listing, ListError>
    requires Distinct(table)
  {
    var ps := ParseQuery(url);
    var pageText := Get(ps, "page");
    var page := if Truthy(pageText) then ParseIntPrefix(pageText.value) else Some(1);
    ListTickets(table, Get(ps, "cursor"), page, Get(ps, "prevCursor"), Get(ps, "jumpTo") == Some("true"), total, prec)
  }

  datatype Click = Previous | Next

  /** The listing as written keeps milliseconds in its tokens; the corrected one keeps the
      whole creation time. */
  function TokenPrecision(corrected: bool): Precision
  {
    if corrected then Microseconds else Milliseconds
  }

  /** The link a click follows: the widget's Next link, or its Previous link as written or
      as corrected; a disabled button (or a failed request) leaves the browser where it is.
      The corrected site also uses the corrected cursor tokens. */
  function Follow(base: string, table: seq<Key>, total: int, url: string, click: Click, corrected: bool): string
    requires Distinct(table)
  {
    match Visit(table, url, total, TokenPrecision(corrected))
    case Failure(_) => url
    case Success(l) => Clicked(base, l.pagination, click, corrected).GetOr(url)
  }

  /** The link a button offers, if it is enabled. */
  function Clicked(base: string, pg: Pagination, click: Click, corrected: bool): Option<string>
  {
    if click == Next then NextLink(base, pg)
    else if corrected then CorrectedPrevLink(base, pg)
    else PrevLink(base, pg)
  }

  /** Where a sequence of clicks leads from `url`. */
  function Walk(base: string, table: seq<Key>, total: int, url: string, clicks: seq<Click>, corrected: bool): string
    requires Distinct(table)
    decreases |clicks|
  {
    if clicks == [] then url
    else Walk(base, table, total, Follow(base, table, total, url, clicks[0], corrected), clicks[1..], corrected)
  }

  predicate PlainBase(base: string)
  {
    '?' !in base && '#' !in base
  }

  // ---- What one link shows -----------------------------------------------------------------

  /** The bare path shows the first page, with no cursors. */
  lemma VisitBase(base: string, table: seq<Key>, total: int, prec: Precision)
    requires Distinct(table) && PlainBase(base)
    ensures var o := OrderedDesc(table);
      var r := Visit(table, base, total, prec);
      && r.Success?
      && r.value.pagination.currentPage == 1
      && r.value.pagination.prevCursor == None && r.value.pagination.currentCursor == None
      && ShowsWindow(r.value, o, 0, prec)
  {
    ReadBack(base, []);
    CursorPageAt(table, 0, Some(1), None, total, prec);
  }

  /** What the page asks the listing for when it is given a cursor link. */
  lemma VisitCursorRequest(base: string, table: seq<Key>, total: int, token: string, p: int, prev: Option<string>,
                           prec: Precision)
    requires Distinct(table) && PlainBase(base)
    requires PlainValue(token)
    requires Truthy(prev) ==> PlainValue(prev.value)
    ensures exists prevArg: Option<string> | OrNull(prevArg) == OrNull(prev) ::
      Visit(table, CursorUrl(base, token, p, prev), total, prec) == ListTickets(table, Some(token), Some(p), prevArg, false, total, prec)
  {
    CursorUrlReadsBack(base, token, p, prev);
    IntToStringPlain(p);
    var ps := ParseQuery(CursorUrl(base, token, p, prev));
    var prevArg := Get(ps, "prevCursor");
    assert Visit(table, CursorUrl(base, token, p, prev), total, prec)
      == ListTickets(table, Some(token), Some(p), prevArg, false, total, prec);
  }

  /** A cursor link made from the row before position `s` shows the page that starts where
      that cursor's filter lets rows through, labelled with the link's page number, whatever
      that number is. */
  lemma VisitCursorUrl(base: string, table: seq<Key>, total: int, s: nat, p: int, prev: Option<string>, prec: Precision)
    requires Distinct(table) && PlainBase(base)
    requires 0 < s <= |OrderedDesc(table)| && p >= 1
    requires Truthy(prev) ==> PlainValue(prev.value)
    ensures var o := OrderedDesc(table);
      var r := Visit(table, CursorUrl(base, Encode(o[s - 1], prec), p, prev), total, prec);
      r.Success? && ShowsCursorPage(r.value, o, ResumeAt(o, s, prec), Encode(o[s - 1], prec), p, prev, prec)
  {
    var o := OrderedDesc(table);
    var token := Encode(o[s - 1], prec);
    TokenPlain(o[s - 1], prec);
    VisitCursorRequest(base, table, total, token, p, prev, prec);
    var prevArg: Option<string> :| OrNull(prevArg) == OrNull(prev) &&
      Visit(table, CursorUrl(base, token, p, prev), total, prec) == ListTickets(table, Some(token), Some(p), prevArg, false, total, prec);
    CursorPageAt(table, s, Some(p), prevArg, total, prec);
  }

  /** The arguments of a cursor link the page reads back as they were written: a base path
      without a query, a cursor made from the row before position `s`, a page number and a
      plain way-back cursor. */
  predicate CursorLinkArgs(table: seq<Key>, base: string, s: nat, p: int, prev: Option<string>)
  {
    Distinct(table) && PlainBase(base) && 0 < s <= |table| && p >= 1 && (Truthy(prev) ==> PlainValue(prev.value))
  }

  /** `l` is the page whose rows start at `r`, labelled page `p`, with `here` as its current
      cursor and the link's way-back cursor passed on. */
  predicate ShowsCursorPage(l: Listing, o: seq<Key>, r: nat, here: string, p: int, prev: Option<string>, prec: Precision)
  {
    && r <= |o|
    && ShowsWindow(l, o, r, prec)
    && l.pagination.currentPage == p
    && l.pagination.currentCursor == Some(here)
    && l.pagination.prevCursor == OrNull(prev)
  }

  /** A click on a cursor link follows the widget of the page that link shows. */
  lemma FollowCursorUrl(base: string, table: seq<Key>, total: int, s: nat, p: int, prev: Option<string>,
                        click: Click, corrected: bool, prec: Precision)
    requires CursorLinkArgs(table, base, s, p, prev) && prec == TokenPrecision(corrected)
    ensures var o := OrderedDesc(table);
      var url := CursorUrl(base, Encode(o[s - 1], prec), p, prev);
      var r := Visit(table, url, total, prec);
      && r.Success?
      && ShowsCursorPage(r.value, o, ResumeAt(o, s, prec), Encode(o[s - 1], prec), p, prev, prec)
      && Follow(base, table, total, url, click, corrected) == Clicked(base, r.value.pagination, click, corrected).GetOr(url)
  {
    VisitCursorUrl(base, table, total, s, p, prev, prec);
  }

  /** A jump link shows the listing's jump to that page. */
  lemma VisitJumpUrl(base: string, table: seq<Key>, total: int, p: int, prec: Precision)
    requires Distinct(table) && PlainBase(base) && p >= 1
    ensures Visit(table, JumpUrl(base, p), total, prec) == JumpListing(OrderedDesc(table), p, total, prec)
  {
    JumpUrlReadsBack(base, p);
    IntToStringPlain(p);
  }

  // ---- The Previous link as written --------------------------------------------------------

  /** The clicks of the walk below, one at a time. */
  lemma NextFromFirst(base: string, table: seq<Key>, total: int)
    requires Distinct(table) && PlainBase(base) && |table| > PageSize
    ensures var o := OrderedDesc(table);
      Follow(base, table, total, base, Next, false) == CursorUrl(base, Encode(o[PageSize - 1], Milliseconds), 2, None)
  {
    VisitBase(base, table, total, Milliseconds);
  }

  lemma ClickFromCursorUrl(base: string, table: seq<Key>, total: int, s: nat, p: int, prev: Option<string>, click: Click)
    requires Distinct(table) && PlainBase(base)
    requires 0 < s <= |table| && p >= 1
    requires Truthy(prev) ==> PlainValue(prev.value)
    ensures var o := OrderedDesc(table);
      var here := Encode(o[s - 1], Milliseconds);
      var r := ResumeAt(o, s, Milliseconds);
      && (click == Next && r + PageSize < |o| ==>
            Follow(base, table, total, CursorUrl(base, here, p, prev), click, false)
            == CursorUrl(base, Encode(o[r + PageSize - 1], Milliseconds), p + 1, Some(here)))
      && (click == Previous && p > 1 && Truthy(prev) ==>
            Follow(base, table, total, CursorUrl(base, here, p, prev), click, false)
            == CursorUrl(base, prev.value, p - 1, Some(here)))
  {
    var o := OrderedDesc(table);
    if click == Next && ResumeAt(o, s, Milliseconds) + PageSize < |o| {
      NextFromCursorUrl(base, table, total, s, p, prev);
    } else if click == Previous && p > 1 && Truthy(prev) {
      PreviousFromCursorUrl(base, table, total, s, p, prev);
    }
  }

  lemma NextFromCursorUrl(base: string, table: seq<Key>, total: int, s: nat, p: int, prev: Option<string>)
    requires CursorLinkArgs(table, base, s, p, prev)
    requires ResumeAt(OrderedDesc(table), s, Milliseconds) + PageSize < |OrderedDesc(table)|
    ensures var o := OrderedDesc(table);
      var here := Encode(o[s - 1], Milliseconds);
      var r := ResumeAt(o, s, Milliseconds);
      Follow(base, table, total, CursorUrl(base, here, p, prev), Next, false)
      == CursorUrl(base, Encode(o[r + PageSize - 1], Milliseconds), p + 1, Some(here))
  {
    var l := CursorUrlListing(base, table, total, s, p, prev, Milliseconds);
    NextFromCursorPage(base, table, total, CursorUrl(base, Encode(OrderedDesc(table)[s - 1], Milliseconds), p, prev), l,
      ResumeAt(OrderedDesc(table), s, Milliseconds), Encode(OrderedDesc(table)[s - 1], Milliseconds), p, prev);
  }

  /** The listing a cursor link shows, named. */
  lemma CursorUrlListing(base: string, table: seq<Key>, total: int, s: nat, p: int, prev: Option<string>, prec: Precision)
    returns (l: Listing)
    requires Distinct(table) && PlainBase(base)
    requires 0 < s <= |OrderedDesc(table)| && p >= 1
    requires Truthy(prev) ==> PlainValue(prev.value)
    ensures var o := OrderedDesc(table);
      && Visit(table, CursorUrl(base, Encode(o[s - 1], prec), p, prev), total, prec) == Success(l)
      && ShowsCursorPage(l, o, ResumeAt(o, s, prec), Encode(o[s - 1], prec), p, prev, prec)
  {
    VisitCursorUrl(base, table, total, s, p, prev, prec);
    l := Visit(table, CursorUrl(base, Encode(OrderedDesc(table)[s - 1], prec), p, prev), total, prec).value;
  }

  /** Next as written from whatever link shows a cursor page with rows after it. */
  lemma NextFromCursorPage(base: string, table: seq<Key>, total: int, url: string, l: Listing,
                           r: nat, here: string, p: int, prev: Option<string>)
    requires Distinct(table) && Visit(table, url, total, Milliseconds) == Success(l)
    requires ShowsCursorPage(l, OrderedDesc(table), r, here, p, prev, Milliseconds) && r + PageSize < |OrderedDesc(table)|
    ensures Follow(base, table, total, url, Next, false)
      == CursorUrl(base, Encode(OrderedDesc(table)[r + PageSize - 1], Milliseconds), p + 1, Some(here))
  {
    FollowOf(base, table, total, url, Next, false, l, Milliseconds);
    CursorPageClicksAsWritten(base, OrderedDesc(table), r, here, p, prev, l, Next);
  }

  lemma PreviousFromCursorUrl(base: string, table: seq<Key>, total: int, s: nat, p: int, prev: Option<string>)
    requires CursorLinkArgs(table, base, s, p, prev) && p > 1 && Truthy(prev)
    ensures var o := OrderedDesc(table);
      var here := Encode(o[s - 1], Milliseconds);
      Follow(base, table, total, CursorUrl(base, here, p, prev), Previous, false)
      == CursorUrl(base, prev.value, p - 1, Some(here))
  {
    var o := OrderedDesc(table);
    var here := Encode(o[s - 1], Milliseconds);
    FollowCursorUrl(base, table, total, s, p, prev, Previous, false, Milliseconds);
    var l := Visit(table, CursorUrl(base, here, p, prev), total, Milliseconds).value;
    CursorPageClicksAsWritten(base, o, ResumeAt(o, s, Milliseconds), here, p, prev, l, Previous);
  }

  /** The widget as written on a cursor page whose rows start at `r`. */
  lemma CursorPageClicksAsWritten(base: string, o: seq<Key>, r: nat, here: string, p: int, prev: Option<string>,
                                  l: Listing, click: Click)
    ensures ShowsCursorPage(l, o, r, here, p, prev, Milliseconds) ==>
      && (click == Next && r + PageSize < |o| ==>
            Clicked(base, l.pagination, click, false)
            == Some(CursorUrl(base, Encode(o[r + PageSize - 1], Milliseconds), p + 1, Some(here))))
      && (click == Previous && p > 1 && Truthy(prev) ==>
            Clicked(base, l.pagination, click, false) == Some(CursorUrl(base, prev.value, p - 1, Some(here))))
  {
    if ShowsCursorPage(l, o, r, here, p, prev, Milliseconds) {
      if click == Next && r + PageSize < |o| {
        NextClicked(base, l.pagination, false);
      } else if click == Previous && p > 1 && Truthy(prev) {
        PreviousClicked(base, l.pagination);
      }
    }
  }

  /** Next on a page with more rows follows its next cursor, one page higher, recording the
      current cursor as the way back. */
  lemma NextClicked(base: string, pg: Pagination, corrected: bool)
    ensures pg.hasMore && pg.nextCursor.Some? && pg.nextCursor.value != "" ==>
      Clicked(base, pg, Next, corrected) == Some(CursorUrl(base, pg.nextCursor.value, pg.currentPage + 1, pg.currentCursor))
  {
  }

  /** Previous as written follows the recorded way-back cursor, one page lower, recording
      the current cursor as the way back. */
  lemma PreviousClicked(base: string, pg: Pagination)
    ensures pg.currentPage > 1 && pg.currentCursor.Some? && Truthy(pg.prevCursor) ==>
      Clicked(base, pg, Previous, false) == Some(CursorUrl(base, pg.prevCursor.value, pg.currentPage - 1, pg.currentCursor))
  {
  }

  lemma WalkOfFour(base: string, table: seq<Key>, total: int, u0: string, u1: string, u2: string, u3: string, u4: string)
    requires Distinct(table)
    requires Follow(base, table, total, u0, Next, false) == u1
    requires Follow(base, table, total, u1, Next, false) == u2
    requires Follow(base, table, total, u2, Previous, false) == u3
    requires Follow(base, table, total, u3, Previous, false) == u4
    ensures Walk(base, table, total, u0, [Next, Next, Previous, Previous], false) == u4
  {
    assert [Next, Next, Previous, Previous][1..] == [Next, Previous, Previous];
    assert [Next, Previous, Previous][1..] == [Previous, Previous];
    assert [Previous, Previous][1..] == [Previous];
    assert [Previous][1..] == [];
  }

  /** Where the third page of the walk as written begins: 20 rows after where the second
      page's cursor lets rows through. */
  function ThirdStart(o: seq<Key>): nat
    requires |o| > PageSize
  {
    ResumeAt(o, PageSize, Milliseconds) + PageSize
  }

  /** The links of the walk below are links the page reads back as written. */
  lemma BackTwiceArgs(base: string, table: seq<Key>)
    requires Distinct(table) && PlainBase(base)
    requires |table| > PageSize && ThirdStart(OrderedDesc(table)) < |table|
    ensures var o := OrderedDesc(table);
      var c20 := Encode(o[PageSize - 1], Milliseconds);
      var c40 := Encode(o[ThirdStart(o) - 1], Milliseconds);
      && CursorLinkArgs(table, base, PageSize, 2, None)
      && ResumeAt(o, PageSize, Milliseconds) + PageSize < |o|
      && CursorLinkArgs(table, base, ThirdStart(o), 3, Some(c20))
      && CursorLinkArgs(table, base, PageSize, 2, Some(c40))
  {
    var o := OrderedDesc(table);
    TokenPlain(o[PageSize - 1], Milliseconds);
    TokenPlain(o[ThirdStart(o) - 1], Milliseconds);
  }

  /** The second step of that walk: Next from page 2 leads to page 3. */
  lemma SecondStepAsWritten(base: string, table: seq<Key>, total: int)
    requires Distinct(table) && PlainBase(base)
    requires |table| > PageSize && ThirdStart(OrderedDesc(table)) < |table|
    ensures var o := OrderedDesc(table);
      var c20 := Encode(o[PageSize - 1], Milliseconds);
      var c40 := Encode(o[ThirdStart(o) - 1], Milliseconds);
      Follow(base, table, total, CursorUrl(base, c20, 2, None), Next, false) == CursorUrl(base, c40, 3, Some(c20))
  {
    BackTwiceArgs(base, table);
    NextFromCursorUrl(base, table, total, PageSize, 2, None);
  }

  /** The third step: Previous from page 3 goes back to the cursor of page 2. */
  lemma ThirdStepAsWritten(base: string, table: seq<Key>, total: int)
    requires Distinct(table) && PlainBase(base)
    requires |table| > PageSize && ThirdStart(OrderedDesc(table)) < |table|
    ensures var o := OrderedDesc(table);
      var c20 := Encode(o[PageSize - 1], Milliseconds);
      var c40 := Encode(o[ThirdStart(o) - 1], Milliseconds);
      Follow(base, table, total, CursorUrl(base, c40, 3, Some(c20)), Previous, false) == CursorUrl(base, c20, 2, Some(c40))
  {
    var o := OrderedDesc(table);
    BackTwiceArgs(base, table);
    PreviousFromCursorUrl(base, table, total, ThirdStart(o), 3, Some(Encode(o[PageSize - 1], Milliseconds)));
  }

  /** The fourth step: Previous from that page goes to the cursor the third page carried. */
  lemma FourthStepAsWritten(base: string, table: seq<Key>, total: int)
    requires Distinct(table) && PlainBase(base)
    requires |table| > PageSize && ThirdStart(OrderedDesc(table)) < |table|
    ensures var o := OrderedDesc(table);
      var c20 := Encode(o[PageSize - 1], Milliseconds);
      var c40 := Encode(o[ThirdStart(o) - 1], Milliseconds);
      Follow(base, table, total, CursorUrl(base, c20, 2, Some(c40)), Previous, false) == CursorUrl(base, c40, 1, Some(c20))
  {
    var o := OrderedDesc(table);
    BackTwiceArgs(base, table);
    PreviousFromCursorUrl(base, table, total, PageSize, 2, Some(Encode(o[ThirdStart(o) - 1], Milliseconds)));
  }

  /** The link Next, Next, Previous, Previous leads to: labelled page 1, carrying the cursor
      that ends page 2. */
  lemma BackTwiceLink(base: string, table: seq<Key>, total: int)
    requires Distinct(table) && PlainBase(base)
    requires |table| > PageSize && ThirdStart(OrderedDesc(table)) < |table|
    ensures var o := OrderedDesc(table);
      Walk(base, table, total, base, [Next, Next, Previous, Previous], false)
      == CursorUrl(base, Encode(o[ThirdStart(o) - 1], Milliseconds), 1, Some(Encode(o[PageSize - 1], Milliseconds)))
  {
    var o := OrderedDesc(table);
    var c20 := Encode(o[PageSize - 1], Milliseconds);
    var c40 := Encode(o[ThirdStart(o) - 1], Milliseconds);
    NextFromFirst(base, table, total);
    SecondStepAsWritten(base, table, total);
    ThirdStepAsWritten(base, table, total);
    FourthStepAsWritten(base, table, total);
    WalkOfFour(base, table, total, base, CursorUrl(base, c20, 2, None), CursorUrl(base, c40, 3, Some(c20)),
               CursorUrl(base, c20, 2, Some(c40)), CursorUrl(base, c40, 1, Some(c20)));
  }

  /** Next, Next, Previous, Previous from the first page of a listing with a third page ends
      on a link labelled page 1 that shows the third page: the second Previous follows the
      cursor of page 3, because the first Previous recorded page 3's cursor as the way back. */
  lemma BackTwiceShowsWrongPage(base: string, table: seq<Key>, total: int)
    requires Distinct(table) && PlainBase(base)
    requires |table| > PageSize && ThirdStart(OrderedDesc(table)) < |table|
    ensures var o := OrderedDesc(table);
      var pages := PagesFrom(o, 0, Milliseconds);
      var r := Visit(table, Walk(base, table, total, base, [Next, Next, Previous, Previous], false), total, Milliseconds);
      && r.Success?
      && r.value.pagination.currentPage == 1
      && |pages| > 2
      && r.value.tickets == pages[2]
      && r.value.tickets != pages[0]
  {
    var o := OrderedDesc(table);
    TokenPlain(o[PageSize - 1], Milliseconds);
    BackTwiceLink(base, table, total);
    VisitCursorUrl(base, table, total, ThirdStart(o), 1, Some(Encode(o[PageSize - 1], Milliseconds)), Milliseconds);
    ThirdPageIsNotFirst(table);
  }

  /** The third page of the walk as written is not its first. */
  lemma ThirdPageIsNotFirst(table: seq<Key>)
    requires Distinct(table) && |table| > PageSize && ThirdStart(OrderedDesc(table)) < |table|
    ensures var o := OrderedDesc(table);
      var pages := PagesFrom(o, 0, Milliseconds);
      && |pages| > 2
      && pages[2] == Window(o, ResumeAt(o, ThirdStart(o), Milliseconds))
      && pages[2] != pages[0]
  {
    var o := OrderedDesc(table);
    OrderedDescSorts(table);
    var p := Milliseconds;
    var r1 := ResumeAt(o, PageSize, p);
    var t := ThirdStart(o);
    var r2 := ResumeAt(o, t, p);
    var pages := PagesFrom(o, 0, p);
    assert pages == [Window(o, 0)] + PagesFrom(o, r1, p);
    assert PagesFrom(o, r1, p) == [Window(o, r1)] + PagesFrom(o, r2, p);
    assert pages[2] == PagesFrom(o, r2, p)[0] == Window(o, r2);
    assert Window(o, 0)[0] == o[0];
    if r2 < |o| {
      assert Window(o, r2)[0] == o[r2] != o[0];
    }
  }

  // ---- The Previous link corrected ---------------------------------------------------------

  /** Previous as an offset jump to the page below: the jump shows exactly the rows of that
      page of the walk. */
  function CorrectedPrevLink(base: string, pg: Pagination): (link: Option<string>)
    ensures link.Some? <==> pg.currentPage > 1
    ensures link.Some? ==> link.value == JumpUrl(base, pg.currentPage - 1)
  {
    if HasPrevious(pg) then Some(JumpUrl(base, pg.currentPage - 1)) else None
  }

  /** The links a walk can reach: the bare path, a cursor link whose page number matches the
      position of its cursor, or a jump to an existing page. */
  datatype Place = First | ByCursor(start: nat, page: int, prev: Option<string>) | ByJump(page: int)

  function PageOf(pl: Place): int
  {
    match pl
    case First => 1
    case ByCursor(_, p, _) => p
    case ByJump(p) => p
  }

  predicate Reached(o: seq<Key>, pl: Place)
  {
    match pl
    case First => true
    case ByCursor(s, p, prev) =>
      p >= 2 && s == PageSize * (p - 1) && 0 < s < |o| && (Truthy(prev) ==> PlainValue(prev.value))
    case ByJump(p) => p >= 1 && PageSize * (p - 1) < |o|
  }

  function UrlOf(base: string, o: seq<Key>, pl: Place): string
    requires pl.ByCursor? ==> 0 < pl.start <= |o|
  {
    match pl
    case First => base
    case ByCursor(s, p, prev) => CursorUrl(base, Encode(o[s - 1], Microseconds), p, prev)
    case ByJump(p) => JumpUrl(base, p)
  }

  /** Where one click with the corrected widget leads when the listing's count is exact;
      `MovedBy` takes the count into account. */
  function Moved(o: seq<Key>, pl: Place, click: Click): (pl': Place)
    requires pl.ByCursor? ==> 0 < pl.start <= |o|
    requires pl.ByJump? ==> pl.page >= 1
  {
    match click
    case Next =>
      (match pl
       case First => if PageSize < |o| then ByCursor(PageSize, 2, None) else First
       case ByCursor(s, p, prev) =>
         if s + PageSize < |o| then ByCursor(s + PageSize, p + 1, Some(Encode(o[s - 1], Microseconds))) else pl
       case ByJump(p) => if PageSize * p < |o| then ByCursor(PageSize * p, p + 1, None) else pl)
    case Previous =>
      (match pl
       case First => First
       case ByCursor(_, p, _) => ByJump(p - 1)
       case ByJump(p) => if p > 1 then ByJump(p - 1) else pl)
  }

  /** A click from a reachable place reaches a place. */
  lemma MovedReached(o: seq<Key>, pl: Place, click: Click)
    requires Reached(o, pl)
    ensures Reached(o, Moved(o, pl, click))
  {
    if pl.ByCursor? {
      TokenPlain(o[pl.start - 1], Microseconds);
    }
  }

  /** One corrected click moves one page: Previous down to page 1 at the lowest, Next up
      exactly when rows lie beyond the current page. */
  lemma MovedPage(o: seq<Key>, pl: Place, click: Click)
    requires Reached(o, pl)
    ensures click == Previous ==> PageOf(Moved(o, pl, click)) == (if PageOf(pl) > 1 then PageOf(pl) - 1 else 1)
    ensures click == Next ==>
      PageOf(Moved(o, pl, click)) == (if PageSize * PageOf(pl) < |o| then PageOf(pl) + 1 else PageOf(pl))
  {
  }

  /** Where one click with the corrected widget leads when the listing's total is `total`,
      the count the page takes from the cached estimate. Only a jump page consults it: its
      Next is offered while the count says more pages follow, and then resumes after the
      page's last row, wherever the rows end. Elsewhere the count changes nothing. */
  function MovedBy(o: seq<Key>, total: int, pl: Place, click: Click): (pl': Place)
    requires Reached(o, pl)
    ensures pl'.ByCursor? ==> 0 < pl'.start <= |o|
    ensures !(pl.ByJump? && click == Next) ==> pl' == Moved(o, pl, click)
  {
    match pl
    case ByJump(p) =>
      if click == Next then
        if p < CeilDiv(total, PageSize) then ByCursor(Min(PageSize * p, |o|), p + 1, None) else pl
      else Moved(o, pl, click)
    case _ => Moved(o, pl, click)
  }

  /** A place from which every corrected click leads to a place: a jump to the last page
      must not offer Next, which it does when the count exceeds the rows. */
  predicate Walkable(o: seq<Key>, total: int, pl: Place)
  {
    && Reached(o, pl)
    && (pl.ByJump? && PageSize * pl.page >= |o| ==> pl.page >= CeilDiv(total, PageSize))
  }

  /** With an exact count the count changes nothing, and every reachable place is walkable. */
  lemma MovedByExact(o: seq<Key>, pl: Place, click: Click)
    requires Reached(o, pl)
    ensures MovedBy(o, |o|, pl, click) == Moved(o, pl, click)
    ensures Walkable(o, |o|, pl)
  {
    if pl.ByJump? {
      var q := CeilDiv(|o|, PageSize);
      assert pl.page < q <==> PageSize * pl.page < |o|;
    }
  }

  /** Whatever the count, a corrected click keeps a walkable place walkable; the first page
      is walkable. */
  lemma MovedByWalkable(o: seq<Key>, total: int, pl: Place, click: Click)
    requires Walkable(o, total, pl)
    ensures Walkable(o, total, MovedBy(o, total, pl, click))
    ensures Walkable(o, total, First)
  {
    MovedReached(o, pl, click);
  }

  /** With the corrected cursor, page m (from 0) of the walk from `start` exists as long as
      its first row does. */
  lemma {:induction false} PagesCover(o: seq<Key>, start: nat, m: nat)
    requires Descending(o)
    requires start + PageSize * m < |o| || (m == 0 && start <= |o|)
    ensures m < |PagesFrom(o, start, Microseconds)|
    decreases m
  {
    if m > 0 {
      ResumeAtExact(o, start + PageSize, Microseconds);
      PagesCover(o, start + PageSize, m - 1);
    }
  }

  /** With the corrected cursor, the offset window of page p is page p of the walk. */
  lemma WindowIsPage(o: seq<Key>, p: int)
    requires Descending(o)
    requires p == 1 || (p >= 1 && PageSize * (p - 1) < |o|)
    ensures p - 1 < |PagesFrom(o, 0, Microseconds)|
    ensures PagesFrom(o, 0, Microseconds)[p - 1] == Window(o, PageSize * (p - 1))
  {
    PagesCover(o, 0, p - 1);
    PagesFromAt(o, 0, p - 1, Microseconds);
  }

  /** The jump to an existing page holds its window, and its next cursor, when the count
      gives it one, is the cursor of the page's last row: the first row of the page after it,
      or the end of the listing when the page is the last. */
  lemma JumpPage(o: seq<Key>, p: int, total: int, prec: Precision)
    requires p >= 1 && PageSize * (p - 1) < |o|
    ensures var r := JumpListing(o, p, total, prec);
      && r.Success?
      && r.value.pagination.currentPage == p
      && r.value.pagination.currentCursor == None
      && r.value.pagination.hasMore == (p < CeilDiv(total, PageSize))
      && r.value.tickets == Window(o, PageSize * (p - 1))
      && (r.value.pagination.nextCursor.Some? <==> r.value.pagination.hasMore)
      && (r.value.pagination.hasMore ==> r.value.pagination.nextCursor == CursorAt(o, Min(PageSize * p, |o|), prec))
  {
    JumpNextCursor(o, p, total, prec);
  }

  lemma JumpNextCursor(o: seq<Key>, p: int, total: int, prec: Precision)
    requires p >= 1 && PageSize * (p - 1) < |o|
    ensures var r := JumpListing(o, p, total, prec);
      && r.Success?
      && r.value.tickets == Window(o, PageSize * (p - 1))
      && (r.value.pagination.hasMore ==> r.value.pagination.nextCursor == CursorAt(o, Min(PageSize * p, |o|), prec))
  {
    var start := (p - 1) * PageSize;
    NextPageStart(0, p);
    assert start + PageSize == PageSize * p;
    var e := Min(PageSize * p, |o|);
    var r := JumpListing(o, p, total, prec);
    assert r.value.tickets == o[start..e];
    assert r.value.tickets[|r.value.tickets| - 1] == o[e - 1];
  }

  /** A jump link to an existing page shows that page. */
  lemma VisitJumpPage(base: string, table: seq<Key>, total: int, p: int, prec: Precision)
    requires Distinct(table) && PlainBase(base) && p >= 1 && PageSize * (p - 1) < |table|
    ensures var o := OrderedDesc(table);
      var r := Visit(table, JumpUrl(base, p), total, prec);
      && r.Success?
      && r.value.pagination.currentPage == p
      && r.value.pagination.currentCursor == None
      && r.value.pagination.hasMore == (p < CeilDiv(total, PageSize))
      && r.value.tickets == Window(o, PageSize * (p - 1))
      && (r.value.pagination.nextCursor.Some? <==> r.value.pagination.hasMore)
      && (r.value.pagination.hasMore ==> r.value.pagination.nextCursor == CursorAt(o, Min(PageSize * p, |o|), prec))
  {
    VisitJumpUrl(base, table, total, p, prec);
    JumpPage(OrderedDesc(table), p, total, prec);
  }

  /** A click follows the link the response's widget offers. */
  lemma FollowOf(base: string, table: seq<Key>, total: int, url: string, click: Click, corrected: bool, l: Listing,
                  prec: Precision)
    requires Distinct(table) && prec == TokenPrecision(corrected) && Visit(table, url, total, prec) == Success(l)
    ensures Follow(base, table, total, url, click, corrected) == Clicked(base, l.pagination, click, corrected).GetOr(url)
  {
  }

  /** Every reachable link shows the page its number names. */
  lemma ShowsItsPage(base: string, table: seq<Key>, total: int, pl: Place)
    requires Distinct(table) && PlainBase(base) && Reached(OrderedDesc(table), pl)
    ensures var o := OrderedDesc(table);
      var r := Visit(table, UrlOf(base, o, pl), total, Microseconds);
      && r.Success?
      && r.value.pagination.currentPage == PageOf(pl)
      && r.value.tickets == Window(o, PageSize * (PageOf(pl) - 1))
  {
    if pl.First? {
      ShowsFirstPlace(base, table, total, pl);
    } else if pl.ByCursor? {
      ShowsCursorPlace(base, table, total, pl);
    } else {
      ShowsJumpPlace(base, table, total, pl);
    }
  }

  lemma ShowsFirstPlace(base: string, table: seq<Key>, total: int, pl: Place)
    requires Distinct(table) && PlainBase(base) && pl.First?
    ensures var o := OrderedDesc(table);
      var r := Visit(table, UrlOf(base, o, pl), total, Microseconds);
      && r.Success?
      && r.value.pagination.currentPage == PageOf(pl)
      && r.value.tickets == Window(o, PageSize * (PageOf(pl) - 1))
  {
    VisitBase(base, table, total, Microseconds);
  }

  lemma ShowsCursorPlace(base: string, table: seq<Key>, total: int, pl: Place)
    requires Distinct(table) && PlainBase(base) && Reached(OrderedDesc(table), pl) && pl.ByCursor?
    ensures var o := OrderedDesc(table);
      var r := Visit(table, UrlOf(base, o, pl), total, Microseconds);
      && r.Success?
      && r.value.pagination.currentPage == PageOf(pl)
      && r.value.tickets == Window(o, PageSize * (PageOf(pl) - 1))
  {
    ShowsCursorLink(base, table, total, pl.start, pl.page, pl.prev);
  }

  /** A reachable cursor link shows the window its cursor names, labelled with its page. */
  lemma ShowsCursorLink(base: string, table: seq<Key>, total: int, s: nat, p: int, prev: Option<string>)
    requires Distinct(table) && PlainBase(base) && Reached(OrderedDesc(table), ByCursor(s, p, prev))
    ensures var o := OrderedDesc(table);
      var pl := ByCursor(s, p, prev);
      var r := Visit(table, UrlOf(base, o, pl), total, Microseconds);
      && r.Success?
      && r.value.pagination.currentPage == PageOf(pl)
      && r.value.tickets == Window(o, PageSize * (PageOf(pl) - 1))
  {
    var o := OrderedDesc(table);
    var l := CursorUrlListing(base, table, total, s, p, prev, Microseconds);
    ResumesAtRow(table, s);
    assert UrlOf(base, o, ByCursor(s, p, prev)) == CursorUrl(base, Encode(o[s - 1], Microseconds), p, prev);
  }

  lemma ShowsJumpPlace(base: string, table: seq<Key>, total: int, pl: Place)
    requires Distinct(table) && PlainBase(base) && Reached(OrderedDesc(table), pl) && pl.ByJump?
    ensures var o := OrderedDesc(table);
      var r := Visit(table, UrlOf(base, o, pl), total, Microseconds);
      && r.Success?
      && r.value.pagination.currentPage == PageOf(pl)
      && r.value.tickets == Window(o, PageSize * (PageOf(pl) - 1))
  {
    VisitJumpPage(base, table, total, pl.page, Microseconds);
  }

  /** From the first page, whatever the count, a corrected click leads where `Moved` says. */
  lemma StepFromFirst(base: string, table: seq<Key>, total: int, click: Click)
    requires Distinct(table) && PlainBase(base)
    ensures var o := OrderedDesc(table);
      Follow(base, table, total, base, click, true) == UrlOf(base, o, Moved(o, First, click))
  {
    var o := OrderedDesc(table);
    VisitBase(base, table, total, Microseconds);
    var l := Visit(table, base, total, Microseconds).value;
    FollowOf(base, table, total, base, click, true, l, Microseconds);
    FirstPageClicks(base, o, l, click);
  }

  /** The corrected widget on the first page: Next leads to the second page's cursor link
      when there is one; Previous stays. */
  lemma FirstPageClicks(base: string, o: seq<Key>, l: Listing, click: Click)
    requires ShowsWindow(l, o, 0, Microseconds) && l.pagination.currentPage == 1
    requires l.pagination.currentCursor == None
    ensures Clicked(base, l.pagination, click, true).GetOr(base) == UrlOf(base, o, Moved(o, First, click))
  {
    if click == Next && PageSize < |o| {
      NextClicked(base, l.pagination, true);
    }
  }

  /** The corrected widget on a cursor page: Next leads to the following cursor page when
      there is one, Previous to the jump to the page below. */
  lemma CursorPageClicks(base: string, o: seq<Key>, s: nat, p: int, prev: Option<string>, l: Listing, click: Click)
    requires Reached(o, ByCursor(s, p, prev)) && ShowsCursorPage(l, o, s, Encode(o[s - 1], Microseconds), p, prev, Microseconds)
    ensures Clicked(base, l.pagination, click, true).GetOr(UrlOf(base, o, ByCursor(s, p, prev)))
      == UrlOf(base, o, Moved(o, ByCursor(s, p, prev), click))
  {
    if click == Next {
      CursorPageNext(base, o, s, p, prev, l.pagination);
    } else {
      CursorPagePrevious(base, o, s, p, prev, l.pagination);
    }
  }

  lemma CursorPageNext(base: string, o: seq<Key>, s: nat, p: int, prev: Option<string>, pg: Pagination)
    requires Reached(o, ByCursor(s, p, prev))
    requires pg.currentPage == p && pg.currentCursor == Some(Encode(o[s - 1], Microseconds))
    requires pg.hasMore == (s + PageSize < |o|)
    requires pg.nextCursor == (if s + PageSize < |o| then CursorAt(o, s + PageSize, Microseconds) else None)
    ensures Clicked(base, pg, Next, true).GetOr(UrlOf(base, o, ByCursor(s, p, prev)))
      == UrlOf(base, o, Moved(o, ByCursor(s, p, prev), Next))
  {
    if s + PageSize < |o| {
      CursorUrlOfNext(base, o, s, p, prev);
      NextClicked(base, pg, true);
    }
  }

  /** The link the corrected Next leads to from a cursor page. */
  lemma CursorUrlOfNext(base: string, o: seq<Key>, s: nat, p: int, prev: Option<string>)
    requires 0 < s && s + PageSize < |o|
    ensures UrlOf(base, o, Moved(o, ByCursor(s, p, prev), Next))
      == CursorUrl(base, Encode(o[s + PageSize - 1], Microseconds), p + 1, Some(Encode(o[s - 1], Microseconds)))
  {
  }

  lemma CursorPagePrevious(base: string, o: seq<Key>, s: nat, p: int, prev: Option<string>, pg: Pagination)
    requires Reached(o, ByCursor(s, p, prev)) && pg.currentPage == p
    ensures Clicked(base, pg, Previous, true) == Some(UrlOf(base, o, Moved(o, ByCursor(s, p, prev), Previous)))
  {
  }

  /** From a reachable cursor link, whatever the count, a corrected click leads where
      `Moved` says. */
  lemma StepFromCursor(base: string, table: seq<Key>, total: int, s: nat, p: int, prev: Option<string>, click: Click)
    requires Distinct(table) && PlainBase(base) && Reached(OrderedDesc(table), ByCursor(s, p, prev))
    ensures var o := OrderedDesc(table);
      Follow(base, table, total, UrlOf(base, o, ByCursor(s, p, prev)), click, true)
      == UrlOf(base, o, Moved(o, ByCursor(s, p, prev), click))
  {
    var o := OrderedDesc(table);
    var url := UrlOf(base, o, ByCursor(s, p, prev));
    FollowCursorUrl(base, table, total, s, p, prev, click, true, Microseconds);
    ResumesAtRow(table, s);
    var l := Visit(table, url, total, Microseconds).value;
    CursorPageClicks(base, o, s, p, prev, l, click);
  }

  /** The corrected widget on a jump page: Next leads to the cursor page after the jump
      page's last row while the count says more pages follow, Previous to the jump to the
      page below. */
  lemma JumpPageClicks(base: string, o: seq<Key>, total: int, p: int, pg: Pagination, click: Click)
    requires Reached(o, ByJump(p))
    requires pg.currentPage == p && pg.currentCursor == None
    requires pg.hasMore == (p < CeilDiv(total, PageSize))
    requires pg.nextCursor.Some? <==> pg.hasMore
    requires pg.hasMore ==> pg.nextCursor == CursorAt(o, Min(PageSize * p, |o|), Microseconds)
    ensures Clicked(base, pg, click, true).GetOr(JumpUrl(base, p)) == UrlOf(base, o, MovedBy(o, total, ByJump(p), click))
  {
    if click == Next {
      JumpPageNext(base, o, total, p, pg);
    } else {
      JumpPagePrevious(base, o, p, pg);
    }
  }

  lemma JumpPageNext(base: string, o: seq<Key>, total: int, p: int, pg: Pagination)
    requires Reached(o, ByJump(p)) && pg.currentPage == p && pg.currentCursor == None
    requires pg.hasMore == (p < CeilDiv(total, PageSize))
    requires pg.nextCursor.Some? <==> pg.hasMore
    requires pg.hasMore ==> pg.nextCursor == CursorAt(o, Min(PageSize * p, |o|), Microseconds)
    ensures Clicked(base, pg, Next, true).GetOr(JumpUrl(base, p)) == UrlOf(base, o, MovedBy(o, total, ByJump(p), Next))
  {
    if pg.hasMore {
      JumpUrlOfNext(base, o, total, p);
      NextClicked(base, pg, true);
    }
  }

  /** The link the corrected Next leads to from a jump page the count says is not the last:
      the cursor of the page's last row, the next page number and no way-back cursor. */
  lemma JumpUrlOfNext(base: string, o: seq<Key>, total: int, p: int)
    requires Reached(o, ByJump(p)) && p < CeilDiv(total, PageSize)
    ensures var e := Min(PageSize * p, |o|);
      && 0 < e <= |o|
      && UrlOf(base, o, MovedBy(o, total, ByJump(p), Next)) == CursorUrl(base, Encode(o[e - 1], Microseconds), p + 1, None)
  {
    var e := Min(PageSize * p, |o|);
    assert MovedBy(o, total, ByJump(p), Next) == ByCursor(e, p + 1, None);
  }

  lemma JumpPagePrevious(base: string, o: seq<Key>, p: int, pg: Pagination)
    requires p >= 1 && pg.currentPage == p && pg.currentCursor == None
    ensures Clicked(base, pg, Previous, true).GetOr(JumpUrl(base, p)) == UrlOf(base, o, Moved(o, ByJump(p), Previous))
  {
  }

  /** From a jump link to an existing page, a corrected click leads where `MovedBy` says for
      the count the page was given. */
  lemma StepFromJump(base: string, table: seq<Key>, total: int, p: int, click: Click)
    requires Distinct(table) && PlainBase(base) && Reached(OrderedDesc(table), ByJump(p))
    ensures var o := OrderedDesc(table);
      Follow(base, table, total, JumpUrl(base, p), click, true) == UrlOf(base, o, MovedBy(o, total, ByJump(p), click))
  {
    var o := OrderedDesc(table);
    var url := JumpUrl(base, p);
    VisitJumpPage(base, table, total, p, Microseconds);
    var l := Visit(table, url, total, Microseconds).value;
    FollowOf(base, table, total, url, click, true, l, Microseconds);
    JumpPageClicks(base, o, total, p, l.pagination, click);
  }

  /** A count that says a jump page is the last hides its Next: the click stays on the jump
      page, even when rows follow it. */
  lemma LowCountKeepsJumpPage(base: string, table: seq<Key>, total: int, p: int)
    requires Distinct(table) && PlainBase(base) && Reached(OrderedDesc(table), ByJump(p))
    requires p >= CeilDiv(total, PageSize)
    ensures Follow(base, table, total, JumpUrl(base, p), Next, true) == JumpUrl(base, p)
  {
    StepFromJump(base, table, total, p, Next);
  }

  /** From any reachable link, one corrected click leads to the link of the place `MovedBy`
      names for the listing's count. */
  lemma StepCorrected(base: string, table: seq<Key>, total: int, pl: Place, click: Click)
    requires Distinct(table) && PlainBase(base) && Reached(OrderedDesc(table), pl)
    ensures var o := OrderedDesc(table);
      Follow(base, table, total, UrlOf(base, o, pl), click, true) == UrlOf(base, o, MovedBy(o, total, pl, click))
  {
    match pl
    case First => StepFromFirst(base, table, total, click);
    case ByCursor(s, p, prev) => StepFromCursor(base, table, total, s, p, prev, click);
    case ByJump(p) => StepFromJump(base, table, total, p, click);
  }

  /** The place a sequence of corrected clicks leads to under the count `total`. */
  function WalkPlace(o: seq<Key>, total: int, pl: Place, clicks: seq<Click>): (pl': Place)
    requires Walkable(o, total, pl)
    ensures Walkable(o, total, pl')
    decreases |clicks|
  {
    if clicks == [] then pl
    else
      MovedByWalkable(o, total, pl, clicks[0]);
      WalkPlace(o, total, MovedBy(o, total, pl, clicks[0]), clicks[1..])
  }

  lemma {:induction false} WalkCorrected(base: string, table: seq<Key>, total: int, pl: Place, clicks: seq<Click>)
    requires Distinct(table) && PlainBase(base) && Walkable(OrderedDesc(table), total, pl)
    ensures var o := OrderedDesc(table);
      Walk(base, table, total, UrlOf(base, o, pl), clicks, true) == UrlOf(base, o, WalkPlace(o, total, pl, clicks))
    decreases |clicks|
  {
    if clicks != [] {
      var o := OrderedDesc(table);
      StepCorrected(base, table, total, pl, clicks[0]);
      MovedByWalkable(o, total, pl, clicks[0]);
      WalkCorrected(base, table, total, MovedBy(o, total, pl, clicks[0]), clicks[1..]);
    }
  }

  /** With Previous corrected, every sequence of clicks from the first page ends on a link
      that shows exactly the page of the walk its number names, whatever count the listing
      was given: a low count only keeps Next on a jump page, a high one only offers it on
      jump pages that rows follow. */
  lemma CorrectedWalkShowsTruePage(base: string, table: seq<Key>, total: int, clicks: seq<Click>)
    requires Distinct(table) && PlainBase(base)
    ensures var o := OrderedDesc(table);
      var r := Visit(table, Walk(base, table, total, base, clicks, true), total, Microseconds);
      && r.Success?
      && 1 <= r.value.pagination.currentPage <= |PagesFrom(o, 0, Microseconds)|
      && r.value.tickets == PagesFrom(o, 0, Microseconds)[r.value.pagination.currentPage - 1]
  {
    var o := OrderedDesc(table);
    MovedByWalkable(o, total, First, Next);
    WalkCorrected(base, table, total, First, clicks);
    var pl := WalkPlace(o, total, First, clicks);
    ShowsItsPage(base, table, total, pl);
    PlaceIsPage(table, pl);
  }

  /** The window of a reachable place is the page of the walk its number names. */
  lemma PlaceIsPage(table: seq<Key>, pl: Place)
    requires Distinct(table) && Reached(OrderedDesc(table), pl)
    ensures var o := OrderedDesc(table);
      && 1 <= PageOf(pl) <= |PagesFrom(o, 0, Microseconds)|
      && PagesFrom(o, 0, Microseconds)[PageOf(pl) - 1] == Window(o, PageSize * (PageOf(pl) - 1))
  {
    OrderedDescSorts(table);
    WindowIsPage(OrderedDesc(table), PageOf(pl));
  }

  /** With the corrected cursor, the cursor made from the row before position `s` lets
      through exactly the rows from `s` on. */
  lemma ResumesAtRow(table: seq<Key>, s: nat)
    requires Distinct(table) && s <= |OrderedDesc(table)|
    ensures ResumeAt(OrderedDesc(table), s, Microseconds) == s
  {
    OrderedDescSorts(table);
    ResumeAtExact(OrderedDesc(table), s, Microseconds);
  }
}

=== FILE: customer_form.dfy ===
/** The checkout's contact form: ten text fields, prefilled; on submit the names and the
    e-mail are checked and the data goes on only when nothing failed; typing in a field
    clears that field's message. */
module CustomerForm {
  import opened Wrappers
  import opened Text

  datatype Field =
    | FirstName | LastName | Email | Phone
    | BillingAddressLine1 | BillingAddressLine2 | BillingCity | BillingState
    | BillingCountry | BillingPostalCode

  /** The form's values, one per field. */
  type FormData = map<Field, string>

  predicate Complete(d: FormData)
  {
    forall f: Field :: f in d
  }

  /** The values the form starts with. */
  const Initial: FormData := map[
    FirstName := "John", LastName := "Doe", Email := "john.doe@example.com",
    Phone := "+1 (555) 123-4567",
    BillingAddressLine1 := "123 Main Street", BillingAddressLine2 := "Apt 4B",
    BillingCity := "New York", BillingState := "NY", BillingCountry := "USA",
    BillingPostalCode := "10001"]

  // ---- The e-mail pattern ----------------------------------------------------------------

  /** A run the class `[^\s@]` accepts: no '@' and no white space. */
  predicate Plain(x: string)
  {
    forall k | 0 <= k < |x| :: x[k] != '@' && !IsJsSpace(x[k])
  }

  /** `/^[^\s@]+@[^\s@]+\.[^\s@]+$/` read as a language: three non-empty plain runs joined
      by '@' and '.'. */
  ghost predicate EmailShape(s: string)
  {
    exists i, j | 0 < i && i + 1 < j && j + 1 < |s| ::
      s[i] == '@' && s[j] == '.' && Plain(s[..i]) && Plain(s[i + 1..j]) && Plain(s[j + 1..])
  }

  /** The test as a scan: the first '@', plain text around it, and a '.' strictly inside
      the part after it. */
  predicate MatchesEmail(s: string)
  {
    match IndexOf(s, '@')
    case None => false
    case Some(i) =>
      var rest := s[i + 1..];
      i > 0 && Plain(s[..i]) && Plain(rest) && |rest| >= 3 &&
      match IndexOf(rest[1..], '.')
      case None => false
      case Some(k) => k + 2 < |rest|
  }

  /** The scan accepts exactly the strings the regular expression matches. */
  lemma MatchesEmailIff(s: string)
    ensures MatchesEmail(s) <==> EmailShape(s)
  {
    if MatchesEmail(s) {
      MatchIsShape(s);
    }
    if EmailShape(s) {
      var i, j :| 0 < i && i + 1 < j && j + 1 < |s| &&
        s[i] == '@' && s[j] == '.' && Plain(s[..i]) && Plain(s[i + 1..j]) && Plain(s[j + 1..]);
      ShapeMatches(s, i, j);
    }
  }

  lemma MatchIsShape(s: string)
    requires MatchesEmail(s)
    ensures EmailShape(s)
  {
    var i := IndexOf(s, '@').value;
    var rest := s[i + 1..];
    var k := IndexOf(rest[1..], '.').value;
    var j := i + 2 + k;
    assert s[j] == rest[k + 1] == '.';
    PlainSlice(rest, 0, k + 1);
    PlainSlice(rest, k + 2, |rest|);
    assert s[i + 1..j] == rest[..k + 1];
    assert s[j + 1..] == rest[k + 2..];
  }

  lemma PlainSlice(x: string, lo: nat, hi: nat)
    requires lo <= hi <= |x| && Plain(x)
    ensures Plain(x[lo..hi])
  {
    assert forall k | 0 <= k < hi - lo :: x[lo..hi][k] == x[lo + k];
  }

  lemma ShapeMatches(s: string, i: nat, j: nat)
    requires 0 < i && i + 1 < j && j + 1 < |s|
    requires s[i] == '@' && s[j] == '.' && Plain(s[..i]) && Plain(s[i + 1..j]) && Plain(s[j + 1..])
    ensures MatchesEmail(s)
  {
    assert forall k | 0 <= k < i :: s[k] == s[..i][k];
    IndexOfAt(s, '@', i);
    var rest := s[i + 1..];
    assert Plain(rest) by {
      forall k | 0 <= k < |rest| ensures rest[k] != '@' && !IsJsSpace(rest[k]) {
        if i + 1 + k < j {
          assert rest[k] == s[i + 1..j][k];
        } else if i + 1 + k > j {
          assert rest[k] == s[j + 1..][k - (j - i)];
        }
      }
    }
    assert rest[1..][j - i - 2] == '.';
    IndexOfFirst(rest[1..], '.');
  }

  // ---- Validation ------------------------------------------------------------------------

  /** Nothing but white space: what `!s.trim()` tests (see `BlankIsTrimEmpty`). */
  predicate Blank(s: string)
  {
    forall k | 0 <= k < |s| :: IsJsSpace(s[k])
  }

  lemma BlankIsTrimEmpty(s: string)
    ensures Blank(s) <==> Trim(s) == ""
  {
    TrimEmptyIff(s);
  }

  /** The record `validate` fills, from the outcome of each check. */
  function Messages(firstBlank: bool, lastBlank: bool, emailBlank: bool, emailMalformed: bool): (errs: map<Field, string>)
    ensures errs.Keys <= {FirstName, LastName, Email}
    ensures FirstName in errs <==> firstBlank
    ensures LastName in errs <==> lastBlank
    ensures Email in errs <==> emailBlank || emailMalformed
    ensures Email in errs ==>
      errs[Email] == if emailBlank then "Email is required" else "Invalid email format"
  {
    var e1: map<Field, string> := if firstBlank then map[FirstName := "First name is required"] else map[];
    var e2 := if lastBlank then e1[LastName := "Last name is required"] else e1;
    if emailBlank then e2[Email := "Email is required"]
    else if emailMalformed then e2[Email := "Invalid email format"]
    else e2
  }

  /** What `validate` records: a message for a blank first or last name, and for a blank or
      malformed e-mail; no other field is ever checked. */
  function Errors(first: string, last: string, email: string): map<Field, string>
  {
    Messages(Blank(first), Blank(last), Blank(email), !MatchesEmail(email))
  }

  function FormErrors(d: FormData): map<Field, string>
    requires Complete(d)
  {
    Errors(d[FirstName], d[LastName], d[Email])
  }

  /** The prefilled form passes. */
  lemma InitialPasses()
    ensures Complete(Initial) && FormErrors(Initial) == map[]
  {
    InitialComplete();
    InitialEmailMatches();
    InitialNotBlank();
    NoErrors(Initial[FirstName], Initial[LastName], Initial[Email]);
  }

  lemma InitialNotBlank()
    ensures !Blank(Initial[FirstName]) && !Blank(Initial[LastName]) && !Blank(Initial[Email])
  {
    assert Initial[FirstName][0] == 'J' && Initial[LastName][0] == 'D' && Initial[Email][0] == 'j';
  }

  lemma NoErrors(first: string, last: string, email: string)
    requires !Blank(first) && !Blank(last) && !Blank(email) && MatchesEmail(email)
    ensures Errors(first, last, email) == map[]
  {
    assert Errors(first, last, email).Keys == {};
  }

  lemma InitialComplete()
    ensures Complete(Initial)
  {
    forall f: Field ensures f in Initial {
      match f
      case FirstName => case LastName => case Email => case Phone =>
      case BillingAddressLine1 => case BillingAddressLine2 => case BillingCity =>
      case BillingState => case BillingCountry => case BillingPostalCode =>
    }
  }

  lemma InitialEmailMatches()
    ensures MatchesEmail(Initial[Email])
  {
    var e := Initial[Email];
    assert e == "john.doe@example.com";
    assert e[..8] == "john.doe" && e[9..16] == "example" && e[17..] == "com";
    LowerIsPlain("john.doe");
    LowerIsPlain("example");
    LowerIsPlain("com");
    ShapeMatches(e, 8, 16);
  }

  /** Lower-case letters and dots are plain. */
  lemma LowerIsPlain(x: string)
    requires forall k | 0 <= k < |x| :: 'a' <= x[k] <= 'z' || x[k] == '.'
    ensures Plain(x)
  {
  }

  /** The form component's state. */
  class Form {
    var formData: FormData
    var errors: map<Field, string>

    constructor ()
      ensures formData == Initial && errors == map[]
    {
      formData := Initial;
      errors := map[];
    }

    /** `validate`: fills a fresh error record field by field, shows it, and reports
        whether it stayed empty. */
    method Validate() returns (ok: bool)
      requires Complete(formData)
      modifies this
      ensures formData == old(formData)
      ensures errors == FormErrors(formData)
      ensures ok <==> errors == map[]
    {
      var email := formData[Email];
      var firstBlank, lastBlank, emailBlank := Blank(formData[FirstName]), Blank(formData[LastName]), Blank(email);
      var malformed := !MatchesEmail(email);
      var newErrors: map<Field, string> := map[];
      if firstBlank {
        newErrors := newErrors[FirstName := "First name is required"];
      }
      if lastBlank {
        newErrors := newErrors[LastName := "Last name is required"];
      }
      if emailBlank {
        newErrors := newErrors[Email := "Email is required"];
      } else if malformed {
        newErrors := newErrors[Email := "Invalid email format"];
      }
      assert newErrors == Messages(firstBlank, lastBlank, emailBlank, malformed);
      errors := newErrors;
      ok := |newErrors.Keys| == 0;
      if newErrors != map[] {
        var f :| f in newErrors;
        assert f in newErrors.Keys;
      }
    }

    /** `handleSubmit`: the data handed to `onSubmit`, if it is called. */
    method HandleSubmit() returns (submitted: Option<FormData>)
      requires Complete(formData)
      modifies this
      ensures formData == old(formData) && errors == FormErrors(formData)
      ensures submitted.Some? <==> FormErrors(formData) == map[]
      ensures submitted.Some? ==> submitted.value == formData
    {
      var ok := Validate();
      submitted := if ok then Some(formData) else None;
    }

    /** `handleChange(field)` with the typed value: the field takes it, and a message shown
        for that field goes (a cleared message reads as absent). */
    method HandleChange(field: Field, value: string)
      modifies this
      ensures formData == old(formData)[field := value]
      ensures errors == if field in old(errors) && old(errors)[field] != "" then old(errors) - {field} else old(errors)
    {
      formData := formData[field := value];
      if field in errors && errors[field] != "" {
        errors := errors - {field};
      }
    }
  }

  /** Typing touches only its own field and its own message. */
  lemma ChangeIsLocal(d: FormData, errs: map<Field, string>, field: Field, value: string, other: Field)
    requires other != field && other in d
    ensures var errs' := if field in errs && errs[field] != "" then errs - {field} else errs;
      && d[field := value][other] == d[other]
      && (other in errs' <==> other in errs)
      && (other in errs ==> errs'[other] == errs[other])
      && (field !in errs' || errs'[field] == "")
  {
  }

  /** A submitted form always has non-blank names and a well-formed e-mail. */
  lemma SubmittedIsValid(d: FormData)
    requires Complete(d) && FormErrors(d) == map[]
    ensures Trim(d[FirstName]) != "" && Trim(d[LastName]) != ""
    ensures EmailShape(d[Email])
  {
    assert FirstName !in FormErrors(d) && LastName !in FormErrors(d) && Email !in FormErrors(d);
    MatchesEmailIff(d[Email]);
    BlankIsTrimEmpty(d[FirstName]);
    BlankIsTrimEmpty(d[LastName]);
  }
}

=== FILE: customers.dfy ===
/** Customer find-or-create. A registered user is looked up by user id; otherwise the first
    customer with the exact (case-sensitive) email is refreshed in place; otherwise a new row
    is inserted. Every statement goes to the database directly, not to a caller's
    transaction. */
module Customers {
  import opened Wrappers
  import opened Schema
  import opened Store

  datatype CustomerInput = CustomerInput(
    userId: Option<string>, firstName: string, lastName: string, email: string,
    phone: Option<string>, billing: Billing)

  function BillingOrNull(b: Billing): Billing
  {
    Billing(OrNull(b.line1), OrNull(b.line2), OrNull(b.city), OrNull(b.state),
            OrNull(b.country), OrNull(b.postalCode))
  }

  /** `SELECT … WHERE p LIMIT 1` without ORDER BY: some row satisfying `p`, whichever the
      query reaches first. `scan` is where this query reaches each row; it is the
      database's choice, and any matching row can come first (AnyMatchCanBePicked). */
  function PickWhere(cs: seq<Customer>, p: Customer -> bool, scan: Customer -> int): (r: Option<nat>)
    ensures r.Some? ==> r.value < |cs| && p(cs[r.value])
    ensures r.Some? ==> forall j | 0 <= j < |cs| && p(cs[j]) :: scan(cs[r.value]) <= scan(cs[j])
    ensures r.None? <==> forall j | 0 <= j < |cs| :: !p(cs[j])
  {
    if cs == [] then None
    else
      var rest := PickWhere(cs[1..], p, scan);
      assert forall j | 1 <= j < |cs| :: cs[j] == cs[1..][j - 1];
      if p(cs[0]) && (rest.None? || scan(cs[0]) <= scan(cs[1..][rest.value])) then Some(0)
      else if rest.None? then None
      else Some(rest.value + 1)
  }

  /** Every matching row is the one some scan reaches first. */
  lemma AnyMatchCanBePicked(cs: seq<Customer>, p: Customer -> bool, i: nat)
    requires i < |cs| && p(cs[i])
    ensures var r := PickWhere(cs, p, (c: Customer) => if c == cs[i] then 0 else 1);
      r.Some? && cs[r.value] == cs[i]
  {
    var scan := (c: Customer) => if c == cs[i] then 0 else 1;
    var r := PickWhere(cs, p, scan);
    assert scan(cs[r.value]) <= scan(cs[i]);
  }

  /** Which branch the lookup takes. */
  datatype Match = ByUserId(index: nat) | ByEmail(index: nat) | NoMatch

  function Lookup(cs: seq<Customer>, input: CustomerInput, scan: Customer -> int): (m: Match)
    ensures m.ByUserId? ==> Truthy(input.userId) && m.index < |cs| && cs[m.index].userId == input.userId
    ensures m.ByEmail? ==> m.index < |cs| && cs[m.index].email == input.email
  {
    var byUser := if Truthy(input.userId) then PickWhere(cs, (c: Customer) => c.userId == input.userId, scan) else None;
    if byUser.Some? then ByUserId(byUser.value)
    else
      var byEmail := PickWhere(cs, (c: Customer) => c.email == input.email
                                        && (Truthy(input.userId) ==> c.userId == input.userId), scan);
      if byEmail.Some? then ByEmail(byEmail.value) else NoMatch
  }

  /** The row an email match is updated to. */
  function Refreshed(c: Customer, input: CustomerInput, now: int): Customer
  {
    c.(firstName := input.firstName, lastName := input.lastName,
       phone := OrNull(input.phone), billing := BillingOrNull(input.billing), updatedAt := now)
  }

  /** The row inserted when nothing matches. */
  function NewCustomer(input: CustomerInput, id: Id, now: int): Customer
  {
    Customer(id, OrNull(input.userId), input.firstName, input.lastName, input.email,
             OrNull(input.phone), BillingOrNull(input.billing), now, now)
  }

  /** The customers table afterwards and the returned customer. `newId` is the key the
      database generates for an inserted row; `scan` is the order its lookups reach rows. */
  function FindOrCreate(cs: seq<Customer>, input: CustomerInput, newId: Id, now: int, scan: Customer -> int)
    : (r: (seq<Customer>, Customer))
    ensures r.1 in r.0
  {
    match Lookup(cs, input, scan) {
      case ByUserId(i) => (cs, cs[i])
      case ByEmail(i) =>
        var c := Refreshed(cs[i], input, now);
        assert cs[i := c][i] == c;
        (cs[i := c], c)
      case NoMatch => (cs + [NewCustomer(input, newId, now)], NewCustomer(input, newId, now))
    }
  }

  method FindOrCreateCustomer(db: Db, input: CustomerInput, newId: Id, now: int, scan: Customer -> int)
    returns (c: Customer)
    requires db.Valid()
    modifies db`customers
    ensures db.Valid()
    ensures (db.customers, c) == FindOrCreate(old(db.customers), input, newId, now, scan)
  {
    if Truthy(input.userId) {
      var i := PickWhere(db.customers, (c: Customer) => c.userId == input.userId, scan);
      if i.Some? {
        return db.customers[i.value];
      }
    }
    var j := PickWhere(db.customers, (c: Customer) => c.email == input.email
                                          && (Truthy(input.userId) ==> c.userId == input.userId), scan);
    if j.Some? {
      c := Refreshed(db.customers[j.value], input, now);
      db.UpdateCustomer(j.value, c);
      return;
    }
    c := NewCustomer(input, newId, now);
    db.InsertCustomer(c);
  }

  // ---- Properties ----------------------------------------------------------------------

  /** A registered user with a stored customer gets that row back and nothing is written. */
  lemma KnownUserWritesNothing(cs: seq<Customer>, input: CustomerInput, newId: Id, now: int,
                               scan: Customer -> int, i: nat)
    requires Truthy(input.userId) && i < |cs| && cs[i].userId == input.userId
    ensures FindOrCreate(cs, input, newId, now, scan).0 == cs
    ensures FindOrCreate(cs, input, newId, now, scan).1.userId == input.userId
  {
  }

  /** A registered user without a stored customer gets a new row carrying the user id: the
      email lookup also requires that user id, so it cannot match. */
  lemma UnknownUserInserts(cs: seq<Customer>, input: CustomerInput, newId: Id, now: int, scan: Customer -> int)
    requires Truthy(input.userId)
    requires forall i | 0 <= i < |cs| :: cs[i].userId != input.userId
    ensures FindOrCreate(cs, input, newId, now, scan) ==
      (cs + [NewCustomer(input, newId, now)], NewCustomer(input, newId, now))
    ensures NewCustomer(input, newId, now).userId == input.userId
  {
  }

  /** A guest whose email matches a stored customer (row `i`, say) refreshes in place the
      matching row the lookup reaches first: names, phone and billing are overwritten
      (absent ones become null) while id, email, user id and creation time stay; no other
      row changes. */
  lemma GuestEmailMatchUpdates(cs: seq<Customer>, input: CustomerInput, newId: Id, now: int,
                               scan: Customer -> int, i: nat)
    requires !Truthy(input.userId)
    requires i < |cs| && cs[i].email == input.email
    ensures var m := Lookup(cs, input, scan);
      && m.ByEmail? && cs[m.index].email == input.email
      && (forall j | 0 <= j < |cs| && cs[j].email == input.email :: scan(cs[m.index]) <= scan(cs[j]))
      && var k := m.index;
         var (cs', c) := FindOrCreate(cs, input, newId, now, scan);
         && |cs'| == |cs|
         && cs'[k] == c
         && (forall j | 0 <= j < |cs| && j != k :: cs'[j] == cs[j])
         && c.id == cs[k].id && c.email == cs[k].email && c.userId == cs[k].userId
         && c.createdAt == cs[k].createdAt
         && c.firstName == input.firstName && c.lastName == input.lastName
         && c.phone == OrNull(input.phone) && c.billing == BillingOrNull(input.billing)
         && c.updatedAt == now
  {
    var pick := PickWhere(cs, (c: Customer) => c.email == input.email
                                 && (Truthy(input.userId) ==> c.userId == input.userId), scan);
    assert pick.Some?;
  }

  /** A guest whose email matches no row is inserted, with a null user id. */
  lemma GuestWithoutMatchInserts(cs: seq<Customer>, input: CustomerInput, newId: Id, now: int, scan: Customer -> int)
    requires !Truthy(input.userId)
    requires forall j | 0 <= j < |cs| :: cs[j].email != input.email
    ensures FindOrCreate(cs, input, newId, now, scan).0 == cs + [NewCustomer(input, newId, now)]
    ensures NewCustomer(input, newId, now).userId == None
  {
  }

  /** Each call writes at most one customer row: either nothing changes, one existing row
      changes, or one row is appended. */
  lemma WritesAtMostOneRow(cs: seq<Customer>, input: CustomerInput, newId: Id, now: int, scan: Customer -> int)
    ensures var cs' := FindOrCreate(cs, input, newId, now, scan).0;
      || cs' == cs
      || (|cs'| == |cs| && exists i | 0 <= i < |cs| :: cs' == cs[i := cs'[i]])
      || cs' == cs + [cs'[|cs|]]
  {
    var cs' := FindOrCreate(cs, input, newId, now, scan).0;
    match Lookup(cs, input, scan) {
      case ByUserId(i) =>
      case ByEmail(i) => assert cs' == cs[i := cs'[i]];
      case NoMatch =>
    }
  }

  /** Calling again with the same input finds the row the first call returned or wrote,
      whichever rows the two calls' lookups reach first, so repeated checkouts add no
      further customer. */
  lemma RepeatAddsNoRow(cs: seq<Customer>, input: CustomerInput, id1: Id, id2: Id, now1: int, now2: int,
                        scan1: Customer -> int, scan2: Customer -> int)
    ensures var cs1 := FindOrCreate(cs, input, id1, now1, scan1).0;
      |FindOrCreate(cs1, input, id2, now2, scan2).0| == |cs1|
  {
    var cs1 := FindOrCreate(cs, input, id1, now1, scan1).0;
    var c := FindOrCreate(cs, input, id1, now1, scan1).1;
    var k :| 0 <= k < |cs1| && cs1[k] == c;
    if Truthy(input.userId) {
      assert c.userId == input.userId by {
        match Lookup(cs, input, scan1) {
          case ByUserId(i) =>
          case ByEmail(i) =>
          case NoMatch =>
        }
      }
      assert Lookup(cs1, input, scan2).ByUserId?;
    } else {
      assert c.email == input.email by {
        match Lookup(cs, input, scan1) {
          case ByUserId(i) =>
          case ByEmail(i) =>
          case NoMatch =>
        }
      }
      assert Lookup(cs1, input, scan2).ByEmail?;
    }
  }
}

=== FILE: event_listing.dfy ===
/** The storefront event listing: published events, optionally filtered by a search text,
    a category and a start-date range, newest first, one page at a time, each with its
    venue and lowest active ticket price. */
module EventListing {
  import opened Wrappers
  import opened Text
  import opened Schema
  import opened Sorting

  const DefaultPage: int := 1
  const DefaultLimit: int := 12

  datatype ListEventsParams = ListEventsParams(
    search: Option<string>, category: Option<string>,
    dateFrom: Option<int>, dateTo: Option<int>,
    page: Option<int>, limit: Option<int>)

  /** One condition of the WHERE clause. */
  datatype Condition =
    | IsPublishedFlag
    | StatusPublished
    | TitleOrDescriptionLike(text: string)
    | CategoryIs(category: string)
    | StartsOnOrAfter(from: int)
    | StartsOnOrBefore(to: int)

  /** Whether a row satisfies a condition. `LIKE '%text%'` is a case-sensitive substring
      test; a NULL description never matches, and neither does a NULL category. */
  predicate Holds(c: Condition, e: Event)
  {
    match c
    case IsPublishedFlag => e.isPublished == 1
    case StatusPublished => e.status == EventPublished
    case TitleOrDescriptionLike(t) =>
      Contains(e.title, t) || (e.description.Some? && Contains(e.description.value, t))
    case CategoryIs(k) => e.category == Some(k)
    case StartsOnOrAfter(d) => e.startDate >= d
    case StartsOnOrBefore(d) => e.startDate <= d
  }

  predicate HoldsAll(conds: seq<Condition>, e: Event)
  {
    forall i | 0 <= i < |conds| :: Holds(conds[i], e)
  }

  /** What the listing admits, stated filter by filter: published events only, and each
      filter that was given (a non-empty search or category, any date) restricts further. */
  predicate Admits(p: ListEventsParams, e: Event)
  {
    && e.isPublished == 1 && e.status == EventPublished
    && (Truthy(p.search) ==>
          Contains(e.title, p.search.value)
          || (e.description.Some? && Contains(e.description.value, p.search.value)))
    && (Truthy(p.category) ==> e.category == p.category)
    && (p.dateFrom.Some? ==> e.startDate >= p.dateFrom.value)
    && (p.dateTo.Some? ==> e.startDate <= p.dateTo.value)
  }

  /** The WHERE clause, one `push` per filter that was given. */
  method BuildConditions(p: ListEventsParams) returns (conds: seq<Condition>)
    ensures 2 <= |conds| <= 6
    ensures forall e :: HoldsAll(conds, e) <==> Admits(p, e)
  {
    conds := [IsPublishedFlag, StatusPublished];
    if Truthy(p.search) {
      conds := conds + [TitleOrDescriptionLike(p.search.value)];
    }
    if Truthy(p.category) {
      conds := conds + [CategoryIs(p.category.value)];
    }
    if p.dateFrom.Some? {
      conds := conds + [StartsOnOrAfter(p.dateFrom.value)];
    }
    if p.dateTo.Some? {
      conds := conds + [StartsOnOrBefore(p.dateTo.value)];
    }
    forall e ensures HoldsAll(conds, e) <==> Admits(p, e) {
      if HoldsAll(conds, e) {
        assert Holds(conds[0], e) && Holds(conds[1], e);
        if Truthy(p.search) {
          assert TitleOrDescriptionLike(p.search.value) in conds;
        }
        if Truthy(p.category) {
          assert CategoryIs(p.category.value) in conds;
        }
        if p.dateFrom.Some? {
          assert StartsOnOrAfter(p.dateFrom.value) in conds;
        }
        if p.dateTo.Some? {
          assert StartsOnOrBefore(p.dateTo.value) in conds;
        }
      }
    }
  }

  /** The events that satisfy the conditions, in table order. */
  function Filter(events: seq<Event>, p: ListEventsParams): (r: seq<Event>)
    ensures |r| <= |events|
    ensures forall e :: e in r <==> e in events && Admits(p, e)
  {
    if events == [] then []
    else
      assert forall e :: e in events <==> e == events[0] || e in events[1..];
      (if Admits(p, events[0]) then [events[0]] else []) + Filter(events[1..], p)
  }

  /** Latest start first is ascending order of this key. */
  function Lateness(e: Event): int
  {
    -e.startDate
  }

  /** The orders `ORDER BY startDate DESC` may return the rows in: all of them, latest start
      first. Events starting at the same instant come back in no fixed order, and two
      queries need not agree on it. */
  predicate NewestFirstOrder(events: seq<Event>, sorted: seq<Event>)
  {
    |sorted| == |events| && multiset(sorted) == multiset(events) && SortedBy(sorted, Lateness)
  }

  /** One such order always exists: ties left in table order. */
  function NewestFirst(events: seq<Event>): (r: seq<Event>)
    ensures NewestFirstOrder(events, r)
    ensures forall i, j | 0 <= i < j < |r| :: r[i].startDate >= r[j].startDate
  {
    var r := SortBy(events, Lateness);
    assert forall i, j | 0 <= i < j < |r| :: Lateness(r[i]) <= Lateness(r[j]);
    r
  }

  /** The lowest price among the event's active ticket types, if it has any. */
  function MinPrice(types: seq<TicketType>, eventId: Id): (m: Option<int>)
    ensures m.None? <==> forall i | 0 <= i < |types| :: !(types[i].eventId == eventId && types[i].isActive == 1)
    ensures m.Some? ==>
      (exists i | 0 <= i < |types| :: types[i].eventId == eventId && types[i].isActive == 1 && types[i].price == m.value)
      && forall i | 0 <= i < |types| && types[i].eventId == eventId && types[i].isActive == 1 :: m.value <= types[i].price
  {
    if types == [] then None
    else
      var rest := MinPrice(types[1..], eventId);
      assert forall i | 1 <= i < |types| :: types[i] == types[1..][i - 1];
      if types[0].eventId == eventId && types[0].isActive == 1 then
        if rest.Some? && rest.value < types[0].price then rest else Some(types[0].price)
      else rest
  }

  datatype EventSummary = EventSummary(
    id: Id, title: string, slug: string, shortDescription: Option<string>,
    startDate: int, endDate: Option<int>, category: Option<string>,
    thumbnailImageUrl: Option<string>,
    venueName: string, venueCity: Option<string>, minPrice: Option<int>)

  /** One listed event with its details. A missing venue (or an empty name) reads as
      "Unknown Venue" and an empty or missing city as null. */
  function Summary(e: Event, venues: map<Id, Venue>, types: seq<TicketType>): (s: EventSummary)
    ensures s.id == e.id && s.title == e.title && s.slug == e.slug && s.startDate == e.startDate
    ensures e.venueId !in venues ==> s.venueName == "Unknown Venue" && s.venueCity.None?
    ensures s.minPrice == MinPrice(types, e.id)
  {
    var venue := if e.venueId in venues then Some(venues[e.venueId]) else None;
    EventSummary(
      e.id, e.title, e.slug, e.shortDescription, e.startDate, e.endDate, e.category,
      e.thumbnailImageUrl,
      if venue.Some? && venue.value.name != "" then venue.value.name else "Unknown Venue",
      if venue.Some? then OrNull(venue.value.city) else None,
      MinPrice(types, e.id))
  }

  function Summaries(es: seq<Event>, venues: map<Id, Venue>, types: seq<TicketType>): (ss: seq<EventSummary>)
    ensures |ss| == |es|
    ensures forall i | 0 <= i < |es| :: ss[i] == Summary(es[i], venues, types)
  {
    seq(|es|, i requires 0 <= i < |es| => Summary(es[i], venues, types))
  }

  datatype ListEventsResult = ListEventsResult(
    events: seq<EventSummary>, totalCount: int, page: int, limit: int, totalPages: Option<int>)

  /** A rejected query: PostgreSQL refuses a negative LIMIT or OFFSET. */
  datatype QueryError = NegativeLimit | NegativeOffset

  /** `LIMIT limit OFFSET offset` over the ordered rows. */
  function Slice<T>(rows: seq<T>, offset: nat, limit: nat): (r: seq<T>)
    ensures |r| <= limit
    ensures offset <= |rows| ==> r == rows[offset..Min(offset + limit, |rows|)]
    ensures offset > |rows| ==> r == []
  {
    if offset > |rows| then [] else rows[offset..Min(offset + limit, |rows|)]
  }

  /** `listEvents`. `page` and `limit` default to 1 and 12 only when absent; the page count
      is `None` (NaN or Infinity in the source) for a limit of 0. `sorted` is the order in
      which this query's ORDER BY returns the matching rows. */
  method ListEvents(events: seq<Event>, venues: map<Id, Venue>, types: seq<TicketType>, p: ListEventsParams,
                    sorted: seq<Event>)
    returns (r: Result<ListEventsResult, QueryError>)
    requires NewestFirstOrder(Filter(events, p), sorted)
    ensures var page := p.page.GetOr(DefaultPage);
      var limit := p.limit.GetOr(DefaultLimit);
      && (r.Failure? <==> limit < 0 || (page - 1) * limit < 0)
      && (r.Success? ==>
          var matching := Filter(events, p);
          && r.value.page == page && r.value.limit == limit
          && r.value.totalCount == |matching|
          && r.value.totalPages == (if limit == 0 then None else Some(CeilDiv(|matching|, limit)))
          && r.value.events == Summaries(Slice(sorted, (page - 1) * limit, limit), venues, types))
  {
    var page := p.page.GetOr(DefaultPage);
    var limit := p.limit.GetOr(DefaultLimit);
    var conds := BuildConditions(p);
    var offset := (page - 1) * limit;
    if limit < 0 {
      return Failure(NegativeLimit);
    }
    if offset < 0 {
      return Failure(NegativeOffset);
    }
    var matching := FilterBy(events, conds);
    FilterByIsFilter(events, conds, p);
    var rows := Slice(sorted, offset, limit);
    var totalCount := |matching|;
    var totalPages := if limit == 0 then None else Some(CeilDiv(totalCount, limit));
    r := Success(ListEventsResult(Summaries(rows, venues, types), totalCount, page, limit, totalPages));
  }

  /** The rows a WHERE clause keeps, in table order. */
  function FilterBy(events: seq<Event>, conds: seq<Condition>): seq<Event>
  {
    if events == [] then []
    else (if HoldsAll(conds, events[0]) then [events[0]] else []) + FilterBy(events[1..], conds)
  }

  lemma {:induction false} FilterByIsFilter(events: seq<Event>, conds: seq<Condition>, p: ListEventsParams)
    requires forall e :: HoldsAll(conds, e) <==> Admits(p, e)
    ensures FilterBy(events, conds) == Filter(events, p)
  {
    if events != [] {
      FilterByIsFilter(events[1..], conds, p);
    }
  }

  /** Every listed event is published and satisfies every filter given; the page is in
      start-date order, newest first, and holds at most `limit` events. */
  lemma ListedEventsAdmitted(events: seq<Event>, p: ListEventsParams, offset: nat, limit: nat, sorted: seq<Event>)
    requires NewestFirstOrder(Filter(events, p), sorted)
    ensures var rows := Slice(sorted, offset, limit);
      && |rows| <= limit
      && (forall i | 0 <= i < |rows| :: rows[i] in events && Admits(p, rows[i]))
      && (forall i, j | 0 <= i < j < |rows| :: rows[i].startDate >= rows[j].startDate)
  {
    var filtered := Filter(events, p);
    assert forall i, j | 0 <= i < j < |sorted| :: Lateness(sorted[i]) <= Lateness(sorted[j]);
    var rows := Slice(sorted, offset, limit);
    SliceOfSorted(sorted, offset, limit);
    forall i | 0 <= i < |rows| ensures rows[i] in filtered {
      assert rows[i] in multiset(sorted);
    }
  }

  /** When no two events start at the same instant, every query lists the matching events in
      the one same order. */
  lemma OneOrderWhenStartsApart(events: seq<Event>, p: ListEventsParams, sorted: seq<Event>)
    requires NewestFirstOrder(Filter(events, p), sorted)
    requires forall x, y | x in events && y in events && x != y :: x.startDate != y.startDate
    ensures sorted == NewestFirst(Filter(events, p))
  {
    var filtered := Filter(events, p);
    assert KeysApart(filtered, Lateness);
    KeysApartOfPermutation(filtered, sorted, Lateness);
    SortedUnique(sorted, NewestFirst(filtered), Lateness);
  }

  /** A page of a newest-first sequence is drawn from it and is newest-first too. */
  lemma SliceOfSorted(sorted: seq<Event>, offset: nat, limit: nat)
    requires forall i, j | 0 <= i < j < |sorted| :: sorted[i].startDate >= sorted[j].startDate
    ensures var rows := Slice(sorted, offset, limit);
      && (forall i | 0 <= i < |rows| :: rows[i] in sorted)
      && (forall i, j | 0 <= i < j < |rows| :: rows[i].startDate >= rows[j].startDate)
  {
    var rows := Slice(sorted, offset, limit);
    if offset <= |sorted| {
      assert forall i | 0 <= i < |rows| :: rows[i] == sorted[offset + i];
    }
  }
}

=== FILE: events_pagination.dfy ===
/** The storefront's numbered pagination under the event list: a window of at most five
    page numbers around the current page, Previous and Next links, and a "Go to page" box.
    Every link keeps the visitor's search parameters and sets `page`. */
module EventsPagination {
  import opened Wrappers
  import opened Text
  import opened Urls
  import Records

  /** The search parameters the page was opened with; `None` is `undefined`. */
  type SearchParams = Records.Record<Option<string>>

  const WindowSize: int := 5

  /** The number on button `i` of the window (the branch chain of the `Array.from` callback). */
  function PageNumber(currentPage: int, totalPages: int, i: int): int
  {
    if totalPages <= WindowSize then i + 1
    else if currentPage <= 3 then i + 1
    else if currentPage >= totalPages - 2 then totalPages - 4 + i
    else currentPage - 2 + i
  }

  /** `Array.from({ length: Math.min(5, totalPages) }, …)`; a negative length gives no
      buttons. */
  function PageWindow(currentPage: int, totalPages: int): (w: seq<int>)
    ensures |w| == if totalPages < 0 then 0 else Min(WindowSize, totalPages)
    ensures forall i | 0 < i < |w| :: w[i] == w[i - 1] + 1
    ensures forall i | 0 <= i < |w| :: 1 <= w[i] <= totalPages
    ensures 1 <= currentPage <= totalPages ==> currentPage in w
  {
    var n := if totalPages < 0 then 0 else Min(WindowSize, totalPages);
    var w := seq(n, (i: int) => PageNumber(currentPage, totalPages, i));
    assert 1 <= currentPage <= totalPages ==> currentPage in w by {
      if 1 <= currentPage <= totalPages {
        var at :=
          if totalPages <= WindowSize || currentPage <= 3 then currentPage - 1
          else if currentPage >= totalPages - 2 then currentPage - (totalPages - 4)
          else 2;
        assert w[at] == currentPage;
      }
    }
    w
  }

  /** `{ ...searchParams, page }` with the `undefined` entries dropped
      (`Object.entries(…).filter(([, v]) => v != null)`), in key order. */
  function Defined(r: SearchParams): (ps: seq<Param>)
    ensures forall i | 0 <= i < |ps| :: (ps[i].0, Some(ps[i].1)) in r
  {
    if r == [] then []
    else
      var rest := Defined(r[1..]);
      match r[0].1
      case None => rest
      case Some(v) => [(r[0].0, v)] + rest
  }

  /** What a link reads back for a key the object maps to `v`. */
  function Present(v: Option<Option<string>>): Option<string>
  {
    if v.Some? && v.value.Some? then v.value else None
  }

  lemma {:induction false} DefinedGet(r: SearchParams, k: string)
    requires Records.KeysUnique(r)
    ensures Get(Defined(r), k) == Present(Records.Get(r, k))
  {
    if r != [] {
      assert Records.KeysUnique(r[1..]);
      DefinedGet(r[1..], k);
      if r[0].0 == k {
        Records.GetSome(r[1..], k);
      }
    }
  }

  /** Keys and defined values that need no escaping. */
  predicate PlainSearch(sp: SearchParams)
  {
    forall i | 0 <= i < |sp| :: PlainKey(sp[i].0) && (sp[i].1.Some? ==> PlainValue(sp[i].1.value))
  }

  /** The parameters of the link to `page`. */
  function LinkParams(sp: SearchParams, page: int): seq<Param>
  {
    Defined(Records.Put(sp, "page", Some(IntToString(page))))
  }

  /** `buildUrl(page)`: `/events?` followed by the search parameters with `page` set. */
  function BuildUrl(sp: SearchParams, page: int): string
  {
    "/events?" + QueryString(LinkParams(sp, page))
  }

  lemma LinkParamsPlain(sp: SearchParams, page: int)
    requires Records.KeysUnique(sp) && PlainSearch(sp)
    ensures PlainParams(LinkParams(sp, page)) && LinkParams(sp, page) != []
  {
    var r := Records.Put(sp, "page", Some(IntToString(page)));
    IntToStringPlain(page);
    assert PlainSearch(r);
    var ps := Defined(r);
    forall i | 0 <= i < |ps| ensures PlainKey(ps[i].0) && PlainValue(ps[i].1) {
      assert (ps[i].0, Some(ps[i].1)) in r;
    }
    DefinedGet(r, "page");
  }

  /** A built link reads back the requested page and, for every other key, exactly the value
      the visitor had given (none when it was `undefined` or absent). */
  lemma BuildUrlReadsBack(sp: SearchParams, page: int, k: string)
    requires Records.KeysUnique(sp) && PlainSearch(sp)
    ensures var ps := ParseQuery(BuildUrl(sp, page));
      && Get(ps, "page") == Some(IntToString(page))
      && (k != "page" ==> Get(ps, k) == Present(Records.Get(sp, k)))
  {
    var r := Records.Put(sp, "page", Some(IntToString(page)));
    var ps := LinkParams(sp, page);
    LinkParamsPlain(sp, page);
    assert BuildUrl(sp, page) == WithQuery("/events", ps);
    ReadBack("/events", ps);
    DefinedGet(r, "page");
    DefinedGet(r, k);
  }

  /** One numbered button: its page, its link, and whether it is highlighted. */
  datatype PageButton = PageButton(page: int, href: string, current: bool)

  datatype Controls = Controls(previous: Option<string>, pages: seq<PageButton>, next: Option<string>)

  /** One button per page of the window, linking to that page. */
  function Buttons(currentPage: int, totalPages: int, sp: SearchParams): (bs: seq<PageButton>)
    ensures var w := PageWindow(currentPage, totalPages);
      |bs| == |w| && forall i | 0 <= i < |w| ::
        bs[i] == PageButton(w[i], BuildUrl(sp, w[i]), w[i] == currentPage)
  {
    var w := PageWindow(currentPage, totalPages);
    seq(|w|, (i: int) requires 0 <= i < |w| => PageButton(w[i], BuildUrl(sp, w[i]), w[i] == currentPage))
  }

  /** What the component renders: nothing for a single page, otherwise Previous from page 2
      on, the window, and Next before the last page. */
  function Render(currentPage: int, totalPages: int, sp: SearchParams): (c: Option<Controls>)
    ensures c.None? <==> totalPages <= 1
    ensures c.Some? ==> (c.value.previous.Some? <==> currentPage > 1)
    ensures c.Some? ==> (c.value.next.Some? <==> currentPage < totalPages)
    ensures c.Some? ==> |c.value.pages| == Min(WindowSize, totalPages)
    ensures c.Some? && 1 <= currentPage <= totalPages ==>
      |set i | 0 <= i < |c.value.pages| && c.value.pages[i].current| == 1
  {
    if totalPages <= 1 then None
    else
      var pages := Buttons(currentPage, totalPages, sp);
      OneCurrent(currentPage, totalPages, sp);
      Some(Controls(
        if currentPage > 1 then Some(BuildUrl(sp, currentPage - 1)) else None,
        pages,
        if currentPage < totalPages then Some(BuildUrl(sp, currentPage + 1)) else None))
  }

  /** Exactly one button of the window is highlighted when the current page is in range. */
  lemma OneCurrent(currentPage: int, totalPages: int, sp: SearchParams)
    ensures var pages := Buttons(currentPage, totalPages, sp);
      1 <= currentPage <= totalPages ==> |set i | 0 <= i < |pages| && pages[i].current| == 1
  {
    if 1 <= currentPage <= totalPages {
      var w := PageWindow(currentPage, totalPages);
      var pages := Buttons(currentPage, totalPages, sp);
      var at :| 0 <= at < |w| && w[at] == currentPage;
      OnlyOnce(w, at);
      assert (set i | 0 <= i < |pages| && pages[i].current) == {at};
    }
  }

  /** A run of consecutive numbers holds each value once. */
  lemma OnlyOnce(w: seq<int>, at: nat)
    requires at < |w| && forall i | 0 < i < |w| :: w[i] == w[i - 1] + 1
    ensures forall i | 0 <= i < |w| && w[i] == w[at] :: i == at
  {
    assert forall i | 0 <= i < |w| :: w[i] == w[0] + i by {
      forall i | 0 <= i < |w| ensures w[i] == w[0] + i {
        StepsFrom(w, i);
      }
    }
  }

  lemma {:induction false} StepsFrom(w: seq<int>, i: nat)
    requires i < |w| && forall j | 0 < j < |w| :: w[j] == w[j - 1] + 1
    ensures w[i] == w[0] + i
  {
    if i > 0 {
      StepsFrom(w, i - 1);
    }
  }

  /** The page a rendered link leads to. */
  function LinkPage(url: string): Option<int>
  {
    var p := Get(ParseQuery(url), "page");
    if p.Some? then ParseIntPrefix(p.value) else None
  }

  /** A link the component renders. */
  predicate Rendered(currentPage: int, totalPages: int, sp: SearchParams, url: string)
  {
    var c := Render(currentPage, totalPages, sp);
    c.Some? &&
    (c.value.previous == Some(url) || c.value.next == Some(url) ||
     exists b | b in c.value.pages :: b.href == url)
  }

  /** Every rendered link is built for a page in range. */
  lemma RenderedLinkPage(currentPage: int, totalPages: int, sp: SearchParams, url: string) returns (n: int)
    requires 1 <= currentPage <= totalPages && Rendered(currentPage, totalPages, sp, url)
    ensures 1 <= n <= totalPages && url == BuildUrl(sp, n)
  {
    var c := Render(currentPage, totalPages, sp).value;
    if c.previous == Some(url) {
      n := currentPage - 1;
    } else if c.next == Some(url) {
      n := currentPage + 1;
    } else {
      assert c.pages == Buttons(currentPage, totalPages, sp);
      n := ButtonPage(currentPage, totalPages, sp, url);
    }
  }

  lemma ButtonPage(currentPage: int, totalPages: int, sp: SearchParams, url: string) returns (n: int)
    requires exists b | b in Buttons(currentPage, totalPages, sp) :: b.href == url
    ensures 1 <= n <= totalPages && url == BuildUrl(sp, n)
  {
    var bs := Buttons(currentPage, totalPages, sp);
    var b :| b in bs && b.href == url;
    var i :| 0 <= i < |bs| && bs[i] == b;
    n := PageWindow(currentPage, totalPages)[i];
  }

  /** When the current page is in range, every rendered link leads to a page in range and
      keeps the visitor's other search parameters. */
  lemma RenderedLinksStayInRange(currentPage: int, totalPages: int, sp: SearchParams, url: string, k: string)
    requires Records.KeysUnique(sp) && PlainSearch(sp)
    requires 1 <= currentPage <= totalPages && Rendered(currentPage, totalPages, sp, url)
    ensures LinkPage(url).Some? && 1 <= LinkPage(url).value <= totalPages
    ensures k != "page" ==> Get(ParseQuery(url), k) == Present(Records.Get(sp, k))
  {
    var n := RenderedLinkPage(currentPage, totalPages, sp, url);
    BuildUrlReadsBack(sp, n, k);
    ParseIntOfIntToString(n);
  }

  /** `handleJumpToPage`: where the router goes (if anywhere) and what the box then holds. */
  datatype JumpOutcome = JumpOutcome(push: Option<string>, input: string)

  function HandleJump(input: string, totalPages: int, sp: SearchParams): (j: JumpOutcome)
    ensures j.push.Some? <==>
      ParseIntPrefix(input).Some? && 1 <= ParseIntPrefix(input).value <= totalPages
    ensures j.input == if j.push.Some? then "" else input
  {
    var pageNum := ParseIntPrefix(input);
    // `NaN >= 1` is false, so text without digits never navigates.
    if pageNum.Some? && pageNum.value >= 1 && pageNum.value <= totalPages then
      JumpOutcome(Some(BuildUrl(sp, pageNum.value)), "")
    else
      JumpOutcome(None, input)
  }

  /** A jump lands on the typed page, inside [1, totalPages], with the search kept. */
  lemma JumpLandsOnTypedPage(input: string, totalPages: int, sp: SearchParams, k: string)
    requires Records.KeysUnique(sp) && PlainSearch(sp)
    requires HandleJump(input, totalPages, sp).push.Some?
    ensures var url := HandleJump(input, totalPages, sp).push.value;
      && LinkPage(url) == ParseIntPrefix(input)
      && 1 <= LinkPage(url).value <= totalPages
      && (k != "page" ==> Get(ParseQuery(url), k) == Present(Records.Get(sp, k)))
  {
    var n := ParseIntPrefix(input).value;
    BuildUrlReadsBack(sp, n, k);
    ParseIntOfIntToString(n);
  }
}

=== FILE: lessons.dfy ===
/** The course scripts that switch the working tree between a lesson's "unoptimized" and
    "optimized" state: a registry of file mappings per lesson, a swap that copies or removes
    each mapped file in turn, and the lesson dispatcher that also changes the database
    indexes for lesson 1. The file system is a map from path to contents. */
module Lessons {
  import opened Wrappers

  // ---- The mapping registry ---------------------------------------------------------------

  /** A file that differs between the states: where its two versions live under
      `templates/<lesson>/<state>/`, where it goes in the tree, and whether it exists in only
      one state (an absent flag reads as false). */
  datatype FileMapping = FileMapping(template: string, target: string, optimizedOnly: bool, unoptimizedOnly: bool)

  const Lesson1Mappings: seq<FileMapping> := [
    FileMapping("server/use-cases/admin/tickets/list-tickets-admin.ts",
                "server/use-cases/admin/tickets/list-tickets-admin.ts", false, false),
    FileMapping("app/admin/tickets/page.tsx", "app/admin/tickets/page.tsx", false, false),
    FileMapping("app/admin/tickets/tickets-table.tsx", "app/admin/tickets/tickets-table.tsx", false, false),
    FileMapping("components/admin/pagination.tsx", "components/admin/pagination.tsx", false, true),
    FileMapping("components/admin/cursor-pagination.tsx", "components/admin/cursor-pagination.tsx", true, false),
    FileMapping("server/lib/cursor-helpers.ts", "server/lib/cursor-helpers.ts", true, false)
  ]

  /** The lookup table by lesson id. */
  const LessonMappings: map<string, seq<FileMapping>> := map["lesson-1" := Lesson1Mappings]

  /** Lesson 1 moves six files, each to the same path it has under the templates; the
      offset pagination exists only unoptimized, the cursor pagination and its helpers only
      optimized, and no mapping claims both; lesson 2 has no entry. */
  lemma RegistryLayout()
    ensures |Lesson1Mappings| == 6
    ensures forall i | 0 <= i < 6 :: Lesson1Mappings[i].template == Lesson1Mappings[i].target
    ensures forall i | 0 <= i < 6 :: !(Lesson1Mappings[i].optimizedOnly && Lesson1Mappings[i].unoptimizedOnly)
    ensures forall i | 0 <= i < 6 :: Lesson1Mappings[i].unoptimizedOnly <==> i == 3
    ensures forall i | 0 <= i < 6 :: Lesson1Mappings[i].optimizedOnly <==> i == 4 || i == 5
    ensures Lesson1Mappings[3].target == "components/admin/pagination.tsx"
    ensures Lesson1Mappings[4].target == "components/admin/cursor-pagination.tsx"
    ensures Lesson1Mappings[5].target == "server/lib/cursor-helpers.ts"
    ensures LessonMappings.Keys == {"lesson-1"} && "lesson-2" !in LessonMappings
  {
  }

  // ---- One mapping, one step -------------------------------------------------------------

  function StateDir(toOptimized: bool): string
  {
    if toOptimized then "optimized" else "unoptimized"
  }

  /** `path.join(dir, p)` for a relative `p`, without normalising `.` or `..`. */
  function Join(dir: string, p: string): string
  {
    dir + "/" + p
  }

  /** Where a mapping's version for the target state lives, relative to the working
      directory. */
  function TemplatePath(lessonId: string, toOptimized: bool, template: string): string
  {
    "templates/" + lessonId + "/" + StateDir(toOptimized) + "/" + template
  }

  /** What happens to one mapping: a copy from template to target, or a removal of the
      target. */
  datatype Step =
    | Copy(template: string, from: string, to: string)
    | Remove(path: string)

  /** The path a step writes or deletes. */
  function Dest(s: Step): string
  {
    match s
    case Copy(_, _, to) => to
    case Remove(p) => p
  }

  /** The decision for one mapping. The optimized-only test comes first, so a mapping with
      both flags is handled as optimized-only; a mapping with neither is copied both ways. */
  function StepFor(cwd: string, lessonId: string, m: FileMapping, toOptimized: bool): (s: Step)
    ensures Dest(s) == Join(cwd, m.target)
    ensures s.Remove? <==>
      (m.optimizedOnly && !toOptimized) || (!m.optimizedOnly && m.unoptimizedOnly && toOptimized)
    ensures s.Copy? ==>
      s.template == m.template && s.from == Join(cwd, TemplatePath(lessonId, toOptimized, m.template))
  {
    var targetPath := Join(cwd, m.target);
    var copy := Copy(m.template, Join(cwd, TemplatePath(lessonId, toOptimized, m.template)), targetPath);
    if m.optimizedOnly then
      if toOptimized then copy else Remove(targetPath)
    else if m.unoptimizedOnly then
      if !toOptimized then copy else Remove(targetPath)
    else copy
  }

  /** A mapping flagged both ways behaves as optimized-only. */
  lemma BothFlagsMeansOptimizedOnly(cwd: string, lessonId: string, m: FileMapping, toOptimized: bool)
    requires m.optimizedOnly && m.unoptimizedOnly
    ensures StepFor(cwd, lessonId, m, toOptimized) == StepFor(cwd, lessonId, m.(unoptimizedOnly := false), toOptimized)
  {
  }

  function Steps(cwd: string, lessonId: string, ms: seq<FileMapping>, toOptimized: bool): (ss: seq<Step>)
    ensures |ss| == |ms| && forall i | 0 <= i < |ms| :: ss[i] == StepFor(cwd, lessonId, ms[i], toOptimized)
  {
    seq(|ms|, i requires 0 <= i < |ms| => StepFor(cwd, lessonId, ms[i], toOptimized))
  }

  /** Going to optimized removes only the offset pagination; going back removes only the
      cursor pagination and its helpers; everything else is copied. */
  lemma Lesson1Steps(cwd: string, toOptimized: bool)
    ensures var ss := Steps(cwd, "lesson-1", Lesson1Mappings, toOptimized);
      forall i | 0 <= i < |ss| :: ss[i].Remove? <==> if toOptimized then i == 3 else i == 4 || i == 5
  {
    RegistryLayout();
  }

  // ---- Running the steps ------------------------------------------------------------------

  /** The files after a run, and the template of the copy that failed (if one did). */
  datatype SwapRun = SwapRun(files: map<string, string>, failed: Option<string>)

  /** The steps in list order. A copy whose template cannot be read ends the run; a removal
      of a missing file is not an error. */
  function Perform(files: map<string, string>, steps: seq<Step>): SwapRun
    decreases |steps|
  {
    if steps == [] then SwapRun(files, None)
    else
      match steps[0]
      case Copy(template, from, to) =>
        if from in files then Perform(files[to := files[from]], steps[1..])
        else SwapRun(files, Some(template))
      case Remove(p) => Perform(files - {p}, steps[1..])
  }

  /** A path no step writes or deletes keeps its contents, or stays absent. */
  lemma {:induction false} PerformFrame(files: map<string, string>, steps: seq<Step>, p: string)
    requires forall k | 0 <= k < |steps| :: Dest(steps[k]) != p
    ensures p in Perform(files, steps).files <==> p in files
    ensures p in files ==> Perform(files, steps).files[p] == files[p]
    decreases |steps|
  {
    if steps != [] {
      match steps[0]
      case Copy(template, from, to) =>
        if from in files {
          PerformFrame(files[to := files[from]], steps[1..], p);
        }
      case Remove(q) =>
        PerformFrame(files - {q}, steps[1..], p);
    }
  }

  /** In a run that completes, a copy whose target no later step touches and whose template
      no step writes leaves the template's contents at the target. */
  lemma {:induction false} CopyLands(files: map<string, string>, steps: seq<Step>, j: nat)
    requires j < |steps| && steps[j].Copy?
    requires Perform(files, steps).failed.None?
    requires forall k | j < k < |steps| :: Dest(steps[k]) != steps[j].to
    requires forall k | 0 <= k < |steps| :: Dest(steps[k]) != steps[j].from
    ensures steps[j].from in files
    ensures steps[j].to in Perform(files, steps).files
    ensures Perform(files, steps).files[steps[j].to] == files[steps[j].from]
    decreases |steps|
  {
    var s := steps[0];
    if j == 0 {
      var files' := files[s.to := files[s.from]];
      PerformFrame(files', steps[1..], s.to);
    } else {
      var files' := match s
        case Copy(_, from, to) => files[to := files[from]]
        case Remove(p) => files - {p};
      assert s.Copy? ==> s.from in files;
      assert Perform(files, steps) == Perform(files', steps[1..]);
      CopyLands(files', steps[1..], j - 1);
    }
  }

  /** In a run that completes, a removed path no later step writes is absent at the end. */
  lemma {:induction false} RemoveClears(files: map<string, string>, steps: seq<Step>, j: nat)
    requires j < |steps| && steps[j].Remove?
    requires Perform(files, steps).failed.None?
    requires forall k | j < k < |steps| :: Dest(steps[k]) != steps[j].path
    ensures steps[j].path !in Perform(files, steps).files
    decreases |steps|
  {
    var s := steps[0];
    var files' := match s
      case Copy(_, from, to) => files[to := files[from]]
      case Remove(p) => files - {p};
    assert s.Copy? ==> s.from in files;
    assert Perform(files, steps) == Perform(files', steps[1..]);
    if j == 0 {
      PerformFrame(files', steps[1..], s.path);
    } else {
      RemoveClears(files', steps[1..], j - 1);
    }
  }

  /** A failed copy stops the run: the result is the state just before that step, and the
      steps after it are not performed. */
  lemma {:induction false} FailureStops(files: map<string, string>, steps: seq<Step>)
    requires Perform(files, steps).failed.Some?
    ensures exists j | 0 <= j < |steps| ::
      && steps[j].Copy?
      && Perform(files, steps[..j]).failed.None?
      && steps[j].from !in Perform(files, steps[..j]).files
      && Perform(files, steps) == SwapRun(Perform(files, steps[..j]).files, Some(steps[j].template))
    decreases |steps|
  {
    var s := steps[0];
    if s.Copy? && s.from !in files {
      assert steps[..0] == [];
    } else {
      var files' := match s
        case Copy(_, from, to) => files[to := files[from]]
        case Remove(p) => files - {p};
      assert Perform(files, steps) == Perform(files', steps[1..]);
      FailureStops(files', steps[1..]);
      var j :| 0 <= j < |steps[1..]|
        && steps[1..][j].Copy?
        && Perform(files', steps[1..][..j]).failed.None?
        && steps[1..][j].from !in Perform(files', steps[1..][..j]).files
        && Perform(files', steps[1..]) == SwapRun(Perform(files', steps[1..][..j]).files, Some(steps[1..][j].template));
      assert steps[..j + 1][0] == s && steps[..j + 1][1..] == steps[1..][..j];
      assert Perform(files, steps[..j + 1]) == Perform(files', steps[1..][..j]);
    }
  }

  lemma JoinInjective(dir: string, a: string, b: string)
    requires Join(dir, a) == Join(dir, b)
    ensures a == b
  {
    assert a == Join(dir, a)[|dir| + 1..];
    assert b == Join(dir, b)[|dir| + 1..];
  }

  /** A completed swap over mappings with distinct targets, none of them a template file,
      leaves every copied target holding its template for the chosen state and every
      removed target absent. */
  lemma SwapPlacesEveryMapping(files: map<string, string>, cwd: string, lessonId: string,
                               ms: seq<FileMapping>, toOptimized: bool, i: nat)
    requires i < |ms|
    requires forall a, b | 0 <= a < b < |ms| :: ms[a].target != ms[b].target
    requires forall a, b | 0 <= a < |ms| && 0 <= b < |ms| ::
      ms[a].target != TemplatePath(lessonId, toOptimized, ms[b].template)
    requires Perform(files, Steps(cwd, lessonId, ms, toOptimized)).failed.None?
    ensures var after := Perform(files, Steps(cwd, lessonId, ms, toOptimized)).files;
      var target := Join(cwd, ms[i].target);
      var template := Join(cwd, TemplatePath(lessonId, toOptimized, ms[i].template));
      && (StepFor(cwd, lessonId, ms[i], toOptimized).Copy? ==>
            template in files && target in after && after[target] == files[template])
      && (StepFor(cwd, lessonId, ms[i], toOptimized).Remove? ==> target !in after)
  {
    var steps := Steps(cwd, lessonId, ms, toOptimized);
    forall k | i < k < |steps| ensures Dest(steps[k]) != Dest(steps[i]) {
      if Dest(steps[k]) == Dest(steps[i]) {
        JoinInjective(cwd, ms[k].target, ms[i].target);
      }
    }
    if steps[i].Copy? {
      forall k | 0 <= k < |steps| ensures Dest(steps[k]) != steps[i].from {
        if Dest(steps[k]) == steps[i].from {
          JoinInjective(cwd, ms[k].target, TemplatePath(lessonId, toOptimized, ms[i].template));
        }
      }
      CopyLands(files, steps, i);
    } else {
      RemoveClears(files, steps, i);
    }
  }

  /** Lesson 1's mappings meet the conditions of `SwapPlacesEveryMapping`. */
  lemma Lesson1TargetsAreClean(toOptimized: bool)
    ensures forall a, b | 0 <= a < b < |Lesson1Mappings| :: Lesson1Mappings[a].target != Lesson1Mappings[b].target
    ensures forall a, b | 0 <= a < |Lesson1Mappings| && 0 <= b < |Lesson1Mappings| ::
      Lesson1Mappings[a].target != TemplatePath("lesson-1", toOptimized, Lesson1Mappings[b].template)
  {
    // Every target is shorter than every template path, which adds at least 29 characters
    // to a name of at least 26.
    forall a, b | 0 <= a < |Lesson1Mappings| && 0 <= b < |Lesson1Mappings|
      ensures Lesson1Mappings[a].target != TemplatePath("lesson-1", toOptimized, Lesson1Mappings[b].template)
    {
      assert 26 <= |Lesson1Mappings[b].template| && |Lesson1Mappings[a].target| <= 53;
    }
  }

  // ---- The working tree -------------------------------------------------------------------

  /** Why `applyLesson` did not finish. */
  datatype LessonOutcome =
    | Applied
    | UnknownLesson(message: string)
    | NotIterable            // the lesson has no registry entry; `for … of undefined` throws
    | CopyFailed(template: string)

  function OutcomeOf(failed: Option<string>): LessonOutcome
  {
    if failed.Some? then CopyFailed(failed.value) else Applied
  }

  class Workspace {
    /** The process's working directory. */
    const cwd: string
    /** The mapping registry the scripts read. */
    const registry: map<string, seq<FileMapping>>
    var files: map<string, string>
    /** Whether the tickets indexes of lesson 1 exist. */
    var ticketIndexes: bool

    constructor (cwd: string, registry: map<string, seq<FileMapping>>, files: map<string, string>, ticketIndexes: bool)
      ensures this.cwd == cwd && this.registry == registry
      ensures this.files == files && this.ticketIndexes == ticketIndexes
    {
      this.cwd := cwd;
      this.registry := registry;
      this.files := files;
      this.ticketIndexes := ticketIndexes;
    }

    /** Read, create the directory, write: fails only when the template cannot be read. */
    method CopyFile(from: string, to: string) returns (ok: bool)
      modifies this`files
      ensures ok <==> from in old(files)
      ensures files == if ok then old(files)[to := old(files)[from]] else old(files)
    {
      ok := from in files;
      if ok {
        files := files[to := files[from]];
      }
    }

    /** `fs.unlink`, whose failure on a missing file is swallowed. */
    method Unlink(path: string)
      modifies this`files
      ensures files == old(files) - {path}
    {
      files := files - {path};
    }

    /** `swapFiles(lessonId, mappings, toOptimized)`: handles the mappings in order and stops
        at the first copy that fails, reporting its template. */
    method SwapFiles(lessonId: string, mappings: seq<FileMapping>, toOptimized: bool) returns (failed: Option<string>)
      modifies this`files
      ensures var run := Perform(old(files), Steps(cwd, lessonId, mappings, toOptimized));
        files == run.files && failed == run.failed
    {
      ghost var steps := Steps(cwd, lessonId, mappings, toOptimized);
      var stateDir := StateDir(toOptimized);
      failed := None;
      for i := 0 to |mappings|
        invariant Perform(old(files), steps) == Perform(files, steps[i..])
        invariant failed.None?
      {
        var mapping := mappings[i];
        var targetPath := Join(cwd, mapping.target);
        var templatePath := Join(cwd, "templates/" + lessonId + "/" + stateDir + "/" + mapping.template);
        assert steps[i..][0] == steps[i] && steps[i..][1..] == steps[i + 1..];
        var copy: bool;
        if mapping.optimizedOnly {
          copy := toOptimized;
        } else if mapping.unoptimizedOnly {
          copy := !toOptimized;
        } else {
          copy := true;
        }
        if copy {
          var ok := CopyFile(templatePath, targetPath);
          if !ok {
            failed := Some(mapping.template);
            return;
          }
        } else {
          Unlink(targetPath);
        }
      }
    }

    /** `applyLesson({ lessonId, optimized })`. */
    method ApplyLesson(lessonId: string, optimized: bool) returns (outcome: LessonOutcome)
      modifies this
      ensures lessonId != "lesson-1" && lessonId != "lesson-2" ==>
        outcome == UnknownLesson("Unknown lesson: " + lessonId) && files == old(files) && ticketIndexes == old(ticketIndexes)
      ensures lessonId == "lesson-1" ==> ticketIndexes == optimized
      ensures lessonId == "lesson-2" ==> ticketIndexes == old(ticketIndexes)
      ensures (lessonId == "lesson-1" || lessonId == "lesson-2") ==>
        if lessonId !in registry then outcome == NotIterable && files == old(files)
        else
          var run := Perform(old(files), Steps(cwd, lessonId, registry[lessonId], optimized));
          files == run.files && outcome == OutcomeOf(run.failed)
    {
      if lessonId == "lesson-1" {
        outcome := ApplyLesson1(optimized);
      } else if lessonId == "lesson-2" {
        outcome := ApplyLesson2(optimized);
      } else {
        outcome := UnknownLesson("Unknown lesson: " + lessonId);
      }
    }

    /** Lesson 1: the index migration first, then the file swap in the same direction; a
        failed swap leaves the index change in place. */
    method ApplyLesson1(optimized: bool) returns (outcome: LessonOutcome)
      modifies this
      ensures ticketIndexes == optimized
      ensures "lesson-1" !in registry ==> outcome == NotIterable && files == old(files)
      ensures "lesson-1" in registry ==>
        var run := Perform(old(files), Steps(cwd, "lesson-1", registry["lesson-1"], optimized));
        files == run.files && outcome == OutcomeOf(run.failed)
    {
      if optimized {
        ticketIndexes := true;
        outcome := SwapRegistered("lesson-1", true);
      } else {
        ticketIndexes := false;
        outcome := SwapRegistered("lesson-1", false);
      }
    }

    /** Lesson 2: the file swap only. */
    method ApplyLesson2(optimized: bool) returns (outcome: LessonOutcome)
      modifies this`files
      ensures "lesson-2" !in registry ==> outcome == NotIterable && files == old(files)
      ensures "lesson-2" in registry ==>
        var run := Perform(old(files), Steps(cwd, "lesson-2", registry["lesson-2"], optimized));
        files == run.files && outcome == OutcomeOf(run.failed)
    {
      outcome := SwapRegistered("lesson-2", optimized);
    }

    /** `swapFiles(lessonId, LESSON_MAPPINGS[lessonId], toOptimized)`, where a missing entry
        is `undefined` and iterating it throws before any file is touched. */
    method SwapRegistered(lessonId: string, toOptimized: bool) returns (outcome: LessonOutcome)
      modifies this`files
      ensures lessonId !in registry ==> outcome == NotIterable && files == old(files)
      ensures lessonId in registry ==>
        var run := Perform(old(files), Steps(cwd, lessonId, registry[lessonId], toOptimized));
        files == run.files && outcome == OutcomeOf(run.failed)
    {
      if lessonId !in registry {
        outcome := NotIterable;
      } else {
        var failed := SwapFiles(lessonId, registry[lessonId], toOptimized);
        outcome := OutcomeOf(failed);
      }
    }

    /** With the shipped registry, lesson 2 cannot be applied: in either direction it fails
        without touching a file or the ticket indexes. */
    method Lesson2NeverApplies(optimized: bool) returns (outcome: LessonOutcome)
      requires registry == LessonMappings
      modifies this
      ensures outcome == NotIterable && files == old(files) && ticketIndexes == old(ticketIndexes)
    {
      RegistryLayout();
      outcome := ApplyLesson("lesson-2", optimized);
    }
  }
}

=== FILE: order_items_listing.dfy ===
/** The admin order-items listing: twenty items a page, newest first, with the first page
    kept in the Redis cache for ten minutes (cache-aside). */
module OrderItemsListing {
  import opened Wrappers
  import opened Text
  import opened Schema
  import opened Sorting

  const PageSize: int := 20
  /** Seconds the first page stays cached. */
  const CacheTtl: int := 600
  /** Every key of the shared cache carries this prefix. */
  const CachePrefix: string := "cache:"

  /** The tables the listing reads. */
  datatype Tables = Tables(
    items: seq<OrderItem>, orders: map<Id, Order>,
    ticketTypes: map<Id, TicketType>, events: map<Id, Event>)

  /** One listed item, with its order number and event title from the left joins. */
  datatype OrderItemRow = OrderItemRow(
    id: Id, quantity: int, unitPrice: int, subtotal: int, ticketTypeName: string,
    orderId: Id, orderNumber: Option<string>, eventTitle: Option<string>, createdAt: int)

  datatype PaginationData = PaginationData(
    page: int, pageSize: int, total: int, totalPages: int, hasNext: bool, hasPrev: bool)

  datatype OrderItemsResult = OrderItemsResult(orderItems: seq<OrderItemRow>, pagination: PaginationData)

  /** PostgreSQL refuses a negative OFFSET, which a page below 1 produces. */
  datatype FetchError = NegativeOffset

  /** The item joined with its order and, through its ticket type, its event; a missing
      partner row leaves the column null. */
  function Join(db: Tables, it: OrderItem): (r: OrderItemRow)
    ensures r.id == it.id && r.createdAt == it.createdAt && r.orderId == it.orderId
    ensures r.orderNumber.Some? <==> it.orderId in db.orders
    ensures r.eventTitle.Some? <==>
      it.ticketTypeId in db.ticketTypes && db.ticketTypes[it.ticketTypeId].eventId in db.events
  {
    var title :=
      if it.ticketTypeId in db.ticketTypes && db.ticketTypes[it.ticketTypeId].eventId in db.events
      then Some(db.events[db.ticketTypes[it.ticketTypeId].eventId].title) else None;
    OrderItemRow(
      it.id, it.quantity, it.unitPrice, it.subtotal, it.ticketTypeName, it.orderId,
      if it.orderId in db.orders then Some(db.orders[it.orderId].orderNumber) else None,
      title, it.createdAt)
  }

  /** Newest first is ascending order of this key. */
  function Age(it: OrderItem): int
  {
    -it.createdAt
  }

  /** The orders `ORDER BY created_at DESC` may return the items in: all of them, newest
      first. The items of one order share the timestamp of its transaction, and such ties
      come back in no fixed order; two queries need not agree on it. */
  predicate NewestFirstOrder(items: seq<OrderItem>, sorted: seq<OrderItem>)
  {
    |sorted| == |items| && multiset(sorted) == multiset(items) && SortedBy(sorted, Age)
  }

  /** One such order always exists: ties left in table order. */
  function NewestFirst(items: seq<OrderItem>): (r: seq<OrderItem>)
    ensures NewestFirstOrder(items, r)
    ensures forall i, j | 0 <= i < j < |r| :: r[i].createdAt >= r[j].createdAt
  {
    var r := SortBy(items, Age);
    assert forall i, j | 0 <= i < j < |r| :: Age(r[i]) <= Age(r[j]);
    r
  }

  /** The page bookkeeping for a page number and a row count. */
  function Paginate(page: int, total: nat): (p: PaginationData)
    ensures p.page == page && p.pageSize == PageSize && p.total == total
    ensures PageSize * (p.totalPages - 1) < total <= PageSize * p.totalPages
    ensures p.hasNext <==> page < p.totalPages
    ensures p.hasPrev <==> page > 1
  {
    var totalPages := CeilDiv(total, PageSize);
    PaginationData(page, PageSize, total, totalPages, page < totalPages, page > 1)
  }

  /** `LIMIT 20 OFFSET offset` over the ordered items, each joined. */
  function PageRows(db: Tables, sorted: seq<OrderItem>, offset: nat): (rows: seq<OrderItemRow>)
    ensures |rows| == if offset < |sorted| then Min(PageSize, |sorted| - offset) else 0
    ensures forall i | 0 <= i < |rows| :: rows[i] == Join(db, sorted[offset + i])
  {
    var n := if offset < |sorted| then Min(PageSize, |sorted| - offset) else 0;
    seq(n, i requires 0 <= i < n => Join(db, sorted[offset + i]))
  }

  /** `fetchOrderItems`: the page's rows and its pagination. `sorted` is the order this
      query's ORDER BY returned the items in. */
  function FetchOrderItems(db: Tables, page: int, sorted: seq<OrderItem>): (r: Result<OrderItemsResult, FetchError>)
    requires NewestFirstOrder(db.items, sorted)
    ensures r.Failure? <==> page < 1
    ensures r.Success? ==>
      && r.value.pagination == Paginate(page, |db.items|)
      && r.value.orderItems == PageRows(db, sorted, (page - 1) * PageSize)
  {
    var offset := (page - 1) * PageSize;
    if offset < 0 then Failure(NegativeOffset)
    else Success(OrderItemsResult(PageRows(db, sorted, offset), Paginate(page, |db.items|)))
  }

  /** There is a next page exactly when rows lie beyond this one. */
  lemma HasNextIffMoreRows(page: int, total: nat)
    requires page >= 1
    ensures Paginate(page, total).hasNext <==> page * PageSize < total
  {
    var tp := Paginate(page, total).totalPages;
    if page < tp {
      assert page * PageSize <= (tp - 1) * PageSize;
    }
    if page * PageSize < total {
      assert page * PageSize < tp * PageSize;
    }
  }

  /** When no two items were created at the same instant, every item is listed exactly on
      page i / 20 + 1 of its place i in the one newest-first order, whatever order each page
      query returned, and that page is among the totalPages pages. */
  lemma EveryItemOnItsPage(db: Tables, i: nat, sorted: seq<OrderItem>)
    requires i < |db.items|
    requires NewestFirstOrder(db.items, sorted)
    requires forall x, y | x in db.items && y in db.items && x != y :: x.createdAt != y.createdAt
    ensures var page := i / PageSize + 1;
      var r := FetchOrderItems(db, page, sorted);
      && r.Success? && page <= r.value.pagination.totalPages
      && r.value.orderItems[i % PageSize] == Join(db, NewestFirst(db.items)[i])
  {
    OneOrderWhenCreatedApart(db.items, sorted);
    ItemOnItsPage(db, i, sorted);
  }

  /** Place i of the order a query returned is shown on page i / 20 + 1, at i % 20. */
  lemma ItemOnItsPage(db: Tables, i: nat, sorted: seq<OrderItem>)
    requires i < |db.items|
    requires NewestFirstOrder(db.items, sorted)
    ensures var page := i / PageSize + 1;
      var r := FetchOrderItems(db, page, sorted);
      && r.Success? && page <= r.value.pagination.totalPages
      && r.value.orderItems[i % PageSize] == Join(db, sorted[i])
  {
    var page := i / PageSize + 1;
    var tp := Paginate(page, |db.items|).totalPages;
    assert (page - 1) * PageSize + i % PageSize == i;
    assert PageSize * (page - 1) <= i < |db.items| <= PageSize * tp;
  }

  /** When no two items share a creation instant, every query returns the one same order. */
  lemma OneOrderWhenCreatedApart(items: seq<OrderItem>, sorted: seq<OrderItem>)
    requires NewestFirstOrder(items, sorted)
    requires forall x, y | x in items && y in items && x != y :: x.createdAt != y.createdAt
    ensures sorted == NewestFirst(items)
  {
    assert KeysApart(items, Age);
    KeysApartOfPermutation(items, sorted, Age);
    SortedUnique(sorted, NewestFirst(items), Age);
  }

  /** Twenty-one items, the last two created in the same instant. */
  function TiedItems(): (items: seq<OrderItem>)
    ensures |items| == 21
    ensures forall k | 0 <= k < 21 :: items[k].id == [('A' as int + k) as char]
    ensures forall k | 0 <= k < 20 :: items[k].createdAt == 100 - k
    ensures items[20].createdAt == 81
  {
    seq(21, k requires 0 <= k < 21 =>
      OrderItem([('A' as int + k) as char], "o", "t", 1, 0, 0, "General", if k < 20 then 100 - k else 81, 0))
  }

  /** TiedItems with its two tied items the other way round. */
  function Swapped(): seq<OrderItem>
  {
    TiedItems()[..19] + [TiedItems()[20], TiedItems()[19]]
  }

  /** Both arrangements are newest first. */
  lemma TiedOrders()
    ensures NewestFirstOrder(TiedItems(), TiedItems())
    ensures NewestFirstOrder(TiedItems(), Swapped())
  {
    var items := TiedItems();
    assert forall k | 0 <= k < 21 :: Age(items[k]) == if k < 20 then k - 100 else -81;
    SwappedSorted();
    var a, b := items[..19], [items[19], items[20]];
    assert items == a + b && Swapped() == a + [items[20], items[19]];
    assert multiset(b) == multiset([items[20], items[19]]);
  }

  lemma SwappedSorted()
    ensures SortedBy(Swapped(), Age)
  {
    var items, s2 := TiedItems(), Swapped();
    assert forall k | 0 <= k < 19 :: s2[k] == items[k];
    assert forall k | 0 <= k < 21 :: Age(s2[k]) == if k < 19 then k - 100 else -81;
  }

  /** The two pages of TiedItems, each query breaking the tie its own way: item 19 is listed
      on page 1 and again on page 2, and item 20 on neither. */
  lemma TiedItemsCanRepeat()
    ensures var db := Tables(TiedItems(), map[], map[], map[]);
      && NewestFirstOrder(db.items, TiedItems()) && NewestFirstOrder(db.items, Swapped())
      && var page1 := FetchOrderItems(db, 1, TiedItems());
         var page2 := FetchOrderItems(db, 2, Swapped());
         && page1.Success? && page2.Success?
         && Join(db, TiedItems()[19]) in page1.value.orderItems
         && Join(db, TiedItems()[19]) in page2.value.orderItems
         && Join(db, TiedItems()[20]) !in page1.value.orderItems
         && Join(db, TiedItems()[20]) !in page2.value.orderItems
  {
    TiedOrders();
    var items := TiedItems();
    var db := Tables(items, map[], map[], map[]);
    var rows1 := PageRows(db, items, 0);
    var rows2 := PageRows(db, Swapped(), 20);
    assert rows1[19] == Join(db, items[19]);
    assert rows2 == [Join(db, items[19])];
    assert items[19].id != items[20].id by { assert items[19].id[0] != items[20].id[0]; }
    forall k | 0 <= k < 20 ensures rows1[k] != Join(db, items[20]) {
      assert k < 19 ==> rows1[k].createdAt != items[20].createdAt;
    }
  }

  /** A cache entry: the stored value and the time (milliseconds) it expires. */
  datatype Entry = Entry(value: OrderItemsResult, expiresAt: int)

  function PageKey(page: int): (key: string)
    ensures |key| > |CachePrefix|
    ensures key[..|CachePrefix|] == CachePrefix
  {
    CachePrefix + "order-items:page:" + IntToString(page)
  }

  /** The entry under a key, if it has not yet expired at `now`. */
  function Lookup(entries: map<string, Entry>, key: string, now: int): (v: Option<OrderItemsResult>)
    ensures v.Some? <==> key in entries && now < entries[key].expiresAt
    ensures v.Some? ==> v.value == entries[key].value
  {
    if key in entries && now < entries[key].expiresAt then Some(entries[key].value) else None
  }

  /** `listOrderItems` as a function of the cache contents: the result and the new contents.
      `sorted` is the order the query would return the items in, should it run. */
  function ListStep(entries: map<string, Entry>, db: Tables, page: int, now: int, sorted: seq<OrderItem>)
    : (r: (Result<OrderItemsResult, FetchError>, map<string, Entry>))
    requires NewestFirstOrder(db.items, sorted)
    ensures Lookup(entries, PageKey(page), now).Some? ==>
      r == (Success(Lookup(entries, PageKey(page), now).value), entries)
    ensures Lookup(entries, PageKey(page), now).None? ==> r.0 == FetchOrderItems(db, page, sorted)
    ensures page != 1 ==> r.1 == entries
    ensures page == 1 && Lookup(entries, PageKey(page), now).None? ==>
      r.1 == entries[PageKey(1) := Entry(r.0.value, now + CacheTtl * 1000)]
  {
    var cached := Lookup(entries, PageKey(page), now);
    if cached.Some? then (Success(cached.value), entries)
    else
      var result := FetchOrderItems(db, page, sorted);
      if page == 1 && result.Success? then
        (result, entries[PageKey(page) := Entry(result.value, now + CacheTtl * 1000)])
      else (result, entries)
  }

  /** The shared cache, with entries keyed by their full (prefixed) key. */
  class Cache {
    var entries: map<string, Entry>

    constructor ()
      ensures entries == map[]
    {
      entries := map[];
    }

    /** `cacheGet`: the live value under the key, or null. */
    method Get(key: string, now: int) returns (v: Option<OrderItemsResult>)
      ensures v == Lookup(entries, key, now)
    {
      if key in entries && now < entries[key].expiresAt {
        v := Some(entries[key].value);
      } else {
        v := None;
      }
    }

    /** `cacheSet` with a TTL in seconds (`SETEX`). */
    method Set(key: string, value: OrderItemsResult, ttl: int, now: int)
      modifies this
      ensures entries == old(entries)[key := Entry(value, now + ttl * 1000)]
    {
      entries := entries[key := Entry(value, now + ttl * 1000)];
    }
  }

  /** `listOrderItems(page = 1)`: the cached page when there is one, otherwise the fetched
      page, which is stored only when it is page 1. */
  method ListOrderItems(cache: Cache, db: Tables, page: Option<int>, now: int, sorted: seq<OrderItem>)
    returns (r: Result<OrderItemsResult, FetchError>)
    requires NewestFirstOrder(db.items, sorted)
    modifies cache
    ensures (r, cache.entries) == ListStep(old(cache.entries), db, page.GetOr(1), now, sorted)
  {
    var p := page.GetOr(1);
    var cached := cache.Get(PageKey(p), now);
    if cached.Some? {
      return Success(cached.value);
    }
    r := FetchOrderItems(db, p, sorted);
    if p == 1 && r.Success? {
      cache.Set(PageKey(p), r.value, CacheTtl, now);
    }
  }

  /** After a miss on page 1 at time t, every request for page 1 during the next ten minutes
      returns that same result, whatever the tables then hold, and writes nothing. */
  lemma FirstPageServedForTtl(entries: map<string, Entry>, db: Tables, db': Tables, t: int, now: int,
                               sorted: seq<OrderItem>, sorted': seq<OrderItem>)
    requires NewestFirstOrder(db.items, sorted) && NewestFirstOrder(db'.items, sorted')
    requires Lookup(entries, PageKey(1), t).None?
    requires t <= now < t + CacheTtl * 1000
    ensures var (r, after) := ListStep(entries, db, 1, t, sorted);
      ListStep(after, db', 1, now, sorted') == (r, after)
  {
  }

  /** No page but the first has an entry: what the cache holds when it starts empty and
      every write to it is a `ListStep`. */
  ghost predicate OnlyFirstPage(entries: map<string, Entry>)
  {
    forall p | p != 1 :: PageKey(p) !in entries
  }

  /** Different pages have different keys. */
  lemma PageKeyInjective(p: int, q: int)
    requires p != q
    ensures PageKey(p) != PageKey(q)
  {
    var n := |CachePrefix + "order-items:page:"|;
    assert PageKey(p)[n..] == IntToString(p);
    assert PageKey(q)[n..] == IntToString(q);
    ParseIntOfIntToString(p);
    ParseIntOfIntToString(q);
  }

  /** A listing request stores nothing under any page but the first. */
  lemma OnlyFirstPageKept(entries: map<string, Entry>, db: Tables, page: int, now: int, sorted: seq<OrderItem>)
    requires NewestFirstOrder(db.items, sorted) && OnlyFirstPage(entries)
    ensures OnlyFirstPage(ListStep(entries, db, page, now, sorted).1)
  {
    var entries' := ListStep(entries, db, page, now, sorted).1;
    forall p | p != 1 ensures PageKey(p) !in entries' {
      PageKeyInjective(p, 1);
    }
  }

  /** Pages other than the first never reach the cache, and a page is served from the cache
      only when it was cached, so from any contents the requests can produce every page but
      the first reflects the tables and leaves the cache as it was. */
  lemma OtherPagesAlwaysFetched(entries: map<string, Entry>, db: Tables, page: int, now: int, sorted: seq<OrderItem>)
    requires page != 1 && NewestFirstOrder(db.items, sorted) && OnlyFirstPage(entries)
    ensures PageKey(page) != PageKey(1)
    ensures ListStep(entries, db, page, now, sorted) == (FetchOrderItems(db, page, sorted), entries)
  {
    PageKeyInjective(page, 1);
  }
}

=== FILE: order_properties.dfy ===
/** What order placement guarantees, stated over `PlaceOrder`, the function `CreateOrder` is
    proved to follow. */
module OrderProperties {
  import opened Wrappers
  import opened Schema
  import opened Store
  import opened Customers
  import opened Orders

  // ---- Tickets of a placement ------------------------------------------------------------

  /** `t` is the ticket of unit `j` of some line `k`. */
  predicate FromLines(t: Ticket, lines: seq<Line>, c: Claim)
  {
    exists k, j | 0 <= k < |lines| && 0 <= j < |lines[k].slots| :: t == LineTicket(lines[k], k, j, c)
  }

  lemma {:induction false} AllTicketsFromLines(lines: seq<Line>, c: Claim)
    ensures forall t | t in AllTickets(lines, c) :: FromLines(t, lines, c)
  {
    if lines != [] {
      var n := |lines| - 1;
      AllTicketsFromLines(lines[..n], c);
      assert AllTickets(lines, c) == AllTickets(lines[..n], c) + LineTickets(lines[n], n, c);
      forall t | t in AllTickets(lines, c) ensures FromLines(t, lines, c) {
        if t in AllTickets(lines[..n], c) {
          FromEarlierLine(lines, c, t);
        } else {
          FromLastLine(lines, c, t);
        }
      }
    }
  }

  lemma FromEarlierLine(lines: seq<Line>, c: Claim, t: Ticket)
    requires lines != [] && FromLines(t, lines[..|lines| - 1], c)
    ensures FromLines(t, lines, c)
  {
    var init := lines[..|lines| - 1];
    var k, j :| 0 <= k < |init| && 0 <= j < |init[k].slots| && t == LineTicket(init[k], k, j, c);
    assert init[k] == lines[k];
  }

  lemma FromLastLine(lines: seq<Line>, c: Claim, t: Ticket)
    requires lines != [] && t in LineTickets(lines[|lines| - 1], |lines| - 1, c)
    ensures FromLines(t, lines, c)
  {
    var n := |lines| - 1;
    var j :| 0 <= j < |lines[n].slots| && LineTickets(lines[n], n, c)[j] == t;
    assert t == LineTicket(lines[n], n, j, c);
  }

  lemma LineTicketInAll(lines: seq<Line>, k: nat, j: nat, c: Claim)
    requires k < |lines| && j < |lines[k].slots|
    ensures LineTicket(lines[k], k, j, c) in AllTickets(lines, c)
  {
    AllTicketsPrefix(lines, k + 1, c);
    Step(lines, k, c);
    var a, b := AllTickets(lines[..k], c), LineTickets(lines[k], k, c);
    PrefixAt(a + b, AllTickets(lines, c), |a| + j);
  }

  lemma PrefixAt<T>(pre: seq<T>, s: seq<T>, i: nat)
    requires pre <= s && i < |pre|
    ensures pre[i] in s
  {
    assert s[i] == pre[i];
  }

  /** The number of units the selections ask for. */
  function TotalQuantity(sels: seq<Selection>): nat
  {
    if sels == [] then 0 else TotalQuantity(sels[..|sels| - 1]) + sels[|sels| - 1].quantity
  }

  lemma {:induction false} AllTicketsCount(types: map<Id, TicketType>, inv: seq<Slot>, snapshot: set<Id>,
                                           sels: seq<Selection>, lines: seq<Line>, c: Claim)
    requires Discovered(types, inv, snapshot, sels, lines)
    ensures |AllTickets(lines, c)| == TotalQuantity(sels)
  {
    if lines != [] {
      var n := |lines| - 1;
      assert Discovered(types, inv, snapshot, sels[..n], lines[..n]);
      AllTicketsCount(types, inv, snapshot, sels[..n], lines[..n], c);
    }
  }

  /** Every ticket of a placement is valid, belongs to the new order and customer, carries
      the claim's event, and claims a slot of its own ticket type that the snapshot showed
      unclaimed. */
  lemma TicketsOfPlacement(types: map<Id, TicketType>, inv: seq<Slot>, snapshot: set<Id>,
                           sels: seq<Selection>, lines: seq<Line>, c: Claim)
    requires forall k | k in types :: types[k].id == k
    requires Discovered(types, inv, snapshot, sels, lines)
    ensures forall t | t in AllTickets(lines, c) ::
      && t.status == TicketValid && t.isCheckedIn == 0
      && t.orderId == c.orderId && t.customerId == c.customerId
      && t.eventId == c.event.id && t.eventTitle == c.event.title
      && t.slotId in Available(inv, snapshot, t.ticketTypeId)
  {
    AllTicketsFromLines(lines, c);
    forall t | t in AllTickets(lines, c)
      ensures t.slotId in Available(inv, snapshot, t.ticketTypeId)
    {
      var k, j :| 0 <= k < |lines| && 0 <= j < |lines[k].slots| && t == LineTicket(lines[k], k, j, c);
      assert IsDiscovery(inv, snapshot, sels[k].ticketTypeId, sels[k].quantity, lines[k].slots);
    }
  }

  // ---- Inserting a batch of tickets ------------------------------------------------------

  /** A batch accepted without violation keeps the tickets table within its constraints. */
  lemma {:induction false} ClaimCheckConforms(ts: seq<Ticket>, inv: seq<Slot>, news: seq<Ticket>)
    requires TicketsConform(ts, inv)
    requires ClaimCheck(ts, inv, news).None?
    ensures TicketsConform(ts + news, inv)
    decreases |news|
  {
    if news != [] {
      TicketInsertConforms(ts, inv, news[0]);
      ClaimCheckConforms(ts + [news[0]], inv, news[1..]);
      assert ts + [news[0]] + news[1..] == ts + news;
    } else {
      assert ts + news == ts;
    }
  }

  /** A batch in which some ticket claims an already claimed slot is rejected. */
  lemma {:induction false} ClaimCheckCatchesTaken(ts: seq<Ticket>, inv: seq<Slot>, news: seq<Ticket>, i: nat)
    requires i < |news| && news[i].slotId in SlotIds(ts)
    ensures ClaimCheck(ts, inv, news).Some?
    decreases |news|
  {
    if i > 0 && TicketInsertCheck(ts, inv, news[0]).None? {
      var ts' := ts + [news[0]];
      assert SlotIds(ts') == SlotIds(ts) + [news[0].slotId];
      assert news[1..][i - 1] == news[i];
      ClaimCheckCatchesTaken(ts', inv, news[1..], i - 1);
    }
  }

  /** A batch of existing, pairwise distinct, unclaimed slots with new, pairwise distinct
      codes is accepted. */
  lemma {:induction false} ClaimCheckAccepts(ts: seq<Ticket>, inv: seq<Slot>, news: seq<Ticket>)
    requires Distinct(SlotIds(news)) && Distinct(TicketCodes(news))
    requires forall i | 0 <= i < |news| ::
      news[i].slotId in InventoryIds(inv) && news[i].slotId !in SlotIds(ts)
      && news[i].ticketCode !in TicketCodes(ts)
    ensures ClaimCheck(ts, inv, news).None?
    decreases |news|
  {
    if news != [] {
      var ts' := ts + [news[0]];
      assert SlotIds(ts') == SlotIds(ts) + [news[0].slotId];
      assert TicketCodes(ts') == TicketCodes(ts) + [news[0].ticketCode];
      var rest := news[1..];
      assert SlotIds(rest) == SlotIds(news)[1..];
      assert TicketCodes(rest) == TicketCodes(news)[1..];
      forall i | 0 <= i < |rest|
        ensures rest[i].slotId !in SlotIds(ts') && rest[i].ticketCode !in TicketCodes(ts')
      {
        assert rest[i] == news[i + 1];
        assert SlotIds(news)[0] != SlotIds(news)[i + 1];
        assert TicketCodes(news)[0] != TicketCodes(news)[i + 1];
      }
      ClaimCheckAccepts(ts', inv, rest);
    }
  }

  /** A batch whose code clashes all come with a slot clash, and whose slots all exist, can
      only be rejected for a claimed slot: every ticket whose code is already stored claims a
      slot already stored, and two tickets of the batch sharing a code share a slot. */
  lemma {:induction false} ClaimCheckOnlySlotClash(ts: seq<Ticket>, inv: seq<Slot>, news: seq<Ticket>)
    requires forall i | 0 <= i < |news| :: news[i].slotId in InventoryIds(inv)
    requires forall i | 0 <= i < |news| ::
      news[i].ticketCode in TicketCodes(ts) ==> news[i].slotId in SlotIds(ts)
    requires forall x, y | 0 <= x < y < |news| ::
      news[x].ticketCode == news[y].ticketCode ==> news[x].slotId == news[y].slotId
    ensures ClaimCheck(ts, inv, news) in {None, Some(SlotAlreadyClaimed)}
    decreases |news|
  {
    if news != [] && TicketInsertCheck(ts, inv, news[0]).None? {
      var ts' := ts + [news[0]];
      assert SlotIds(ts') == SlotIds(ts) + [news[0].slotId];
      assert TicketCodes(ts') == TicketCodes(ts) + [news[0].ticketCode];
      var rest := news[1..];
      forall i | 0 <= i < |rest|
        ensures rest[i].ticketCode in TicketCodes(ts') ==> rest[i].slotId in SlotIds(ts')
      {
        assert rest[i] == news[i + 1];
      }
      forall x, y | 0 <= x < y < |rest|
        ensures rest[x].ticketCode == rest[y].ticketCode ==> rest[x].slotId == rest[y].slotId
      {
        assert rest[x] == news[x + 1] && rest[y] == news[y + 1];
      }
      ClaimCheckOnlySlotClash(ts', inv, rest);
    }
  }

  // ---- All or nothing --------------------------------------------------------------------

  /** A failed placement leaves orders, items and tickets exactly as they were. A successful
      one adds one order, one item per selection and one ticket per requested unit. */
  lemma AllOrNothing(cat: CatalogTables, before: SalesTables, input: OrderInput, snapshot: set<Id>,
                     lines: seq<Line>, f: Fresh)
    requires Precheck(cat.ticketTypes, cat.inventory, snapshot, input.tickets).None? ==>
             Discovered(cat.ticketTypes, cat.inventory, snapshot, input.tickets, lines)
    ensures var (r, after) := PlaceOrder(cat, before, input, snapshot, lines, f);
      r.Failure? ==>
        after.orders == before.orders && after.orderItems == before.orderItems
        && after.tickets == before.tickets
    ensures var (r, after) := PlaceOrder(cat, before, input, snapshot, lines, f);
      r.Success? ==>
        && |after.orders| == |before.orders| + 1
        && |after.orderItems| == |before.orderItems| + |input.tickets|
        && |after.tickets| == |before.tickets| + TotalQuantity(input.tickets)
        && after.tickets[..|before.tickets|] == before.tickets
        && after.orderItems[..|before.orderItems|] == before.orderItems
  {
    var (r, after) := PlaceOrder(cat, before, input, snapshot, lines, f);
    if r.Success? {
      SuccessAppends(cat, before, input, snapshot, lines, f);
    }
  }

  lemma SuccessAppends(cat: CatalogTables, before: SalesTables, input: OrderInput, snapshot: set<Id>,
                       lines: seq<Line>, f: Fresh)
    requires Precheck(cat.ticketTypes, cat.inventory, snapshot, input.tickets).None? ==>
             Discovered(cat.ticketTypes, cat.inventory, snapshot, input.tickets, lines)
    requires PlaceOrder(cat, before, input, snapshot, lines, f).0.Success?
    ensures var after := PlaceOrder(cat, before, input, snapshot, lines, f).1;
      && |after.orders| == |before.orders| + 1
      && |after.orderItems| == |before.orderItems| + |input.tickets|
      && |after.tickets| == |before.tickets| + TotalQuantity(input.tickets)
      && after.tickets[..|before.tickets|] == before.tickets
      && after.orderItems[..|before.orderItems|] == before.orderItems
  {
    var event := cat.events[lines[0].ticketType.eventId];
    var customer := FindOrCreate(before.customers, input.customer, f.customerId, f.now, f.customerScan).1;
    var order := PendingOrder(input, customer, event, Subtotal(lines), f);
    var c := Claim(order.id, event, customer.id, f);
    AllTicketsCount(cat.ticketTypes, cat.inventory, snapshot, input.tickets, lines, c);
  }

  /** The leak: once validation, discovery and the event lookup have passed, the customer
      write stays even when the transaction then fails. */
  lemma CustomerWriteSurvivesAbort(cat: CatalogTables, before: SalesTables, input: OrderInput,
                                   snapshot: set<Id>, lines: seq<Line>, f: Fresh)
    requires Precheck(cat.ticketTypes, cat.inventory, snapshot, input.tickets).None?
    requires Discovered(cat.ticketTypes, cat.inventory, snapshot, input.tickets, lines)
    requires lines != [] && lines[0].ticketType.eventId in cat.events
    ensures var (r, after) := PlaceOrder(cat, before, input, snapshot, lines, f);
      after.customers == FindOrCreate(before.customers, input.customer, f.customerId, f.now, f.customerScan).0
  {
  }

  /** For instance a guest with a new email who loses a race still leaves a new customer
      row behind, while no order, item or ticket remains. */
  lemma AbortedGuestLeavesCustomer(cat: CatalogTables, before: SalesTables, input: OrderInput,
                                   snapshot: set<Id>, lines: seq<Line>, f: Fresh)
    requires Precheck(cat.ticketTypes, cat.inventory, snapshot, input.tickets).None?
    requires Discovered(cat.ticketTypes, cat.inventory, snapshot, input.tickets, lines)
    requires lines != [] && lines[0].ticketType.eventId in cat.events
    requires !Truthy(input.customer.userId)
    requires forall j | 0 <= j < |before.customers| :: before.customers[j].email != input.customer.email
    ensures var (r, after) := PlaceOrder(cat, before, input, snapshot, lines, f);
      r.Failure? ==>
        && |after.customers| == |before.customers| + 1
        && after.orders == before.orders && after.tickets == before.tickets
  {
    CustomerWriteSurvivesAbort(cat, before, input, snapshot, lines, f);
    GuestWithoutMatchInserts(before.customers, input.customer, f.customerId, f.now, f.customerScan);
    AllOrNothing(cat, before, input, snapshot, lines, f);
  }

  // ---- The race ----------------------------------------------------------------------------

  /** If a slot discovery returned was claimed by a ticket stored since the snapshot, the
      placement fails. */
  lemma RaceAborts(cat: CatalogTables, before: SalesTables, input: OrderInput, snapshot: set<Id>,
                   lines: seq<Line>, f: Fresh, k: nat, j: nat)
    requires Precheck(cat.ticketTypes, cat.inventory, snapshot, input.tickets).None?
    requires Discovered(cat.ticketTypes, cat.inventory, snapshot, input.tickets, lines)
    requires k < |lines| && j < |lines[k].slots| && lines[k].slots[j] in SlotIds(before.tickets)
    ensures PlaceOrder(cat, before, input, snapshot, lines, f).0.Failure?
    ensures lines[0].ticketType.eventId in cat.events ==>
      PlaceOrder(cat, before, input, snapshot, lines, f).0.error.UniqueViolation?
  {
    if lines[0].ticketType.eventId in cat.events {
      var event := cat.events[lines[0].ticketType.eventId];
      var customer := FindOrCreate(before.customers, input.customer, f.customerId, f.now, f.customerScan).1;
      var order := PendingOrder(input, customer, event, Subtotal(lines), f);
      var c := Claim(order.id, event, customer.id, f);
      var news := AllTickets(lines, c);
      LineTicketInAll(lines, k, j, c);
      var i :| 0 <= i < |news| && news[i] == LineTicket(lines[k], k, j, c);
      ClaimCheckCatchesTaken(before.tickets, cat.inventory, news, i);
    }
  }

  /** With a fresh order number and fresh, pairwise distinct ticket codes, the violation
      that aborts a raced placement is the slot index's, never one of the other constraints
      and never a shortage. */
  lemma RaceIsSlotClash(cat: CatalogTables, before: SalesTables, input: OrderInput, snapshot: set<Id>,
                        lines: seq<Line>, f: Fresh, k: nat, j: nat)
    requires Precheck(cat.ticketTypes, cat.inventory, snapshot, input.tickets).None?
    requires Discovered(cat.ticketTypes, cat.inventory, snapshot, input.tickets, lines)
    requires k < |lines| && j < |lines[k].slots| && lines[k].slots[j] in SlotIds(before.tickets)
    requires lines[0].ticketType.eventId in cat.events
    requires OrderNumber(f) !in OrderNumbers(before.orders)
    requires forall k1, j1, k2, j2 | (k1, j1) != (k2, j2) :: f.codeSuffix(k1, j1) != f.codeSuffix(k2, j2)
    requires forall k: nat, j: nat :: TicketCode(f, k, j) !in TicketCodes(before.tickets)
    ensures PlaceOrder(cat, before, input, snapshot, lines, f).0 == Failure(UniqueViolation(SlotAlreadyClaimed))
  {
    var event := cat.events[lines[0].ticketType.eventId];
    var customer := FindOrCreate(before.customers, input.customer, f.customerId, f.now, f.customerScan).1;
    var order := PendingOrder(input, customer, event, Subtotal(lines), f);
    var c := Claim(order.id, event, customer.id, f);
    var news := AllTickets(lines, c);
    RaceAborts(cat, before, input, snapshot, lines, f, k, j);
    AllTicketsFromLines(lines, c);
    forall i | 0 <= i < |news|
      ensures news[i].slotId in InventoryIds(cat.inventory)
      ensures news[i].ticketCode !in TicketCodes(before.tickets)
    {
      assert news[i] in news;
      var k1, j1 :| 0 <= k1 < |lines| && 0 <= j1 < |lines[k1].slots| && news[i] == LineTicket(lines[k1], k1, j1, c);
      SlotExists(cat.ticketTypes, cat.inventory, snapshot, input.tickets, lines, k1, j1);
    }
    forall x, y | 0 <= x < y < |news|
      ensures news[x].ticketCode == news[y].ticketCode ==> news[x].slotId == news[y].slotId
    {
      assert news[x] in news && news[y] in news;
      var k1, j1 :| 0 <= k1 < |lines| && 0 <= j1 < |lines[k1].slots| && news[x] == LineTicket(lines[k1], k1, j1, c);
      var k2, j2 :| 0 <= k2 < |lines| && 0 <= j2 < |lines[k2].slots| && news[y] == LineTicket(lines[k2], k2, j2, c);
      if (k1, j1) != (k2, j2) {
        CodeInjective(f, k1, j1, k2, j2);
      }
    }
    ClaimCheckOnlySlotClash(before.tickets, cat.inventory, news);
  }

  /** Every slot discovery returns exists in the inventory. */
  lemma SlotExists(types: map<Id, TicketType>, inv: seq<Slot>, snapshot: set<Id>, sels: seq<Selection>,
                   lines: seq<Line>, k: nat, j: nat)
    requires Discovered(types, inv, snapshot, sels, lines)
    requires k < |lines| && j < |lines[k].slots|
    ensures lines[k].slots[j] in InventoryIds(inv)
  {
    assert IsDiscovery(inv, snapshot, sels[k].ticketTypeId, sels[k].quantity, lines[k].slots);
    var s := lines[k].slots[j];
    assert s in SlotsOfType(inv, sels[k].ticketTypeId);
    var x :| 0 <= x < |inv| && inv[x].ticketTypeId == sels[k].ticketTypeId && inv[x].id == s;
    assert InventoryIds(inv)[x] == s;
  }

  /** A ticket of an earlier line and a ticket of the last line claim different slots when
      the two lines are for different ticket types. */
  lemma SlotsOfEarlierLines(types: map<Id, TicketType>, inv: seq<Slot>, snapshot: set<Id>,
                            sels: seq<Selection>, lines: seq<Line>, c: Claim, t: Ticket, j: nat)
    requires Distinct(InventoryIds(inv))
    requires forall k | k in types :: types[k].id == k
    requires Discovered(types, inv, snapshot, sels, lines)
    requires forall a, b | 0 <= a < b < |sels| :: sels[a].ticketTypeId != sels[b].ticketTypeId
    requires lines != [] && j < |lines[|lines| - 1].slots|
    requires t in AllTickets(lines[..|lines| - 1], c)
    ensures t.slotId != lines[|lines| - 1].slots[j]
  {
    var n := |lines| - 1;
    var init := lines[..n];
    AllTicketsFromLines(init, c);
    var k, i :| 0 <= k < |init| && 0 <= i < |init[k].slots| && t == LineTicket(init[k], k, i, c);
    assert init[k] == lines[k];
    assert IsDiscovery(inv, snapshot, sels[k].ticketTypeId, sels[k].quantity, lines[k].slots);
    assert IsDiscovery(inv, snapshot, sels[n].ticketTypeId, sels[n].quantity, lines[n].slots);
    assert t.slotId in SlotsOfType(inv, sels[k].ticketTypeId);
    assert lines[n].slots[j] in SlotsOfType(inv, sels[n].ticketTypeId);
    if t.slotId == lines[n].slots[j] {
      SlotTypeUnique(inv, t.slotId, sels[k].ticketTypeId, sels[n].ticketTypeId);
    }
  }

  /** With one selection per ticket type, no two tickets of a placement claim the same slot. */
  lemma {:induction false} DistinctSlotsAcrossLines(types: map<Id, TicketType>, inv: seq<Slot>, snapshot: set<Id>,
                                                    sels: seq<Selection>, lines: seq<Line>, c: Claim)
    requires Distinct(InventoryIds(inv))
    requires forall k | k in types :: types[k].id == k
    requires Discovered(types, inv, snapshot, sels, lines)
    requires forall a, b | 0 <= a < b < |sels| :: sels[a].ticketTypeId != sels[b].ticketTypeId
    ensures Distinct(SlotIds(AllTickets(lines, c)))
  {
    if lines != [] {
      var n := |lines| - 1;
      assert Discovered(types, inv, snapshot, sels[..n], lines[..n]);
      DistinctSlotsAcrossLines(types, inv, snapshot, sels[..n], lines[..n], c);
      var a, b := AllTickets(lines[..n], c), LineTickets(lines[n], n, c);
      assert IsDiscovery(inv, snapshot, sels[n].ticketTypeId, sels[n].quantity, lines[n].slots);
      assert Distinct(SlotIds(b)) by {
        assert forall y | 0 <= y < |b| :: SlotIds(b)[y] == lines[n].slots[y];
      }
      forall x, y | 0 <= x < |a| && 0 <= y < |b| ensures a[x].slotId != b[y].slotId {
        assert a[x] in a;
        SlotsOfEarlierLines(types, inv, snapshot, sels, lines, c, a[x], y);
      }
      DistinctSlotsAppend(a, b);
    }
  }

  lemma DistinctSlotsAppend(a: seq<Ticket>, b: seq<Ticket>)
    requires Distinct(SlotIds(a)) && Distinct(SlotIds(b))
    requires forall x, y | 0 <= x < |a| && 0 <= y < |b| :: a[x].slotId != b[y].slotId
    ensures Distinct(SlotIds(a + b))
  {
    var ids := SlotIds(a + b);
    forall x, y | 0 <= x < y < |ids| ensures ids[x] != ids[y] {
      if y < |a| {
        assert SlotIds(a)[x] != SlotIds(a)[y];
      } else if x >= |a| {
        assert SlotIds(b)[x - |a|] != SlotIds(b)[y - |a|];
      }
    }
  }

  /** The tickets of a placement get pairwise distinct codes when the code suffixes are
      pairwise distinct. */
  lemma CodesDistinct(lines: seq<Line>, c: Claim)
    requires Distinct(SlotIds(AllTickets(lines, c)))
    requires forall k1, j1, k2, j2 | (k1, j1) != (k2, j2) :: c.drawn.codeSuffix(k1, j1) != c.drawn.codeSuffix(k2, j2)
    ensures Distinct(TicketCodes(AllTickets(lines, c)))
  {
    var news := AllTickets(lines, c);
    AllTicketsFromLines(lines, c);
    forall x, y | 0 <= x < y < |news| ensures news[x].ticketCode != news[y].ticketCode {
      assert news[x] in news && news[y] in news;
      var k1, j1 :| 0 <= k1 < |lines| && 0 <= j1 < |lines[k1].slots| && news[x] == LineTicket(lines[k1], k1, j1, c);
      var k2, j2 :| 0 <= k2 < |lines| && 0 <= j2 < |lines[k2].slots| && news[y] == LineTicket(lines[k2], k2, j2, c);
      if (k1, j1) != (k2, j2) {
        CodeInjective(c.drawn, k1, j1, k2, j2);
      }
    }
  }

  /** Every ticket of a placement claims an existing slot that was unclaimed at the snapshot
      and so, with no claim since, is still unclaimed. */
  lemma SlotsStillFree(types: map<Id, TicketType>, inv: seq<Slot>, snapshot: set<Id>, sels: seq<Selection>,
                       lines: seq<Line>, c: Claim, ts: seq<Ticket>)
    requires forall k | k in types :: types[k].id == k
    requires Discovered(types, inv, snapshot, sels, lines)
    requires forall i | 0 <= i < |ts| :: ts[i].slotId in snapshot
    ensures forall i | 0 <= i < |AllTickets(lines, c)| ::
      AllTickets(lines, c)[i].slotId in InventoryIds(inv) && AllTickets(lines, c)[i].slotId !in SlotIds(ts)
  {
    var news := AllTickets(lines, c);
    TicketsOfPlacement(types, inv, snapshot, sels, lines, c);
    forall i | 0 <= i < |news|
      ensures news[i].slotId in InventoryIds(inv) && news[i].slotId !in SlotIds(ts)
    {
      assert news[i] in news;
      var s := news[i].slotId;
      assert s in SlotsOfType(inv, news[i].ticketTypeId);
      var x :| 0 <= x < |inv| && inv[x].ticketTypeId == news[i].ticketTypeId && inv[x].id == s;
      assert InventoryIds(inv)[x] == s;
    }
  }

  /** Without a concurrent claim since the snapshot, with one selection per ticket type, and
      with a fresh order number and fresh, pairwise distinct ticket codes, a placement that
      passes validation and finds its event succeeds. */
  lemma NoRaceSucceeds(cat: CatalogTables, before: SalesTables, input: OrderInput, snapshot: set<Id>,
                       lines: seq<Line>, f: Fresh)
    requires Distinct(InventoryIds(cat.inventory))
    requires forall k | k in cat.ticketTypes :: cat.ticketTypes[k].id == k
    requires Precheck(cat.ticketTypes, cat.inventory, snapshot, input.tickets).None?
    requires Discovered(cat.ticketTypes, cat.inventory, snapshot, input.tickets, lines)
    requires lines != [] && lines[0].ticketType.eventId in cat.events
    requires forall i | 0 <= i < |before.tickets| :: before.tickets[i].slotId in snapshot
    requires forall a, b | 0 <= a < b < |input.tickets| ::
      input.tickets[a].ticketTypeId != input.tickets[b].ticketTypeId
    requires OrderNumber(f) !in OrderNumbers(before.orders)
    requires forall k1, j1, k2, j2 | (k1, j1) != (k2, j2) :: f.codeSuffix(k1, j1) != f.codeSuffix(k2, j2)
    requires forall k: nat, j: nat :: TicketCode(f, k, j) !in TicketCodes(before.tickets)
    ensures PlaceOrder(cat, before, input, snapshot, lines, f).0.Success?
  {
    var event := cat.events[lines[0].ticketType.eventId];
    var customer := FindOrCreate(before.customers, input.customer, f.customerId, f.now, f.customerScan).1;
    var order := PendingOrder(input, customer, event, Subtotal(lines), f);
    var c := Claim(order.id, event, customer.id, f);
    var news := AllTickets(lines, c);
    DistinctSlotsAcrossLines(cat.ticketTypes, cat.inventory, snapshot, input.tickets, lines, c);
    CodesDistinct(lines, c);
    SlotsStillFree(cat.ticketTypes, cat.inventory, snapshot, input.tickets, lines, c, before.tickets);
    AllTicketsFromLines(lines, c);
    forall i | 0 <= i < |news| ensures news[i].ticketCode !in TicketCodes(before.tickets) {
      assert news[i] in news;
    }
    ClaimCheckAccepts(before.tickets, cat.inventory, news);
  }

  lemma CodeInjective(f: Fresh, k1: nat, j1: nat, k2: nat, j2: nat)
    requires f.codeSuffix(k1, j1) != f.codeSuffix(k2, j2)
    ensures TicketCode(f, k1, j1) != TicketCode(f, k2, j2)
  {
    var p := "TKT-" + Text.IntToString(f.now) + "-";
    assert TicketCode(f, k1, j1) == p + f.codeSuffix(k1, j1);
    assert TicketCode(f, k2, j2) == p + f.codeSuffix(k2, j2);
    assert (p + f.codeSuffix(k1, j1))[|p|..] == f.codeSuffix(k1, j1);
    assert (p + f.codeSuffix(k2, j2))[|p|..] == f.codeSuffix(k2, j2);
  }

  // ---- Stock invariants --------------------------------------------------------------------

  /** A successful placement keeps the tickets table within its constraints and keeps every
      ticket recorded with the type of the slot it claims; with that, no ticket type is ever
      sold beyond its slots. */
  lemma PlacementKeepsStock(cat: CatalogTables, before: SalesTables, input: OrderInput, snapshot: set<Id>,
                            lines: seq<Line>, f: Fresh, typeId: Id)
    requires Distinct(InventoryIds(cat.inventory))
    requires forall k | k in cat.ticketTypes :: cat.ticketTypes[k].id == k
    requires TicketsConform(before.tickets, cat.inventory)
    requires TicketTypesMatchSlots(before.tickets, cat.inventory)
    requires Precheck(cat.ticketTypes, cat.inventory, snapshot, input.tickets).None? ==>
             Discovered(cat.ticketTypes, cat.inventory, snapshot, input.tickets, lines)
    ensures var after := PlaceOrder(cat, before, input, snapshot, lines, f).1;
      && TicketsConform(after.tickets, cat.inventory)
      && TicketTypesMatchSlots(after.tickets, cat.inventory)
      && TicketsOfType(after.tickets, typeId) <= |SlotsOfType(cat.inventory, typeId)|
  {
    var after := PlaceOrder(cat, before, input, snapshot, lines, f).1;
    if PlaceOrder(cat, before, input, snapshot, lines, f).0.Success? {
      var news := PlacedTickets(cat, before, input, snapshot, lines, f);
      ClaimCheckConforms(before.tickets, cat.inventory, news);
      AppendMatchesSlots(before.tickets, news, cat.inventory);
    } else {
      AllOrNothing(cat, before, input, snapshot, lines, f);
    }
    NoOversellByType(after.tickets, cat.inventory, typeId);
  }

  /** The tickets a successful placement appends, each recorded with the type of its slot. */
  lemma PlacedTickets(cat: CatalogTables, before: SalesTables, input: OrderInput, snapshot: set<Id>,
                      lines: seq<Line>, f: Fresh) returns (news: seq<Ticket>)
    requires forall k | k in cat.ticketTypes :: cat.ticketTypes[k].id == k
    requires Precheck(cat.ticketTypes, cat.inventory, snapshot, input.tickets).None? ==>
             Discovered(cat.ticketTypes, cat.inventory, snapshot, input.tickets, lines)
    requires PlaceOrder(cat, before, input, snapshot, lines, f).0.Success?
    ensures PlaceOrder(cat, before, input, snapshot, lines, f).1.tickets == before.tickets + news
    ensures ClaimCheck(before.tickets, cat.inventory, news).None?
    ensures forall t | t in news :: t.slotId in SlotsOfType(cat.inventory, t.ticketTypeId)
  {
    var event := cat.events[lines[0].ticketType.eventId];
    var customer := FindOrCreate(before.customers, input.customer, f.customerId, f.now, f.customerScan).1;
    var order := PendingOrder(input, customer, event, Subtotal(lines), f);
    var c := Claim(order.id, event, customer.id, f);
    news := AllTickets(lines, c);
    TicketsOfPlacement(cat.ticketTypes, cat.inventory, snapshot, input.tickets, lines, c);
  }

  /** Appending tickets recorded with the types of their slots keeps the whole table so. */
  lemma AppendMatchesSlots(ts: seq<Ticket>, news: seq<Ticket>, inv: seq<Slot>)
    requires TicketTypesMatchSlots(ts, inv)
    requires forall t | t in news :: t.slotId in SlotsOfType(inv, t.ticketTypeId)
    ensures TicketTypesMatchSlots(ts + news, inv)
  {
    forall i | 0 <= i < |ts + news|
      ensures (ts + news)[i].slotId in SlotsOfType(inv, (ts + news)[i].ticketTypeId)
    {
      if i >= |ts| {
        assert (ts + news)[i] == news[i - |ts|];
        assert news[i - |ts|] in news;
      }
    }
  }

  // ---- Money -------------------------------------------------------------------------------

  /** The stored total is 113% of the subtotal to the nearest cent; it is within one cent of
      the sum of the separately rounded subtotal, tax and fees. */
  lemma TotalWithinOneCent(subtotal: int)
    ensures -1 <= Total(subtotal) - (subtotal + Tax(subtotal) + Fees(subtotal)) <= 1
  {
    var t, x, y := Total(subtotal), Tax(subtotal), Fees(subtotal);
    assert -150 <= 100 * (t - subtotal - x - y) <= 150;
  }

  /** It is not always equal: a subtotal of $1.04 has tax $0.08, fees $0.05 and total
      $1.18. */
  lemma TotalMayExceedParts()
    ensures Tax(104) == 8 && Fees(104) == 5 && Total(104) == 118
    ensures Total(104) != 104 + Tax(104) + Fees(104)
  {
  }

  function ItemSubtotals(items: seq<OrderItem>): int
  {
    if items == [] then 0 else ItemSubtotals(items[..|items| - 1]) + items[|items| - 1].subtotal
  }

  /** The order's subtotal is the sum of its items' subtotals, each unit price times
      quantity. */
  lemma {:induction false} SubtotalIsSumOfItems(lines: seq<Line>, c: Claim)
    ensures ItemSubtotals(Items(lines, c)) == Subtotal(lines)
  {
    if lines != [] {
      var n := |lines| - 1;
      SubtotalIsSumOfItems(lines[..n], c);
      assert Items(lines, c)[..n] == Items(lines[..n], c);
    }
  }

  /** A successful placement returns the new order's id, number and total, and the order
      ends completed and paid at `now` with the amounts computed from the subtotal. With a
      fresh order id it is the only order that changes. */
  lemma CompletedOrder(cat: CatalogTables, before: SalesTables, input: OrderInput, snapshot: set<Id>,
                       lines: seq<Line>, f: Fresh)
    requires Precheck(cat.ticketTypes, cat.inventory, snapshot, input.tickets).None? ==>
             Discovered(cat.ticketTypes, cat.inventory, snapshot, input.tickets, lines)
    requires forall i | 0 <= i < |before.orders| :: before.orders[i].id != f.orderId
    ensures var (r, after) := PlaceOrder(cat, before, input, snapshot, lines, f);
      r.Success? ==>
        && after.orders[..|before.orders|] == before.orders
        && |after.orders| == |before.orders| + 1
        && var o := after.orders[|before.orders|];
           && o.id == f.orderId == r.value.orderId && o.orderNumber == r.value.orderNumber
           && o.status == OrderCompleted && o.paymentStatus == PaymentCompleted
           && o.completedAt == Some(f.now)
           && o.subtotal == Subtotal(lines) && o.tax == Tax(o.subtotal) && o.fees == Fees(o.subtotal)
           && o.total == Total(o.subtotal) == r.value.total
  {
    var (r, after) := PlaceOrder(cat, before, input, snapshot, lines, f);
    if r.Success? {
      assert after.orders[..|before.orders|] == before.orders;
    }
  }

  // ---- Validation --------------------------------------------------------------------------

  /** The minimum per order plays no part in validation. */
  lemma MinimumNeverChecked(types: map<Id, TicketType>, inv: seq<Slot>, snapshot: set<Id>, sel: Selection, m: Option<int>)
    requires sel.ticketTypeId in types
    ensures var types' := types[sel.ticketTypeId := types[sel.ticketTypeId].(minQuantityPerOrder := m)];
      var e := SelectionError(types, inv, snapshot, sel);
      var e' := SelectionError(types', inv, snapshot, sel);
      e.None? <==> e'.None?
  {
  }

  /** A selection above a set, non-zero maximum makes the whole placement fail before
      anything is written; a zero maximum is not enforced. */
  lemma MaximumEnforced(cat: CatalogTables, before: SalesTables, input: OrderInput, snapshot: set<Id>,
                        lines: seq<Line>, f: Fresh, i: nat)
    requires Precheck(cat.ticketTypes, cat.inventory, snapshot, input.tickets).None? ==>
             Discovered(cat.ticketTypes, cat.inventory, snapshot, input.tickets, lines)
    requires i < |input.tickets| && input.tickets[i].ticketTypeId in cat.ticketTypes
    requires var m := cat.ticketTypes[input.tickets[i].ticketTypeId].maxQuantityPerOrder;
      m.Some? && m.value != 0 && input.tickets[i].quantity > m.value
    ensures var (r, after) := PlaceOrder(cat, before, input, snapshot, lines, f);
      r.Failure? && after == before
  {
    assert SelectionError(cat.ticketTypes, cat.inventory, snapshot, input.tickets[i]).Some?;
  }

  /** A selection naming an unknown ticket type makes the whole placement fail before
      anything is written. */
  lemma UnknownTypeAborts(cat: CatalogTables, before: SalesTables, input: OrderInput, snapshot: set<Id>,
                          lines: seq<Line>, f: Fresh, i: nat)
    requires Precheck(cat.ticketTypes, cat.inventory, snapshot, input.tickets).None? ==>
             Discovered(cat.ticketTypes, cat.inventory, snapshot, input.tickets, lines)
    requires i < |input.tickets| && input.tickets[i].ticketTypeId !in cat.ticketTypes
    ensures var (r, after) := PlaceOrder(cat, before, input, snapshot, lines, f);
      r.Failure? && after == before
  {
    assert SelectionError(cat.ticketTypes, cat.inventory, snapshot, input.tickets[i]).Some?;
  }

  /** Fewer unclaimed slots in the snapshot than requested makes the placement fail before
      anything is written. */
  lemma InsufficientAborts(cat: CatalogTables, before: SalesTables, input: OrderInput, snapshot: set<Id>,
                           lines: seq<Line>, f: Fresh, i: nat)
    requires Precheck(cat.ticketTypes, cat.inventory, snapshot, input.tickets).None? ==>
             Discovered(cat.ticketTypes, cat.inventory, snapshot, input.tickets, lines)
    requires i < |input.tickets|
    requires |Available(cat.inventory, snapshot, input.tickets[i].ticketTypeId)| < input.tickets[i].quantity
    ensures var (r, after) := PlaceOrder(cat, before, input, snapshot, lines, f);
      r.Failure? && after == before
  {
    assert SelectionError(cat.ticketTypes, cat.inventory, snapshot, input.tickets[i]).Some?;
  }
}

=== FILE: orders.dfy ===
/** Order placement. Every selection is validated and its slots are discovered from a
    snapshot of the claimed slots, taken without a lock. The customer is then found or created
    outside the transaction. Inside the transaction the order, one item per selection and one
    ticket per unit are inserted, each ticket claiming one discovered slot. The unique index on
    the claimed slot decides every race: a violation rolls the whole transaction back. */
module Orders {
  import opened Wrappers
  import opened Text
  import opened Schema
  import opened Store
  import opened Customers

  datatype Selection = Selection(ticketTypeId: Id, quantity: nat)

  datatype OrderInput = OrderInput(
    customer: CustomerInput, tickets: seq<Selection>, paymentMethod: Option<string>)

  /** The values a call draws from outside: the clock, the keys the database generates for
      the new order, customer and rows (item `k`, ticket `j` of item `k`), the random
      suffixes of the order number and of each ticket code, and the order in which the
      customer lookups reach the rows of `customers`. */
  datatype Fresh = Fresh(
    now: int, orderId: Id, customerId: Id, orderSuffix: string,
    itemId: nat -> Id, ticketId: (nat, nat) -> Id, codeSuffix: (nat, nat) -> string,
    customerScan: Customer -> int)

  /** A validated selection together with the slots discovery returned for it. */
  datatype Line = Line(ticketType: TicketType, quantity: nat, slots: seq<Id>)

  /** One variant per way the call can throw. */
  datatype OrderError =
    | TicketTypeNotFound(ticketTypeId: Id)
    | MaxQuantityExceeded(max: int, ticketTypeName: string)
    | InsufficientInventory(ticketTypeName: string, available: nat, requested: nat)
    | NoSelections            // no selections: reading the first one fails
    | EventNotFound
    | UniqueViolation(violation: Violation)

  datatype TicketSummary = TicketSummary(
    id: Id, ticketCode: string, eventTitle: string, ticketTypeName: string, price: int)

  datatype Receipt = Receipt(
    orderId: Id, orderNumber: string, customerId: Id, total: int, tickets: seq<TicketSummary>)

  // ---- Discovery -------------------------------------------------------------------------

  /** Slots of a type that no ticket in the snapshot references. */
  function Available(inv: seq<Slot>, snapshot: set<Id>, typeId: Id): (a: set<Id>)
    ensures a <= SlotsOfType(inv, typeId) && a !! snapshot
  {
    SlotsOfType(inv, typeId) - snapshot
  }

  /** An answer the unordered, limited query may give: `min(q, available)` distinct
      available slots. */
  predicate IsDiscovery(inv: seq<Slot>, snapshot: set<Id>, typeId: Id, q: nat, found: seq<Id>)
  {
    && Distinct(found)
    && |found| == Min(q, |Available(inv, snapshot, typeId)|)
    && forall k | 0 <= k < |found| :: found[k] in Available(inv, snapshot, typeId)
  }

  /** The available slots in table order. */
  function AvailableInOrder(inv: seq<Slot>, snapshot: set<Id>, typeId: Id): seq<Id>
  {
    if inv == [] then []
    else
      var rest := AvailableInOrder(inv[1..], snapshot, typeId);
      if inv[0].ticketTypeId == typeId && inv[0].id !in snapshot then [inv[0].id] + rest else rest
  }

  lemma {:induction false} AvailableInOrderIsAvailable(inv: seq<Slot>, snapshot: set<Id>, typeId: Id)
    requires Distinct(InventoryIds(inv))
    ensures Distinct(AvailableInOrder(inv, snapshot, typeId))
    ensures Elems(AvailableInOrder(inv, snapshot, typeId)) == Available(inv, snapshot, typeId)
  {
    if inv != [] {
      var rest := inv[1..];
      assert InventoryIds(rest) == InventoryIds(inv)[1..];
      AvailableInOrderIsAvailable(rest, snapshot, typeId);
      var a := AvailableInOrder(rest, snapshot, typeId);
      assert inv[0].id !in Elems(a) by {
        assert Elems(a) <= SlotsOfType(rest, typeId);
        assert forall i | 0 <= i < |rest| :: rest[i].id != inv[0].id by {
          forall i | 0 <= i < |rest| ensures rest[i].id != inv[0].id {
            assert InventoryIds(inv)[0] != InventoryIds(inv)[i + 1];
          }
        }
      }
      assert SlotsOfType(inv, typeId) ==
        SlotsOfType(rest, typeId) + (if inv[0].ticketTypeId == typeId then {inv[0].id} else {}) by {
        forall x | x in SlotsOfType(inv, typeId)
          ensures x in SlotsOfType(rest, typeId) + (if inv[0].ticketTypeId == typeId then {inv[0].id} else {})
        {
          var i :| 0 <= i < |inv| && inv[i].ticketTypeId == typeId && inv[i].id == x;
          if i > 0 { assert rest[i - 1] == inv[i]; }
        }
        forall x | x in SlotsOfType(rest, typeId) ensures x in SlotsOfType(inv, typeId) {
          var i :| 0 <= i < |rest| && rest[i].ticketTypeId == typeId && rest[i].id == x;
          assert inv[i + 1] == rest[i];
        }
      }
      if inv[0].ticketTypeId == typeId && inv[0].id !in snapshot {
        DistinctPrepend(inv[0].id, a);
        assert Elems([inv[0].id] + a) == Elems(a) + {inv[0].id};
      }
    }
  }

  lemma DistinctPrepend<K>(x: K, ks: seq<K>)
    requires Distinct(ks) && x !in ks
    ensures Distinct([x] + ks)
  {
    var b := [x] + ks;
    forall i, j | 0 <= i < j < |b| ensures b[i] != b[j] {
      assert b[j] == ks[j - 1];
      if i > 0 { assert b[i] == ks[i - 1]; }
    }
  }

  lemma {:induction false} DistinctCard<K>(ks: seq<K>)
    requires Distinct(ks)
    ensures |Elems(ks)| == |ks|
  {
    if ks != [] {
      var rest := ks[1..];
      assert Distinct(rest) by {
        forall i, j | 0 <= i < j < |rest| ensures rest[i] != rest[j] {
          assert ks[i + 1] != ks[j + 1];
        }
      }
      DistinctCard(rest);
      assert Elems(ks) == Elems(rest) + {ks[0]};
      assert ks[0] !in Elems(rest);
    }
  }

  /** The limited query always has an answer. */
  lemma DiscoveryExists(inv: seq<Slot>, snapshot: set<Id>, typeId: Id, q: nat)
    requires Distinct(InventoryIds(inv))
    ensures exists found :: IsDiscovery(inv, snapshot, typeId, q, found)
  {
    var a := AvailableInOrder(inv, snapshot, typeId);
    AvailableInOrderIsAvailable(inv, snapshot, typeId);
    DistinctCard(a);
    var found := a[..Min(q, |a|)];
    assert forall k | 0 <= k < |found| :: found[k] in Elems(a) by {
      forall k | 0 <= k < |found| ensures found[k] in Elems(a) {
        assert found[k] == a[k];
      }
    }
    assert IsDiscovery(inv, snapshot, typeId, q, found);
  }

  /** The unlocked query for up to `q` unclaimed slots of a type; which ones come back is
      not determined. */
  method Discover(inv: seq<Slot>, snapshot: set<Id>, typeId: Id, q: nat) returns (found: seq<Id>)
    requires Distinct(InventoryIds(inv))
    ensures IsDiscovery(inv, snapshot, typeId, q, found)
    ensures |found| < q <==> |Available(inv, snapshot, typeId)| < q
  {
    DiscoveryExists(inv, snapshot, typeId, q);
    found :| IsDiscovery(inv, snapshot, typeId, q, found);
  }

  // ---- Validation --------------------------------------------------------------------------

  /** The error one selection raises, if any: unknown type, a set non-zero maximum exceeded,
      or fewer unclaimed slots than requested. The minimum per order is not checked. */
  function SelectionError(types: map<Id, TicketType>, inv: seq<Slot>, snapshot: set<Id>, sel: Selection): Option<OrderError>
  {
    if sel.ticketTypeId !in types then Some(TicketTypeNotFound(sel.ticketTypeId))
    else
      var tt := types[sel.ticketTypeId];
      if tt.maxQuantityPerOrder.Some? && tt.maxQuantityPerOrder.value != 0
         && sel.quantity > tt.maxQuantityPerOrder.value
      then Some(MaxQuantityExceeded(tt.maxQuantityPerOrder.value, tt.name))
      else
        var available := |Available(inv, snapshot, sel.ticketTypeId)|;
        if available < sel.quantity then Some(InsufficientInventory(tt.name, available, sel.quantity))
        else None
  }

  /** The error of the first failing selection, in list order. */
  function Precheck(types: map<Id, TicketType>, inv: seq<Slot>, snapshot: set<Id>, sels: seq<Selection>): (e: Option<OrderError>)
    ensures e.None? <==> forall i | 0 <= i < |sels| :: SelectionError(types, inv, snapshot, sels[i]).None?
  {
    if sels == [] then None
    else match SelectionError(types, inv, snapshot, sels[0]) {
      case Some(e) => Some(e)
      case None =>
        assert forall i | 1 <= i < |sels| :: sels[i] == sels[1..][i - 1];
        Precheck(types, inv, snapshot, sels[1..])
    }
  }

  /** `lines` is what validation and discovery produce for `sels`: per selection its stored
      type, its quantity and exactly that many distinct unclaimed slots of that type. */
  predicate Discovered(types: map<Id, TicketType>, inv: seq<Slot>, snapshot: set<Id>, sels: seq<Selection>, lines: seq<Line>)
  {
    && |lines| == |sels|
    && forall i | 0 <= i < |sels| ::
         && sels[i].ticketTypeId in types
         && lines[i].ticketType == types[sels[i].ticketTypeId]
         && lines[i].quantity == sels[i].quantity
         && |lines[i].slots| == sels[i].quantity
         && IsDiscovery(inv, snapshot, sels[i].ticketTypeId, sels[i].quantity, lines[i].slots)
  }

  lemma DiscoveredSnoc(types: map<Id, TicketType>, inv: seq<Slot>, snapshot: set<Id>,
                       sels: seq<Selection>, lines: seq<Line>, sel: Selection, line: Line)
    requires Discovered(types, inv, snapshot, sels, lines)
    requires sel.ticketTypeId in types && line.ticketType == types[sel.ticketTypeId]
    requires line.quantity == sel.quantity && |line.slots| == sel.quantity
    requires IsDiscovery(inv, snapshot, sel.ticketTypeId, sel.quantity, line.slots)
    ensures Discovered(types, inv, snapshot, sels + [sel], lines + [line])
  {
    var sels', lines' := sels + [sel], lines + [line];
    forall i | 0 <= i < |sels'|
      ensures && sels'[i].ticketTypeId in types
              && lines'[i].ticketType == types[sels'[i].ticketTypeId]
              && lines'[i].quantity == sels'[i].quantity
              && |lines'[i].slots| == sels'[i].quantity
              && IsDiscovery(inv, snapshot, sels'[i].ticketTypeId, sels'[i].quantity, lines'[i].slots)
    {
      if i < |sels| {
        assert sels'[i] == sels[i] && lines'[i] == lines[i];
      }
    }
  }

  /** Validation and discovery for every selection. */
  method DiscoverAll(types: map<Id, TicketType>, inv: seq<Slot>, snapshot: set<Id>, sels: seq<Selection>)
    returns (r: Result<seq<Line>, OrderError>)
    requires Distinct(InventoryIds(inv))
    ensures r.Failure? <==> Precheck(types, inv, snapshot, sels).Some?
    ensures r.Failure? ==> r.error == Precheck(types, inv, snapshot, sels).value
    ensures r.Success? ==> Discovered(types, inv, snapshot, sels, r.value)
  {
    var lines: seq<Line> := [];
    var i := 0;
    while i < |sels|
      invariant 0 <= i <= |sels|
      invariant Precheck(types, inv, snapshot, sels) == Precheck(types, inv, snapshot, sels[i..])
      invariant Discovered(types, inv, snapshot, sels[..i], lines)
    {
      var sel := sels[i];
      assert sels[i..][0] == sel && sels[i..][1..] == sels[i + 1..];
      var e := SelectionError(types, inv, snapshot, sel);
      if e.Some? {
        return Failure(e.value);
      }
      var found := Discover(inv, snapshot, sel.ticketTypeId, sel.quantity);
      var line := Line(types[sel.ticketTypeId], sel.quantity, found);
      assert sels[..i + 1] == sels[..i] + [sel];
      DiscoveredSnoc(types, inv, snapshot, sels[..i], lines, sel, line);
      lines := lines + [line];
      i := i + 1;
    }
    assert sels[..i] == sels;
    return Success(lines);
  }

  // ---- Money -------------------------------------------------------------------------------

  /** `(num / den).toFixed(2)` for an amount of `num / den` cents: the nearest cent, half a
      cent rounding away from zero. */
  function RoundCents(num: int, den: int): (r: int)
    requires den > 0
    ensures -den <= 2 * (den * r - num) <= den
    ensures num >= 0 ==> r >= 0
  {
    if num >= 0 then (2 * num + den) / (2 * den)
    else -((2 * -num + den) / (2 * den))
  }

  /** The sum of price times quantity over the lines. */
  function Subtotal(lines: seq<Line>): int
  {
    if lines == [] then 0
    else Subtotal(lines[..|lines| - 1]) + lines[|lines| - 1].ticketType.price * lines[|lines| - 1].quantity
  }

  /** 8% tax, to the nearest cent. */
  function Tax(subtotal: int): (t: int)
    ensures -50 <= 100 * t - 8 * subtotal <= 50
  {
    RoundCents(8 * subtotal, 100)
  }

  /** 5% service fee, to the nearest cent. */
  function Fees(subtotal: int): (f: int)
    ensures -50 <= 100 * f - 5 * subtotal <= 50
  {
    RoundCents(5 * subtotal, 100)
  }

  /** subtotal + tax + fees, summed before rounding: 113% of the subtotal to the nearest
      cent. */
  function Total(subtotal: int): (t: int)
    ensures -50 <= 100 * t - 113 * subtotal <= 50
  {
    RoundCents(113 * subtotal, 100)
  }

  // ---- Rows --------------------------------------------------------------------------------

  function OrderNumber(f: Fresh): string
  {
    "ORD-" + IntToString(f.now) + "-" + f.orderSuffix
  }

  function TicketCode(f: Fresh, k: nat, j: nat): string
  {
    "TKT-" + IntToString(f.now) + "-" + f.codeSuffix(k, j)
  }

  /** The order as first inserted: pending, pending, amounts from the subtotal, the
      customer's contact snapshot and the event's currency. */
  function PendingOrder(input: OrderInput, customer: Customer, event: Event, subtotal: int, f: Fresh): Order
  {
    Order(f.orderId, customer.id, OrderNumber(f), DefaultOrderStatus, DefaultPaymentStatus,
          Some(if Truthy(input.paymentMethod) then input.paymentMethod.value else "credit_card"),
          None, subtotal, Tax(subtotal), Fees(subtotal), Total(subtotal), event.currency,
          customer.email, customer.firstName, customer.lastName, customer.phone,
          None, None, f.now, f.now)
  }

  /** The UPDATE that marks the order paid. */
  function Completion(f: Fresh): OrderPatch
  {
    OrderPatch(Some(OrderCompleted), Some(PaymentCompleted), Some("pi_fake_" + IntToString(f.now)),
               Some(f.now), None, f.now)
  }

  /** What every row of one placement shares. */
  datatype Claim = Claim(orderId: Id, event: Event, customerId: Id, drawn: Fresh)

  function LineItem(line: Line, k: nat, c: Claim): OrderItem
  {
    OrderItem(c.drawn.itemId(k), c.orderId, line.ticketType.id, line.quantity,
              line.ticketType.price, line.ticketType.price * line.quantity, line.ticketType.name,
              c.drawn.now, c.drawn.now)
  }

  function Items(lines: seq<Line>, c: Claim): (items: seq<OrderItem>)
    ensures |items| == |lines|
  {
    if lines == [] then []
    else Items(lines[..|lines| - 1], c) + [LineItem(lines[|lines| - 1], |lines| - 1, c)]
  }

  /** Ticket `j` of line `k`: it claims the line's `j`-th discovered slot and carries the
      claim's event, whatever event the line's type belongs to. */
  function LineTicket(line: Line, k: nat, j: nat, c: Claim): Ticket
    requires j < |line.slots|
  {
    Ticket(c.drawn.ticketId(k, j), c.orderId, c.drawn.itemId(k), c.event.id, line.ticketType.id,
           c.customerId, line.slots[j], TicketCode(c.drawn, k, j), DefaultTicketStatus,
           None, None, None, 0, None, None, c.event.title, line.ticketType.name,
           line.ticketType.price, c.drawn.now, c.drawn.now)
  }

  function LineTickets(line: Line, k: nat, c: Claim): (ts: seq<Ticket>)
    ensures |ts| == |line.slots|
  {
    seq(|line.slots|, j requires 0 <= j < |line.slots| => LineTicket(line, k, j, c))
  }

  function AllTickets(lines: seq<Line>, c: Claim): seq<Ticket>
  {
    if lines == [] then []
    else AllTickets(lines[..|lines| - 1], c) + LineTickets(lines[|lines| - 1], |lines| - 1, c)
  }

  function Summary(t: Ticket): TicketSummary
  {
    TicketSummary(t.id, t.ticketCode, t.eventTitle, t.ticketTypeName, t.price)
  }

  function Summaries(ts: seq<Ticket>): (ss: seq<TicketSummary>)
    ensures |ss| == |ts|
  {
    seq(|ts|, i requires 0 <= i < |ts| => Summary(ts[i]))
  }

  /** The first constraint violated when `news` are inserted one after another. */
  function ClaimCheck(ts: seq<Ticket>, inv: seq<Slot>, news: seq<Ticket>): Option<Violation>
    decreases |news|
  {
    if news == [] then None
    else match TicketInsertCheck(ts, inv, news[0]) {
      case Some(v) => Some(v)
      case None => ClaimCheck(ts + [news[0]], inv, news[1..])
    }
  }

  lemma {:induction false} ClaimCheckAppend(ts: seq<Ticket>, inv: seq<Slot>, a: seq<Ticket>, b: seq<Ticket>)
    ensures ClaimCheck(ts, inv, a + b) ==
      if ClaimCheck(ts, inv, a).Some? then ClaimCheck(ts, inv, a) else ClaimCheck(ts + a, inv, b)
    decreases |a|
  {
    if a != [] {
      assert (a + b)[0] == a[0] && (a + b)[1..] == a[1..] + b;
      if TicketInsertCheck(ts, inv, a[0]).None? {
        ClaimCheckAppend(ts + [a[0]], inv, a[1..], b);
        assert ts + [a[0]] + a[1..] == ts + a;
      }
    } else {
      assert a + b == b && ts + a == ts;
    }
  }

  // ---- The placement as a function of the tables -----------------------------------------

  /** The result of `createOrder` and the tables afterwards, given what discovery returned.
      Failures before the customer step change nothing; later ones keep only the customer
      write. */
  function PlaceOrder(cat: CatalogTables, before: SalesTables, input: OrderInput, snapshot: set<Id>,
                      lines: seq<Line>, f: Fresh): (Result<Receipt, OrderError>, SalesTables)
    requires Precheck(cat.ticketTypes, cat.inventory, snapshot, input.tickets).None? ==>
             Discovered(cat.ticketTypes, cat.inventory, snapshot, input.tickets, lines)
  {
    var pre := Precheck(cat.ticketTypes, cat.inventory, snapshot, input.tickets);
    if pre.Some? then (Failure(pre.value), before)
    else PlaceLines(cat, before, input, lines, f)
  }

  /** The placement once discovery has produced `lines`. */
  function PlaceLines(cat: CatalogTables, before: SalesTables, input: OrderInput, lines: seq<Line>,
                      f: Fresh): (Result<Receipt, OrderError>, SalesTables)
  {
    if lines == [] then (Failure(NoSelections), before)
    else if lines[0].ticketType.eventId !in cat.events then (Failure(EventNotFound), before)
    else
      var event := cat.events[lines[0].ticketType.eventId];
      var (cs, customer) := FindOrCreate(before.customers, input.customer, f.customerId, f.now, f.customerScan);
      Commit(cat.inventory, before.(customers := cs), input, event, customer, lines, f)
  }

  /** The transaction of a placement: the pending order, then the items and tickets, then
      the completion. Any violation leaves the tables as they were. */
  function Commit(inv: seq<Slot>, before: SalesTables, input: OrderInput, event: Event,
                  customer: Customer, lines: seq<Line>, f: Fresh): (Result<Receipt, OrderError>, SalesTables)
  {
    var order := PendingOrder(input, customer, event, Subtotal(lines), f);
    var c := Claim(order.id, event, customer.id, f);
    var news := AllTickets(lines, c);
    if OrderInsertCheck(before.orders, order).Some? then
      (Failure(UniqueViolation(OrderInsertCheck(before.orders, order).value)), before)
    else if ClaimCheck(before.tickets, inv, news).Some? then
      (Failure(UniqueViolation(ClaimCheck(before.tickets, inv, news).value)), before)
    else
      (Success(Receipt(order.id, order.orderNumber, customer.id, order.total, Summaries(news))),
       before.(orders := PatchWhere(before.orders + [order], order.id, Completion(f)),
               orderItems := before.orderItems + Items(lines, c),
               tickets := before.tickets + news))
  }

  /** The subtotal loop over the validated lines. */
  method SumSubtotal(lines: seq<Line>) returns (subtotal: int)
    ensures subtotal == Subtotal(lines)
  {
    subtotal := 0;
    var i := 0;
    while i < |lines|
      invariant 0 <= i <= |lines|
      invariant subtotal == Subtotal(lines[..i])
    {
      assert lines[..i + 1][..i] == lines[..i];
      subtotal := subtotal + lines[i].ticketType.price * lines[i].quantity;
      i := i + 1;
    }
    assert lines[..i] == lines;
  }

  /** Inserts the tickets of line `k` one unit at a time, stopping at the first violation. */
  method ClaimLine(db: Db, line: Line, k: nat, c: Claim) returns (v: Option<Violation>)
    requires db.Valid()
    requires |line.slots| == line.quantity
    modifies db`tickets
    ensures db.Valid()
    ensures v == ClaimCheck(old(db.tickets), db.inventory, LineTickets(line, k, c))
    ensures v.None? ==> db.tickets == old(db.tickets) + LineTickets(line, k, c)
  {
    ghost var ts := LineTickets(line, k, c);
    var j := 0;
    while j < line.quantity
      invariant 0 <= j <= line.quantity
      invariant db.Valid()
      invariant db.tickets == old(db.tickets) + ts[..j]
      invariant ClaimCheck(old(db.tickets), db.inventory, ts[..j]).None?
    {
      var t := LineTicket(line, k, j, c);
      assert ts[..j + 1] == ts[..j] + [t];
      v := db.InsertTicket(t);
      ClaimSnoc(old(db.tickets), db.inventory, ts[..j], t);
      if v.Some? {
        ClaimFailsAt(old(db.tickets), db.inventory, ts[..j + 1], ts);
        return;
      }
      j := j + 1;
    }
    assert ts[..j] == ts;
    v := None;
  }

  /** Claiming one more ticket after a clean run checks just that ticket. */
  lemma ClaimSnoc(ts: seq<Ticket>, inv: seq<Slot>, done: seq<Ticket>, t: Ticket)
    requires ClaimCheck(ts, inv, done).None?
    ensures ClaimCheck(ts, inv, done + [t]) == TicketInsertCheck(ts + done, inv, t)
  {
    ClaimCheckAppend(ts, inv, done, [t]);
  }

  /** A violation within a prefix of a batch is the violation of the whole batch. */
  lemma ClaimFailsAt(ts: seq<Ticket>, inv: seq<Slot>, pre: seq<Ticket>, news: seq<Ticket>)
    requires pre <= news && ClaimCheck(ts, inv, pre).Some?
    ensures ClaimCheck(ts, inv, news) == ClaimCheck(ts, inv, pre)
  {
    assert news == pre + news[|pre|..];
    ClaimCheckAppend(ts, inv, pre, news[|pre|..]);
  }

  /** Inserts the item of line `k` and claims its slots, given that the lines before it
      were placed on top of `items0` and `tickets0` without a violation. */
  method ClaimNext(db: Db, lines: seq<Line>, k: nat, c: Claim,
                   ghost items0: seq<OrderItem>, ghost tickets0: seq<Ticket>)
    returns (v: Option<Violation>)
    requires db.Valid()
    requires k < |lines| && |lines[k].slots| == lines[k].quantity
    requires db.orderItems == items0 + Items(lines[..k], c)
    requires db.tickets == tickets0 + AllTickets(lines[..k], c)
    requires ClaimCheck(tickets0, db.inventory, AllTickets(lines[..k], c)).None?
    modifies db`orderItems, db`tickets
    ensures db.Valid()
    ensures v == ClaimCheck(tickets0, db.inventory, AllTickets(lines[..k + 1], c))
    ensures v.None? ==> db.orderItems == items0 + Items(lines[..k + 1], c)
    ensures v.None? ==> db.tickets == tickets0 + AllTickets(lines[..k + 1], c)
  {
    ghost var done, mine := AllTickets(lines[..k], c), LineTickets(lines[k], k, c);
    db.InsertItem(LineItem(lines[k], k, c));
    v := ClaimLine(db, lines[k], k, c);
    Step(lines, k, c);
    ClaimCheckAppend(tickets0, db.inventory, done, mine);
    if v.None? {
      Regroup(tickets0, done, mine);
    }
  }

  lemma Regroup<T>(a: seq<T>, b: seq<T>, c: seq<T>)
    ensures (a + b) + c == a + (b + c)
  {
  }

  /** Inserts one order item and the tickets of each line, in order, stopping at the first
      violation. The summaries list the inserted tickets. */
  method ClaimAll(db: Db, lines: seq<Line>, c: Claim) returns (v: Option<Violation>, summaries: seq<TicketSummary>)
    requires db.Valid()
    requires forall i | 0 <= i < |lines| :: |lines[i].slots| == lines[i].quantity
    modifies db`orderItems, db`tickets
    ensures db.Valid()
    ensures v == ClaimCheck(old(db.tickets), db.inventory, AllTickets(lines, c))
    ensures v.None? ==> db.orderItems == old(db.orderItems) + Items(lines, c)
    ensures v.None? ==> db.tickets == old(db.tickets) + AllTickets(lines, c)
    ensures v.None? ==> summaries == Summaries(AllTickets(lines, c))
  {
    summaries := [];
    var k := 0;
    while k < |lines|
      invariant 0 <= k <= |lines|
      invariant db.Valid()
      invariant db.orderItems == old(db.orderItems) + Items(lines[..k], c)
      invariant db.tickets == old(db.tickets) + AllTickets(lines[..k], c)
      invariant ClaimCheck(old(db.tickets), db.inventory, AllTickets(lines[..k], c)).None?
      invariant summaries == Summaries(AllTickets(lines[..k], c))
    {
      v := ClaimNext(db, lines, k, c, old(db.orderItems), old(db.tickets));
      if v.Some? {
        ClaimFailsEarly(old(db.tickets), db.inventory, lines, k + 1, c);
        return;
      }
      Step(lines, k, c);
      summaries := summaries + Summaries(LineTickets(lines[k], k, c));
      k := k + 1;
    }
    assert lines[..k] == lines;
    v := None;
  }

  /** Extending the placed lines by line `k` appends its item, its tickets and their
      summaries. */
  lemma Step(lines: seq<Line>, k: nat, c: Claim)
    requires k < |lines|
    ensures Items(lines[..k + 1], c) == Items(lines[..k], c) + [LineItem(lines[k], k, c)]
    ensures AllTickets(lines[..k + 1], c) == AllTickets(lines[..k], c) + LineTickets(lines[k], k, c)
    ensures Summaries(AllTickets(lines[..k + 1], c)) ==
            Summaries(AllTickets(lines[..k], c)) + Summaries(LineTickets(lines[k], k, c))
  {
    assert lines[..k + 1][..k] == lines[..k];
  }

  /** A violation among the tickets of the first `n` lines is the first violation of the
      whole placement. */
  lemma ClaimFailsEarly(ts: seq<Ticket>, inv: seq<Slot>, lines: seq<Line>, n: nat, c: Claim)
    requires n <= |lines|
    requires ClaimCheck(ts, inv, AllTickets(lines[..n], c)).Some?
    ensures ClaimCheck(ts, inv, AllTickets(lines, c)) == ClaimCheck(ts, inv, AllTickets(lines[..n], c))
  {
    AllTicketsPrefix(lines, n, c);
    ClaimFailsAt(ts, inv, AllTickets(lines[..n], c), AllTickets(lines, c));
  }

  /** The transactional part of `createOrder`, rolled back on any violation. */
  method Transact(db: Db, input: OrderInput, event: Event, customer: Customer, lines: seq<Line>, f: Fresh)
    returns (r: Result<Receipt, OrderError>)
    requires db.Valid()
    requires forall i | 0 <= i < |lines| :: |lines[i].slots| == lines[i].quantity
    modifies db`orders, db`orderItems, db`tickets
    ensures db.Valid()
    ensures (r, db.Sales()) == Commit(db.inventory, old(db.Sales()), input, event, customer, lines, f)
  {
    var subtotal := SumSubtotal(lines);
    var sp := db.Begin();
    var order := PendingOrder(input, customer, event, subtotal, f);
    var c := Claim(order.id, event, customer.id, f);
    var v := db.InsertOrder(order);
    if v.Some? {
      return Failure(UniqueViolation(v.value));
    }
    var summaries;
    v, summaries := ClaimAll(db, lines, c);
    if v.Some? {
      db.Rollback(sp);
      return Failure(UniqueViolation(v.value));
    }
    db.UpdateOrder(order.id, Completion(f));
    r := Success(Receipt(order.id, order.orderNumber, customer.id, order.total, summaries));
  }

  /** `createOrder`. `snapshot` is the set of slots referenced by tickets when discovery
      ran; claims are checked against the tickets stored when they are inserted. `lines` is
      what discovery returned. */
  method CreateOrder(db: Db, input: OrderInput, snapshot: set<Id>, f: Fresh)
    returns (r: Result<Receipt, OrderError>, ghost lines: seq<Line>)
    requires db.Valid()
    modifies db`customers, db`orders, db`orderItems, db`tickets
    ensures db.Valid()
    ensures db.Catalog() == old(db.Catalog()) && db.venues == old(db.venues)
    ensures Precheck(db.ticketTypes, db.inventory, snapshot, input.tickets).None? ==>
            Discovered(db.ticketTypes, db.inventory, snapshot, input.tickets, lines)
    ensures (r, db.Sales()) == PlaceOrder(db.Catalog(), old(db.Sales()), input, snapshot, lines, f)
  {
    var d := DiscoverAll(db.ticketTypes, db.inventory, snapshot, input.tickets);
    if d.Failure? {
      return Failure(d.error), [];
    }
    var ls := d.value;
    lines := ls;
    r := PlaceDiscovered(db, input, ls, f);
  }

  /** The steps of `createOrder` after discovery: the event of the first line, the
      customer, then the transaction. */
  method PlaceDiscovered(db: Db, input: OrderInput, ls: seq<Line>, f: Fresh)
    returns (r: Result<Receipt, OrderError>)
    requires db.Valid()
    requires forall i | 0 <= i < |ls| :: |ls[i].slots| == ls[i].quantity
    modifies db`customers, db`orders, db`orderItems, db`tickets
    ensures db.Valid()
    ensures (r, db.Sales()) == PlaceLines(db.Catalog(), old(db.Sales()), input, ls, f)
  {
    if |ls| == 0 {
      return Failure(NoSelections);
    }
    var first := ls[0].ticketType;
    if first.eventId !in db.events {
      return Failure(EventNotFound);
    }
    var event := db.events[first.eventId];
    var customer := FindOrCreateCustomer(db, input.customer, f.customerId, f.now, f.customerScan);
    r := Transact(db, input, event, customer, ls, f);
  }

  lemma {:induction false} AllTicketsPrefix(lines: seq<Line>, n: nat, c: Claim)
    requires n <= |lines|
    ensures AllTickets(lines[..n], c) <= AllTickets(lines, c)
    decreases |lines| - n
  {
    if n < |lines| {
      AllTicketsPrefix(lines, n + 1, c);
      assert lines[..n + 1][..n] == lines[..n];
    } else {
      assert lines[..n] == lines;
    }
  }
}

=== FILE: records.dfy ===
/** JavaScript plain objects with string keys (`Record<string, V>`), as association lists
    in insertion order: the order `Object.entries` reports for keys that are not array
    indices. `{ ...r, [k]: v }` keeps an existing key in place and appends a new one. */
module Records {
  import opened Wrappers

  type Record<V> = seq<(string, V)>

  predicate KeysUnique<V>(r: Record<V>)
  {
    forall i, j | 0 <= i < j < |r| :: r[i].0 != r[j].0
  }

  /** `r[k]`, with `None` for `undefined`. */
  function Get<V>(r: Record<V>, k: string): Option<V>
  {
    if r == [] then None else if r[0].0 == k then Some(r[0].1) else Get(r[1..], k)
  }

  lemma {:induction false} GetSome<V>(r: Record<V>, k: string)
    ensures Get(r, k).Some? <==> exists i | 0 <= i < |r| :: r[i].0 == k
  {
    if r != [] && r[0].0 != k {
      GetSome(r[1..], k);
      if exists i | 0 <= i < |r| :: r[i].0 == k {
        var i :| 0 <= i < |r| && r[i].0 == k;
        assert r[1..][i - 1].0 == k;
      }
    }
  }

  /** `{ ...r, [k]: v }`. */
  function Put<V>(r: Record<V>, k: string, v: V): (r': Record<V>)
    ensures Get(r', k) == Some(v)
    ensures forall k' | k' != k :: Get(r', k') == Get(r, k')
    ensures forall i | 0 <= i < |r'| :: r'[i].0 == k || Get(r, r'[i].0).Some?
    ensures forall i | 0 <= i < |r'| :: r'[i] == (k, v) || r'[i] in r
    ensures |r'| == if Get(r, k).Some? then |r| else |r| + 1
    ensures KeysUnique(r) ==> KeysUnique(r')
  {
    if r == [] then [(k, v)]
    else if r[0].0 == k then
      PutAtHead(r, k, v);
      [(k, v)] + r[1..]
    else
      var rest := Put(r[1..], k, v);
      PutBehindHead(r, k, v, rest);
      [r[0]] + rest
  }

  /** Overwriting the first entry. */
  lemma PutAtHead<V>(r: Record<V>, k: string, v: V)
    requires r != [] && r[0].0 == k
    ensures var r' := [(k, v)] + r[1..];
      && Get(r', k) == Some(v)
      && (forall k' | k' != k :: Get(r', k') == Get(r, k'))
      && (forall i | 0 <= i < |r'| :: r'[i].0 == k || Get(r, r'[i].0).Some?)
      && (forall i | 0 <= i < |r'| :: r'[i] == (k, v) || r'[i] in r)
      && |r'| == |r|
      && (KeysUnique(r) ==> KeysUnique(r'))
  {
    var r' := [(k, v)] + r[1..];
    assert r'[1..] == r[1..];
    forall i | 1 <= i < |r'| ensures Get(r, r'[i].0).Some? {
      assert r[i].0 == r'[i].0;
      GetSome(r, r[i].0);
    }
  }

  /** Putting into the tail when the first entry has another key. */
  lemma PutBehindHead<V>(r: Record<V>, k: string, v: V, rest: Record<V>)
    requires r != [] && r[0].0 != k
    requires Get(rest, k) == Some(v)
    requires forall k' | k' != k :: Get(rest, k') == Get(r[1..], k')
    requires forall i | 0 <= i < |rest| :: rest[i].0 == k || Get(r[1..], rest[i].0).Some?
    requires forall i | 0 <= i < |rest| :: rest[i] == (k, v) || rest[i] in r[1..]
    requires |rest| == if Get(r[1..], k).Some? then |r[1..]| else |r[1..]| + 1
    requires KeysUnique(r[1..]) ==> KeysUnique(rest)
    ensures var r' := [r[0]] + rest;
      && Get(r', k) == Some(v)
      && (forall k' | k' != k :: Get(r', k') == Get(r, k'))
      && (forall i | 0 <= i < |r'| :: r'[i].0 == k || Get(r, r'[i].0).Some?)
      && (forall i | 0 <= i < |r'| :: r'[i] == (k, v) || r'[i] in r)
      && |r'| == (if Get(r, k).Some? then |r| else |r| + 1)
      && (KeysUnique(r) ==> KeysUnique(r'))
  {
    var r' := [r[0]] + rest;
    assert r'[1..] == rest;
    if KeysUnique(r) {
      GetSome(r[1..], r[0].0);
      assert KeysUnique(r[1..]);
    }
  }

  /** `Object.values(r).reduce((sum, x) => sum + x, 0)`. */
  function SumValues(r: Record<int>): int
  {
    if r == [] then 0 else r[0].1 + SumValues(r[1..])
  }

  /** `Object.entries(r).filter(([, x]) => x > 0)`, rebuilt as an object. */
  function Positive(r: Record<int>): (p: Record<int>)
    ensures forall i | 0 <= i < |p| :: p[i].1 > 0 && p[i] in r
    ensures forall k | Get(r, k).None? :: Get(p, k).None?
    ensures KeysUnique(r) ==>
      forall k :: Get(p, k) == (if Get(r, k).Some? && Get(r, k).value > 0 then Get(r, k) else None)
  {
    if r == [] then []
    else
      var rest := Positive(r[1..]);
      assert KeysUnique(r) ==> Get(r[1..], r[0].0) == None by {
        GetSome(r[1..], r[0].0);
      }
      assert KeysUnique(r) ==> KeysUnique(r[1..]);
      if r[0].1 > 0 then [r[0]] + rest else rest
  }
}

=== FILE: schema.dfy ===
/** The relational schema of the ticket store: enumerations, the record shape of each table
    the core touches, and the uniqueness and foreign-key constraints the database enforces.
    Identifiers are uuid texts; money is integer cents (`decimal(10, 2)` columns);
    column timestamps are integers of microseconds, the precision of a PostgreSQL
    `timestamp`. */
module Schema {
  import opened Wrappers

  type Id = string

  datatype EventStatus = EventDraft | EventPublished | EventCancelled | EventCompleted
  datatype OrderStatus = OrderPending | OrderCompleted | OrderCancelled | OrderRefunded
  datatype PaymentStatus = PaymentPending | PaymentCompleted | PaymentFailed | PaymentRefunded
  datatype TicketStatus = TicketValid | TicketUsed | TicketCancelled | TicketRefunded

  /** Column defaults. */
  const DefaultTicketStatus: TicketStatus := TicketValid
  const DefaultOrderStatus: OrderStatus := OrderPending
  const DefaultPaymentStatus: PaymentStatus := PaymentPending

  datatype Venue = Venue(id: Id, name: string, city: Option<string>)

  datatype Event = Event(
    id: Id, venueId: Id, title: string, slug: string,
    description: Option<string>, shortDescription: Option<string>,
    startDate: int, endDate: Option<int>,
    status: EventStatus, isPublished: int,
    category: Option<string>, currency: string, thumbnailImageUrl: Option<string>)

  /** A ticket tier. `quantity` is the number of inventory slots created for it; the table
      has no count of tickets sold. */
  datatype TicketType = TicketType(
    id: Id, eventId: Id, name: string, description: Option<string>,
    price: int, quantity: int,
    saleStartDate: Option<int>, saleEndDate: Option<int>,
    minQuantityPerOrder: Option<int>, maxQuantityPerOrder: Option<int>,
    sortOrder: int, isActive: int)

  datatype Billing = Billing(
    line1: Option<string>, line2: Option<string>, city: Option<string>,
    state: Option<string>, country: Option<string>, postalCode: Option<string>)

  datatype Customer = Customer(
    id: Id, userId: Option<string>, firstName: string, lastName: string, email: string,
    phone: Option<string>, billing: Billing, createdAt: int, updatedAt: int)

  datatype Order = Order(
    id: Id, customerId: Id, orderNumber: string,
    status: OrderStatus, paymentStatus: PaymentStatus,
    paymentMethod: Option<string>, paymentIntentId: Option<string>,
    subtotal: int, tax: int, fees: int, total: int, currency: string,
    customerEmail: string, customerFirstName: string, customerLastName: string,
    customerPhone: Option<string>,
    completedAt: Option<int>, cancelledAt: Option<int>, createdAt: int, updatedAt: int)

  datatype OrderItem = OrderItem(
    id: Id, orderId: Id, ticketTypeId: Id, quantity: int,
    unitPrice: int, subtotal: int, ticketTypeName: string, createdAt: int, updatedAt: int)

  /** A row of `ticket_inventory`: one pre-allocated, sellable unit of a ticket type. */
  datatype Slot = Slot(id: Id, ticketTypeId: Id)

  /** One sold unit. `slotId` is the claimed row of `ticket_inventory`. */
  datatype Ticket = Ticket(
    id: Id, orderId: Id, orderItemId: Id, eventId: Id, ticketTypeId: Id, customerId: Id,
    slotId: Id, ticketCode: string, status: TicketStatus,
    attendeeFirstName: Option<string>, attendeeLastName: Option<string>,
    attendeeEmail: Option<string>,
    isCheckedIn: int, checkedInAt: Option<int>, checkedInBy: Option<string>,
    eventTitle: string, ticketTypeName: string, price: int,
    createdAt: int, updatedAt: int)

  /** The columns an UPDATE of `orders` sets; `None` leaves a column as it is. */
  datatype OrderPatch = OrderPatch(
    status: Option<OrderStatus>, paymentStatus: Option<PaymentStatus>,
    paymentIntentId: Option<string>, completedAt: Option<int>, cancelledAt: Option<int>,
    updatedAt: int)

  function ApplyPatch(o: Order, p: OrderPatch): (o': Order)
    ensures o'.id == o.id && o'.orderNumber == o.orderNumber && o'.customerId == o.customerId
    ensures o'.total == o.total && o'.subtotal == o.subtotal && o'.createdAt == o.createdAt
    ensures o'.status == (if p.status.Some? then p.status.value else o.status)
    ensures o'.completedAt == (if p.completedAt.Some? then p.completedAt else o.completedAt)
    ensures o'.cancelledAt == (if p.cancelledAt.Some? then p.cancelledAt else o.cancelledAt)
    ensures o'.updatedAt == p.updatedAt
    ensures o'.paymentStatus == (if p.paymentStatus.Some? then p.paymentStatus.value else o.paymentStatus)
    ensures o'.paymentIntentId == (if p.paymentIntentId.Some? then p.paymentIntentId else o.paymentIntentId)
    // No other column changes: putting back the six patched columns gives the old row.
    ensures o'.(status := o.status, paymentStatus := o.paymentStatus, paymentIntentId := o.paymentIntentId,
                completedAt := o.completedAt, cancelledAt := o.cancelledAt, updatedAt := o.updatedAt) == o
  {
    o.(status := p.status.GetOr(o.status),
       paymentStatus := p.paymentStatus.GetOr(o.paymentStatus),
       paymentIntentId := if p.paymentIntentId.Some? then p.paymentIntentId else o.paymentIntentId,
       completedAt := if p.completedAt.Some? then p.completedAt else o.completedAt,
       cancelledAt := if p.cancelledAt.Some? then p.cancelledAt else o.cancelledAt,
       updatedAt := p.updatedAt)
  }

  /** `UPDATE orders SET p WHERE id = id`: every row with that id is patched, the others
      are kept, and the order of rows does not change. */
  function PatchWhere(os: seq<Order>, id: Id, p: OrderPatch): (os': seq<Order>)
    ensures |os'| == |os|
    ensures forall i | 0 <= i < |os| :: os'[i] == if os[i].id == id then ApplyPatch(os[i], p) else os[i]
    ensures OrderNumbers(os') == OrderNumbers(os)
  {
    seq(|os|, i requires 0 <= i < |os| => if os[i].id == id then ApplyPatch(os[i], p) else os[i])
  }

  /** The columns a check-in sets: checked in, used, by whom and when. */
  function CheckedIn(t: Ticket, checkedInBy: string, now: int): (t': Ticket)
    ensures t'.isCheckedIn == 1 && t'.status == TicketUsed
    ensures t'.checkedInAt == Some(now) && t'.checkedInBy == Some(checkedInBy) && t'.updatedAt == now
    ensures t'.(isCheckedIn := t.isCheckedIn, status := t.status, checkedInAt := t.checkedInAt,
                checkedInBy := t.checkedInBy, updatedAt := t.updatedAt) == t
  {
    t.(isCheckedIn := 1, checkedInAt := Some(now), checkedInBy := Some(checkedInBy),
       status := TicketUsed, updatedAt := now)
  }

  /** `UPDATE tickets SET <check-in columns> WHERE id = id`: every row with that id is checked
      in, the others are kept, and the order of rows does not change. */
  function CheckInWhere(ts: seq<Ticket>, id: Id, checkedInBy: string, now: int): (ts': seq<Ticket>)
    ensures |ts'| == |ts|
    ensures forall i | 0 <= i < |ts| ::
      ts'[i] == if ts[i].id == id then CheckedIn(ts[i], checkedInBy, now) else ts[i]
    ensures SlotIds(ts') == SlotIds(ts) && TicketCodes(ts') == TicketCodes(ts)
  {
    seq(|ts|, i requires 0 <= i < |ts| =>
      if ts[i].id == id then CheckedIn(ts[i], checkedInBy, now) else ts[i])
  }

  /** A constraint an INSERT can violate. */
  datatype Violation =
    | SlotAlreadyClaimed            // tickets_inventory_slot_idx
    | DuplicateTicketCode           // tickets_ticket_code_idx
    | DuplicateOrderNumber          // orders_order_number_idx
    | MissingSlot                   // tickets.inventory_slot_id references ticket_inventory

  predicate Distinct<K(==)>(ks: seq<K>)
  {
    forall i, j | 0 <= i < j < |ks| :: ks[i] != ks[j]
  }

  function InventoryIds(inv: seq<Slot>): (ks: seq<Id>)
    ensures |ks| == |inv| && forall i | 0 <= i < |inv| :: ks[i] == inv[i].id
  {
    seq(|inv|, i requires 0 <= i < |inv| => inv[i].id)
  }

  function SlotIds(ts: seq<Ticket>): (ks: seq<Id>)
    ensures |ks| == |ts| && forall i | 0 <= i < |ts| :: ks[i] == ts[i].slotId
  {
    seq(|ts|, i requires 0 <= i < |ts| => ts[i].slotId)
  }

  function TicketCodes(ts: seq<Ticket>): (ks: seq<string>)
    ensures |ks| == |ts| && forall i | 0 <= i < |ts| :: ks[i] == ts[i].ticketCode
  {
    seq(|ts|, i requires 0 <= i < |ts| => ts[i].ticketCode)
  }

  function OrderNumbers(os: seq<Order>): (ks: seq<string>)
    ensures |ks| == |os| && forall i | 0 <= i < |os| :: ks[i] == os[i].orderNumber
  {
    seq(|os|, i requires 0 <= i < |os| => os[i].orderNumber)
  }

  /** The constraints of the `tickets` table: the unique indexes on `inventory_slot_id` and
      `ticket_code`, and the foreign key to `ticket_inventory`. */
  predicate TicketsConform(ts: seq<Ticket>, inv: seq<Slot>)
  {
    && Distinct(SlotIds(ts))
    && Distinct(TicketCodes(ts))
    && forall i | 0 <= i < |ts| :: ts[i].slotId in InventoryIds(inv)
  }

  /** The constraint of the `orders` table: unique `order_number`. */
  predicate OrdersConform(os: seq<Order>)
  {
    Distinct(OrderNumbers(os))
  }

  /** `events_slug_idx`: no two events share a slug. */
  predicate SlugsUnique(events: map<Id, Event>)
  {
    forall a, b | a in events && b in events && a != b :: events[a].slug != events[b].slug
  }

  /** The constraint an INSERT of `t` into `ts` violates, if any. When several are violated
      the one reported is the first in this order. */
  function TicketInsertCheck(ts: seq<Ticket>, inv: seq<Slot>, t: Ticket): Option<Violation>
  {
    if t.slotId in SlotIds(ts) then Some(SlotAlreadyClaimed)
    else if t.ticketCode in TicketCodes(ts) then Some(DuplicateTicketCode)
    else if t.slotId !in InventoryIds(inv) then Some(MissingSlot)
    else None
  }

  function OrderInsertCheck(os: seq<Order>, o: Order): Option<Violation>
  {
    if o.orderNumber in OrderNumbers(os) then Some(DuplicateOrderNumber) else None
  }

  lemma DistinctAppend<K>(ks: seq<K>, k: K)
    requires Distinct(ks) && k !in ks
    ensures Distinct(ks + [k])
  {
  }

  /** An accepted INSERT keeps the tickets table within its constraints; the unique index on
      `inventory_slot_id` is what keeps two tickets off one slot. */
  lemma TicketInsertConforms(ts: seq<Ticket>, inv: seq<Slot>, t: Ticket)
    requires TicketsConform(ts, inv)
    requires TicketInsertCheck(ts, inv, t) == None
    ensures TicketsConform(ts + [t], inv)
  {
    var ts' := ts + [t];
    assert SlotIds(ts') == SlotIds(ts) + [t.slotId];
    assert TicketCodes(ts') == TicketCodes(ts) + [t.ticketCode];
    DistinctAppend(SlotIds(ts), t.slotId);
    DistinctAppend(TicketCodes(ts), t.ticketCode);
  }

  lemma OrderInsertConforms(os: seq<Order>, o: Order)
    requires OrdersConform(os)
    requires OrderInsertCheck(os, o) == None
    ensures OrdersConform(os + [o])
  {
    assert OrderNumbers(os + [o]) == OrderNumbers(os) + [o.orderNumber];
    DistinctAppend(OrderNumbers(os), o.orderNumber);
  }

  // ---- No oversell -------------------------------------------------------------------

  /** The inventory slots of one ticket type. */
  function SlotsOfType(inv: seq<Slot>, typeId: Id): set<Id>
  {
    set i | 0 <= i < |inv| && inv[i].ticketTypeId == typeId :: inv[i].id
  }

  /** The number of elements of `ks` that lie in `s`. */
  function CountIn<K>(ks: seq<K>, s: set<K>): nat
  {
    if ks == [] then 0 else (if ks[0] in s then 1 else 0) + CountIn(ks[1..], s)
  }

  /** The number of tickets whose claimed slot belongs to `typeId`. */
  function ClaimsOfType(ts: seq<Ticket>, inv: seq<Slot>, typeId: Id): nat
  {
    CountIn(SlotIds(ts), SlotsOfType(inv, typeId))
  }

  /** The number of tickets recorded with ticket type `typeId`. */
  function TicketsOfType(ts: seq<Ticket>, typeId: Id): nat
  {
    if ts == [] then 0
    else (if ts[0].ticketTypeId == typeId then 1 else 0) + TicketsOfType(ts[1..], typeId)
  }

  /** Every ticket is recorded with the ticket type of the slot it claims. The database does
      not enforce this; order placement maintains it. */
  predicate TicketTypesMatchSlots(ts: seq<Ticket>, inv: seq<Slot>)
  {
    forall i | 0 <= i < |ts| :: ts[i].slotId in SlotsOfType(inv, ts[i].ticketTypeId)
  }

  function Elems<K>(ks: seq<K>): set<K>
  {
    set k | k in ks
  }

  lemma {:induction false} CountDistinct<K>(ks: seq<K>, s: set<K>)
    requires Distinct(ks)
    ensures CountIn(ks, s) == |Elems(ks) * s|
  {
    if ks != [] {
      CountDistinct(ks[1..], s);
      MeetTail(ks, s);
    }
  }

  /** Meeting a repetition-free sequence with `s` adds its head to what its tail meets,
      when the head is in `s`. */
  lemma MeetTail<K>(ks: seq<K>, s: set<K>)
    requires ks != [] && Distinct(ks)
    ensures ks[0] in s ==> Elems(ks) * s == Elems(ks[1..]) * s + {ks[0]} && ks[0] !in Elems(ks[1..]) * s
    ensures ks[0] !in s ==> Elems(ks) * s == Elems(ks[1..]) * s
  {
    DistinctTail(ks);
  }

  /** The tail of a repetition-free sequence is repetition-free and misses the head. */
  lemma DistinctTail<K>(ks: seq<K>)
    requires ks != [] && Distinct(ks)
    ensures Distinct(ks[1..]) && ks[0] !in Elems(ks[1..])
    ensures Elems(ks) == Elems(ks[1..]) + {ks[0]}
  {
    var rest := ks[1..];
    forall i, j | 0 <= i < j < |rest| ensures rest[i] != rest[j] {
      assert ks[i + 1] != ks[j + 1];
    }
    assert forall x :: x in ks <==> x == ks[0] || x in rest;
  }

  /** No oversell: while no two tickets share a slot, the tickets claiming slots of a type
      never outnumber that type's slots. */
  lemma NoOversell(ts: seq<Ticket>, inv: seq<Slot>, typeId: Id)
    requires Distinct(SlotIds(ts))
    ensures ClaimsOfType(ts, inv, typeId) <= |SlotsOfType(inv, typeId)|
  {
    var ks, s := SlotIds(ts), SlotsOfType(inv, typeId);
    CountDistinct(ks, s);
    SubsetCardinality(Elems(ks) * s, s);
  }

  lemma SubsetCardinality<T>(a: set<T>, b: set<T>)
    requires a <= b
    ensures |a| <= |b|
  {
    assert b == a + (b - a);
  }

  /** With distinct inventory ids a slot belongs to one ticket type only. */
  lemma SlotTypeUnique(inv: seq<Slot>, id: Id, t1: Id, t2: Id)
    requires Distinct(InventoryIds(inv))
    requires id in SlotsOfType(inv, t1) && id in SlotsOfType(inv, t2)
    ensures t1 == t2
  {
    var i :| 0 <= i < |inv| && inv[i].ticketTypeId == t1 && inv[i].id == id;
    var j :| 0 <= j < |inv| && inv[j].ticketTypeId == t2 && inv[j].id == id;
  }

  lemma {:induction false} TicketsOfTypeIsClaims(ts: seq<Ticket>, inv: seq<Slot>, typeId: Id)
    requires Distinct(InventoryIds(inv))
    requires TicketTypesMatchSlots(ts, inv)
    ensures TicketsOfType(ts, typeId) == ClaimsOfType(ts, inv, typeId)
  {
    if ts != [] {
      assert TicketTypesMatchSlots(ts[1..], inv) by {
        forall i | 0 <= i < |ts[1..]|
          ensures ts[1..][i].slotId in SlotsOfType(inv, ts[1..][i].ticketTypeId)
        {
          assert ts[1..][i] == ts[i + 1];
        }
      }
      TicketsOfTypeIsClaims(ts[1..], inv, typeId);
      assert SlotIds(ts)[1..] == SlotIds(ts[1..]);
      if ts[0].slotId in SlotsOfType(inv, typeId) {
        SlotTypeUnique(inv, ts[0].slotId, typeId, ts[0].ticketTypeId);
      }
    }
  }

  /** Per ticket type, the tickets recorded with that type never exceed its slots. */
  lemma NoOversellByType(ts: seq<Ticket>, inv: seq<Slot>, typeId: Id)
    requires Distinct(InventoryIds(inv))
    requires Distinct(SlotIds(ts)) && TicketTypesMatchSlots(ts, inv)
    ensures TicketsOfType(ts, typeId) <= |SlotsOfType(inv, typeId)|
  {
    TicketsOfTypeIsClaims(ts, inv, typeId);
    NoOversell(ts, inv, typeId);
  }
}

=== FILE: server_actions.dfy ===
/** The storefront's server actions: each validates what the browser sent, calls one use
    case, and turns its result or its thrown error into a `{ success, data | error }` reply.
    The use cases themselves are parameters here; what is modelled is the validation and the
    mapping around them. */
module ServerActions {
  import opened Wrappers
  import opened Schema
  import EventListing
  import Customers
  import Orders

  // ---- Values as they arrive -------------------------------------------------------------

  /** A number: an integer, or anything else JavaScript calls a number (fractions, NaN,
      infinities). */
  datatype JsNumber = Integral(i: int) | NonIntegral

  /** A field of the posted object, after JSON decoding. */
  datatype Value = Undefined | Null | Str(s: string) | Num(n: JsNumber) | Other

  /** What a thrown value looks like to `catch`. */
  datatype Thrown = ErrorWithMessage(message: string) | NotAnError

  /** `{ success, data?, error?, details? }`; `details` tells whether zod issues are attached. */
  datatype Reply<T> = Reply(success: bool, data: Option<T>, error: Option<string>, details: bool)

  /** `z.string().optional()`. */
  predicate OptionalString(v: Value) { v.Undefined? || v.Str? }

  function StringOrNone(v: Value): (r: Option<string>)
    ensures r.Some? <==> v.Str?
    ensures r.Some? ==> r.value == v.s
  {
    if v.Str? then Some(v.s) else None
  }

  /** `z.number().int().positive()`, with an optional upper bound. */
  predicate PositiveInt(v: Value, max: Option<int>)
  {
    v.Num? && v.n.Integral? && v.n.i > 0 && (max.None? || v.n.i <= max.value)
  }

  function IntOrNone(v: Value): Option<int>
  {
    if v.Num? && v.n.Integral? then Some(v.n.i) else None
  }

  /** `z.string().uuid()`: 8-4-4-4-12 hexadecimal digits separated by '-', either case. */
  predicate IsUuid(s: string)
  {
    |s| == 36 &&
    forall i | 0 <= i < 36 ::
      if i == 8 || i == 13 || i == 18 || i == 23 then s[i] == '-'
      else '0' <= s[i] <= '9' || 'a' <= s[i] <= 'f' || 'A' <= s[i] <= 'F'
  }

  /** The `catch` block: any `Error` reports its own message, anything else the fallback. */
  function Caught<T>(t: Thrown, fallback: string): (r: Reply<T>)
    ensures !r.success && r.data.None? && !r.details
    ensures r.error == Some(if t.ErrorWithMessage? then t.message else fallback)
  {
    Reply(false, None, Some(if t.ErrorWithMessage? then t.message else fallback), false)
  }

  /** The reply to a use case's outcome: its data unchanged, or what `catch` makes of the
      throw. */
  function Outcome<T>(o: Result<T, Thrown>, fallback: string): (r: Reply<T>)
    ensures r.success <==> o.Success?
    ensures r.success ==> r.data == Some(o.value) && r.error.None? && !r.details
    ensures !r.success ==> r == Caught(o.error, fallback)
  {
    match o
    case Success(d) => Reply(true, Some(d), None, false)
    case Failure(t) => Caught(t, fallback)
  }

  /** A `ZodError` caught: a fixed message and the issues. */
  function Invalid<T>(message: string): Reply<T>
  {
    Reply(false, None, Some(message), true)
  }

  // ---- searchEventsAction ----------------------------------------------------------------

  datatype RawSearch = RawSearch(search: Value, category: Value, dateFrom: Value, dateTo: Value, page: Value, limit: Value)

  datatype SearchInput = SearchInput(
    search: Option<string>, category: Option<string>, dateFrom: Option<string>, dateTo: Option<string>,
    page: Option<int>, limit: Option<int>)

  const MaxLimit: int := 100

  /** `searchEventsSchema.parse`: `None` is a thrown `ZodError`. */
  function ParseSearch(raw: RawSearch): (r: Option<SearchInput>)
    ensures r.Some? ==> r.value.page.None? || r.value.page.value >= 1
    ensures r.Some? ==> r.value.limit.None? || 1 <= r.value.limit.value <= MaxLimit
    ensures r.Some? ==> (r.value.page.None? <==> raw.page.Undefined?)
    ensures r.Some? ==> (r.value.limit.None? <==> raw.limit.Undefined?)
    ensures r.Some? ==> r.value.search == StringOrNone(raw.search) && r.value.category == StringOrNone(raw.category)
    ensures r.Some? ==> r.value.dateFrom == StringOrNone(raw.dateFrom) && r.value.dateTo == StringOrNone(raw.dateTo)
  {
    if OptionalString(raw.search) && OptionalString(raw.category)
      && OptionalString(raw.dateFrom) && OptionalString(raw.dateTo)
      && (raw.page.Undefined? || PositiveInt(raw.page, None))
      && (raw.limit.Undefined? || PositiveInt(raw.limit, Some(MaxLimit)))
    then
      Some(SearchInput(
        StringOrNone(raw.search), StringOrNone(raw.category),
        StringOrNone(raw.dateFrom), StringOrNone(raw.dateTo),
        IntOrNone(raw.page), IntOrNone(raw.limit)))
    else None
  }

  /** What the schema turns away: a page that is not a positive integer, a limit that is not
      a positive integer up to 100, and a filter that is not a string. */
  lemma SearchRejects(raw: RawSearch)
    ensures !(raw.page.Undefined? || PositiveInt(raw.page, None)) ==> ParseSearch(raw).None?
    ensures !(raw.limit.Undefined? || PositiveInt(raw.limit, Some(MaxLimit))) ==> ParseSearch(raw).None?
    ensures !OptionalString(raw.search) || !OptionalString(raw.category) ==> ParseSearch(raw).None?
    ensures !OptionalString(raw.dateFrom) || !OptionalString(raw.dateTo) ==> ParseSearch(raw).None?
  {
  }

  /** `validated.dateFrom ? new Date(validated.dateFrom) : undefined`, with the date parser
      as a parameter. */
  function ToDate(s: Option<string>, parseDate: string -> int): (d: Option<int>)
    ensures d.Some? <==> Truthy(s)
  {
    if Truthy(s) then Some(parseDate(s.value)) else None
  }

  function ListParams(v: SearchInput, parseDate: string -> int): EventListing.ListEventsParams
  {
    EventListing.ListEventsParams(
      v.search, v.category, ToDate(v.dateFrom, parseDate), ToDate(v.dateTo, parseDate), v.page, v.limit)
  }

  /** `searchEventsAction(params)`: invalid input gets "Invalid input parameters" with the
      issues and never reaches the use case; otherwise the use case's result or error. */
  function SearchEventsAction<T>(raw: RawSearch, parseDate: string -> int,
                                 listEvents: EventListing.ListEventsParams -> Result<T, Thrown>): (r: Reply<T>)
    ensures r.details <==> ParseSearch(raw).None?
    ensures r.details ==> r == Invalid("Invalid input parameters")
    ensures !r.details ==> r == Outcome(listEvents(ListParams(ParseSearch(raw).value, parseDate)), "Failed to search events")
  {
    match ParseSearch(raw)
    case None => Invalid("Invalid input parameters")
    case Some(v) => Outcome(listEvents(ListParams(v, parseDate)), "Failed to search events")
  }

  /** The use case only ever sees a page of at least 1 and a limit between 1 and 100, so
      its offset and limit are never negative (the listing's only failure), and dates only
      for non-empty strings. */
  lemma SearchReachesUseCaseWithBounds(raw: RawSearch, parseDate: string -> int)
    requires ParseSearch(raw).Some?
    ensures var p := ListParams(ParseSearch(raw).value, parseDate);
      && (p.page.None? || p.page.value >= 1)
      && (p.limit.None? || 1 <= p.limit.value <= MaxLimit)
      && p.limit.GetOr(EventListing.DefaultLimit) >= 0
      && (p.page.GetOr(EventListing.DefaultPage) - 1) * p.limit.GetOr(EventListing.DefaultLimit) >= 0
      && (p.dateFrom.Some? <==> raw.dateFrom.Str? && raw.dateFrom.s != "")
      && (p.dateTo.Some? <==> raw.dateTo.Str? && raw.dateTo.s != "")
  {
    var p := ListParams(ParseSearch(raw).value, parseDate);
    var page := p.page.GetOr(EventListing.DefaultPage);
    var limit := p.limit.GetOr(EventListing.DefaultLimit);
    assert page - 1 >= 0 && limit >= 0;
  }

  // ---- Lookups by key --------------------------------------------------------------------

  /** `if (!key || typeof key !== "string")`: only a non-empty string passes. */
  predicate UsableKey(key: Value)
  {
    key.Str? && key.s != ""
  }

  /** `getEventDetailsAction(slug)`. */
  function GetEventDetailsAction<T>(slug: Value, getEventBySlug: string -> Result<Option<T>, Thrown>): (r: Reply<T>)
    ensures !UsableKey(slug) ==> r == Reply(false, None, Some("Invalid event slug"), false)
    ensures UsableKey(slug) && getEventBySlug(slug.s) == Success(None) ==>
      r == Reply(false, None, Some("Event not found"), false)
    ensures r.success <==> UsableKey(slug) && getEventBySlug(slug.s).Success? && getEventBySlug(slug.s).value.Some?
    ensures r.success ==> r.data == getEventBySlug(slug.s).value
    ensures !r.details
  {
    if !UsableKey(slug) then Reply(false, None, Some("Invalid event slug"), false)
    else match getEventBySlug(slug.s)
      case Failure(t) => Caught(t, "Failed to fetch event details")
      case Success(None) => Reply(false, None, Some("Event not found"), false)
      case Success(Some(e)) => Reply(true, Some(e), None, false)
  }

  /** `getAvailableTicketTypesAction(eventId)`. */
  function GetAvailableTicketTypesAction<T>(eventId: Value, getAvailable: string -> Result<T, Thrown>): (r: Reply<T>)
    ensures !UsableKey(eventId) ==> r == Reply(false, None, Some("Invalid event ID"), false)
    ensures UsableKey(eventId) ==> r == Outcome(getAvailable(eventId.s), "Failed to fetch ticket types")
  {
    if !UsableKey(eventId) then Reply(false, None, Some("Invalid event ID"), false)
    else Outcome(getAvailable(eventId.s), "Failed to fetch ticket types")
  }

  /** `getOrderDetailsAction(orderId)`. */
  function GetOrderDetailsAction<T>(orderId: Value, getOrderDetails: string -> Result<Option<T>, Thrown>): (r: Reply<T>)
    ensures !UsableKey(orderId) ==> r == Reply(false, None, Some("Invalid order ID"), false)
    ensures UsableKey(orderId) && getOrderDetails(orderId.s) == Success(None) ==>
      r == Reply(false, None, Some("Order not found"), false)
    ensures r.success <==> UsableKey(orderId) && getOrderDetails(orderId.s).Success? && getOrderDetails(orderId.s).value.Some?
    ensures r.success ==> r.data == getOrderDetails(orderId.s).value
    ensures !r.details
  {
    if !UsableKey(orderId) then Reply(false, None, Some("Invalid order ID"), false)
    else match getOrderDetails(orderId.s)
      case Failure(t) => Caught(t, "Failed to fetch order details")
      case Success(None) => Reply(false, None, Some("Order not found"), false)
      case Success(Some(o)) => Reply(true, Some(o), None, false)
  }

  // ---- createOrderAction -----------------------------------------------------------------

  datatype RawCustomer = RawCustomer(
    userId: Value, firstName: Value, lastName: Value, email: Value, phone: Value,
    line1: Value, line2: Value, city: Value, state: Value, country: Value, postalCode: Value)

  datatype RawTicket = RawTicket(ticketTypeId: Value, quantity: Value)

  /** `tickets` is `None` when it is not an array at all. */
  datatype RawOrder = RawOrder(customer: RawCustomer, tickets: Option<seq<RawTicket>>, paymentMethod: Value)

  /** `customerSchema`, with zod's e-mail pattern as the parameter `isEmail`. */
  predicate ValidCustomer(c: RawCustomer, isEmail: string -> bool)
  {
    && (c.userId.Undefined? || c.userId.Null? || c.userId.Str?)
    && c.firstName.Str? && |c.firstName.s| >= 1
    && c.lastName.Str? && |c.lastName.s| >= 1
    && c.email.Str? && isEmail(c.email.s)
    && OptionalString(c.phone)
    && OptionalString(c.line1) && OptionalString(c.line2) && OptionalString(c.city)
    && OptionalString(c.state) && OptionalString(c.country) && OptionalString(c.postalCode)
  }

  /** `ticketSelectionSchema`. */
  predicate ValidTicket(t: RawTicket)
  {
    t.ticketTypeId.Str? && IsUuid(t.ticketTypeId.s) && PositiveInt(t.quantity, None)
  }

  predicate ValidOrder(o: RawOrder, isEmail: string -> bool)
  {
    && ValidCustomer(o.customer, isEmail)
    && o.tickets.Some? && |o.tickets.value| >= 1
    && (forall i | 0 <= i < |o.tickets.value| :: ValidTicket(o.tickets.value[i]))
    && OptionalString(o.paymentMethod)
  }

  function ToCustomer(c: RawCustomer): Customers.CustomerInput
    requires c.firstName.Str? && c.lastName.Str? && c.email.Str?
  {
    Customers.CustomerInput(
      StringOrNone(c.userId), c.firstName.s, c.lastName.s, c.email.s, StringOrNone(c.phone),
      Billing(StringOrNone(c.line1), StringOrNone(c.line2), StringOrNone(c.city),
              StringOrNone(c.state), StringOrNone(c.country), StringOrNone(c.postalCode)))
  }

  function ToSelection(t: RawTicket): Orders.Selection
    requires ValidTicket(t)
  {
    Orders.Selection(t.ticketTypeId.s, t.quantity.n.i)
  }

  /** `createOrderSchema.parse` followed by the copy into `CreateOrderInput`. */
  function ParseOrder(o: RawOrder, isEmail: string -> bool): (r: Option<Orders.OrderInput>)
    ensures r.Some? <==> ValidOrder(o, isEmail)
    ensures r.Some? ==>
      && |r.value.tickets| == |o.tickets.value| >= 1
      && (forall i | 0 <= i < |r.value.tickets| ::
            IsUuid(r.value.tickets[i].ticketTypeId) && r.value.tickets[i].quantity >= 1
            && Str(r.value.tickets[i].ticketTypeId) == o.tickets.value[i].ticketTypeId
            && Num(Integral(r.value.tickets[i].quantity)) == o.tickets.value[i].quantity)
      && r.value.customer.firstName != [] && r.value.customer.lastName != []
      && isEmail(r.value.customer.email)
  {
    if ValidOrder(o, isEmail) then
      var ts := o.tickets.value;
      Some(Orders.OrderInput(
        ToCustomer(o.customer),
        seq(|ts|, (i: int) requires 0 <= i < |ts| && ValidTicket(ts[i]) => ToSelection(ts[i])),
        StringOrNone(o.paymentMethod)))
    else None
  }

  /** `createOrderAction(input)`: the use case runs only on input that passed the schema (at
      least one ticket, each with a uuid and a positive integer quantity); anything else gets
      "Invalid order data" with the issues. */
  function CreateOrderAction<T>(o: RawOrder, isEmail: string -> bool,
                                createOrder: Orders.OrderInput -> Result<T, Thrown>): (r: Reply<T>)
    ensures r.details <==> !ValidOrder(o, isEmail)
    ensures r.details ==> r == Invalid("Invalid order data")
    ensures !r.details ==> r == Outcome(createOrder(ParseOrder(o, isEmail).value), "Failed to create order")
  {
    match ParseOrder(o, isEmail)
    case None => Invalid("Invalid order data")
    case Some(input) => Outcome(createOrder(input), "Failed to create order")
  }

  /** An order with no tickets, or with one ticket whose id is not a uuid or whose quantity is
      not a positive integer, is answered with the validation error and creates nothing. */
  lemma BadTicketsNeverReachCreateOrder<T>(o: RawOrder, isEmail: string -> bool,
                                           createOrder: Orders.OrderInput -> Result<T, Thrown>)
    requires o.tickets.None? || o.tickets.value == [] ||
             exists i | 0 <= i < |o.tickets.value| :: !ValidTicket(o.tickets.value[i])
    ensures CreateOrderAction(o, isEmail, createOrder) == Invalid("Invalid order data")
  {
  }
}

=== FILE: sorting.dfy ===
/** `ORDER BY key` over a result set. SQL leaves the order of ties unspecified: SortBy is one
    admissible answer (a stable insertion sort, ties in input order), and SortedUnique says
    that ties are the only freedom a query has. */
module Sorting {

  predicate SortedBy<T>(s: seq<T>, key: T -> int)
  {
    forall i, j | 0 <= i < j < |s| :: key(s[i]) <= key(s[j])
  }

  function InsertBy<T>(x: T, s: seq<T>, key: T -> int): (r: seq<T>)
    requires SortedBy(s, key)
    ensures SortedBy(r, key)
    ensures multiset(r) == multiset(s) + multiset{x}
    ensures |r| == |s| + 1
  {
    if s == [] then [x]
    else if key(x) <= key(s[0]) then [x] + s
    else
      var rest := InsertBy(x, s[1..], key);
      assert s == [s[0]] + s[1..];
      ConsSorted(x, s, rest, key);
      [s[0]] + rest
  }

  /** The head of a sorted sequence goes in front of the rest with a larger row inserted. */
  lemma ConsSorted<T>(x: T, s: seq<T>, rest: seq<T>, key: T -> int)
    requires s != [] && SortedBy(s, key) && key(s[0]) <= key(x)
    requires SortedBy(rest, key) && multiset(rest) == multiset(s[1..]) + multiset{x}
    ensures SortedBy([s[0]] + rest, key)
  {
    forall i | 0 <= i < |rest| ensures key(s[0]) <= key(rest[i]) {
      assert rest[i] in multiset(rest);
      if rest[i] != x {
        assert rest[i] in multiset(s[1..]);
        var j :| 0 <= j < |s[1..]| && s[1..][j] == rest[i];
        assert s[j + 1] == rest[i];
      }
    }
    var r := [s[0]] + rest;
    forall i, j | 0 <= i < j < |r| ensures key(r[i]) <= key(r[j]) {
      if i > 0 {
        assert r[i] == rest[i - 1] && r[j] == rest[j - 1];
      } else {
        assert r[j] == rest[j - 1];
      }
    }
  }

  /** The rows ordered by ascending key: a sorted permutation of the input. */
  function SortBy<T>(s: seq<T>, key: T -> int): (r: seq<T>)
    ensures SortedBy(r, key)
    ensures multiset(r) == multiset(s)
    ensures |r| == |s|
  {
    if s == [] then []
    else
      assert s == [s[0]] + s[1..];
      InsertBy(s[0], SortBy(s[1..], key), key)
  }

  /** No two different rows share a key. */
  ghost predicate KeysApart<T>(s: seq<T>, key: T -> int)
  {
    forall x, y | x in s && y in s && x != y :: key(x) != key(y)
  }

  lemma SortedTail<T>(s: seq<T>, key: T -> int)
    requires s != [] && SortedBy(s, key) && KeysApart(s, key)
    ensures SortedBy(s[1..], key) && KeysApart(s[1..], key)
  {
    assert forall i | 0 <= i < |s[1..]| :: s[1..][i] == s[i + 1];
    assert forall x | x in s[1..] :: x in s;
  }

  lemma KeysApartOfPermutation<T>(a: seq<T>, b: seq<T>, key: T -> int)
    requires multiset(a) == multiset(b) && KeysApart(a, key)
    ensures KeysApart(b, key)
  {
    forall x | x in b ensures x in a {
      assert x in multiset(b);
    }
  }

  lemma TailMultiset<T>(s: seq<T>)
    requires s != []
    ensures multiset(s[1..]) == multiset(s) - multiset{s[0]}
  {
    assert s == [s[0]] + s[1..];
  }

  /** The first of two sorted arrangements of the same rows, with keys apart, is the same. */
  lemma SameHead<T>(a: seq<T>, b: seq<T>, key: T -> int)
    requires a != [] && SortedBy(a, key) && SortedBy(b, key) && multiset(a) == multiset(b)
    requires KeysApart(a, key)
    ensures b != [] && a[0] == b[0]
  {
    assert a[0] in b && b[0] in a by { assert a[0] in multiset(b) && b[0] in multiset(a); }
    var k :| 0 <= k < |b| && b[k] == a[0];
    var m :| 0 <= m < |a| && a[m] == b[0];
    assert k == 0 || key(b[0]) <= key(b[k]);
    assert m == 0 || key(a[0]) <= key(a[m]);
  }

  /** Rows whose keys tell them apart have one sorted order only. */
  lemma {:induction false} SortedUnique<T>(a: seq<T>, b: seq<T>, key: T -> int)
    requires SortedBy(a, key) && SortedBy(b, key) && multiset(a) == multiset(b)
    requires KeysApart(a, key)
    ensures a == b
  {
    if a == [] {
      assert |b| == |multiset(b)| == 0;
    } else {
      SameHead(a, b, key);
      TailMultiset(a);
      TailMultiset(b);
      SortedTail(a, key);
      KeysApartOfPermutation(a, b, key);
      SortedTail(b, key);
      SortedUnique(a[1..], b[1..], key);
    }
  }
}

=== FILE: store.dfy ===
/** The database as one mutable object: the catalog (venues, events, ticket types and their
    pre-allocated inventory slots) and the sales tables the use cases write. Inserts enforce
    the schema's unique indexes and report the violated one instead of writing. */
module Store {
  import opened Wrappers
  import opened Schema

  /** The sales tables as they stood when a transaction began. */
  datatype Savepoint = Savepoint(orders: seq<Order>, orderItems: seq<OrderItem>, tickets: seq<Ticket>)

  /** The catalog tables order placement reads. */
  datatype CatalogTables = CatalogTables(
    events: map<Id, Event>, ticketTypes: map<Id, TicketType>, inventory: seq<Slot>)

  /** The tables order placement writes. */
  datatype SalesTables = SalesTables(
    customers: seq<Customer>, orders: seq<Order>, orderItems: seq<OrderItem>, tickets: seq<Ticket>)

  class Db {
    var venues: map<Id, Venue>
    var events: map<Id, Event>
    var ticketTypes: map<Id, TicketType>
    var inventory: seq<Slot>
    var customers: seq<Customer>
    var orders: seq<Order>
    var orderItems: seq<OrderItem>
    var tickets: seq<Ticket>

    /** The catalog is keyed by id, slugs and slot ids are unique, and the sales tables
        satisfy their unique indexes and the slot foreign key. */
    predicate Valid()
      reads this
    {
      && (forall k | k in events :: events[k].id == k)
      && (forall k | k in ticketTypes :: ticketTypes[k].id == k)
      && SlugsUnique(events)
      && Distinct(InventoryIds(inventory))
      && OrdersConform(orders)
      && TicketsConform(tickets, inventory)
    }

    /** A seeded catalog with empty sales tables. */
    constructor (venues: map<Id, Venue>, events: map<Id, Event>, ticketTypes: map<Id, TicketType>,
                 inventory: seq<Slot>)
      requires forall k | k in events :: events[k].id == k
      requires forall k | k in ticketTypes :: ticketTypes[k].id == k
      requires SlugsUnique(events) && Distinct(InventoryIds(inventory))
      ensures Valid()
      ensures this.venues == venues && this.events == events
      ensures this.ticketTypes == ticketTypes && this.inventory == inventory
      ensures customers == [] && orders == [] && orderItems == [] && tickets == []
    {
      this.venues := venues;
      this.events := events;
      this.ticketTypes := ticketTypes;
      this.inventory := inventory;
      customers := [];
      orders := [];
      orderItems := [];
      tickets := [];
    }

    function Catalog(): (c: CatalogTables)
      reads this
      ensures c.events == events && c.ticketTypes == ticketTypes && c.inventory == inventory
    {
      CatalogTables(events, ticketTypes, inventory)
    }

    function Sales(): (s: SalesTables)
      reads this
      ensures s.customers == customers && s.orders == orders
      ensures s.orderItems == orderItems && s.tickets == tickets
    {
      SalesTables(customers, orders, orderItems, tickets)
    }

    function Begin(): (sp: Savepoint)
      reads this
      ensures sp.orders == orders && sp.orderItems == orderItems && sp.tickets == tickets
    {
      Savepoint(orders, orderItems, tickets)
    }

    /** Restores the sales tables of a savepoint taken in a valid state; customers are not
        part of it. */
    method Rollback(sp: Savepoint)
      requires OrdersConform(sp.orders) && TicketsConform(sp.tickets, inventory)
      requires Valid()
      modifies this`orders, this`orderItems, this`tickets
      ensures Valid()
      ensures orders == sp.orders && orderItems == sp.orderItems && tickets == sp.tickets
    {
      orders, orderItems, tickets := sp.orders, sp.orderItems, sp.tickets;
    }

    /** INSERT INTO orders: rejected when the order number is taken. */
    method InsertOrder(o: Order) returns (v: Option<Violation>)
      requires Valid()
      modifies this`orders
      ensures Valid()
      ensures v == OrderInsertCheck(old(orders), o)
      ensures orders == if v.None? then old(orders) + [o] else old(orders)
    {
      v := OrderInsertCheck(orders, o);
      if v.None? {
        OrderInsertConforms(orders, o);
        orders := orders + [o];
      }
    }

    /** INSERT INTO order_items: no unique index besides the generated key. */
    method InsertItem(item: OrderItem)
      requires Valid()
      modifies this`orderItems
      ensures Valid()
      ensures orderItems == old(orderItems) + [item]
    {
      orderItems := orderItems + [item];
    }

    /** INSERT INTO tickets: rejected when the slot is already claimed, the code is taken or
        the slot does not exist. */
    method InsertTicket(t: Ticket) returns (v: Option<Violation>)
      requires Valid()
      modifies this`tickets
      ensures Valid()
      ensures v == TicketInsertCheck(old(tickets), inventory, t)
      ensures tickets == if v.None? then old(tickets) + [t] else old(tickets)
    {
      v := TicketInsertCheck(tickets, inventory, t);
      if v.None? {
        TicketInsertConforms(tickets, inventory, t);
        tickets := tickets + [t];
      }
    }

    /** UPDATE orders SET p WHERE id = id. */
    method UpdateOrder(id: Id, p: OrderPatch)
      requires Valid()
      modifies this`orders
      ensures Valid()
      ensures orders == PatchWhere(old(orders), id, p)
    {
      orders := PatchWhere(orders, id, p);
    }

    /** UPDATE tickets SET <check-in columns> WHERE id = id. */
    method CheckInTickets(id: Id, checkedInBy: string, now: int)
      requires Valid()
      modifies this`tickets
      ensures Valid()
      ensures tickets == CheckInWhere(old(tickets), id, checkedInBy, now)
    {
      tickets := CheckInWhere(tickets, id, checkedInBy, now);
    }

    method InsertCustomer(c: Customer)
      modifies this`customers
      ensures customers == old(customers) + [c]
    {
      customers := customers + [c];
    }

    /** UPDATE customers SET ... WHERE id = customers[i].id, for a row found by a lookup. */
    method UpdateCustomer(i: nat, c: Customer)
      requires i < |customers|
      modifies this`customers
      ensures customers == old(customers)[i := c]
    {
      customers := customers[i := c];
    }
  }
}

=== FILE: text.dfy ===
/** Decimal printing and parsing of numbers, and the JavaScript string primitives the
    model needs (`String(n)`, `parseInt(s, 10)`, `trim`, substring search). */
module Text {
  import opened Wrappers

  predicate IsDigit(c: char) { '0' <= c <= '9' }

  function DigitValue(c: char): nat
    requires IsDigit(c)
  {
    (c as int) - ('0' as int)
  }

  function DigitChar(d: nat): (c: char)
    requires d < 10
    ensures IsDigit(c) && DigitValue(c) == d
  {
    (('0' as int) + d) as char
  }

  predicate AllDigits(s: string) { forall i | 0 <= i < |s| :: IsDigit(s[i]) }

  /** The decimal text of a non-negative integer, as JavaScript's `String(n)` prints it. */
  function NatToString(n: nat): string
  {
    if n < 10 then [DigitChar(n)] else NatToString(n / 10) + [DigitChar(n % 10)]
  }

  /** A printed number is a non-empty run of digits that starts with '0' only for 0. */
  lemma {:induction false} NatToStringDigits(n: nat)
    ensures var s := NatToString(n); |s| > 0 && AllDigits(s) && (s[0] == '0' ==> n == 0)
  {
    if n >= 10 {
      NatToStringDigits(n / 10);
    }
  }

  /** The decimal text of an integer: a leading '-' for negative values. */
  function IntToString(i: int): string
  {
    if i < 0 then "-" + NatToString(-i) else NatToString(i)
  }

  /** A printed integer is non-empty and made of digits and at most a leading '-'. */
  lemma IntToStringDigits(i: int)
    ensures var s := IntToString(i); |s| > 0 && forall j | 0 <= j < |s| :: s[j] == '-' || IsDigit(s[j])
  {
    NatToStringDigits(if i < 0 then -i else i);
  }

  /** The value of a string of decimal digits. */
  function DigitsValue(s: string): nat
    requires AllDigits(s)
  {
    if s == [] then 0 else DigitsValue(s[..|s| - 1]) * 10 + DigitValue(s[|s| - 1])
  }

  /** A non-empty string of decimal digits, read as a number; anything else is rejected. */
  function ParseNat(s: string): Option<nat>
  {
    if s != [] && AllDigits(s) then Some(DigitsValue(s)) else None
  }

  lemma {:induction false} DigitsValueOfNatToString(n: nat)
    ensures AllDigits(NatToString(n)) && DigitsValue(NatToString(n)) == n
  {
    NatToStringDigits(n);
    if n >= 10 {
      var s := NatToString(n);
      assert s[..|s| - 1] == NatToString(n / 10);
      DigitsValueOfNatToString(n / 10);
    }
  }

  lemma NatToStringRoundTrip(n: nat)
    ensures ParseNat(NatToString(n)) == Some(n)
  {
    DigitsValueOfNatToString(n);
  }

  lemma NatToStringInjective(m: nat, n: nat)
    requires NatToString(m) == NatToString(n)
    ensures m == n
  {
    NatToStringRoundTrip(m);
    NatToStringRoundTrip(n);
  }

  /** WhiteSpace and LineTerminator code points of ECMAScript: what `trim`, `parseInt` and
      the regular-expression class `\s` skip. */
  predicate IsJsSpace(c: char)
  {
    c == '\t' || c == '\n' || c == '\U{000B}' || c == '\U{000C}' || c == '\r' || c == ' '
    || c == '\U{00A0}' || c == '\U{1680}' || ('\U{2000}' <= c <= '\U{200A}')
    || c == '\U{2028}' || c == '\U{2029}' || c == '\U{202F}' || c == '\U{205F}'
    || c == '\U{3000}' || c == '\U{FEFF}'
  }

  function TrimStart(s: string): (t: string)
    ensures |t| <= |s| && t == s[|s| - |t|..]
    ensures t == [] || !IsJsSpace(t[0])
    ensures forall i | 0 <= i < |s| - |t| :: IsJsSpace(s[i])
  {
    if s != [] && IsJsSpace(s[0]) then TrimStart(s[1..]) else s
  }

  function TrimEnd(s: string): (t: string)
    ensures |t| <= |s| && t == s[..|t|]
    ensures t == [] || !IsJsSpace(t[|t| - 1])
    ensures forall i | |t| <= i < |s| :: IsJsSpace(s[i])
  {
    if s != [] && IsJsSpace(s[|s| - 1]) then TrimEnd(s[..|s| - 1]) else s
  }

  /** `s.trim()`. */
  function Trim(s: string): string { TrimEnd(TrimStart(s)) }

  /** `s.trim()` is empty exactly when every character of `s` is white space. */
  lemma TrimEmptyIff(s: string)
    ensures Trim(s) == [] <==> forall i | 0 <= i < |s| :: IsJsSpace(s[i])
  {
  }

  /** The longest prefix of `s` made of decimal digits. */
  function LeadingDigits(s: string): (d: string)
    ensures |d| <= |s| && d == s[..|d|] && AllDigits(d)
    ensures |d| < |s| ==> !IsDigit(s[|d|])
  {
    if s != [] && IsDigit(s[0]) then [s[0]] + LeadingDigits(s[1..]) else []
  }

  /** `parseInt(s, 10)`: leading white space, an optional sign, then the longest run of
      digits; `None` stands for `NaN` (no digit at all). `-0` is read as 0. */
  function ParseIntPrefix(s: string): Option<int>
  {
    var t := TrimStart(s);
    var negative := |t| > 0 && t[0] == '-';
    var u := if |t| > 0 && (t[0] == '-' || t[0] == '+') then t[1..] else t;
    var d := LeadingDigits(u);
    if d == [] then None
    else
      var v: int := DigitsValue(d);
      Some(if negative then -v else v)
  }

  lemma LeadingDigitsOfDigits(s: string)
    requires AllDigits(s)
    ensures LeadingDigits(s) == s
  {
  }

  /** `parseInt` reads back what `String(n)` printed. */
  lemma ParseIntOfNatToString(n: nat)
    ensures ParseIntPrefix(NatToString(n)) == Some(n)
  {
    var s := NatToString(n);
    NatToStringDigits(n);
    DigitsValueOfNatToString(n);
    LeadingDigitsOfDigits(s);
    assert !IsJsSpace(s[0]);
    assert TrimStart(s) == s;
  }

  lemma ParseIntOfIntToString(i: int)
    ensures ParseIntPrefix(IntToString(i)) == Some(i)
  {
    if i < 0 {
      DigitsValueOfNatToString(-i);
      ParseNegative(NatToString(-i), -i);
    } else {
      ParseIntOfNatToString(i);
    }
  }

  /** `parseInt` reads a minus sign followed by digits as the negated digits. */
  lemma ParseNegative(s: string, n: int)
    requires s != [] && AllDigits(s) && DigitsValue(s) == n
    ensures ParseIntPrefix(['-'] + s) == Some(-n)
  {
    var t := ['-'] + s;
    assert t[0] == '-' && !IsJsSpace(t[0]);
    assert TrimStart(t) == t;
    assert t[1..] == s;
    LeadingDigitsOfDigits(s);
  }

  /** The first position of `c` in `s`. */
  function IndexOf(s: string, c: char): (r: Option<nat>)
    ensures r.Some? ==> r.value < |s| && s[r.value] == c
  {
    if s == [] then None
    else if s[0] == c then Some(0)
    else
      match IndexOf(s[1..], c)
      case None => None
      case Some(i) => Some(i + 1)
  }

  /** `IndexOf` finds the first occurrence, and finds none only when `c` does not occur. */
  lemma {:induction false} IndexOfFirst(s: string, c: char)
    ensures IndexOf(s, c).Some? ==> c !in s[..IndexOf(s, c).value]
    ensures IndexOf(s, c).None? ==> c !in s
  {
    if s != [] && s[0] != c {
      IndexOfFirst(s[1..], c);
      if IndexOf(s[1..], c).Some? {
        var i := IndexOf(s[1..], c).value;
        assert s[..i + 1] == [s[0]] + s[1..][..i];
      }
    }
  }

  /** The first occurrence of `c` is where `IndexOf` finds it. */
  lemma IndexOfAt(s: string, c: char, n: nat)
    requires n < |s| && s[n] == c && c !in s[..n]
    ensures IndexOf(s, c) == Some(n)
  {
    IndexOfFirst(s, c);
  }

  /** `hay.includes(needle)`, and the `LIKE '%needle%'` test without wildcards in `needle`. */
  predicate Contains(hay: string, needle: string)
  {
    needle <= hay || (hay != [] && Contains(hay[1..], needle))
  }
}

=== FILE: ticket_availability.dfy ===
/** The ticket tiers a storefront event page offers: the event's active tiers in display
    order, keeping those whose sale window contains now and which have tickets left. */
module TicketAvailability {
  import opened Wrappers
  import opened Schema
  import opened Sorting

  /** A stored tier as the use case reads it. The use case reads a sold count that the table
      declares no column for; `None` is the `undefined` such a row would give. */
  datatype TypeRow = TypeRow(tt: TicketType, quantitySold: Option<int>)

  datatype AvailableTicketType = AvailableTicketType(
    id: Id, name: string, description: Option<string>, price: int,
    quantity: int, quantitySold: int, quantityAvailable: int,
    saleStartDate: Option<int>, saleEndDate: Option<int>,
    minQuantityPerOrder: Option<int>, maxQuantityPerOrder: Option<int>,
    sortOrder: int)

  /** The filter callback. A missing date does not exclude, and neither does a date equal
      to now; `quantity > undefined` is false. */
  predicate OnSale(row: TypeRow, now: int)
  {
    if row.tt.saleStartDate.Some? && row.tt.saleStartDate.value > now then false
    else if row.tt.saleEndDate.Some? && row.tt.saleEndDate.value < now then false
    else row.quantitySold.Some? && row.tt.quantity > row.quantitySold.value
  }

  /** The stated sale window: started (or no start), not ended (or no end), tickets left. */
  lemma OnSaleWindow(row: TypeRow, now: int)
    ensures OnSale(row, now) <==>
      && (row.tt.saleStartDate.None? || row.tt.saleStartDate.value <= now)
      && (row.tt.saleEndDate.None? || now <= row.tt.saleEndDate.value)
      && row.quantitySold.Some? && row.quantitySold.value < row.tt.quantity
  {
  }

  predicate Offered(row: TypeRow, eventId: Id, now: int)
  {
    row.tt.eventId == eventId && row.tt.isActive == 1 && OnSale(row, now)
  }

  /** The query: the event's active tiers. */
  function OfEvent(rows: seq<TypeRow>, eventId: Id): (f: seq<TypeRow>)
    ensures forall x :: x in f <==> x in rows && x.tt.eventId == eventId && x.tt.isActive == 1
  {
    if rows == [] then []
    else
      var rest := OfEvent(rows[1..], eventId);
      assert forall x :: x in rows <==> x == rows[0] || x in rows[1..];
      if rows[0].tt.eventId == eventId && rows[0].tt.isActive == 1 then [rows[0]] + rest else rest
  }

  function SortKey(row: TypeRow): int { row.tt.sortOrder }

  /** `.filter(…)`: keeps order. */
  function KeepOnSale(s: seq<TypeRow>, now: int): (k: seq<TypeRow>)
    ensures forall x :: x in k <==> x in s && OnSale(x, now)
    ensures SortedBy(s, SortKey) ==> SortedBy(k, SortKey)
  {
    if s == [] then []
    else
      var rest := KeepOnSale(s[1..], now);
      assert forall x :: x in s <==> x == s[0] || x in s[1..];
      assert SortedBy(s, SortKey) ==> SortedBy(s[1..], SortKey);
      if OnSale(s[0], now) then
        assert SortedBy(s, SortKey) ==> forall x | x in rest :: SortKey(s[0]) <= SortKey(x) by {
          if SortedBy(s, SortKey) {
            forall x | x in rest ensures SortKey(s[0]) <= SortKey(x) {
              var j :| 0 <= j < |s[1..]| && s[1..][j] == x;
              assert s[j + 1] == x;
            }
          }
        }
        [s[0]] + rest
      else rest
  }

  /** `.map(…)`: every column copied, and the tickets left computed. */
  function ToAvailable(row: TypeRow): AvailableTicketType
    requires row.quantitySold.Some?
  {
    var t := row.tt;
    AvailableTicketType(
      t.id, t.name, t.description, t.price, t.quantity, row.quantitySold.value,
      t.quantity - row.quantitySold.value,
      t.saleStartDate, t.saleEndDate, t.minQuantityPerOrder, t.maxQuantityPerOrder,
      t.sortOrder)
  }

  /** The query's rows in `ORDER BY sortOrder`. */
  function Fetched(rows: seq<TypeRow>, eventId: Id): (f: seq<TypeRow>)
    ensures forall x :: x in f <==> x in rows && x.tt.eventId == eventId && x.tt.isActive == 1
    ensures SortedBy(f, SortKey)
  {
    var f := SortBy(OfEvent(rows, eventId), SortKey);
    assert forall x :: x in f <==> x in multiset(f);
    assert forall x :: x in OfEvent(rows, eventId) <==> x in multiset(OfEvent(rows, eventId));
    f
  }

  function CopyAll(kept: seq<TypeRow>): (c: seq<AvailableTicketType>)
    requires forall i | 0 <= i < |kept| :: kept[i].quantitySold.Some?
    ensures |c| == |kept| && forall i | 0 <= i < |kept| :: c[i] == ToAvailable(kept[i])
  {
    seq(|kept|, (i: int) requires 0 <= i < |kept| => ToAvailable(kept[i]))
  }

  /** `getAvailableTicketTypes(eventId)` with the clock read as `now`: exactly the event's
      active tiers on sale, each copied with its tickets left (at least one), in display
      order. */
  function AvailableTicketTypes(rows: seq<TypeRow>, eventId: Id, now: int): (r: seq<AvailableTicketType>)
    ensures forall a | a in r :: exists row | row in rows :: Offered(row, eventId, now) && a == ToAvailable(row)
    ensures forall row | row in rows && Offered(row, eventId, now) :: ToAvailable(row) in r
    ensures forall i, j | 0 <= i < j < |r| :: r[i].sortOrder <= r[j].sortOrder
    ensures forall a | a in r :: a.quantityAvailable == a.quantity - a.quantitySold >= 1
  {
    var kept := KeepOnSale(Fetched(rows, eventId), now);
    CopyKept(rows, eventId, now, kept);
    CopyAll(kept)
  }

  /** Copying the kept rows, in their order, gives exactly the offered tiers in display
      order, each with tickets left. */
  lemma CopyKept(rows: seq<TypeRow>, eventId: Id, now: int, kept: seq<TypeRow>)
    requires forall x :: x in kept <==> x in rows && Offered(x, eventId, now)
    requires SortedBy(kept, SortKey)
    ensures forall i | 0 <= i < |kept| :: kept[i].quantitySold.Some?
    ensures var r := CopyAll(kept);
      && (forall a | a in r :: exists row | row in rows :: Offered(row, eventId, now) && a == ToAvailable(row))
      && (forall row | row in rows && Offered(row, eventId, now) :: ToAvailable(row) in r)
      && (forall i, j | 0 <= i < j < |r| :: r[i].sortOrder <= r[j].sortOrder)
      && (forall a | a in r :: a.quantityAvailable == a.quantity - a.quantitySold >= 1)
  {
    assert forall i | 0 <= i < |kept| :: kept[i] in kept;
    var r := CopyAll(kept);
    forall row | row in rows && Offered(row, eventId, now) ensures ToAvailable(row) in r {
      var i :| 0 <= i < |kept| && kept[i] == row;
      assert r[i] == ToAvailable(row);
    }
    forall i, j | 0 <= i < j < |r| ensures r[i].sortOrder <= r[j].sortOrder {
      assert r[i].sortOrder == SortKey(kept[i]) && r[j].sortOrder == SortKey(kept[j]);
    }
  }
}

=== FILE: ticket_listing.dfy ===
/** The optimized admin ticket listing: cursor pages of 20 in descending (createdAt, id)
    order, an OFFSET fallback for jumps to an arbitrary page, and a row-count estimate
    cached for five minutes. Rows are represented by their listing keys. The precision the
    cursor token keeps of the creation time is a parameter: `Milliseconds` is the source as
    written, `Microseconds` the corrected cursor. */
module TicketListing {
  import opened Wrappers
  import opened Schema
  import opened Cursor

  const PageSize: nat := 20
  /** Five minutes, in milliseconds. */
  const CountCacheTtl: int := 5 * 60 * 1000

  // ---- The listing order -----------------------------------------------------------------

  predicate Descending(o: seq<Key>)
  {
    forall i, j | 0 <= i < j < |o| :: Less(o[j], o[i])
  }

  function InsertDesc(x: Key, o: seq<Key>): (r: seq<Key>)
    ensures |r| == |o| + 1
  {
    if o == [] || Less(o[0], x) then [x] + o
    else [o[0]] + InsertDesc(x, o[1..])
  }

  /** Inserting a new key into a descending sequence adds exactly that key and keeps the
      order. */
  lemma {:induction false} InsertDescSorts(x: Key, o: seq<Key>)
    ensures multiset(InsertDesc(x, o)) == multiset(o) + multiset{x}
    ensures Descending(o) && x !in o ==> Descending(InsertDesc(x, o))
  {
    if o == [] || Less(o[0], x) {
      AboveHead(x, o);
    } else {
      InsertDescSorts(x, o[1..]);
      BelowHead(x, o, InsertDesc(x, o[1..]));
    }
  }

  /** A key above the head of a descending sequence goes first. */
  lemma AboveHead(x: Key, o: seq<Key>)
    requires o == [] || Less(o[0], x)
    ensures multiset([x] + o) == multiset(o) + multiset{x}
    ensures Descending(o) ==> Descending([x] + o)
  {
    if Descending(o) {
      forall i, j | 0 <= i < j < |[x] + o| ensures Less(([x] + o)[j], ([x] + o)[i]) {
        if i == 0 {
          LessIsStrictTotalOrder(o[j - 1], o[0], x);
        }
      }
    }
  }

  /** Inserting below the head of a descending sequence keeps the head first. */
  lemma BelowHead(x: Key, o: seq<Key>, rest: seq<Key>)
    requires o != [] && !Less(o[0], x)
    requires multiset(rest) == multiset(o[1..]) + multiset{x}
    requires Descending(o[1..]) && x !in o[1..] ==> Descending(rest)
    ensures multiset([o[0]] + rest) == multiset(o) + multiset{x}
    ensures Descending(o) && x !in o ==> Descending([o[0]] + rest)
  {
    assert o == [o[0]] + o[1..];
    if Descending(o) && x !in o {
      assert Descending(o[1..]);
      forall k | 0 <= k < |rest| ensures Less(rest[k], o[0]) {
        assert rest[k] in multiset(rest);
        if rest[k] != x {
          assert rest[k] in multiset(o[1..]);
          var i :| 0 <= i < |o[1..]| && o[1..][i] == rest[k];
          assert o[i + 1] == rest[k];
        } else {
          LessIsStrictTotalOrder(x, o[0], x);
        }
      }
    }
  }

  /** `ORDER BY createdAt DESC, id DESC` over a table whose keys are distinct (the id is
      the primary key). */
  function OrderedDesc(table: seq<Key>): (o: seq<Key>)
    requires Distinct(table)
    ensures |o| == |table|
  {
    if table == [] then []
    else
      DistinctTail(table);
      InsertDesc(table[0], OrderedDesc(table[1..]))
  }

  /** The listing order holds every row of the table once, in descending order. */
  lemma {:induction false} OrderedDescSorts(table: seq<Key>)
    requires Distinct(table)
    ensures multiset(OrderedDesc(table)) == multiset(table)
    ensures Descending(OrderedDesc(table))
  {
    if table != [] {
      DistinctTail(table);
      OrderedDescSorts(table[1..]);
      InsertHead(table, OrderedDesc(table[1..]));
    }
  }

  /** Inserting the head of a repetition-free table into the ordered tail orders the table. */
  lemma InsertHead(table: seq<Key>, rest: seq<Key>)
    requires table != [] && table[0] !in Elems(table[1..])
    requires multiset(rest) == multiset(table[1..]) && Descending(rest)
    ensures var o := InsertDesc(table[0], rest);
      multiset(o) == multiset(table) && |o| == |table| && Descending(o)
  {
    assert table[0] !in multiset(table[1..]);
    assert table == [table[0]] + table[1..];
    InsertDescSorts(table[0], rest);
  }

  /** `WHERE` with the cursor filter, keeping the order. */
  function Where(o: seq<Key>, where: Option<Key>): (r: seq<Key>)
    ensures forall k :: k in r <==> k in o && Passes(k, where)
  {
    if o == [] then []
    else
      assert forall k :: k in o <==> k == o[0] || k in o[1..];
      (if Passes(o[0], where) then [o[0]] else []) + Where(o[1..], where)
  }

  lemma {:induction false} WhereKeepsAll(o: seq<Key>, where: Option<Key>)
    requires forall i | 0 <= i < |o| :: Passes(o[i], where)
    ensures Where(o, where) == o
  {
    if o != [] {
      WhereKeepsAll(o[1..], where);
    }
  }

  /** The first position from `j` on whose row lies below `c`, or the end. */
  function FirstBelow(o: seq<Key>, c: Key, j: nat): (r: nat)
    requires j <= |o|
    ensures j <= r <= |o|
    decreases |o| - j
  {
    if j == |o| || Less(o[j], c) then j else FirstBelow(o, c, j + 1)
  }

  /** No row between `j` and `FirstBelow` lies below `c`; the row there, if any, does. */
  lemma {:induction false} FirstBelowIsFirst(o: seq<Key>, c: Key, j: nat)
    requires j <= |o|
    ensures var r := FirstBelow(o, c, j);
      (forall k | j <= k < r :: !Less(o[k], c)) && (r < |o| ==> Less(o[r], c))
    decreases |o| - j
  {
    if !(j == |o| || Less(o[j], c)) {
      FirstBelowIsFirst(o, c, j + 1);
    }
  }

  /** In a descending sequence, the rows a filter keeps are those from some position on. */
  lemma {:induction false} WhereSuffix(o: seq<Key>, c: Key, j: nat)
    requires Descending(o) && j <= |o|
    requires forall k | 0 <= k < j :: !Less(o[k], c)
    requires forall k | j <= k < |o| :: Less(o[k], c)
    ensures Where(o, Some(c)) == o[j..]
  {
    if j == 0 {
      WhereKeepsAll(o, Some(c));
    } else {
      assert Descending(o[1..]);
      WhereSuffix(o[1..], c, j - 1);
      assert o[1..][j - 1..] == o[j..];
    }
  }

  /** Where the rows after the cursor made from row `i` start: the first later row below
      the position the token keeps. */
  function Resume(o: seq<Key>, i: nat, p: Precision): (r: nat)
    requires i < |o|
    ensures i < r <= |o|
  {
    FirstBelow(o, Truncate(o[i], p), i + 1)
  }

  /** In the listing order, the cursor made from row `i` keeps exactly the rows from
      `Resume` on. The rows it skips were all created within the millisecond of row `i`;
      when row `i`'s creation time is kept whole, it skips none. */
  lemma {:induction false} WhereAfter(o: seq<Key>, i: nat, p: Precision)
    requires Descending(o) && i < |o|
    ensures Where(o, Some(Truncate(o[i], p))) == o[Resume(o, i, p)..]
    ensures forall k | i < k < Resume(o, i, p) :: Truncate(o[k], p).createdAt == Truncate(o[i], p).createdAt
    ensures Exact(o[i], p) ==> Resume(o, i, p) == i + 1
  {
    var c := Truncate(o[i], p);
    var r := Resume(o, i, p);
    FirstBelowIsFirst(o, c, i + 1);
    forall k | 0 <= k <= i ensures !Less(o[k], c) {
      if k < i && Less(o[k], c) {
        LessIsStrictTotalOrder(o[i], o[k], c);
      }
    }
    forall k | r <= k < |o| ensures Less(o[k], c) {
      if k > r {
        LessIsStrictTotalOrder(o[k], o[r], c);
      }
    }
    WhereSuffix(o, c, r);
    forall k | i < k < r ensures Truncate(o[k], p).createdAt == c.createdAt {
      SameKeptInstant(o[k], o[i], p);
    }
  }

  /** A row below another but not below its kept position was created within the same
      unit of time. */
  lemma SameKeptInstant(a: Key, b: Key, p: Precision)
    requires Less(a, b) && !Less(a, Truncate(b, p))
    ensures Truncate(a, p).createdAt == Truncate(b, p).createdAt
  {
    if p == Milliseconds {
      var t := Truncate(b, p).createdAt;
      assert t <= a.createdAt <= b.createdAt < t + MicrosPerMilli;
    }
  }

  // ---- One request -------------------------------------------------------------------------

  datatype Pagination = Pagination(
    nextCursor: Option<string>, prevCursor: Option<string>, currentCursor: Option<string>,
    currentPage: int, hasMore: bool, total: int, totalPages: int)

  datatype Listing = Listing(tickets: seq<Key>, pagination: Pagination)

  datatype ListError = BadCursor(error: CursorError) | NegativeOffset

  /** `page || 1` for a page number that may be absent (`undefined` or `NaN`). */
  function CurrentPage(page: Option<int>): (p: int)
    ensures page.Some? && page.value != 0 ==> p == page.value
    ensures page.None? || page.value == 0 ==> p == 1
  {
    if page.Some? && page.value != 0 then page.value else 1
  }

  /** The rows of the OFFSET query: at most `PageSize` rows from position `offset`. */
  function OffsetRows(o: seq<Key>, offset: nat): (rows: seq<Key>)
    ensures |rows| <= PageSize
    ensures offset < |o| ==> rows == o[offset..Min(offset + PageSize, |o|)]
    ensures offset >= |o| ==> rows == []
  {
    if offset >= |o| then [] else o[offset..Min(offset + PageSize, |o|)]
  }

  /** The jump path: `OFFSET` from the requested page; the next cursor only when the
      estimated page count says there is more and the page is not empty. */
  function JumpListing(o: seq<Key>, page: int, total: int, p: Precision): (r: Result<Listing, ListError>)
    requires page != 0
    ensures r.Failure? <==> page < 1
    ensures r.Success? ==>
      var pg := r.value.pagination;
      && r.value.tickets == OffsetRows(o, (page - 1) * PageSize)
      && pg.currentPage == page && pg.total == total && pg.totalPages == CeilDiv(total, PageSize)
      && pg.hasMore == (page < pg.totalPages)
      && pg.prevCursor.None? && pg.currentCursor.None?
      && (pg.nextCursor.Some? <==> pg.hasMore && r.value.tickets != [])
  {
    var offset := (page - 1) * PageSize;
    if offset < 0 then Failure(NegativeOffset)
    else
      var rows := OffsetRows(o, offset);
      var totalPages := CeilDiv(total, PageSize);
      var hasMore := page < totalPages;
      var next := if hasMore && |rows| > 0 then Some(Encode(rows[|rows| - 1], p)) else None;
      Success(Listing(rows, Pagination(next, None, None, page, hasMore, total, totalPages)))
  }

  /** The cursor path: fetch 21 rows after the cursor, return 20, and derive `hasMore` and
      the next cursor from the 21st. */
  function CursorListing(o: seq<Key>, where: Option<Key>, cursor: Option<string>, prevCursor: Option<string>,
                         currentPage: int, total: int, p: Precision): (l: Listing)
    ensures var pg := l.pagination;
      && |l.tickets| <= PageSize
      && pg.currentPage == currentPage && pg.total == total && pg.totalPages == CeilDiv(total, PageSize)
      && pg.prevCursor == OrNull(prevCursor) && pg.currentCursor == OrNull(cursor)
      && (pg.nextCursor.Some? <==> pg.hasMore)
      && (pg.hasMore <==> |Where(o, where)| > PageSize)
      && l.tickets == Where(o, where)[..Min(PageSize, |Where(o, where)|)]
      && (pg.hasMore ==> pg.nextCursor == Some(Encode(l.tickets[PageSize - 1], p)))
  {
    var matching := Where(o, where);
    var fetched := matching[..Min(PageSize + 1, |matching|)];
    var hasMore := |fetched| > PageSize;
    var items := fetched[..Min(PageSize, |fetched|)];
    var next := if hasMore then Some(Encode(items[|items| - 1], p)) else None;
    Listing(items, Pagination(next, OrNull(prevCursor), OrNull(cursor), currentPage, hasMore, total, CeilDiv(total, PageSize)))
  }

  /** `listTicketsAdmin` given the total the count cache returned: a jump when asked for
      with a page, the cursor path otherwise. */
  function ListTickets(table: seq<Key>, cursor: Option<string>, page: Option<int>,
                       prevCursor: Option<string>, isJump: bool, total: int, p: Precision): (r: Result<Listing, ListError>)
    requires Distinct(table)
    ensures isJump && page.Some? && page.value != 0 ==> r == JumpListing(OrderedDesc(table), page.value, total, p)
    ensures !(isJump && page.Some? && page.value != 0) ==>
      && (r.Failure? <==> CursorWhere(cursor, p).Failure?)
      && (r.Success? ==>
          r.value == CursorListing(OrderedDesc(table), CursorWhere(cursor, p).value, cursor, prevCursor, CurrentPage(page), total, p))
  {
    var o := OrderedDesc(table);
    if isJump && page.Some? && page.value != 0 then JumpListing(o, page.value, total, p)
    else
      match CursorWhere(cursor, p)
      case Failure(e) => Failure(BadCursor(e))
      case Success(where) => Success(CursorListing(o, where, cursor, prevCursor, CurrentPage(page), total, p))
  }

  // ---- Walking the pages -------------------------------------------------------------------

  /** The cursor made from the row just before position `start`: none for the first page. */
  function CursorAt(o: seq<Key>, start: nat, p: Precision): Option<string>
    requires start <= |o|
  {
    if start == 0 then None else Some(Encode(o[start - 1], p))
  }

  /** The page of the listing order that starts at position `start`. */
  function Window(o: seq<Key>, start: nat): seq<Key>
    requires start <= |o|
  {
    o[start..Min(start + PageSize, |o|)]
  }

  /** The filter the cursor at `start` decodes to. */
  function WhereAt(o: seq<Key>, start: nat, p: Precision): Option<Key>
    requires start <= |o|
  {
    if start == 0 then None else Some(Truncate(o[start - 1], p))
  }

  /** Where the rows the cursor at `start` lets through begin. */
  function ResumeAt(o: seq<Key>, start: nat, p: Precision): (r: nat)
    requires start <= |o|
    ensures start <= r <= |o|
  {
    if start == 0 then 0 else Resume(o, start - 1, p)
  }

  /** Every creation time in `o` is kept whole by tokens of precision `p`. */
  predicate ExactCursors(o: seq<Key>, p: Precision)
  {
    forall i | 0 <= i < |o| :: Exact(o[i], p)
  }

  lemma {:induction false} CursorAtDecodes(o: seq<Key>, start: nat, p: Precision)
    requires Descending(o) && start <= |o|
    ensures CursorWhere(CursorAt(o, start, p), p) == Success(WhereAt(o, start, p))
    ensures Where(o, WhereAt(o, start, p)) == o[ResumeAt(o, start, p)..]
  {
    if start == 0 {
      WhereKeepsAll(o, None);
    } else {
      var k := o[start - 1];
      assert CursorAt(o, start, p) == Some(Encode(k, p)) && WhereAt(o, start, p) == Some(Truncate(k, p));
      FilterOfRow(k, k, p);
      WhereAfter(o, start - 1, p);
    }
  }

  /** When every creation time is kept whole, the cursor at `start` lets through exactly
      the rows from `start` on. */
  lemma {:induction false} ResumeAtExact(o: seq<Key>, start: nat, p: Precision)
    requires Descending(o) && ExactCursors(o, p) && start <= |o|
    ensures ResumeAt(o, start, p) == start
  {
    if start > 0 {
      WhereAfter(o, start - 1, p);
    }
  }

  /** A response shows the page of `o` that starts at `s`: its 20 rows, whether rows remain
      after them, and the cursor made from its last row when they do. */
  predicate ShowsWindow(l: Listing, o: seq<Key>, s: nat, p: Precision)
    requires s <= |o|
  {
    && l.tickets == Window(o, s)
    && l.pagination.hasMore == (s + PageSize < |o|)
    && l.pagination.nextCursor == (if s + PageSize < |o| then CursorAt(o, s + PageSize, p) else None)
  }

  lemma {:induction false} CursorListingAt(o: seq<Key>, start: nat, cursor: Option<string>, prevCursor: Option<string>,
                        currentPage: int, total: int, p: Precision)
    requires Descending(o) && start <= |o|
    ensures ShowsWindow(CursorListing(o, WhereAt(o, start, p), cursor, prevCursor, currentPage, total, p),
                        o, ResumeAt(o, start, p), p)
  {
    CursorAtDecodes(o, start, p);
    var s := ResumeAt(o, start, p);
    var w := Where(o, WhereAt(o, start, p));
    var l := CursorListing(o, WhereAt(o, start, p), cursor, prevCursor, currentPage, total, p);
    assert w == o[s..];
    assert l.tickets == w[..Min(PageSize, |w|)] == Window(o, s);
    if s + PageSize < |o| {
      assert l.tickets[PageSize - 1] == o[s + PageSize - 1];
    }
  }

  /** The request with the cursor at `start` shows the 20 rows from where that cursor's
      filter lets rows through; it has more iff rows remain after them, and then its next
      cursor is made from its last row. */
  lemma {:induction false} CursorPageAt(table: seq<Key>, start: nat, page: Option<int>, prevCursor: Option<string>, total: int, p: Precision)
    requires Distinct(table) && start <= |OrderedDesc(table)|
    ensures var o := OrderedDesc(table);
      var r := ListTickets(table, CursorAt(o, start, p), page, prevCursor, false, total, p);
      r.Success? && ShowsWindow(r.value, o, ResumeAt(o, start, p), p)
  {
    var o := OrderedDesc(table);
    OrderedDescSorts(table);
    CursorAtDecodes(o, start, p);
    CursorListingAt(o, start, CursorAt(o, start, p), prevCursor, CurrentPage(page), total, p);
  }

  /** The pages met by showing the page that starts at `start` and following the next
      cursor to the end. */
  function PagesFrom(o: seq<Key>, start: nat, p: Precision): (pages: seq<seq<Key>>)
    requires start <= |o|
    ensures |pages| > 0
    decreases |o| - start
  {
    if start + PageSize < |o| then [Window(o, start)] + PagesFrom(o, ResumeAt(o, start + PageSize, p), p)
    else [Window(o, start)]
  }

  function Flatten(pages: seq<seq<Key>>): seq<Key>
  {
    if pages == [] then [] else pages[0] + Flatten(pages[1..])
  }

  /** Whatever the cursors skip, the pages list rows of `o` from `start` on, in descending
      order, none of them twice. */
  lemma {:induction false} FlattenWithin(o: seq<Key>, start: nat, p: Precision)
    requires Descending(o) && start <= |o|
    ensures Descending(Flatten(PagesFrom(o, start, p)))
    ensures forall x | x in Flatten(PagesFrom(o, start, p)) :: x in o[start..]
    decreases |o| - start
  {
    var pages := PagesFrom(o, start, p);
    var w := Window(o, start);
    if start + PageSize < |o| {
      var r := ResumeAt(o, start + PageSize, p);
      FlattenWithin(o, r, p);
      assert pages[1..] == PagesFrom(o, r, p);
      var f := Flatten(PagesFrom(o, r, p));
      assert Flatten(pages) == w + f;
      forall x | x in w + f ensures x in o[start..] {
        if x in f {
          assert x in o[r..];
          var a :| r <= a < |o| && o[a] == x;
          assert o[start..][a - start] == x;
        }
      }
      WindowThenLater(o, start, r, f);
    } else {
      assert pages[1..] == [];
      assert Flatten(pages) == w + [];
    }
  }

  /** A page followed by rows from a later position stays descending. */
  lemma WindowThenLater(o: seq<Key>, start: nat, r: nat, f: seq<Key>)
    requires Descending(o) && start + PageSize <= r <= |o|
    requires Descending(f) && forall x | x in f :: x in o[r..]
    ensures Descending(Window(o, start) + f)
  {
    var w := Window(o, start);
    var c := w + f;
    forall i, j | 0 <= i < j < |c| ensures Less(c[j], c[i]) {
      if j >= |w| && i < |w| {
        assert c[j] == f[j - |w|] && c[j] in o[r..];
        var a :| r <= a < |o| && o[a] == c[j];
        assert c[i] == o[start + i];
      } else if j < |w| {
        assert c[i] == o[start + i] && c[j] == o[start + j];
      } else {
        assert c[i] == f[i - |w|] && c[j] == f[j - |w|];
      }
    }
  }

  /** When the cursors keep every creation time whole, the pages hold every remaining row
      exactly once, in order. */
  lemma {:induction false} FlattenPagesFrom(o: seq<Key>, start: nat, p: Precision)
    requires Descending(o) && ExactCursors(o, p) && start <= |o|
    ensures Flatten(PagesFrom(o, start, p)) == o[start..]
    decreases |o| - start
  {
    var pages := PagesFrom(o, start, p);
    if start + PageSize < |o| {
      ResumeAtExact(o, start + PageSize, p);
      FlattenPagesFrom(o, start + PageSize, p);
      assert pages[1..] == PagesFrom(o, start + PageSize, p);
      assert o[start..] == o[start..start + PageSize] + o[start + PageSize..];
    } else {
      assert pages[1..] == [];
    }
  }

  /** With whole creation times, page `m` (from 0) of the walk from `start` is the window
      at `start + 20·m`. */
  lemma {:induction false} PagesFromAt(o: seq<Key>, start: nat, m: nat, p: Precision)
    requires Descending(o) && ExactCursors(o, p)
    requires start <= |o| && m < |PagesFrom(o, start, p)|
    ensures start + m * PageSize <= |o|
    ensures PagesFrom(o, start, p)[m] == Window(o, start + m * PageSize)
    decreases m
  {
    if m > 0 {
      ResumeAtExact(o, start + PageSize, p);
      assert PagesFrom(o, start, p)[m] == PagesFrom(o, start + PageSize, p)[m - 1];
      PagesFromAt(o, start + PageSize, m - 1, p);
      NextPageStart(start, m);
    }
  }

  lemma NextPageStart(start: int, m: int)
    ensures start + PageSize + (m - 1) * PageSize == start + m * PageSize
  {
  }

  /** Request after request, following the next cursor the previous response gave. */
  function Crawl(table: seq<Key>, cursor: Option<string>, page: int, total: int, fuel: nat, p: Precision): seq<seq<Key>>
    requires Distinct(table)
    decreases fuel
  {
    match ListTickets(table, cursor, Some(page), None, false, total, p)
    case Failure(_) => []
    case Success(l) =>
      [l.tickets] +
      if l.pagination.nextCursor.Some? && fuel > 0
      then Crawl(table, l.pagination.nextCursor, page + 1, total, fuel - 1, p)
      else []
  }

  lemma {:induction false} CrawlFrom(table: seq<Key>, start: nat, page: int, total: int, fuel: nat, p: Precision)
    requires Distinct(table) && start <= |OrderedDesc(table)|
    requires ResumeAt(OrderedDesc(table), start, p) + PageSize * (fuel + 1) >= |OrderedDesc(table)|
    ensures var o := OrderedDesc(table);
      Crawl(table, CursorAt(o, start, p), page, total, fuel, p) == PagesFrom(o, ResumeAt(o, start, p), p)
    decreases fuel
  {
    var o := OrderedDesc(table);
    var s := ResumeAt(o, start, p);
    CrawlStep(table, start, page, total, fuel, p);
    if s + PageSize < |o| {
      FuelLeft(s, |o|, fuel, ResumeAt(o, s + PageSize, p));
      CrawlFrom(table, s + PageSize, page + 1, total, fuel - 1, p);
    }
  }

  /** A walk with fuel for the rows after `s` that has not ended has fuel for one more page. */
  lemma FuelLeft(s: int, n: int, fuel: nat, next: int)
    requires s + PageSize < n <= s + PageSize * (fuel + 1) && s + PageSize <= next
    ensures fuel > 0 && next + PageSize * fuel >= n
  {
  }

  /** One request of the walk: the page the cursor at `start` shows, then the walk from the
      next cursor when there is one. */
  lemma {:induction false} CrawlStep(table: seq<Key>, start: nat, page: int, total: int, fuel: nat, p: Precision)
    requires Distinct(table) && start <= |OrderedDesc(table)|
    ensures var o := OrderedDesc(table);
      var s := ResumeAt(o, start, p);
      Crawl(table, CursorAt(o, start, p), page, total, fuel, p) ==
        [Window(o, s)] +
        if s + PageSize < |o| && fuel > 0
        then Crawl(table, CursorAt(o, s + PageSize, p), page + 1, total, fuel - 1, p)
        else []
  {
    CursorPageAt(table, start, Some(page), None, total, p);
  }

  lemma OrderedLength(table: seq<Key>)
    requires Distinct(table)
    ensures |OrderedDesc(table)| == |table|
    ensures forall x | x in OrderedDesc(table) :: x in table
  {
    var o := OrderedDesc(table);
    OrderedDescSorts(table);
    forall x | x in o ensures x in table {
      assert x in multiset(o);
    }
  }

  /** Starting without a cursor and following the next cursor lists rows of the table in
      descending (createdAt, id) order, none of them twice, whatever the token keeps. */
  lemma TraversalInOrder(table: seq<Key>, total: int, p: Precision)
    requires Distinct(table)
    ensures var pages := Crawl(table, None, 1, total, |table|, p);
      && pages == PagesFrom(OrderedDesc(table), 0, p)
      && Descending(Flatten(pages))
      && forall x | x in Flatten(pages) :: x in table
  {
    var o := OrderedDesc(table);
    OrderedLength(table);
    OrderedDescSorts(table);
    CrawlFrom(table, 0, 1, total, |table|, p);
    FlattenWithin(o, 0, p);
  }

  /** The corrected cursor keeps every creation time whole; whole creation times stay whole
      in the listing order. */
  lemma OrderedExact(table: seq<Key>, p: Precision)
    requires Distinct(table) && (p == Microseconds || ExactCursors(table, p))
    ensures ExactCursors(OrderedDesc(table), p)
  {
    var o := OrderedDesc(table);
    OrderedLength(table);
    forall i | 0 <= i < |o| ensures Exact(o[i], p) {
      assert o[i] in o;
      if p != Microseconds {
        var j :| 0 <= j < |table| && table[j] == o[i];
      }
    }
  }

  /** With the corrected cursor, or when every creation time is a whole millisecond, the
      walk visits every row of the table exactly once, in descending (createdAt, id) order. */
  lemma TraversalVisitsEveryRowOnce(table: seq<Key>, total: int, p: Precision)
    requires Distinct(table)
    ensures p == Microseconds || ExactCursors(table, p) ==>
      var pages := Crawl(table, None, 1, total, |table|, p);
      && pages == PagesFrom(OrderedDesc(table), 0, p)
      && Flatten(pages) == OrderedDesc(table)
      && multiset(Flatten(pages)) == multiset(table)
  {
    var o := OrderedDesc(table);
    if p == Microseconds || ExactCursors(table, p) {
      OrderedExact(table, p);
      OrderedDescSorts(table);
      CrawlFrom(table, 0, 1, total, |table|, p);
      FlattenPagesFrom(o, 0, p);
    }
  }

  /** In the listing order, when the cursor made from the last row of the first page drops
      part of its creation time, a next row created at that same time is never shown. */
  lemma {:induction false} PagesSkipSharedInstant(o: seq<Key>, p: Precision)
    requires Descending(o) && |o| > PageSize
    requires !Exact(o[PageSize - 1], p) && o[PageSize].createdAt == o[PageSize - 1].createdAt
    ensures o[PageSize] !in Flatten(PagesFrom(o, 0, p))
  {
    FilterOfRow(o[PageSize - 1], o[PageSize], p);
    WhereAfter(o, PageSize - 1, p);
    var r := ResumeAt(o, PageSize, p);
    assert r > PageSize;
    var pages := PagesFrom(o, 0, p);
    assert pages[1..] == PagesFrom(o, r, p);
    FlattenWithin(o, r, p);
    assert Flatten(pages) == Window(o, 0) + Flatten(PagesFrom(o, r, p));
    assert o[PageSize] !in Window(o, 0) by {
      forall k | 0 <= k < PageSize ensures Window(o, 0)[k] != o[PageSize] {
        assert Less(o[PageSize], o[k]);
      }
    }
    assert o[PageSize] !in o[r..] by {
      forall a | 0 <= a < |o| - r ensures o[r..][a] != o[PageSize] {
        assert Less(o[r + a], o[PageSize]);
      }
    }
  }

  /** As written, when the last row of a page was created at a time that is not a whole
      millisecond and the next row shares that time (two tickets of one order), the walk
      never lists that next row. */
  lemma TraversalSkipsSharedInstant(table: seq<Key>, total: int)
    requires Distinct(table) && |table| > PageSize
    requires var o := OrderedDesc(table);
      |o| == |table| && !Exact(o[PageSize - 1], Milliseconds) && o[PageSize].createdAt == o[PageSize - 1].createdAt
    ensures var o := OrderedDesc(table);
      o[PageSize] in table && o[PageSize] !in Flatten(Crawl(table, None, 1, total, |table|, Milliseconds))
  {
    var o := OrderedDesc(table);
    OrderedLength(table);
    OrderedDescSorts(table);
    TraversalInOrder(table, total, Milliseconds);
    PagesSkipSharedInstant(o, Milliseconds);
  }

  /** A table already in listing order is its own listing order. */
  lemma {:induction false} OrderedDescOfDescending(table: seq<Key>)
    requires Descending(table)
    ensures Distinct(table) && OrderedDesc(table) == table
  {
    if table != [] {
      assert Descending(table[1..]);
      OrderedDescOfDescending(table[1..]);
      assert Distinct(table);
      assert table == [table[0]] + table[1..];
    }
  }

  /** Twenty-one tickets of one order, created together at 1.5 milliseconds with ids 21
      down to 1: as written, the walk shows ids 21 to 2 and never the ticket with id 1; the
      corrected cursor lists all of them. */
  lemma OneOrderAcrossPages(total: int)
    ensures var table := seq(PageSize + 1, i requires 0 <= i <= PageSize => Key(1500, PageSize + 1 - i));
      && Distinct(table)
      && table[PageSize] !in Flatten(Crawl(table, None, 1, total, |table|, Milliseconds))
      && Flatten(Crawl(table, None, 1, total, |table|, Microseconds)) == table
  {
    var table := seq(PageSize + 1, i requires 0 <= i <= PageSize => Key(1500, PageSize + 1 - i));
    OrderedDescOfDescending(table);
    TraversalSkipsSharedInstant(table, total);
    TraversalVisitsEveryRowOnce(table, total, Microseconds);
  }

  /** From the first page, as many requests as there are rows are enough to reach the end. */
  lemma {:induction false} CrawlEnough(table: seq<Key>, total: int, p: Precision, fuel: nat)
    requires Distinct(table) && fuel >= |table|
    ensures Crawl(table, None, 1, total, fuel, p) == PagesFrom(OrderedDesc(table), 0, p)
  {
    OrderedLength(table);
    assert PageSize * (fuel + 1) == 20 * (fuel + 1);
    var o := OrderedDesc(table);
    assert CursorAt(o, 0, p) == None && ResumeAt(o, 0, p) == 0;
    CrawlFrom(table, 0, 1, total, fuel, p);
  }

  /** However many more requests it is allowed, the walk shows no more pages: it ends on a
      response with no next cursor. */
  lemma {:induction false} TraversalEnds(table: seq<Key>, total: int, p: Precision, fuel: nat)
    requires Distinct(table) && fuel >= |table|
    ensures Crawl(table, None, 1, total, fuel, p) == Crawl(table, None, 1, total, |table|, p)
  {
    CrawlEnough(table, total, p, fuel);
    CrawlEnough(table, total, p, |table|);
  }

  /** With whole creation times, the `OFFSET` rows of page p are page p of the walk. */
  lemma {:induction false} OffsetIsPage(o: seq<Key>, pg: int, p: Precision)
    requires Descending(o) && ExactCursors(o, p) && 1 <= pg <= |PagesFrom(o, 0, p)|
    ensures OffsetRows(o, (pg - 1) * PageSize) == PagesFrom(o, 0, p)[pg - 1]
  {
    PagesFromAt(o, 0, pg - 1, p);
    var offset := (pg - 1) * PageSize;
    assert 0 + (pg - 1) * PageSize == offset;
    if offset == |o| {
      assert PagesFrom(o, 0, p)[pg - 1] == Window(o, offset) == [];
    }
  }

  /** A jump to page p returns the rows at positions 20·(p−1) to 20·p−1 of the listing
      order; when the cursors keep creation times whole, these are the rows of the p-th
      page of the cursor walk. */
  lemma JumpMatchesCursorPage(table: seq<Key>, pg: int, cursor: Option<string>, prevCursor: Option<string>,
                              total: int, p: Precision)
    requires Distinct(table) && pg >= 1
    ensures var r := ListTickets(table, cursor, Some(pg), prevCursor, true, total, p);
      && r.Success?
      && r.value.tickets == OffsetRows(OrderedDesc(table), (pg - 1) * PageSize)
      && ((p == Microseconds || ExactCursors(table, p)) && pg <= |PagesFrom(OrderedDesc(table), 0, p)| ==>
            r.value.tickets == PagesFrom(OrderedDesc(table), 0, p)[pg - 1])
  {
    var o := OrderedDesc(table);
    var r := ListTickets(table, cursor, Some(pg), prevCursor, true, total, p);
    assert r == JumpListing(o, pg, total, p);
    if (p == Microseconds || ExactCursors(table, p)) && pg <= |PagesFrom(o, 0, p)| {
      OrderedExact(table, p);
      OrderedDescSorts(table);
      OffsetIsPage(o, pg, p);
    }
  }

  // ---- The count cache ---------------------------------------------------------------------

  datatype CachedCount = CachedCount(value: int, timestamp: int)

  /** One `getTicketCount` call at time `now`; `estimate` is what the catalogue query would
      return (`None` when it returns no row). */
  function CountLookup(cached: Option<CachedCount>, now: int, estimate: Option<int>): (r: (int, Option<CachedCount>))
    ensures cached.Some? && now - cached.value.timestamp < CountCacheTtl ==> r == (cached.value.value, cached)
    ensures !(cached.Some? && now - cached.value.timestamp < CountCacheTtl) ==>
      r == (estimate.GetOr(0), Some(CachedCount(estimate.GetOr(0), now)))
  {
    if cached.Some? && now - cached.value.timestamp < CountCacheTtl then (cached.value.value, cached)
    else
      var e := estimate.GetOr(0);
      (e, Some(CachedCount(e, now)))
  }

  /** The counts a series of calls returns. */
  function Replay(cached: Option<CachedCount>, calls: seq<(int, Option<int>)>): seq<int>
    decreases |calls|
  {
    if calls == [] then []
    else
      var (v, next) := CountLookup(cached, calls[0].0, calls[0].1);
      [v] + Replay(next, calls[1..])
  }

  /** Once stored at time t, the count is returned as it is, whatever the database would
      say, by every call made before t + 5 minutes. */
  lemma {:induction false} StoredCountServedUntilTtl(v: int, t: int, calls: seq<(int, Option<int>)>)
    requires forall i | 0 <= i < |calls| :: calls[i].0 - t < CountCacheTtl
    ensures Replay(Some(CachedCount(v, t)), calls) == seq(|calls|, _ => v)
  {
    if calls != [] {
      StoredCountServedUntilTtl(v, t, calls[1..]);
    }
  }

  /** From five minutes on, the estimate is read again and stored with the call's time. */
  lemma StaleCountRefreshed(v: int, t: int, now: int, estimate: Option<int>)
    requires now >= t + CountCacheTtl
    ensures CountLookup(Some(CachedCount(v, t)), now, estimate) ==
      (estimate.GetOr(0), Some(CachedCount(estimate.GetOr(0), now)))
  {
  }

  /** The module-level `cachedCount`. */
  class TicketCountCache {
    var cached: Option<CachedCount>

    constructor ()
      ensures cached == None
    {
      cached := None;
    }

    method GetTicketCount(now: int, estimate: Option<int>) returns (count: int)
      modifies this
      ensures (count, cached) == CountLookup(old(cached), now, estimate)
    {
      if cached.Some? && now - cached.value.timestamp < CountCacheTtl {
        count := cached.value.value;
      } else {
        count := estimate.GetOr(0);
        cached := Some(CachedCount(count, now));
      }
    }
  }

  /** The request: the count first (through the cache), then the page. */
  method ListTicketsAdmin(cache: TicketCountCache, table: seq<Key>, cursor: Option<string>, page: Option<int>,
                          prevCursor: Option<string>, isJump: bool, now: int, estimate: Option<int>, p: Precision)
    returns (r: Result<Listing, ListError>)
    requires Distinct(table)
    modifies cache
    ensures var (total, cached) := CountLookup(old(cache.cached), now, estimate);
      cache.cached == cached && r == ListTickets(table, cursor, page, prevCursor, isJump, total, p)
  {
    var total := cache.GetTicketCount(now, estimate);
    r := ListTickets(table, cursor, page, prevCursor, isJump, total, p);
  }
}

=== FILE: ticket_selector.dfy ===
/** The storefront's ticket picker: one counter per tier, bounded by what is left and by the
    tier's per-order maximum; the running totals; and the hand-off of the chosen counts. */
module TicketSelector {
  import opened Wrappers
  import opened Schema
  import opened Records

  /** A tier as the picker receives it (price in cents). */
  datatype Tier = Tier(id: Id, name: string, price: int, quantityAvailable: int, maxQuantityPerOrder: Option<int>)

  /** `prev[id] || 0`. */
  function Count(q: Record<int>, id: Id): int
  {
    Get(q, id).GetOr(0)
  }

  /** `Math.min(quantityAvailable, maxQuantityPerOrder || quantityAvailable)`: a per-order
      maximum that is unset or 0 does not bound the counter. */
  function MaxQty(t: Tier): (m: int)
    ensures m <= t.quantityAvailable
    ensures t.maxQuantityPerOrder.Some? && t.maxQuantityPerOrder.value != 0 ==> m <= t.maxQuantityPerOrder.value
    ensures m == t.quantityAvailable || (t.maxQuantityPerOrder.Some? && m == t.maxQuantityPerOrder.value)
    ensures t.maxQuantityPerOrder.None? || t.maxQuantityPerOrder.value == 0 ==> m == t.quantityAvailable
  {
    var perOrder := if t.maxQuantityPerOrder.Some? && t.maxQuantityPerOrder.value != 0
      then t.maxQuantityPerOrder.value else t.quantityAvailable;
    Min(t.quantityAvailable, perOrder)
  }

  /** The reducer of `handleIncrement(id, max)`. */
  function Increment(q: Record<int>, id: Id, max: int): (q': Record<int>)
    ensures Count(q', id) == if Count(q, id) < max then Count(q, id) + 1 else Count(q, id)
    ensures forall k | k != id :: Get(q', k) == Get(q, k)
    ensures KeysUnique(q) ==> KeysUnique(q')
  {
    var current := Count(q, id);
    if current < max then Put(q, id, current + 1) else q
  }

  /** The reducer of `handleDecrement(id)`. */
  function Decrement(q: Record<int>, id: Id): (q': Record<int>)
    ensures Count(q', id) == if Count(q, id) > 0 then Count(q, id) - 1 else Count(q, id)
    ensures forall k | k != id :: Get(q', k) == Get(q, k)
    ensures KeysUnique(q) ==> KeysUnique(q')
  {
    var current := Count(q, id);
    if current > 0 then Put(q, id, current - 1) else q
  }

  /** Every stored count lies in [0, max] for its tier (a count of 0 may remain for a tier
      whose bound has no room at all). */
  predicate Bounded(q: Record<int>, maxOf: Id -> int)
  {
    forall i | 0 <= i < |q| :: 0 <= q[i].1 && (q[i].1 > 0 ==> q[i].1 <= maxOf(q[i].0))
  }

  /** One click on a tier's plus or minus button. */
  datatype Press = Plus(id: Id) | Minus(id: Id)

  function Apply(q: Record<int>, p: Press, maxOf: Id -> int): Record<int>
  {
    match p
    case Plus(id) => Increment(q, id, maxOf(id))
    case Minus(id) => Decrement(q, id)
  }

  lemma BoundedByGet(q: Record<int>, maxOf: Id -> int)
    requires KeysUnique(q)
    ensures Bounded(q, maxOf) <==>
      forall k | Get(q, k).Some? :: 0 <= Count(q, k) && (Count(q, k) > 0 ==> Count(q, k) <= maxOf(k))
  {
    forall i | 0 <= i < |q| ensures Get(q, q[i].0) == Some(q[i].1) {
      GetAt(q, i);
    }
    forall k | Get(q, k).Some? ensures exists i | 0 <= i < |q| :: q[i].0 == k {
      GetSome(q, k);
    }
  }

  /** With unique keys, an entry is what `Get` reports for its key. */
  lemma {:induction false} GetAt(q: Record<int>, i: nat)
    requires KeysUnique(q) && i < |q|
    ensures Get(q, q[i].0) == Some(q[i].1)
  {
    if i > 0 {
      assert KeysUnique(q[1..]);
      assert q[0].0 != q[i].0;
      GetAt(q[1..], i - 1);
    }
  }

  /** Each click keeps every count inside its bound. */
  lemma ApplyBounded(q: Record<int>, p: Press, maxOf: Id -> int)
    requires KeysUnique(q) && Bounded(q, maxOf)
    ensures KeysUnique(Apply(q, p, maxOf)) && Bounded(Apply(q, p, maxOf), maxOf)
  {
    var q' := Apply(q, p, maxOf);
    BoundedByGet(q, maxOf);
    BoundedByGet(q', maxOf);
  }

  /** The counts after a run of clicks on a fresh picker (`useState({})`). */
  function Replay(presses: seq<Press>, maxOf: Id -> int): Record<int>
  {
    if presses == [] then []
    else Apply(Replay(presses[..|presses| - 1], maxOf), presses[|presses| - 1], maxOf)
  }

  /** Starting from no selection, whatever is clicked, every count stays within [0, max]. */
  lemma {:induction false} ReplayBounded(presses: seq<Press>, maxOf: Id -> int)
    ensures KeysUnique(Replay(presses, maxOf)) && Bounded(Replay(presses, maxOf), maxOf)
  {
    if presses != [] {
      ReplayBounded(presses[..|presses| - 1], maxOf);
      ApplyBounded(Replay(presses[..|presses| - 1], maxOf), presses[|presses| - 1], maxOf);
    }
  }

  /** `Object.values(quantities).reduce(…)`. */
  function TotalQuantity(q: Record<int>): int
  {
    SumValues(q)
  }

  /** `ticketTypes.reduce(…)`: each tier's price times its count. */
  function Subtotal(tiers: seq<Tier>, q: Record<int>): int
  {
    if tiers == [] then 0 else tiers[0].price * Count(q, tiers[0].id) + Subtotal(tiers[1..], q)
  }

  /** Replacing one count moves the total by the difference. */
  lemma {:induction false} SumValuesPut(q: Record<int>, k: Id, v: int)
    requires KeysUnique(q)
    ensures SumValues(Put(q, k, v)) == SumValues(q) - Count(q, k) + v
  {
    if q != [] && q[0].0 != k {
      assert KeysUnique(q[1..]);
      SumValuesPut(q[1..], k, v);
    }
    if q != [] && q[0].0 == k {
      assert Put(q, k, v)[1..] == q[1..];
    }
  }

  predicate IdsDistinct(tiers: seq<Tier>)
  {
    forall i, j | 0 <= i < j < |tiers| :: tiers[i].id != tiers[j].id
  }

  /** Changing one tier's count moves the subtotal by its price times the difference. */
  lemma {:induction false} SubtotalChange(tiers: seq<Tier>, q: Record<int>, q': Record<int>, i: nat)
    requires IdsDistinct(tiers) && i < |tiers|
    requires forall k | k != tiers[i].id :: Get(q', k) == Get(q, k)
    ensures Subtotal(tiers, q') == Subtotal(tiers, q) + tiers[i].price * (Count(q', tiers[i].id) - Count(q, tiers[i].id))
  {
    if i == 0 {
      SubtotalSame(tiers[1..], q, q', tiers[0].id);
    } else {
      assert IdsDistinct(tiers[1..]);
      SubtotalChange(tiers[1..], q, q', i - 1);
    }
  }

  lemma {:induction false} SubtotalSame(tiers: seq<Tier>, q: Record<int>, q': Record<int>, id: Id)
    requires forall j | 0 <= j < |tiers| :: tiers[j].id != id
    requires forall k | k != id :: Get(q', k) == Get(q, k)
    ensures Subtotal(tiers, q') == Subtotal(tiers, q)
  {
    if tiers != [] {
      SubtotalSame(tiers[1..], q, q', id);
    }
  }

  lemma SubtotalStep(tiers: seq<Tier>, q: Record<int>, q': Record<int>, i: nat, delta: int)
    requires IdsDistinct(tiers) && i < |tiers|
    requires forall k | k != tiers[i].id :: Get(q', k) == Get(q, k)
    requires Count(q', tiers[i].id) == Count(q, tiers[i].id) + delta
    ensures Subtotal(tiers, q') == Subtotal(tiers, q) + tiers[i].price * delta
  {
    SubtotalChange(tiers, q, q', i);
  }

  /** An enabled plus button adds one ticket to the total and the tier's price to the
      subtotal; a disabled one changes neither. */
  lemma IncrementTotals(tiers: seq<Tier>, q: Record<int>, i: nat)
    requires IdsDistinct(tiers) && i < |tiers| && KeysUnique(q)
    ensures var t := tiers[i];
      var q' := Increment(q, t.id, MaxQty(t));
      && (Count(q, t.id) < MaxQty(t) ==>
           TotalQuantity(q') == TotalQuantity(q) + 1 && Subtotal(tiers, q') == Subtotal(tiers, q) + t.price)
      && (Count(q, t.id) >= MaxQty(t) ==>
           TotalQuantity(q') == TotalQuantity(q) && Subtotal(tiers, q') == Subtotal(tiers, q))
  {
    var t := tiers[i];
    var c := Count(q, t.id);
    var q' := Increment(q, t.id, MaxQty(t));
    if c < MaxQty(t) {
      assert q' == Put(q, t.id, c + 1);
      SumValuesPut(q, t.id, c + 1);
      SubtotalStep(tiers, q, q', i, 1);
    } else {
      assert q' == q;
    }
  }

  /** An enabled minus button removes one ticket and the tier's price. */
  lemma DecrementTotals(tiers: seq<Tier>, q: Record<int>, i: nat)
    requires IdsDistinct(tiers) && i < |tiers| && KeysUnique(q)
    ensures var t := tiers[i];
      var q' := Decrement(q, t.id);
      && (Count(q, t.id) > 0 ==>
           TotalQuantity(q') == TotalQuantity(q) - 1 && Subtotal(tiers, q') == Subtotal(tiers, q) - t.price)
      && (Count(q, t.id) <= 0 ==>
           TotalQuantity(q') == TotalQuantity(q) && Subtotal(tiers, q') == Subtotal(tiers, q))
  {
    var t := tiers[i];
    var c := Count(q, t.id);
    var q' := Decrement(q, t.id);
    if c > 0 {
      assert q' == Put(q, t.id, c - 1);
      SumValuesPut(q, t.id, c - 1);
      SubtotalStep(tiers, q, q', i, -1);
    } else {
      assert q' == q;
    }
  }

  /** `handleContinue`: an alert when nothing is chosen, otherwise the positive counts. */
  datatype ContinueOutcome = NothingSelected | Continue(selections: Record<int>)

  function HandleContinue(q: Record<int>): (o: ContinueOutcome)
    ensures o.NothingSelected? <==> forall i | 0 <= i < |q| :: q[i].1 <= 0
    ensures o.Continue? ==> o.selections != [] && o.selections == Positive(q)
  {
    var selections := Positive(q);
    assert (exists i | 0 <= i < |q| :: q[i].1 > 0) ==> selections != [] by {
      if exists i | 0 <= i < |q| :: q[i].1 > 0 {
        var i :| 0 <= i < |q| && q[i].1 > 0;
        PositiveKeeps(q, i);
      }
    }
    assert selections != [] ==> exists i | 0 <= i < |q| :: q[i].1 > 0 by {
      if selections != [] {
        assert selections[0] in q;
      }
    }
    if |selections| == 0 then NothingSelected else Continue(selections)
  }

  /** A positive entry is never filtered away. */
  lemma {:induction false} PositiveKeeps(q: Record<int>, i: nat)
    requires i < |q| && q[i].1 > 0
    ensures Positive(q) != []
  {
    if i > 0 && q[0].1 <= 0 {
      PositiveKeeps(q[1..], i - 1);
    }
  }

  /** With a picker reached by clicks, the hand-off carries exactly the tiers with a count
      above zero, each with its count, every one within its bound. */
  lemma ContinueCarriesChosenCounts(presses: seq<Press>, maxOf: Id -> int, k: Id)
    requires HandleContinue(Replay(presses, maxOf)).Continue?
    ensures var q := Replay(presses, maxOf);
      var sel := HandleContinue(q).selections;
      && (Get(sel, k).Some? <==> Count(q, k) > 0)
      && (Get(sel, k).Some? ==> Get(sel, k).value == Count(q, k) <= maxOf(k))
  {
    var q := Replay(presses, maxOf);
    ReplayBounded(presses, maxOf);
    BoundedByGet(q, maxOf);
  }

  /** The picker's state: the counts, changed only by the two buttons. */
  class Picker {
    var quantities: Record<int>

    constructor ()
      ensures quantities == []
    {
      quantities := [];
    }

    method HandleIncrement(id: Id, max: int)
      modifies this
      ensures quantities == Increment(old(quantities), id, max)
    {
      quantities := Increment(quantities, id, max);
    }

    method HandleDecrement(id: Id)
      modifies this
      ensures quantities == Decrement(old(quantities), id)
    {
      quantities := Decrement(quantities, id);
    }
  }
}

=== FILE: urls.dfy ===
/** Links with a query string, as the pagination components write them
    (`${basePath}?k=v&k=v`), and the query parameters a page reads back from them
    (`URLSearchParams` semantics for values that need no percent-decoding). */
module Urls {
  import opened Wrappers
  import opened Text

  type Param = (string, string)

  /** A value that reads back as written: no separator, fragment, escape or encoded space. */
  predicate PlainValue(v: string)
  {
    forall i | 0 <= i < |v| :: v[i] != '&' && v[i] != '#' && v[i] != '%' && v[i] != '+'
  }

  /** Printed numbers need no escaping. */
  lemma IntToStringPlain(i: int)
    ensures PlainValue(IntToString(i)) && IntToString(i) != []
  {
    IntToStringDigits(i);
  }

  predicate PlainKey(k: string)
  {
    k != [] && PlainValue(k) && '=' !in k
  }

  predicate PlainParams(ps: seq<Param>)
  {
    forall i | 0 <= i < |ps| :: PlainKey(ps[i].0) && PlainValue(ps[i].1)
  }

  /** `k1=v1&k2=v2…` */
  function QueryString(ps: seq<Param>): string
  {
    if ps == [] then ""
    else if |ps| == 1 then ps[0].0 + "=" + ps[0].1
    else ps[0].0 + "=" + ps[0].1 + "&" + QueryString(ps[1..])
  }

  /** The path alone when there are no parameters, otherwise path, '?' and the query. */
  function WithQuery(base: string, ps: seq<Param>): string
  {
    if ps == [] then base else base + "?" + QueryString(ps)
  }

  /** One `name=value` segment; a segment without '=' is a name with an empty value. */
  function ParsePair(s: string): Param
  {
    match IndexOf(s, '=')
    case None => (s, "")
    case Some(i) => (s[..i], s[i + 1..])
  }

  /** The segments between '&', empty ones skipped. */
  function ParseParams(q: string): seq<Param>
    decreases |q|
  {
    match IndexOf(q, '&')
    case None => if q == "" then [] else [ParsePair(q)]
    case Some(i) => (if i == 0 then [] else [ParsePair(q[..i])]) + ParseParams(q[i + 1..])
  }

  /** The parameters of a link: everything after the first '?'. */
  function ParseQuery(url: string): seq<Param>
  {
    match IndexOf(url, '?')
    case None => []
    case Some(i) => ParseParams(url[i + 1..])
  }

  /** `searchParams.get(name)`: the first value given for `name`. */
  function Get(ps: seq<Param>, name: string): Option<string>
  {
    if ps == [] then None
    else if ps[0].0 == name then Some(ps[0].1)
    else Get(ps[1..], name)
  }

  /** `get` finds a value exactly when some parameter has the name, and then it is the
      value of the first such parameter. */
  lemma {:induction false} GetFirst(ps: seq<Param>, name: string)
    ensures Get(ps, name).None? <==> forall i | 0 <= i < |ps| :: ps[i].0 != name
    ensures Get(ps, name).Some? ==>
      exists i | 0 <= i < |ps| :: ps[i] == (name, Get(ps, name).value) && forall j | 0 <= j < i :: ps[j].0 != name
  {
    if ps != [] && ps[0].0 != name {
      GetFirst(ps[1..], name);
      if Get(ps, name).Some? {
        var i :| 0 <= i < |ps[1..]| && ps[1..][i] == (name, Get(ps, name).value)
          && forall j | 0 <= j < i :: ps[1..][j].0 != name;
        assert ps[i + 1] == (name, Get(ps, name).value);
        assert forall j | 0 <= j < i + 1 :: ps[j].0 != name by {
          forall j | 0 <= j < i + 1 ensures ps[j].0 != name {
            if j > 0 {
              assert ps[j] == ps[1..][j - 1];
            }
          }
        }
      } else {
        forall i | 0 <= i < |ps| ensures ps[i].0 != name {
          if i > 0 {
            assert ps[i] == ps[1..][i - 1];
          }
        }
      }
    } else if ps != [] {
      assert ps[0] == (name, Get(ps, name).value);
    }
  }

  lemma IndexOfAfter(a: string, c: char, b: string)
    requires c !in a
    ensures IndexOf(a + [c] + b, c) == Some(|a|)
  {
    var s := a + [c] + b;
    assert s[|a|] == c && s[..|a|] == a;
    IndexOfAt(s, c, |a|);
  }

  lemma ParsePairOf(k: string, v: string)
    requires PlainKey(k)
    ensures ParsePair(k + "=" + v) == (k, v)
  {
    IndexOfAfter(k, '=', v);
    assert (k + "=" + v)[..|k|] == k;
    assert (k + "=" + v)[|k| + 1..] == v;
  }

  /** A segment of plain text has no separator in it. */
  lemma NoAmpersand(k: string, v: string)
    requires PlainValue(k) && PlainValue(v)
    ensures '&' !in k + "=" + v
  {
    var seg := k + "=" + v;
    assert forall i | 0 <= i < |seg| :: seg[i] == '=' || seg[i] in k || seg[i] in v;
  }

  lemma {:induction false} ParseQueryString(ps: seq<Param>)
    requires PlainParams(ps)
    ensures ParseParams(QueryString(ps)) == ps
  {
    if ps == [] {
    } else {
      var seg := ps[0].0 + "=" + ps[0].1;
      NoAmpersand(ps[0].0, ps[0].1);
      ParsePairOf(ps[0].0, ps[0].1);
      if |ps| == 1 {
        assert IndexOf(seg, '&') == None;
      } else {
        var rest := QueryString(ps[1..]);
        IndexOfAfter(seg, '&', rest);
        var q := seg + "&" + rest;
        assert q[..|seg|] == seg && q[|seg| + 1..] == rest;
        ParseQueryString(ps[1..]);
        assert [ps[0]] + ps[1..] == ps;
      }
    }
  }

  /** A link built from a path without '?' or '#' reads back exactly the parameters it was
      built with. */
  lemma ReadBack(base: string, ps: seq<Param>)
    requires '?' !in base && '#' !in base
    requires PlainParams(ps)
    ensures ParseQuery(WithQuery(base, ps)) == ps
  {
    if ps != [] {
      IndexOfAfter(base, '?', QueryString(ps));
      assert (base + "?" + QueryString(ps))[|base| + 1..] == QueryString(ps);
      ParseQueryString(ps);
    }
  }
}

=== FILE: wrappers.dfy ===
/** Option and Result: absent values (JavaScript `null`/`undefined`) and thrown errors; and
    the small JavaScript idioms shared by the other modules. */
module Wrappers {

  datatype Option<+T> = None | Some(value: T) {
    function GetOr(default: T): T {
      match this
      case Some(v) => v
      case None => default
    }
  }

  datatype Result<+R, +E> = Success(value: R) | Failure(error: E)

  function Min(a: int, b: int): int { if a <= b then a else b }

  /** `Math.ceil(a / b)` for a positive divisor. */
  function CeilDiv(a: int, b: int): (q: int)
    requires b > 0
    ensures b * (q - 1) < a <= b * q
  {
    -((-a) / b)
  }

  /** JavaScript truthiness of an optional string: present and non-empty. */
  predicate Truthy(s: Option<string>)
  {
    s.Some? && s.value != ""
  }

  /** `s || null`. */
  function OrNull(s: Option<string>): (r: Option<string>)
    ensures r.Some? <==> Truthy(s)
    ensures r.Some? ==> r == s
  {
    if Truthy(s) then s else None
  }
}
